=== FILE: README.md ===
# realtimeresults in Dafny

A model of the core of *robotframework-realtimeresults*: the pieces that carry
Robot Framework events from a running test suite to a live dashboard.

- Listeners turn Robot Framework callbacks into event dictionaries and hand them to a sink.
- Log tailers turn new lines of application log files into `app_log` events.
- The ingest API accepts events over HTTP and hands them to a sink: an in-memory SQLite one, or an asynchronous SQLite or PostgreSQL one, which as written cannot be instantiated.
- SQL definitions hold the shared schema and statement text for both dialects.
- Viewer readers and routes read events back, newest id first, and stream them by polling on an id.
- An event manager fans events out to per-tenant client queues that drop their oldest entry when full.
- A tenant middleware takes the tenant id from a bearer token.
- A command line front end starts the services or a Robot Framework run.
- The older backend (`backend/`, `helpers/`, `realtimelogger/`) stores events in one `events` table ordered by timestamp.

Everything is pure functions over immutable values. A Python dictionary is a
`map<string, Value>`, where `Value` is a JSON-like datatype with Python's
truthiness and `str()`. A database table is a sequence of rows. An exception is
the `Err` arm of a `Result`. Asynchronous code is modelled by its effect on that
state. Clocks, files, HTTP requests and database drivers become parameters.

Modules, one per source file or component:

- `Wrappers`, `Text`, `Numerals`, `Values`: shared vocabulary. This covers Python string methods (`strip`, `split`, `lower`, `find`, `join`), `int()`/`str()` on integers, and dictionary lookups.
- `SqlDefinitions` (`shared/helpers/sql_definitions.py`): dialect detection, column lists, and generated DDL/DML text.
- `SinkInserts`, `SqliteAsyncSink`, `PostgresAsyncSink` (`shared/sinks/`).
- `IngestApi` (`api/ingest/main.py`) and `TenantMiddleware`.
- `EventHub` (`api/viewer/event_manager.py`), `Store`, `ViewerReaders`, `ViewerRoutes` (`api/viewer/`).
- `LogLineParser` (`shared/helpers/log_line_parser.py`) and `LogLineParserExamples`.
- `FileTail`, `LogTails`, `LogTail`, `BackendLogTail`: the three log tailers.
- `ListenerCommon`, `ProducerListener`, `ResultsListener`, `LoggerListener`: the three listeners.
- `Cli`, `RunService`: `cli.py` and `api/run_service.py`.
- `LegacySchema`, `MemorySqliteSink`, `LegacyEventReaders`, `LoggerSinks`, `LegacyBackend`: the older backend and its start-up (backend/main.py).

## Model

| member | source | states |
|---|---|---|
| SinkInserts.InsertFor | shared/sinks/sqlite_async.py:52-70 | The INSERT an app_log or metric handler issues names as many columns as it binds values. The i-th bound value is the event's field under the i-th named column, or None when the event lacks it. |
| SinkInserts.InsertLinesUp | shared/helpers/sql_definitions.py:92-139 | For both handlers and both SQL dialects, the values projected from an event match the statement's placeholder count. The statement's column list is exactly the handler's declared columns, in order. |
| SqliteAsyncSink.DatabasePath | shared/sinks/sqlite_async.py:13-23 | A `sqlite:///` URL loses exactly that prefix, so prefix plus result gives back the URL. Any other string is used unchanged as the path. |
| SqliteAsyncSink.DatabasePathRoundTrip | shared/sinks/sqlite_async.py:16-20 | Prefixing any path with `sqlite:///` and constructing the sink yields that path again. |
| SqliteAsyncSink.DefaultPath | shared/sinks/sqlite_async.py:13-18 | The default URL resolves to the file `eventlog.db`. |
| SqliteAsyncSink.SinkAndViewerAgree | shared/sinks/sqlite_async.py:16-20 | For a relative path, the sink and the viewer's SQLite reader resolve the same `sqlite:///` URL to the same file. |
| SqliteAsyncSink.AbsolutePathsDiverge | shared/sinks/sqlite_async.py:16-20 | For `sqlite:////abs`, the sink keeps the leading slash while the viewer reader strips it, so the two open different files. |
| SqliteAsyncSink.Dispatch | shared/sinks/sqlite_async.py:24-31 | Looking up the handler fails (TypeError) exactly when the event type is unhashable. `metric` and only `metric` selects the metric handler. The five log types, and only they, select the app_log handler. |
| SqliteAsyncSink.HandleAsync | shared/sinks/sqlite_async.py:44-70 | For the sink as intended (the class as written cannot be instantiated), an event either fails (unhashable type only) or appends at most one INSERT to the written rows. A row is appended exactly when a handler exists and the insert does not fail; failures are swallowed. |
| SqliteAsyncSink.WrittenRowsLineUp | shared/sinks/sqlite_async.py:44-70 | Handling an event keeps every written INSERT's value count equal to its placeholder count. |
| SqliteAsyncSink.MetricIsWritten | shared/sinks/sqlite_async.py:62-70 | A `metric` event appends the metric INSERT with the event's values for the metric columns. |
| SqliteAsyncSink.AppLogIsWritten | shared/sinks/sqlite_async.py:52-60 | An event of any app-log type appends the app_log INSERT with the event's values for the app_log columns. |
| PostgresAsyncSink.DatabaseUrl | shared/sinks/postgres_async.py:9-12 | A truthy argument is the URL; otherwise the configuration's `database_url` (possibly None) is used. |
| PostgresAsyncSink.Dispatch | shared/sinks/postgres_async.py:13-19 | Unhashable types fail. `metric` selects the metric handler. `app_log`, `www_log`, `rf_output_xml` and `rf_debug_log` select the app_log handler. |
| PostgresAsyncSink.DispatchDiffersOnlyOnRfDebug | shared/sinks/postgres_async.py:13-19 | The PostgreSQL dispatch table agrees with the SQLite one on every event type except `rf_debug`, which only SQLite handles. |
| PostgresAsyncSink.HandleAsyncAsWritten | shared/sinks/postgres_async.py:32-38 | As written, every event that finds a handler raises (the handler is called with one argument too many). No event ever writes a row. |
| PostgresAsyncSink.HandleAsync | shared/sinks/postgres_async.py:32-60 | With the call corrected, an event either fails (unhashable type) or appends at most one INSERT, rendered in the module's dialect (`%s` or `?`). A row is appended exactly when a handler exists and the insert succeeds, which the `insertFails` parameter decides. |
| PostgresAsyncSink.AppLogArity | shared/sinks/postgres_async.py:36-46 | A concrete `app_log` event fails as written. With the call corrected and an insert that succeeds, it issues one app_log INSERT in the module's dialect with its five values. |
| PostgresAsyncSink.AppLogRecord | shared/sinks/postgres_async.py:32-46 | Every `app_log` record raises as written. With the handler called on the record alone and an insert that succeeds, exactly one app-log INSERT in the module's dialect, carrying the record's values for the app-log columns, is appended. |
| PostgresAsyncSink.InsertsRejectedByAsyncpg | shared/helpers/sql_definitions.py:6-13 | In either dialect, both INSERTs the sink issues bind at least one placeholder, and every one is `Q`: `%s` when the URL starts with `postgresql`, `?` otherwise. Neither is a numbered `$n` placeholder, so asyncpg rejects both statements whatever the URL. |
| PostgresAsyncSink.HandleThroughAsyncpg | shared/sinks/postgres_async.py:32-60 | With the call corrected but the statements unchanged, in either dialect, every event either fails on an unhashable type or leaves the written rows exactly as they were. The rejected insert is swallowed by the handler. |
| IngestApi.ReceiveLog | api/ingest/main.py:52-63 | POST /log answers 400 "event_type is missing" exactly when the key is absent. It answers 500 exactly when the sink raises, and 200 `{"received": true}` with the sink's new state otherwise. A non-200 reply leaves the state unchanged. |
| IngestApi.ReceiveEvent | api/ingest/main.py:70-77 | POST /event always answers 200. A sink error becomes `{"error": str(e)}` with the state unchanged; success is `{"received": true}`. |
| IngestApi.LogThroughSqliteSink | api/ingest/main.py:52-63 | Through the SQLite sink as intended, /log succeeds exactly when `event_type` is present and hashable. It adds at most one row and never changes rows already written. |
| IngestApi.NullEventTypeAcknowledged | api/ingest/main.py:56-63 | An event whose `event_type` is null is acknowledged with 200 but stores nothing. |
| IngestApi.EventThroughSqliteSink | api/ingest/main.py:70-77 | Through the asynchronous SQLite sink, /event always replies with the not-implemented error and stores nothing. |
| IngestApi.ReadSettings | api/ingest/main.py:36-39 | The settings load exactly when the three sink/strategy keys are strings (`.lower()` succeeds). The SQLite path defaults to `eventlog.db`. |
| IngestApi.ChooseSinkAsWritten | api/ingest/main.py:41-50 | As written, only the in-memory sink can be built. With strategy sqlite and ingest type asyncsqlite it raises the TypeError for instantiating the abstract `AsyncSqliteSink`. A strategy other than sqlite raises ValueError. |
| IngestApi.ChooseSink | api/ingest/main.py:41-50 | As intended, the sink implements `_handle_event` and receives the path as `database_url`. Strategy sqlite is required. `backend_http_inmemory` selects the in-memory sink. Otherwise `asyncsqlite` with a string path selects the asynchronous sink on that path, and any other type is an error. |
| IngestApi.DefaultConfiguration | api/ingest/main.py:36-50 | An empty configuration selects asyncsqlite on `eventlog.db`. As written, that default fails at start-up with the abstract-class TypeError. As intended, the choice builds the asynchronous sink on `eventlog.db`. |
| IngestApi.CorrectionKeepsMemorySink | api/ingest/main.py:41-46 | The correction changes nothing where the code as written already worked. |
| TenantMiddleware.ParseBearerToken | shared/middleware/tenant_middleware.py:9-15 | A missing or empty header has no token. Otherwise there is a token exactly when the header splits into two words whose first is `bearer` in any case, and the token is the second word. |
| TenantMiddleware.BearerHeaderRoundTrip | shared/middleware/tenant_middleware.py:9-15 | Writing `<Bearer> <token>` and parsing it gives back the token. |
| TenantMiddleware.OtherHeadersHaveNoToken | shared/middleware/tenant_middleware.py:12-15 | Any header of a word count other than two, or whose first word is not `bearer`, yields no token. |
| TenantMiddleware.DecodeClaims | shared/middleware/tenant_middleware.py:18-29 | A token that decodes yields its decoded value; one that does not yields `{"tenant_id": "default"}`. |
| TenantMiddleware.ResolveTenant | shared/middleware/tenant_middleware.py:39-46 | With no token the tenant is `default`. With a token, decoded claims that are not an object raise. Otherwise the tenant is the claims' `tenant_id`, defaulting to `default`. |
| TenantMiddleware.UndecodableTokenIsDefault | shared/middleware/tenant_middleware.py:26-29 | A token that is not JSON leads to the `default` tenant. |
| TenantMiddleware.ClaimedTenantIsUsed | shared/middleware/tenant_middleware.py:40-45 | When the claims carry `tenant_id`, the request's tenant is one of those values. Without it, the tenant is `default`. |
| EventHub.Frame | api/viewer/event_manager.py:38 | A server-sent-event frame is `data: `, then the JSON text unchanged, then a blank line, so the JSON can be recovered from the frame. |
| EventHub.PutNowait | api/viewer/event_manager.py:43 | Putting fails exactly when the queue is full. Otherwise the payload goes to the back and the capacity is kept; capacity 0 means unbounded. |
| EventHub.GetNowait | api/viewer/event_manager.py:47 | Taking fails exactly on an empty queue. Otherwise the taken item followed by the remaining queue is the original queue. |
| EventHub.DeliverNotFull | api/viewer/event_manager.py:41-43 | A queue with room receives the payload at its back, and the client stays healthy. |
| EventHub.DeliverFull | api/viewer/event_manager.py:44-48 | A full queue drops its oldest item and then receives the payload. It stays exactly at capacity and the client stays healthy. |
| EventHub.DeliverUnhealthyIff | api/viewer/event_manager.py:44-51 | A client is marked unhealthy exactly when its bounded queue holds more items than its capacity, i.e. when the retry after dropping one item still finds it full. |
| EventHub.DeliverKeepsNewest | api/viewer/event_manager.py:41-51 | For any well-formed queue, delivery never marks the client unhealthy. It keeps the queue within capacity, and the newest payload is last. |
| EventHub.Empty | api/viewer/event_manager.py:13-15 | A new manager has no event or app-log subscribers and is well formed. |
| EventHub.AddClient | api/viewer/event_manager.py:17-26 | Registering adds the tenant's bucket if missing and puts the queue in it. Other tenants and the other channel are unchanged, and queue contents are untouched. |
| EventHub.RemoveClient | api/viewer/event_manager.py:28-33 | Unregistering discards the queue from the tenant's bucket when there is one and never adds or removes tenants. Other tenants and the other channel are unchanged. |
| EventHub.AddClientIdempotent | api/viewer/event_manager.py:21-22 | Registering the same queue twice is the same as registering it once (set semantics). |
| EventHub.RemoveUndoesAdd | api/viewer/event_manager.py:21-33 | For a tenant that already has a bucket, removing a queue just added restores the manager exactly. |
| EventHub.Broadcast | api/viewer/event_manager.py:35-54 | Broadcasting to a tenant with no bucket changes nothing. Otherwise every queue of that tenant receives the payload, each queue marked unhealthy is discarded from the bucket, and other tenants' queues and the other channel are untouched. |
| EventHub.BroadcastRemovesNobody | api/viewer/event_manager.py:35-54 | With well-formed bounded queues, a broadcast never discards a client. |
| EventHub.BroadcastDelivers | api/viewer/event_manager.py:41-51 | A broadcast keeps the manager well formed and leaves the payload as the newest item of every subscriber queue of that tenant. |
| EventHub.AddClientCount | api/viewer/event_manager.py:91-99 | Registering a new queue raises the channel's client total by one. It raises the tenant count by one exactly when the tenant had no bucket. |
| EventHub.RemoveClientCount | api/viewer/event_manager.py:91-99 | Removing a registered queue lowers the client total by one and leaves the tenant count unchanged, because empty buckets stay. |
| Store.MaxOf | api/viewer/readers/sqlite_reader.py:21-28 | `MAX(id)` over a tenant's rows is absent exactly when the tenant has no rows. Otherwise it is the id of one of its rows and no smaller than any of them. |
| Store.MaxId | api/viewer/readers/sqlite_reader.py:21-28 | `COALESCE(MAX(id), 0)` bounds every id of the tenant, is 0 for a tenant without rows, and is attained when rows exist. |
| Store.Since | api/viewer/readers/sqlite_reader.py:30-42 | A row is returned exactly when it belongs to the tenant and its id exceeds the cursor. Ascending id order is kept. |
| Store.OfTenant | api/viewer/readers/sqlite_reader.py:36 | Exactly the tenant's rows, in table order. |
| Store.DeleteTenant | api/viewer/readers/sqlite_reader.py:44-47 | Deleting a tenant keeps exactly the rows of other tenants, in order. |
| Store.NewestFirst | api/viewer/readers/sqlite_reader.py:49-62 | Exactly the tenant's rows, in descending id order. |
| Store.Take | api/viewer/readers/sqlite_reader.py:55-57 | `LIMIT n` keeps the first min(n, length) rows. |
| Store.Project | api/viewer/readers/sqlite_reader.py:34-42 | A row as a dictionary has exactly the selected columns. `id` and `tenant_id` come from the row; the other columns come from its data, or NULL. |
| Store.ProjectAll | api/viewer/readers/sqlite_reader.py:41-42 | Rows become dictionaries one for one, in order. |
| Store.ReverseDescending | api/viewer/readers/sqlite_reader.py:52 | Reversing rows stored in ascending id order gives descending id order. |
| Store.SinceLatestIsEmpty | api/viewer/readers/sqlite_reader.py:21-42 | Polling from the latest id returns nothing. |
| Store.SinceZeroIsAll | api/viewer/readers/sqlite_reader.py:30-42 | With positive ids, polling from 0 returns all of the tenant's rows. |
| Store.SinceAppend | api/viewer/readers/sqlite_reader.py:30-42 | Polling a concatenation is the concatenation of the polls. |
| Store.SinceAboveAll | api/viewer/readers/sqlite_reader.py:36 | A cursor at or above every id of the tenant returns nothing. |
| Store.SinceBelowAll | api/viewer/readers/sqlite_reader.py:36 | Two cursors below every id of the tenant return the same rows. |
| Store.DeleteTenantWellFormed | api/viewer/readers/sqlite_reader.py:44-47 | Deleting a tenant's rows keeps ids positive and strictly ascending. |
| Store.DeleteTenantEffect | api/viewer/readers/sqlite_reader.py:44-47 | After clearing, the tenant has no rows and every other tenant's rows are unchanged. |
| Store.SincePollsCompose | api/viewer/routes.py:17-22 | Two successive polls, the second from the id of the last row the first returned, together return what one poll of the grown table returns. |
| Store.AdvanceSkipsNothingNew | api/viewer/routes.py:17-22 | Advancing the cursor past the rows read never skips a row appended later. |
| Store.NothingLeftBehind | api/viewer/routes.py:17-22 | Polling again from the advanced cursor, with no new rows, returns nothing. |
| Store.ExtensionAbove | api/viewer/readers/sqlite_reader.py:36-37 | In an autoincrement table, every appended row has an id above every earlier row. |
| ViewerReaders.IndexOfAny | api/viewer/readers/sqlite_reader.py:10 | The first position holding a stop character, or the length when none occurs. |
| ViewerReaders.SplitScheme | api/viewer/readers/sqlite_reader.py:10-11 | A URL either has no scheme and is kept whole, or splits at a `:` into a lower-cased scheme and the rest after the colon. |
| ViewerReaders.UrlParse | api/viewer/readers/sqlite_reader.py:10 | A parsed path never contains the query or fragment. |
| ViewerReaders.SqliteReaderPath | api/viewer/readers/sqlite_reader.py:6-14 | Constructing the reader succeeds exactly for scheme `sqlite`. An empty path becomes `:memory:`, and any other path loses all its leading slashes. |
| ViewerReaders.SqliteScheme | api/viewer/readers/sqlite_reader.py:10-11 | `sqlite:` followed by anything parses with scheme `sqlite` and that remainder. |
| ViewerReaders.PathAfterEmptyNetloc | api/viewer/readers/sqlite_reader.py:10-14 | `sqlite:///p` has an empty network location and path `/p`. |
| ViewerReaders.SqliteUrlRoundTrip | api/viewer/readers/sqlite_reader.py:9-14 | For a relative path without `?` or `#`, `sqlite:///` plus the path opens that very path. |
| ViewerReaders.SqliteUrlStripsSlashes | api/viewer/readers/sqlite_reader.py:14 | The reader opens the URL's path with every leading slash removed. |
| ViewerReaders.SqliteUrlAbsolutePath | api/viewer/readers/sqlite_reader.py:13-14 | `sqlite:////abs` opens the relative path `abs`, not the absolute one. |
| ViewerReaders.SqliteUrlWithoutPath | api/viewer/readers/sqlite_reader.py:14 | A bare `sqlite:` opens an in-memory database. |
| ViewerReaders.PostgresUrlIsNotSqlite | api/viewer/readers/sqlite_reader.py:11-12 | The SQLite reader refuses any `postgresql:` URL. |
| ViewerReaders.SelectReader | api/viewer/main.py:55-61 | `sqlite:///` URLs get the SQLite reader. `postgresql://` and `postgres://` URLs get the PostgreSQL reader on that URL. Everything else, and only that, is refused. |
| ViewerReaders.PostgresReaderChosen | api/viewer/main.py:55-59 | The viewer opens a PostgreSQL reader exactly when the URL does not start with `sqlite:///` and starts with `postgresql://` or `postgres://`. |
| ViewerReaders.SqlitePrefixAccepted | api/viewer/main.py:56-57 | A URL the selection sends to the SQLite reader is always accepted by that reader's constructor. |
| ViewerReaders.DefaultReader | api/viewer/main.py:55-57 | Without configuration, the viewer reads `eventlog.db` through the SQLite reader. |
| ViewerReaders.TenantArg | api/viewer/readers/postgres_reader.py:15-25 | An explicit tenant is used. Without one, the SQLite reader uses `default`, while the PostgreSQL reader raises because its tenant parameter has no default. |
| ViewerReaders.GetLatestEventId | api/viewer/readers/sqlite_reader.py:21-28 | The latest id bounds every id of the tenant and is never negative. It is 0 for a tenant without rows, and otherwise the id of one of the tenant's rows. It fails exactly when no tenant can be chosen. |
| ViewerReaders.LatestCursorReadsNothing | api/viewer/readers/sqlite_reader.py:21-42 | Polling from the latest id returns no events. |
| ViewerReaders.GetEventsSince | api/viewer/readers/postgres_reader.py:25-36 | Both readers return the tenant's rows above the cursor, ascending, as dictionaries of their own column lists (PostgreSQL omits `starttime`). |
| ViewerReaders.ClearEvents | api/viewer/readers/sqlite_reader.py:44-47 | Clearing removes exactly the tenant's events and leaves app logs alone. The PostgreSQL reader has no such method. |
| ViewerReaders.GetEvents | api/viewer/routes.py:33 | Neither reader defines `get_events`, so calling it raises AttributeError. |
| ViewerReaders.SqliteLimit | api/viewer/readers/sqlite_reader.py:55-57 | The SQLite reader applies a limit exactly when it is positive. Zero is falsy and skipped, and SQLite reads a negative `LIMIT` as no limit. |
| ViewerReaders.PostgresLimit | api/viewer/readers/postgres_reader.py:44-46 | The PostgreSQL reader applies any given limit, including 0. A negative limit is a database error. |
| ViewerReaders.GetAppLogs | api/viewer/readers/sqlite_reader.py:49-62 | App logs come newest first as a prefix of the tenant's rows, never more than a positive limit. SQLite with no or zero limit returns all of them, while PostgreSQL with limit 0 returns none. |
| ViewerReaders.ReadersAgreeOnPositiveLimit | api/viewer/readers/postgres_reader.py:38-51 | With no limit or a positive one, both readers return the same number of app logs with the same ids in the same order. |
| ViewerReaders.PositiveLimitCut | api/viewer/readers/postgres_reader.py:38-51 | With no limit or a positive one, a reader returns the tenant's newest app logs, as many as the limit allows, each projected onto that reader's columns. |
| ViewerRoutes.Emit | api/viewer/routes.py:19-22 | Each event yields one frame of its JSON in order, and the cursor moves to the last event's id. An event without `id` stops the stream after its frame is sent (KeyError). |
| ViewerRoutes.StreamPoll | api/viewer/routes.py:14-24 | One poll of the stream succeeds on the SQLite reader. On the PostgreSQL reader it raises, because no tenant is passed. |
| ViewerRoutes.RowFrames | api/viewer/routes.py:20-21 | One frame per row, each the JSON of the row's projection. |
| ViewerRoutes.FramesAppend | api/viewer/routes.py:20-21 | Framing is compositional over concatenated row lists. |
| ViewerRoutes.ProjectedIds | api/viewer/routes.py:22 | Every event the SQLite reader returns carries its row's id, so the cursor update never fails. |
| ViewerRoutes.SqlitePoll | api/viewer/routes.py:17-22 | A SQLite poll frames exactly the default tenant's rows above the cursor and advances the cursor to the last one. |
| ViewerRoutes.FirstPollReadsAll | api/viewer/routes.py:17-19 | The first poll, from 0, emits one frame per event of the default tenant. |
| ViewerRoutes.PollsNeitherRepeatNorSkip | api/viewer/routes.py:17-22 | When events are appended between two polls, the frames of both polls together equal one poll of the final table: none repeated and none skipped. |
| ViewerRoutes.FirstStartSuite | api/viewer/routes.py:49 | The result is the first event whose type is `start_suite`, or none when there is none. An earlier event without `event_type` raises. |
| ViewerRoutes.Elapsed | api/viewer/routes.py:49-56 | Over a list of events: without a start_suite event the reply is `00:00:00`; otherwise it is one `elapsed` string with the fractional seconds cut off. The route never reaches this computation (see ViewerRoutes.ElapsedRoute). |
| ViewerRoutes.EventsRoute | api/viewer/routes.py:31-33 | GET /events always raises AttributeError, whatever the reader and the database. |
| ViewerRoutes.ElapsedRoute | api/viewer/routes.py:47-49 | GET /elapsed always raises AttributeError before any elapsed time is computed. |
| ViewerRoutes.ClearRoute | api/viewer/routes.py:35-45 | Clearing succeeds exactly when the reader's clear does, and then redirects to `/events` with status 303. Errors propagate. |
| ViewerRoutes.ClearRedirectsToFailingRoute | api/viewer/routes.py:31-45 | A successful clear redirects to `/events`, and that route then fails on the cleared database. |
| ViewerRoutes.ClearThenEmpty | api/viewer/routes.py:35-45 | After clearing through the SQLite reader, the event stream from 0 is empty and app logs remain. |
| ViewerRoutes.AppLogRoute | api/viewer/routes.py:27-29 | `/applog` returns every app log of the default tenant on SQLite, and raises on PostgreSQL (no tenant passed). |
| LogLineParser.CleanRaw | shared/helpers/log_line_parser.py:16-18 | The matched timestamp text keeps no comma: each comma becomes a dot, position for position. With bracket stripping on, it neither starts nor ends with a bracket. |
| LogLineParser.FirstSuccessDecides | shared/helpers/log_line_parser.py:11-54 | The first pattern that matches and parses decides the timestamp and the remaining text. When none does, the result is the current time and the text unchanged. |
| LogLineParser.FirstHit | shared/helpers/log_line_parser.py:12-51 | Trying candidates in order yields the first one that succeeds, and none only when every candidate fails. |
| LogLineParser.SpaceRunEnd | shared/helpers/log_line_parser.py:9 | The end of the longest run of whitespace starting at a position (`\s*`). |
| LogLineParser.FirstWordFrom | shared/helpers/log_line_parser.py:8-9 | The first level name, in alternation order, that matches case-insensitively at a position. No later name is tried once one matches. |
| LogLineParser.MatchAt | shared/helpers/log_line_parser.py:9 | A match at a position spans an optional `[`, spaces, a level name in any case, spaces and an optional `]`. The level is reported in upper case and is one of the known levels. |
| LogLineParser.SearchLevel | shared/helpers/log_line_parser.py:57 | A search result is a match of the level pattern at its reported position, at or after the starting point. |
| LogLineParser.SearchLevelLeftmost | shared/helpers/log_line_parser.py:57 | The search returns the leftmost position where the level pattern matches, and reports none only when it matches nowhere. |
| LogLineParser.WordIsFound | shared/helpers/log_line_parser.py:9-57 | If any level name occurs anywhere in the line, in any case, the search succeeds at or before that place. |
| LogLineParser.LevelFoundIff | shared/helpers/log_line_parser.py:9-63 | A level is found exactly when some level name occurs in the line, ignoring case. |
| LogLineParser.DigitRunEnd | shared/helpers/log_line_parser.py:61 | The end of the longest run of digits starting at a position (`\d*`). |
| LogLineParser.RemoveLeftover | shared/helpers/log_line_parser.py:61 | The result is a suffix of the input, and the input is unchanged unless it starts with `[`. Anything removed is one leading `[...]` group holding only spaces, at most one `,` or `.`, and digits. |
| LogLineParser.ExtractLevel | shared/helpers/log_line_parser.py:56-63 | A level is found exactly when the level search from position 0 succeeds. It is then that match's level, and the message is the line without the matched span, with a leftover bracket group removed, stripped. Without a level the line is only stripped. The cleaned message is always stripped and never longer than the line. |
| LogLineParser.ExtractLevelFindsAnyWord | shared/helpers/log_line_parser.py:56-63 | A level is found exactly when some level name occurs in the line in any case, and it is the level of the leftmost match. |
| LogLineParser.SplitRuns | shared/helpers/log_line_parser.py:69-73 | Splitting on runs of two or more whitespace characters yields at least one part, and no part contains such a run. |
| LogLineParser.SplitRunsFields | shared/helpers/log_line_parser.py:70-71 | Splitting a non-empty stripped message yields non-empty, stripped parts without double spaces. |
| LogLineParser.SplitRunsJoin | shared/helpers/log_line_parser.py:70-71 | Joining such parts with two spaces and splitting again gives back exactly the parts. |
| LogLineParser.ExtractTimestampAndCleanMessage | shared/helpers/log_line_parser.py:65-75 | The timestamp is the one the pattern search found. The level is `INFO` when the level search on the remaining text finds nothing, and the level found otherwise. The fields are those of the cleaned remaining text: at least one, and every one a clean field unless the only one is empty. |
| LogLineParser.DefaultLevelIsInfo | shared/helpers/log_line_parser.py:65-75 | When no level name occurs in the text left after the timestamp, the level is `INFO`. |
| LogLineParser.FieldsOfTrimmed | shared/helpers/log_line_parser.py:69-73 | Both branches on the presence of a whitespace run yield either the single empty part or only clean fields. |
| LogLineParserExamples.WarnExample | shared/helpers/log_line_parser.py:56-63 | `WARN  job    ran late` yields level `WARN` and message `job    ran late`. |
| LogLineParserExamples.FieldsExample | shared/helpers/log_line_parser.py:69-73 | `job    ran late` splits into `job` and `ran late`; the single space stays inside a part. |
| LogLineParserExamples.PipelineExample | shared/helpers/log_line_parser.py:65-75 | With no timestamp pattern matching, the whole pipeline turns that line into the current time, `WARN`, and the two parts. |
| FileTail.InitialOffset | producers/log_producer/log_tails.py:31 | Tailing starts at the end of an existing file, or at 0 when the file is missing. |
| FileTail.ReadNew | producers/log_producer/log_tails.py:41-46 | New text is read exactly when the file grew past the offset. The chunk is everything after the offset, and the offset moves to the new size; otherwise it stays. |
| FileTail.ReadAllContiguous | producers/log_producer/log_tails.py:35-46 | Over any series of growing snapshots, the chunks read add up to exactly the text after the starting offset, and the offset ends at the final size. |
| FileTail.ExistingContentIsNeverRead | producers/log_producer/log_tails.py:31-46 | What a tailer posts is exactly what was appended after it started, never the content already there. |
| FileTail.NonBlank | producers/log_producer/log_tails.py:48-51 | Only non-blank lines are kept, each stripped. |
| FileTail.NonBlankAppend | producers/log_producer/log_tails.py:48-51 | Filtering distributes over concatenation, so lines are posted in file order. |
| FileTail.NonBlankKeeps | producers/log_producer/log_tails.py:49 | Lines that are already stripped and non-empty all pass unchanged. |
| FileTail.PostedLines | producers/log_producer/log_tails.py:45-51 | Every line posted from a chunk is non-empty and stripped. |
| FileTail.PostedLinesRoundTrip | producers/log_producer/log_tails.py:45-51 | Writing clean lines to the file, with or without a final newline, posts exactly those lines. |
| FileTail.BlankLinesSkipped | producers/log_producer/log_tails.py:49 | A whitespace-only line posts nothing and does not disturb the lines around it. |
| LogTails.ReadSource | producers/log_producer/log_tails.py:24-28 | Reading a source fails exactly when `path` is missing (KeyError) or is not a string (TypeError from `Path`). Otherwise the source keeps that path, and its label and event type are the configured ones or `unknown`. |
| LogTails.SourceDefaults | producers/log_producer/log_tails.py:26-27 | Label and event type default to `unknown` for a source that gives only a string path. |
| LogTails.NonStringPathRefused | producers/log_producer/log_tails.py:25 | `{"path": 5}` and `{"path": null}` are refused, the first with TypeError. |
| LogTails.Poll | producers/log_producer/log_tails.py:37-51 | A missing file is skipped without moving the offset. Growth posts the new non-blank lines and moves the offset to the size; otherwise nothing happens. |
| LogTails.LevelKeyHoldsFieldsAsWritten | producers/log_producer/log_tails.py:9-16 | As written, the unpacking puts the message parts under `level` and the level name under `timestamp`. |
| LogTails.AsWrittenLevelReachesSink | producers/log_producer/log_tails.py:9-16 | As written, the sink is asked to bind a list (the message parts) as the level column. |
| LogTails.PayloadCarriesLevelAndTime | producers/log_producer/log_tails.py:8-16 | With the unpacking corrected, `level` holds a known level name and `timestamp` the parsed timestamp. |
| LogTails.PollPayloads | producers/log_producer/log_tails.py:8-51 | As written, one payload per posted line, in order. Under `level` it holds the line's non-empty field list, under `timestamp` a level name, and under `message` the parsed time. `source` is the source's label. |
| LogTails.CorrectedPollPayloads | producers/log_producer/log_tails.py:8-51 | With the unpacking corrected, every payload of a poll holds a known level name under `level`, the parsed time under `timestamp`, and the source's label. |
| LogTails.Main | producers/log_producer/log_tails.py:53-66 | With no truthy `source_log_tails`, the program exits with status 1. Otherwise it watches those sources and posts to `http://host:port/log`, built from the configured or default host and port. |
| LogTails.DefaultEndpoint | producers/log_producer/log_tails.py:56-58 | The default endpoint is `http://127.0.0.1:8001/log`. |
| LogTail.PayloadProjection | producers/log_producer/log_tail.py:7-14 | The payload fills the app_log columns with the time, `app_log`, the source label, the message and `INFO`. |
| LogTail.Poll | producers/log_producer/log_tail.py:22-41 | A missing file raises FileNotFoundError on the size check, because the exception is only constructed. Otherwise it behaves like the multi-source tailer. |
| LogTail.PostedLineIsStoredAsAppLog | producers/log_producer/log_tail.py:7-20 | A posted line reaching the asynchronous SQLite sink is stored as exactly one app_log row with those values. |
| BackendLogTail.Poll | backend/ingest/source/log_tail.py:9-20 | Growth hands the whole new text, stripped, to the callback and moves the offset to the size. Otherwise nothing is handed over. |
| BackendLogTail.WhitespaceGrowthDeliversEmpty | backend/ingest/source/log_tail.py:15-19 | Unlike the other tailers, whitespace-only growth still calls the callback, with an empty string. |
| ListenerCommon.Entry | producers/listener/listener.py:153-156 | A `;`-separated part is a setting exactly when it contains `=`. It splits at the first `=`, and both key and value are stripped. |
| ListenerCommon.ApplyLastWins | producers/listener/listener.py:151-157 | A key is configured exactly when some part sets it, and its value comes from the last part that does. |
| ListenerCommon.ParseConfig | producers/listener/listener.py:149-157 | A missing or empty argument gives no settings. Otherwise the settings are those of the `;`-separated parts, later parts overriding earlier ones, with keys and values stripped. |
| ListenerCommon.EntryOfPiece | producers/listener/listener.py:154-156 | Rendering a stripped key (without `=` and `;`) and a stripped value as `key=value` parses back to that pair. |
| ListenerCommon.ConfigRoundTrip | producers/listener/listener.py:149-157 | Rendering settings as `k1=v1;k2=v2…` and parsing the string gives back the same mapping, the last duplicate winning. |
| ListenerCommon.RenderSplits | producers/listener/listener.py:153 | Splitting a rendered argument on `;` gives back the individual `key=value` pieces. |
| ListenerCommon.Merge | producers/listener/listener.py:47-49 | The merged configuration has the keys of both. A command-line setting overrides the file's value as a string, and other file values are kept. |
| ListenerCommon.LastArgumentWins | producers/listener/listener.py:47-49 | The last `key=value` on the command line is the configured value, whatever the file says. |
| ListenerCommon.MakeEvent | producers/listener/listener.py:72-76 | An event has the given fields plus `event_type`, which is always the event's own type. |
| ListenerCommon.StartSuiteName | producers/listener/listener.py:109 | The start_test suite is the first dotted segment of the long name and holds no dot. |
| ListenerCommon.SuiteNames | producers/listener/listener.py:109-119 | For a long name of segments, start_test reports the first segment. end_test reports every segment but the last, and that parent joined with the test's name is the long name. |
| ListenerCommon.UndottedSuiteNames | producers/listener/listener.py:109-119 | An undotted long name is its own start suite, and its end suite is empty. |
| ListenerCommon.TagStrings | producers/listener/listener.py:124 | Tags become their `str()` forms one for one, in order. |
| ProducerListener.SelectSink | producers/listener/listener.py:55-70 | A sink exists exactly for the three known types when initialisation succeeds, each at its configured or default endpoint or path. `none`, unknown types and failures leave no sink. |
| ProducerListener.TotalTests | producers/listener/listener.py:52 | The test count comes only from the command line, 0 when absent. A non-integer value fails like `int()`. |
| ProducerListener.Init | producers/listener/listener.py:36-70 | Construction fails exactly when the sink type is not a string or the test count is not an integer. It starts with no current test, the merged configuration and the sink chosen from the lower-cased type. |
| ProducerListener.FileTestCountIgnored | producers/listener/listener.py:52 | A `totaltests` in the configuration file is ignored. |
| ProducerListener.Route | producers/listener/listener.py:72-90 | `backend_http_inmemory` always posts to the fixed backend URL. Otherwise an event goes to the sink when there is one, and is dropped when there is none. |
| ProducerListener.InMemoryBackendAlwaysPosts | producers/listener/listener.py:56-81 | Even when the HTTP sink fails to initialise, the in-memory backend type still posts every event. |
| ProducerListener.TestId | producers/listener/listener.py:29-31 | A test id is the long name, `::`, then the start time, and both parts can be read back. |
| ProducerListener.StartTest | producers/listener/listener.py:102-112 | start_test records the new test id as current and sends it, with the first suite segment and the long name. |
| ProducerListener.TestIdValue | producers/listener/listener.py:96 | No current test is sent as null, and a current test as its id. |
| ProducerListener.LogMessage | producers/listener/listener.py:92-100 | A log message carries the current test id and changes nothing. |
| ProducerListener.EndTest | producers/listener/listener.py:114-126 | end_test sends the current test id with the parent suite, then forgets the current test. |
| ProducerListener.TestIdLifecycle | producers/listener/listener.py:92-126 | Messages logged inside a test and its end event carry the start event's test id. A message after the end carries null. |
| ResultsListener.SelectSink | realtimeresults/listener.py:30-51 | Strategy `http` builds Loki for `loki` and the HTTP sink for `sqlite`. Strategy `local` builds SQLite for `sqlite`. Every other combination, and any failure, leaves no sink. |
| ResultsListener.Init | realtimeresults/listener.py:17-51 | Construction fails only when the sink type is not a string. It records the lower-cased type and the sink the strategy selects. |
| ResultsListener.Route | realtimeresults/listener.py:53-71 | The type `memory` always posts to the backend. Otherwise events go to the sink if any, else nowhere. |
| ResultsListener.MemoryPostsWithoutSink | realtimeresults/listener.py:40-62 | `memory` never gets a sink object yet still posts every event. |
| ResultsListener.StrategyIsCaseSensitive | realtimeresults/listener.py:32-48 | Unlike the sink type, the strategy is not lower-cased, so `HTTP` or `Local` selects no sink. |
| ResultsListener.StartTestEvent | realtimeresults/listener.py:73-83 | start_test sends the id `longname::starttime`, the first suite segment and the raw start time. |
| ResultsListener.EndTestEvent | realtimeresults/listener.py:85-97 | end_test sends the same id and the parent suite. |
| ResultsListener.StartAndEndAgree | realtimeresults/listener.py:73-97 | The start and end events of one test carry the same id. |
| LoggerListener.SelectSink | realtimelogger/listener.py:15-36 | Only `none` without a failure leaves no sink. A failed initialisation or an unknown type falls back to the memory sink, `loki` uses the configured or default endpoint, and `sqlite` the SQLite sink. |
| LoggerListener.Init | realtimelogger/listener.py:15-18 | The sink type comes only from the command-line argument, `none` by default. |
| LoggerListener.NoArgumentsNoSink | realtimelogger/listener.py:16-31 | Without arguments the logger has no sink. |
| LoggerListener.CapitalisedTypeFallsBack | realtimelogger/listener.py:22-36 | The type is not lower-cased, so `SQLite` raises and falls back to the memory sink. |
| LoggerListener.SendEvent | realtimelogger/listener.py:38-54 | Every event is first posted to the backend and then, when a sink exists, handed to it with its type. |
| LoggerListener.StartTestEvent | realtimelogger/listener.py:56-63 | start_test carries the long name as a string and one string per tag. |
| SqlDefinitions.DatabaseUrl | shared/helpers/sql_definitions.py:6-10 | A non-empty `DATABASE_URL` environment value wins. Otherwise the configuration's `database_url` is used, defaulting to the empty string. A non-string configured value raises on `startswith`. |
| SqlDefinitions.IsPostgres | shared/helpers/sql_definitions.py:6-11 | With the scheme test corrected, the statements use the PostgreSQL dialect exactly when the viewer would pick its PostgreSQL reader for the same URL. |
| SqlDefinitions.PostgresUrlAgreesWithReader | shared/helpers/sql_definitions.py:11 | The corrected dialect test accepts exactly the URLs that the viewer sends to its PostgreSQL reader. |
| SqlDefinitions.ShortSchemeMissedAsWritten | shared/helpers/sql_definitions.py:11 | `postgres://db` reaches the PostgreSQL reader, yet the test as written calls it SQLite. |
| SqlDefinitions.TestsDifferExactly | shared/helpers/sql_definitions.py:11 | The corrected test accepts a URL the test as written rejects exactly when it starts with `postgres://`. It rejects a URL the test as written accepts exactly when it starts with `postgresql` but not `postgresql://`, as a driver-qualified `postgresql+asyncpg://` URL does. On every other URL the two agree. |
| SqlDefinitions.DriverSchemeDroppedByCorrection | shared/helpers/sql_definitions.py:11 | `postgresql+asyncpg://h` counts as PostgreSQL as written but not once corrected, and the viewer opens no reader for it either. |
| SqlDefinitions.NoTenantColumn | shared/helpers/sql_definitions.py:17-127 | None of the four declared column lists has a `tenant_id` column. |
| SqlDefinitions.DeclaredColumnsWellNamed | shared/helpers/sql_definitions.py:17-127 | Every declared column name is a plain SQL identifier. |
| SqlDefinitions.InsertListsColumns | shared/helpers/sql_definitions.py:50-53 | A generated INSERT names exactly the declared columns, in order. It binds exactly one dialect placeholder (`?` or `%s`) per column. |
| SqlDefinitions.InsertLines | shared/helpers/sql_definitions.py:50-53 | The INSERT text consists of the column line and the VALUES line between newlines. |
| SqlDefinitions.CreateDefinesColumns | shared/helpers/sql_definitions.py:43-48 | A generated CREATE TABLE declares the dialect's id column first, then each column with its type, in order. |
| SqlDefinitions.CreateLines | shared/helpers/sql_definitions.py:43-48 | The CREATE TABLE text has exactly the source's line layout. |
| SqlDefinitions.SelectAllColumnsOrdered | shared/helpers/sql_definitions.py:55-59 | A generated SELECT reads exactly the declared columns, in order, from the table, ordered by timestamp ascending. |
| SqlDefinitions.SelectLines | shared/helpers/sql_definitions.py:55-59 | The SELECT text has exactly the source's line layout. |
| SqlDefinitions.DeleteIsUnconditional | shared/helpers/sql_definitions.py:61 | The delete statement has no WHERE clause: it empties the whole table. |
| SqlDefinitions.DeclaredInserts | shared/helpers/sql_definitions.py:50-139 | All four INSERT statements bind one placeholder per declared column. The app_log and metric INSERTs name their columns in declaration order. |
| Numerals.IntToStringRoundTrip | cli.py:55-62 | Rendering an integer in decimal and reading it back with `int()` gives the same integer. |
| Text.SplitJoin | producers/listener/listener.py:153 | Joining parts that avoid a separator and splitting on it gives back the parts. |
| Text.JoinSplit | producers/listener/listener.py:153 | Splitting on a character and joining with it restores the string. |
| Text.SplitWhitespaceJoin | shared/middleware/tenant_middleware.py:12 | Joining words with single spaces and splitting on whitespace gives back the words. |
| Text.StripIdempotent | producers/log_producer/log_tails.py:49-51 | Stripping twice is stripping once. |
| Values.GetLower | api/ingest/main.py:36-39 | A configured string value is lower-cased and a missing key gives the lower-cased default. A non-string value fails like `.lower()`. |
| Values.ObjGetFinds | shared/middleware/tenant_middleware.py:43 | Looking a key up in an object's pairs succeeds exactly when the key occurs, and yields a value stored under it. |
| Cli.IndexOf | cli.py:23-27 | The position of the first occurrence, as `list.index` returns it. |
| Cli.ParseArgs | cli.py:16-33 | Parsing fails (IndexError) exactly when `--runservice` or `--config` is the last argument. The service is the word after the first `--runservice`. Without `--config`, the default config file is used and the robot arguments are everything after the program name. With it, the word after `--config` is the config file and the robot arguments are the rest with that pair removed. |
| Cli.ConfigPairRemoved | cli.py:26-29 | Inserting `--config <path>` anywhere into a command line selects that path and leaves exactly the other arguments for Robot Framework. |
| Cli.RunserviceThenConfig | cli.py:22-30 | A line with a `--runservice` pair followed by a `--config` pair yields the service and the configured path, and robot arguments that still include the `--runservice` pair (the case of tests/shared/test_cli.py:31-46). |
| Cli.GetCommand | cli.py:35-57 | A `.py` service runs directly under Python. An app name containing none of `ingest`, `viewer` or `combined` is refused (ValueError). Every other app runs under uvicorn with its host, its port as a string, and `--reload`. |
| Cli.HostPort | cli.py:39-47 | `ingest` takes precedence over `viewer`, which takes precedence over `combined`. Each reads its own configured host and port, defaulting to 127.0.0.1 and 8001, 8000 or 8080. |
| Cli.IntOf | cli.py:62 | `int()` of an integer is itself. Of a string, it succeeds exactly when the string is an integer literal. Of anything else, it raises TypeError. |
| Cli.PortArguments | cli.py:59-64 | Reading host and port fails with the fixed ValueError when either flag is missing. On success they are the words right after the first `--host` and the first `--port`, the port read with `int()`. |
| Cli.PortArgumentsReadCommand | cli.py:35-64 | For every uvicorn command `get_command` builds with an integer port, the port check reads back exactly the configured host and port. |
| Cli.Services | cli.py:106-113 | The viewer and ingest apps always start. The log tailer script is added exactly when `source_log_tails` is truthy. |
| Cli.ServicesHaveCommands | cli.py:108-116 | Every service `start_services` launches has a command: none is refused by `get_command`. |
| Cli.TestPath | cli.py:184 | The suite path is the last robot argument, or `tests/` when there are none. |
| Cli.RobotCommand | cli.py:194-197 | The robot command is `robot --listener producers.listener.listener.RealTimeResults:totaltests=<n>` followed by the robot arguments unchanged. |
| Cli.Main | cli.py:158-197 | A bad command line fails. A non-empty service name runs that service's command, failing when `get_command` refuses it. Otherwise the tests run with the counted total for the suite path. |
| CliExamples.ThreeTests | cli.py:194-197 | With three tests, the listener argument ends in `totaltests=3`. A concrete instance, kept apart from the general lemmas. |
| CliExamples.RobotRunExample | tests/shared/test_cli.py:74-81 | `cli.py --outputdir results/ tests/` with three counted tests runs robot with the listener and the three arguments. |
| RunService.ResolveHostPort | api/run_service.py:7-13 | `ingest` apps use the ingest host and port, then `viewer` apps the viewer's, with the same defaults as the command line tool. Any other app name raises ValueError. |
| RunService.Command | api/run_service.py:25-34 | A command exists exactly when host and port resolve. It runs uvicorn through poetry on the app. |
| RunService.AgreesWithCli | api/run_service.py:28-34 | For ingest and viewer apps, this launcher and `cli.py` build the same uvicorn arguments after the launcher prefix. |
| LegacySchema.InsertEventBindsNine | helpers/sql_definitions.py:16-28 | The legacy INSERT names the nine event columns in table order and binds nine `?` placeholders. |
| LegacySchema.EventColumnsWellNamed | helpers/sql_definitions.py:1-14 | Every legacy event column name is a plain SQL identifier. |
| LegacySchema.LexTotal | helpers/sql_definitions.py:33 | The text order used by `ORDER BY` compares any two strings. |
| LegacySchema.LexTransitive | helpers/sql_definitions.py:33 | The text order is transitive. |
| LegacySchema.KeyTotal | helpers/sql_definitions.py:33 | Any two timestamp values are comparable (NULL, then numbers, then text). |
| LegacySchema.KeyTransitive | helpers/sql_definitions.py:33 | The timestamp order is transitive, so sorting by it is well defined. |
| LegacySchema.InsertSorted | helpers/sql_definitions.py:33 | Inserting a row into a timestamp-sorted table keeps it sorted, with the same rows plus the new one. |
| LegacySchema.AppendLater | helpers/sql_definitions.py:33 | A row no earlier than the last stays sorted when appended. |
| LegacySchema.AppendLast | helpers/sql_definitions.py:33 | Putting the latest row back after a sorted front keeps both the order and the row multiset. |
| LegacySchema.SortByTimestamp | helpers/sql_definitions.py:30-35 | `ORDER BY timestamp ASC` yields a sorted permutation of the table's rows. |
| LegacySchema.Earliest | helpers/sql_definitions.py:30-35 | `ORDER BY timestamp ASC LIMIT n` returns min(n, size) of the table's rows, sorted, and no row left out is earlier than any row returned. |
| LegacySchema.SortedPrefix | helpers/sql_definitions.py:33-34 | A prefix of a sorted table is sorted, and every row after it is no earlier than every row in it. |
| LegacySchema.Project | helpers/sql_definitions.py:31 | A selected row has exactly the selected columns, each taken from the stored row. |
| LegacySchema.SelectAllEvents | helpers/sql_definitions.py:30-35 | The legacy SELECT returns min(100, size) rows. Each is a table row projected onto exactly the eight selected columns, and no projection appears more often than the table's rows give it. They come in timestamp order, and no row left unread is earlier than a row returned. |
| LegacySchema.EarliestProjected | helpers/sql_definitions.py:30-35 | Projecting the earliest rows keeps the count and the timestamp order. Each projection comes from a table row, with no greater multiplicity than among the projections of the whole table. No unread row is earlier than a row read. |
| LegacySchema.ProjectRowsMonotone | helpers/sql_definitions.py:31 | Projecting a sub-multiset of rows gives a sub-multiset of the projections of all rows, so a row is never read more often than it is stored. |
| LegacySchema.SmallTableReadWhole | helpers/sql_definitions.py:30-35 | In a table of at most 100 rows, every row's projection is read. |
| LegacySchema.BindFailure | backend/sinks/memory_sqlite.py:21-32 | Among the modelled values (no floats), binding fails exactly when some parameter is not None, a bool, a string or a 64-bit integer. The error is that of the first such parameter: OverflowError for a large integer, a binding error otherwise. |
| LegacySchema.Stored | helpers/sql_definitions.py:1-14 | Column affinity keeps NULL as NULL and nothing else becomes NULL. A TEXT column keeps strings and stores every other bindable value as text. An INTEGER column keeps integers. |
| LegacySchema.IntegerColumnReadsRendered | helpers/sql_definitions.py:1-14 | A 64-bit integer written as decimal text into the INTEGER column is stored as that integer. |
| LegacySchema.NumericTimestampsSortAsText | helpers/sql_definitions.py:1-33 | Integer timestamps are stored as text in the TEXT column, so 10 sorts before 5. |
| LegacySchema.SelectReadsWholeSmallTable | helpers/sql_definitions.py:30-35 | For a table of at most 100 rows, the SELECT returns every row. |
| LegacySchema.MissingColumn | backend/readers/sqlite_reader.py:13-18 | No column is reported exactly when the table has every named column. Otherwise the reported one is the first named column the table lacks. |
| LegacySchema.SelectFrom | helpers/sql_definitions.py:30-35 | A SELECT on a stored table fails with `no such column` for the first selected column the table was not created with. When the table has every selected column, the SELECT reads the earliest rows, each projected onto exactly the selected columns. |
| MemorySqliteSink.TagsValue | backend/sinks/memory_sqlite.py:31 | Non-list tags are stored as given. A list is joined with commas when all its items are strings, and raises TypeError otherwise. |
| MemorySqliteSink.TagsRoundTrip | backend/sinks/memory_sqlite.py:31 | Tags without commas can be recovered from the stored text by splitting on commas. |
| MemorySqliteSink.EventValues | backend/sinks/memory_sqlite.py:20-32 | The nine values are built exactly when the tags can be joined. They follow the column order, with `name` and `suite` passed through `str()` and the tags joined. |
| MemorySqliteSink.RowOf | helpers/sql_definitions.py:1-28 | The stored row holds each bound value under its column, converted by the column's type affinity. |
| MemorySqliteSink.HandleEvent | backend/sinks/memory_sqlite.py:20-33 | Handling an event appends exactly one row when the tags join and every value can be bound. Otherwise it fails, with the first parameter's binding error when binding is what fails, and nothing is stored. |
| MemorySqliteSink.StoredRow | backend/sinks/memory_sqlite.py:22-31 | The stored row holds the event's timestamp, type and status as a TEXT column stores them, so an integer timestamp becomes its decimal text. `name` is its `str()`, `elapsed` goes through INTEGER affinity, and the joined tags are stored as text. |
| MemorySqliteSink.MissingNameIsNone | backend/sinks/memory_sqlite.py:26 | An event without a name is stored with the text `None`. |
| Values.PathOf | backend/ingest/readers/sqlite_event_reader.py:25 | Only a string path can be opened, and it is opened as given. Any other value raises TypeError, as `Path(...)` and `sqlite3.connect` do. |
| LegacyEventReaders.TableOf | backend/readers/sqlite_reader.py:10-26 | A file without the events table fails with `no such table: events`. Otherwise its table is read, with the columns it was created with. |
| LegacyEventReaders.BackendGetEvents | backend/readers/sqlite_reader.py:10-19 | Reading fails with `no such table: events` when the reader's own file lacks the table. It fails with `no such column` for a table created without one of the six selected columns, as the logger's table lacks `suite`. Otherwise it returns the earliest min(100, size) rows of that file, each projected onto exactly its six columns, each stored row read at most once, in timestamp order, with no unread row earlier. |
| LegacyEventReaders.BackendClearEvents | backend/readers/sqlite_reader.py:21-26 | Clearing empties the file named by the configuration's `sqlite_path` (default `eventlog.db`), not the reader's own. The table keeps its columns, and every other file is left alone. A non-string path fails, and so does a file without the events table, with `no such table`. |
| LegacyEventReaders.ClearTargetsConfiguredPath | backend/readers/sqlite_reader.py:7-26 | When the configured path differs from the reader's, clearing leaves the reader's events in place. |
| LegacyEventReaders.DefaultReaderClearsItsFile | backend/readers/sqlite_reader.py:7-26 | With default settings, clearing succeeds exactly when `eventlog.db` holds the events table. Without the table, reading fails with `no such table`. After a clear, a table the reader could read reads back empty, and a table lacking a selected column (a logger-made one) fails to read exactly as before. |
| LegacyEventReaders.NewIngestReader | backend/ingest/readers/sqlite_event_reader.py:10-18 | A truthy path argument is used. Otherwise the configured `sqlite_path` is used, else `eventlog.db`. A given connection is kept. |
| LegacyEventReaders.GetConnection | backend/ingest/readers/sqlite_event_reader.py:20-25 | A reader given the sink's connection uses that shared in-memory database without closing it. Otherwise the file at the path is opened and closed after use, failing for a non-string path. |
| LegacyEventReaders.GetEvents | backend/ingest/readers/sqlite_event_reader.py:27-36 | Reading succeeds exactly when the connection reaches a database holding the events table, and that table has all eight selected columns. It then returns the legacy SELECT over that table. A path without the table fails with `no such table`. A table lacking a selected column fails with `no such column`, naming the first one missing. A shared connection always reads the sink's live table. |
| LegacyEventReaders.ClearEvents | backend/ingest/readers/sqlite_event_reader.py:38-44 | Clearing empties the sink's shared table, or the file at the path, which keeps its columns. Nothing else changes. |
| LegacyEventReaders.ClearThenRead | backend/ingest/readers/sqlite_event_reader.py:27-44 | After a successful clear, a reader that could read its table reads no events. A reader whose table lacks a selected column fails exactly as it did before the clear. |
| LegacyEventReaders.ReadsMemorySinkEvents | backend/ingest/readers/sqlite_event_reader.py:18-31 | A reader sharing the in-memory sink's connection reads back the one stored event, with its timestamp as a TEXT column stores it and its stringified name. |
| LegacyEventReaders.SharedReadProjects | backend/ingest/readers/sqlite_event_reader.py:18-36 | Through the sink's shared connection, reading always succeeds and returns the sink's earliest rows projected onto the selected columns. |
| LegacyEventReaders.SinkWritesAreRead | backend/ingest/readers/sqlite_event_reader.py:18-36 | While the sink holds fewer than 100 rows, every event it stores is read back at once by a reader sharing its connection, one more row than before. |
| LegacyEventReaders.ClearEmptiesTheSink | backend/ingest/readers/sqlite_event_reader.py:38-44 | Clearing through a shared connection empties the sink, so the next stored event is its only row. |
| LegacyEventReaders.OneRowEarliest | helpers/sql_definitions.py:30-35 | A single row is its own earliest-first selection. |
| LoggerSinks.CreateSqliteSink | realtimelogger/sinks/sqlite.py:6-24 | Creating the sink creates the events table in its file only if missing, with the logger's own columns (timestamp, event type, name, status, message, and no `suite`). An existing table is kept with its columns and rows, and no other file is touched. |
| LoggerSinks.CreateSqliteSinkCorrected | helpers/sql_definitions.py:1-13 | The corrected sink creates a missing table with the shared legacy columns, which the legacy readers select from. Otherwise it acts as the sink as written does. |
| LoggerSinks.SqliteHandleEvent | realtimelogger/sinks/sqlite.py:26-40 | An event appends one row of timestamp, event type, `str(name)`, status and message to the sink's file, each stored as a TEXT column stores it. The table keeps its columns. A file without the table fails with `no such table`, a table lacking one of the five columns fails, and a value that cannot be bound fails. Other files are left alone. |
| LoggerSinks.LoggedRow | realtimelogger/sinks/sqlite.py:30-39 | The logged row holds exactly the five INSERT columns, each the bound value as TEXT affinity stores it; every other column reads as NULL. |
| LoggerSinks.EventTypeArgumentIgnored | realtimelogger/sinks/sqlite.py:26-35 | The `event_type` argument has no effect: the stored type comes from the event data. |
| LoggerSinks.MissingEventTypeStoredAsNull | realtimelogger/sinks/sqlite.py:35 | An event without `event_type` in its data is stored with a NULL type, whatever argument was passed. |
| LoggerSinks.MemoryHandleEvent | realtimelogger/sinks/memory.py:7-8 | The memory sink appends one `{type, data}` entry and keeps everything before it. |
| LoggerSinks.CallOrderPreserved | realtimelogger/sinks/memory.py:4-8 | After any series of calls, the memory sink holds exactly the calls in order. |
| LegacyBackend.Start | backend/main.py:12-23 | Start-up succeeds exactly for a string `sink_type` that lowers to `memory`, or to `sqlite` with a string `sqlite_path`. Any other type raises ValueError naming it. For SQLite, the reader and the sink share the configured path (default `eventlog.db`), and the sink's constructor creates its table there. |
| LegacyBackend.LoggerTableUnreadable | backend/readers/sqlite_reader.py:13-18 | The backend reader cannot read a table with only the logger's columns: it fails with `no such column: suite`. |
| LegacyBackend.LoggerTableUnreadableByIngestReader | helpers/sql_definitions.py:30-35 | The ingest reader's `SELECT_ALL_EVENTS` fails on a logger-made table with `no such column: suite`. |
| LegacyBackend.DefaultBackendCannotRead | backend/main.py:18-21 | With default settings and no `eventlog.db` yet, the backend's first GET /events fails with `no such column: suite`. It still fails after the sink logs an event. |
| LegacyBackend.StartCorrected | backend/main.py:12-23 | The corrected start-up succeeds exactly when the start-up as written does, and picks the same reader and sink. Its sink creates the shared legacy table. |
| LegacyBackend.CorrectedBackendReadsLoggedEvents | backend/main.py:18-21 | Once the sink creates the shared table, the default backend reads nothing before anything is logged. A logged event is then read back as one row, with its TEXT timestamp and a NULL `suite`. |

## Left out

- Network, HTTP and database I/O: FastAPI/Starlette routing, `httpx`/`requests` clients, `aiosqlite`/`asyncpg`/`sqlite3` drivers and transactions. Each is modelled by the value it produces: tables are row sequences, a request body is a `Dict`, and a connection is the table it reaches.
- Concurrency and time: asyncio event loops, tasks, `asyncio.sleep`, the tailers' `poll_interval` and the stream's polling delay are not modelled. One poll is one function call, and the caller sequences calls.
- Clocks: `datetime.now`, `to_iso_utc` and the elapsed-time float arithmetic are parameters (`now`, ISO text in, ISO text out). Elapsed time is an abstract difference, not a float.
- JSON encoding of stream frames and HTTP bodies is the abstract `encode` parameter. Its byte layout is not modelled.
- The table of concrete timestamp patterns in `shared/helpers/log_line_parser.py` is not part of this model. Each pattern is a search function, a bracket-stripping flag and a parse function, and the parser's order, cleaning and fallback logic is modelled over any such list.
- File sizes and offsets count characters, not bytes. Universal-newline translation of `\r` is not modelled.
- Python's `str.lower`, `str.upper` and `re.IGNORECASE` are modelled for ASCII letters only.
- `async_handle_event`, which the ingest API calls on its sink, is not defined by the sinks shown. The ingest API takes the sink's handler as a parameter.
- Failure to construct a sink at start-up is the `initFails` parameter. Errors raised while sending to the ingest API are swallowed by the producers, so the model has no failed-send path.
- Ingest 400 reply: its text follows the code ("event_type is missing"). The tests expect different text from an app factory that is not part of this model.
- The legacy `ORDER BY timestamp` keeps rows with equal timestamps in insertion order. SQL leaves that order unspecified.
- The legacy SQL statements are rendered by the same generic `INSERT`/`SELECT` builders as the shared ones, so their whitespace differs from the source's literal strings. Their column lists and placeholder counts agree.
- Binding a list or dict parameter in `sqlite3` is modelled as a `DatabaseError`. The driver's `ProgrammingError` is a subclass of it.
- Process and OS control: starting services (`start_process`), the socket probe behind `is_port_used`, `is_process_running`, `kill_backend.py` and the setup wizard. A port is in use exactly when it appears in the `usedPorts` parameter, and the number of tests Robot Framework would run is a parameter.
- Configuration loading (`load_config`, config file existence) is a `Dict` parameter. `metric_scraper`, the category endpoints and the snapshot/keep-alive streams are not part of this model. The abstract base classes are modelled only through their one effect here, `IngestApi.AbstractSinkError`.
- The schema-creation lifespan hook of the ingest API is not modelled. The predicate `IngestApi.EnsuresSchemaAtStartup` records which sink it applies to.
- The viewer's static `GET /log` reply and the `/` and favicon routes return fixed content and are not modelled.
- `rf_log_columns` is defined twice in `shared/helpers/sql_definitions.py` with identical lists. It is modelled once.
- The synchronous `handle_event` of both asynchronous sinks raises `NotImplementedError`, which the model returns as that error.
- SqliteAsyncSink.HandleAsync, SqliteAsyncSink.WrittenRowsLineUp, SqliteAsyncSink.MetricIsWritten, SqliteAsyncSink.AppLogIsWritten, PostgresAsyncSink.HandleAsync, PostgresAsyncSink.HandleThroughAsyncpg, IngestApi.LogThroughSqliteSink, LogTail.PostedLineIsStoredAsAppLog: neither `AsyncSqliteSink` nor `AsyncPostgresSink` defines the `_handle_event` that shared/sinks/base.py:33-35 declares abstract, so neither class can be instantiated, with any keyword. These members describe the sinks as if they could be, that is, code that as written is never reached.
- PostgresAsyncSink.AppLogArity, PostgresAsyncSink.AppLogRecord: the row they promise once the call is corrected needs an insert that succeeds (`insertFails` false). With the statements as written, whose placeholders are `%s` or `?`, asyncpg rejects every insert (PostgresAsyncSink.InsertsRejectedByAsyncpg), so the sink stores nothing even then. The model has no `$n` form of the statements.
- Numerals.ParseInt, Cli.IntOf, LogLineParser.DigitRunEnd: accept ASCII digits only. Python's `int()` and the regular expression `\d` also accept other Unicode decimal digits.
- Values.Value, LegacySchema.BindFailure, LegacySchema.Stored: JSON and Python floats are not modelled. Both listeners send `elapsed` as a float (`attrs.elapsedtime / 1000`, producers/listener/listener.py:122 and :143, realtimeresults/listener.py:94 and :114). sqlite3 binds a float as REAL: the `elapsed INTEGER` column (helpers/sql_definitions.py:11) turns a whole-number REAL into an integer, a TEXT column stores its text, and the metrics' `value REAL` column (shared/helpers/sql_definitions.py:124) keeps it. None of these paths can be expressed, and the binding contract covers only the modelled values.
- LogTails.ReadSource: `float(source.get("poll_interval", 1.0))` (producers/log_producer/log_tails.py:30) raises ValueError for an interval that is not a number. The interval is not modelled, so that error is not either.
- SqliteAsyncSink.DatabasePath, LoggerSinks.CreateSqliteSink: a path is kept as text. `Path(...)` normalisation (repeated slashes, a trailing slash, `.` segments) is not modelled, so two spellings of one file count as two files.
- LegacySchema.Stored: SQLite's INTEGER affinity also trims surrounding spaces and turns decimal, exponent and out-of-range numeric text into REAL. Only an optionally signed run of ASCII digits within 64 bits is converted here; any other text is kept.
- Opening a database file that does not exist creates it empty. The model's file map does not record the new file, since the read or clear on it then fails with `no such table` anyway.
- LegacyBackend.Start: the memory pair's reader (backend/readers/memory_reader.py) is not part of this model, so the memory backend is a bare constructor. `load_config` is the `config` parameter.
- The legacy backend's routes (backend/main.py:25-49) are not modelled as routes: POST /event turns any sink error into an `{"error": ...}` reply, GET /events is BackendGetEvents, and /events/clear is BackendClearEvents followed by a 303 redirect to GET /events.
- TenantMiddleware.ClaimedTenantIsUsed: when a JWT payload repeats the `tenant_id` key, the contract says the tenant is one of the repeated values, not specifically the last.
- ResultsListener.StartTestEvent: states the event type, test id, suite and timestamp, not the remaining descriptive fields copied from Robot Framework's attributes.
- LoggerListener.StartTestEvent: states the event type, the long name and the tag strings, not the remaining descriptive fields.

## Findings

| source | as written | input that shows it | evidently intended | confidence | as-written member | corrected member |
|---|---|---|---|---|---|---|
| shared/helpers/sql_definitions.py:11 | a URL counts as Postgres only when it starts with `postgresql` | `database_url = "postgres://u@h/db"`: not Postgres, so `?` placeholders are used | the short `postgres://` scheme, which the viewer reader accepts, is recognised too. Matching on the viewer's two schemes also stops counting driver-qualified `postgresql+asyncpg://` URLs as Postgres (SqlDefinitions.TestsDifferExactly), which the viewer already rejects (api/viewer/main.py:56-61) | not executed | SqlDefinitions.ShortSchemeMissedAsWritten | SqlDefinitions.PostgresUrlAgreesWithReader |
| shared/sinks/postgres_async.py:36 | every handler is called with the event and an extra column list, but the handlers take only the event | `{"event_type": "app_log", "message": "up"}` raises `TypeError` | the handler is called with the event alone. The row is then written only if the INSERT also uses asyncpg's `$n` placeholders instead of `Q`, which is `%s` or `?` (see PostgresAsyncSink.InsertsRejectedByAsyncpg), and only if the class can be instantiated at all (see the api/ingest/main.py:46 row) | not executed | PostgresAsyncSink.HandleAsyncAsWritten | PostgresAsyncSink.HandleAsync |
| producers/log_producer/log_tails.py:9 | the parser's (timestamp, level, fields) triple is unpacked as (message, timestamp, level) | any line, e.g. `"2024-01-01 10:00:00 WARN disk"`: `level` receives the list of fields and `timestamp` the level name `WARN` | `timestamp`, `level` and `message` each receive the parser's matching part | not executed | LogTails.LevelKeyHoldsFieldsAsWritten | LogTails.PayloadCarriesLevelAndTime |
| api/ingest/main.py:46 | `AsyncSqliteSink` is instantiated, but it never defines the `_handle_event` its base class declares abstract (shared/sinks/base.py:33-35); the `database_path` keyword it is given does not exist in its constructor either | the default configuration (strategy `sqlite`, ingest sink `asyncsqlite`) fails at start-up with `TypeError: Can't instantiate abstract class` | the sink implements `_handle_event` and receives the path as `database_url`, so it writes to `eventlog.db` | not executed | IngestApi.ChooseSinkAsWritten | IngestApi.ChooseSink |
| backend/main.py:18-21 | the SQLite reader and the logger's SQLite sink share one file, but the sink creates its own `events` table without the `suite`, `elapsed`, `tags` and `testid` columns that the reader selects | the default configuration with no `eventlog.db` yet: the first GET /events raises `no such column: suite`, before and after any event is logged | the sink creates the shared legacy table (helpers/sql_definitions.py:1-13), so the reader reads logged events back with `suite` NULL | not executed | LegacyBackend.DefaultBackendCannotRead | LegacyBackend.CorrectedBackendReadsLoggedEvents |

=== FILE: src/async_sinks.dfy ===
/** What the asynchronous sinks write: the handler an event type selects
    and the INSERT that handler issues. The SQLite sink
    (shared/sinks/sqlite_async.py) and the PostgreSQL sink
    (shared/sinks/postgres_async.py) share these definitions. */
module SinkInserts {

  import opened Wrappers
  import opened Values
  import opened SqlDefinitions

  /** The two insert handlers a dispatch map points to. */
  datatype Handler = AppLogHandler | MetricHandler

  /** One executed INSERT: the statement and the values bound to it. */
  datatype Insert = Insert(statement: string, values: seq<Value>)

  /** A record projected onto a column list, in the list's order, with a
      missing key bound as `None`. */
  function ProjectValues(data: Dict, cols: seq<Column>): (r: seq<Value>)
    ensures |r| == |cols|
    ensures forall i :: 0 <= i < |cols| ==> r[i] == Get(data, cols[i].name)
  {
    seq(|cols|, i requires 0 <= i < |cols| => Get(data, cols[i].name))
  }

  function Columns(h: Handler): seq<Column> {
    if h.AppLogHandler? then AppLogColumns else MetricColumns
  }

  function Statement(h: Handler, postgres: bool): string {
    if h.AppLogHandler? then InsertAppLog(postgres) else InsertMetric(postgres)
  }

  /** The INSERT a handler issues for a record. */
  function InsertFor(h: Handler, data: Dict, postgres: bool): (r: Insert)
    ensures |r.values| == |InsertPlaceholders(r.statement)|
    ensures |InsertColumns(r.statement)| == |r.values|
    ensures forall i :: 0 <= i < |r.values| ==> r.values[i] == Get(data, InsertColumns(r.statement)[i])
  {
    InsertLinesUp(h, data, postgres);
    Insert(Statement(h, postgres), ProjectValues(data, Columns(h)))
  }

  lemma InsertLinesUp(h: Handler, data: Dict, postgres: bool)
    ensures var values := ProjectValues(data, Columns(h));
      && |values| == |InsertPlaceholders(Statement(h, postgres))|
      && InsertColumns(Statement(h, postgres)) == Names(Columns(h))
  {
    DeclaredInserts(postgres);
  }

  /** `dict.get(key)` on a dispatch map: only hashable values can be looked
      up; a list or a dict raises `TypeError`. */
  predicate Hashable(v: Value) {
    !v.List? && !v.Obj?
  }
}

/** shared/sinks/sqlite_async.py: `AsyncSqliteSink`. */
module SqliteAsyncSink {

  import opened Wrappers
  import opened Text
  import opened Values
  import opened SinkInserts
  import SqlDefinitions
  import ViewerReaders

  const SqlitePrefix: string := "sqlite:///"

  /** The constructor's default URL. */
  const DefaultDatabaseUrl: string := "sqlite:///eventlog.db"

  /** The database path: a leading `sqlite:///` is removed once; anything
      else is used as the path unchanged. */
  function DatabasePath(url: string): (r: string)
    ensures StartsWith(url, SqlitePrefix) ==> SqlitePrefix + r == url
    ensures !StartsWith(url, SqlitePrefix) ==> r == url
  {
    if StartsWith(url, SqlitePrefix) then url[|SqlitePrefix|..] else url
  }

  /** The prefix is removed once only: a path that itself starts with the
      prefix keeps it. */
  lemma DatabasePathRoundTrip(path: string)
    ensures DatabasePath(SqlitePrefix + path) == path
  {
    assert (SqlitePrefix + path)[..|SqlitePrefix|] == SqlitePrefix;
  }

  lemma DefaultPath()
    ensures DatabasePath(DefaultDatabaseUrl) == "eventlog.db"
  {
    DatabasePathRoundTrip("eventlog.db");
    assert DefaultDatabaseUrl == SqlitePrefix + "eventlog.db";
  }

  /** The sink and the viewer's SQLite reader open the same file for a
      relative path in a `sqlite:///` URL. */
  lemma SinkAndViewerAgree(path: string)
    requires path != [] && path[0] != '/' && '?' !in path && '#' !in path
    ensures ViewerReaders.SqliteReaderPath(SqlitePrefix + path) == Ok(DatabasePath(SqlitePrefix + path))
  {
    DatabasePathRoundTrip(path);
    ViewerReaders.SqliteUrlRoundTrip(path);
  }

  /** For an absolute path (`sqlite:////data/e.db`) they differ: the sink
      keeps the leading `/`, the viewer strips every leading `/`. */
  lemma AbsolutePathsDiverge(path: string)
    requires path != [] && path[0] != '/' && '?' !in path && '#' !in path
    ensures DatabasePath(SqlitePrefix + "/" + path) == "/" + path
    ensures ViewerReaders.SqliteReaderPath(SqlitePrefix + "/" + path) == Ok(path)
  {
    AbsoluteUrl(path);
    DatabasePathRoundTrip("/" + path);
    ViewerReaders.SqliteUrlAbsolutePath(path);
  }

  lemma AbsoluteUrl(path: string)
    ensures SqlitePrefix + "/" + path == SqlitePrefix + ("/" + path) == "sqlite:////" + path
  {
  }

  /** `dispatch_map.get(event_type)`. */
  function Dispatch(eventType: Value): (r: Result<Option<Handler>>)
    ensures r.Err? <==> !Hashable(eventType)
    ensures r == Ok(Some(MetricHandler)) <==> eventType == Str("metric")
    ensures r == Ok(Some(AppLogHandler)) <==> eventType.Str? && eventType.s in AppLogTypes
  {
    if !Hashable(eventType) then Err(TypeError("unhashable type"))
    else if eventType == Str("metric") then Ok(Some(MetricHandler))
    else if eventType.Str? && eventType.s in AppLogTypes then Ok(Some(AppLogHandler))
    else Ok(None)
  }

  /** The event types routed to the app-log insert. */
  const AppLogTypes: set<string> := {"app_log", "www_log", "rf_output_xml", "rf_debug_log", "rf_debug"}

  /** `_async_handle_event` over the rows written so far. `insertFails` stands
      for the connection or statement failing, which the handler logs and
      swallows. An event type without a handler only logs a warning. */
  function HandleAsync(data: Dict, written: seq<Insert>, postgres: bool, insertFails: bool): (r: Result<seq<Insert>>)
    ensures r.Err? <==> !Hashable(Get(data, "event_type"))
    ensures r.Ok? ==> r.value == written || (exists h :: r.value == written + [InsertFor(h, data, postgres)])
    ensures r.Ok? && r.value != written <==> (!insertFails && Dispatch(Get(data, "event_type")).Ok?
      && Dispatch(Get(data, "event_type")).value.Some?)
  {
    var handler :- Dispatch(Get(data, "event_type"));
    match handler
    case None => Ok(written)
    case Some(h) =>
      if insertFails then Ok(written)
      else
        var row := InsertFor(h, data, postgres);
        assert written + [row] != written by { assert |written + [row]| == |written| + 1; }
        Ok(written + [row])
  }

  /** Every row the sink writes binds exactly one value per placeholder of its
      statement, and each value is the record's entry for the column the
      statement names at that position. */
  lemma WrittenRowsLineUp(data: Dict, written: seq<Insert>, postgres: bool, insertFails: bool)
    requires forall k :: 0 <= k < |written| ==> |written[k].values| == |SqlDefinitions.InsertPlaceholders(written[k].statement)|
    ensures var r := HandleAsync(data, written, postgres, insertFails);
      r.Ok? ==> forall k :: 0 <= k < |r.value| ==> |r.value[k].values| == |SqlDefinitions.InsertPlaceholders(r.value[k].statement)|
  {
  }

  /** A metric record is written to the metrics table with its five fields. */
  lemma MetricIsWritten(data: Dict, written: seq<Insert>, postgres: bool)
    requires Get(data, "event_type") == Str("metric")
    ensures HandleAsync(data, written, postgres, false)
      == Ok(written + [Insert(SqlDefinitions.InsertMetric(postgres), ProjectValues(data, SqlDefinitions.MetricColumns))])
  {
    HandledBy(data, written, postgres, MetricHandler);
  }

  /** A record whose type has a handler gets that handler's row appended. */
  lemma HandledBy(data: Dict, written: seq<Insert>, postgres: bool, h: Handler)
    requires Dispatch(Get(data, "event_type")) == Ok(Some(h))
    ensures HandleAsync(data, written, postgres, false)
      == Ok(written + [Insert(Statement(h, postgres), ProjectValues(data, Columns(h)))])
  {
  }

  /** A record of any app-log type is written to the app-log table with
      its five fields. */
  lemma AppLogIsWritten(data: Dict, written: seq<Insert>, postgres: bool)
    requires Get(data, "event_type").Str? && Get(data, "event_type").s in AppLogTypes
    ensures HandleAsync(data, written, postgres, false)
      == Ok(written + [Insert(SqlDefinitions.InsertAppLog(postgres), ProjectValues(data, SqlDefinitions.AppLogColumns))])
  {
    HandledBy(data, written, postgres, AppLogHandler);
  }

  /** The synchronous entry point always raises. */
  function HandleEvent(data: Dict): (r: Result<()>)
    ensures r == Err(NotImplementedError("This function is not implemented."))
  {
    Err(NotImplementedError("This function is not implemented."))
  }
}

/** shared/sinks/postgres_async.py: `AsyncPostgresSink`. */
module PostgresAsyncSink {

  import opened Wrappers
  import opened Values
  import opened SinkInserts
  import SqliteAsyncSink

  /** The database URL: an explicit truthy argument wins over the config's
      `database_url`, which may be absent (`None`). */
  function DatabaseUrl(argument: Value, config: Dict): (r: Value)
    ensures Truthy(argument) ==> r == argument
    ensures !Truthy(argument) ==> r == Get(config, "database_url")
  {
    if Truthy(argument) then argument else Get(config, "database_url")
  }

  const AppLogTypes: set<string> := {"app_log", "www_log", "rf_output_xml", "rf_debug_log"}

  /** `dispatch_map.get(event_type)`: like the SQLite sink's, without
      `rf_debug`. */
  function Dispatch(eventType: Value): (r: Result<Option<Handler>>)
    ensures r.Err? <==> !Hashable(eventType)
    ensures r == Ok(Some(MetricHandler)) <==> eventType == Str("metric")
    ensures r == Ok(Some(AppLogHandler)) <==> eventType.Str? && eventType.s in AppLogTypes
  {
    if !Hashable(eventType) then Err(TypeError("unhashable type"))
    else if eventType == Str("metric") then Ok(Some(MetricHandler))
    else if eventType.Str? && eventType.s in AppLogTypes then Ok(Some(AppLogHandler))
    else Ok(None)
  }

  /** The two sinks route every event type the same way except `rf_debug`,
      which only the SQLite sink handles. */
  lemma DispatchDiffersOnlyOnRfDebug(eventType: Value)
    ensures eventType != Str("rf_debug") ==> Dispatch(eventType) == SqliteAsyncSink.Dispatch(eventType)
    ensures Dispatch(Str("rf_debug")) == Ok(None)
    ensures SqliteAsyncSink.Dispatch(Str("rf_debug")) == Ok(Some(AppLogHandler))
  {
  }

  /** `_async_handle_event` as written: a found handler is called with the
      record and a column list, but takes the record only, so the call
      raises `TypeError` before anything is inserted. */
  function HandleAsyncAsWritten(data: Dict, written: seq<Insert>): (r: Result<seq<Insert>>)
    ensures r.Ok? ==> r.value == written
    ensures r.Err? <==> !Hashable(Get(data, "event_type")) || Dispatch(Get(data, "event_type")).value.Some?
  {
    var handler :- Dispatch(Get(data, "event_type"));
    match handler
    case None => Ok(written)
    case Some(_) => Err(TypeError("takes 2 positional arguments but 3 were given"))
  }

  /** `_async_handle_event` with the handler called on the record alone.
      `postgres` is the module-level dialect switch (`Q`), which holds only
      when the configured URL starts with `postgresql`. */
  function HandleAsync(data: Dict, written: seq<Insert>, postgres: bool, insertFails: bool): (r: Result<seq<Insert>>)
    ensures r.Err? <==> !Hashable(Get(data, "event_type"))
    ensures r.Ok? ==> r.value == written || (exists h :: r.value == written + [InsertFor(h, data, postgres)])
    ensures r.Ok? && r.value != written <==> (!insertFails && Dispatch(Get(data, "event_type")).Ok?
      && Dispatch(Get(data, "event_type")).value.Some?)
  {
    var handler :- Dispatch(Get(data, "event_type"));
    match handler
    case None => Ok(written)
    case Some(h) =>
      if insertFails then Ok(written)
      else
        var row := InsertFor(h, data, postgres);
        assert written + [row] != written by { assert |written + [row]| == |written| + 1; }
        Ok(written + [row])
  }

  /** As written, an app log never reaches the database; with the handler
      called on the record alone it is written with its five fields. */
  lemma AppLogArity(written: seq<Insert>, postgres: bool)
    ensures var data := map["event_type" := Str("app_log"), "message" := Str("up")];
      && HandleAsyncAsWritten(data, written).Err?
      && HandleAsync(data, written, postgres, false) == Ok(written + [Insert(SqlDefinitions.InsertAppLog(postgres),
           [Null, Str("app_log"), Null, Str("up"), Null])])
  {
    var data := map["event_type" := Str("app_log"), "message" := Str("up")];
    AppLogRecord(data, written, postgres);
    UpProjection();
  }

  /** Any `app_log` record: refused as written, written in full when the
      handler is called on the record alone. */
  lemma AppLogRecord(data: Dict, written: seq<Insert>, postgres: bool)
    requires Get(data, "event_type") == Str("app_log")
    ensures HandleAsyncAsWritten(data, written).Err?
    ensures HandleAsync(data, written, postgres, false)
      == Ok(written + [Insert(SqlDefinitions.InsertAppLog(postgres), ProjectValues(data, SqlDefinitions.AppLogColumns))])
  {
    assert "app_log" in AppLogTypes;
    HandledBy(data, written, postgres, AppLogHandler);
  }

  /** The app-log fields of the record `{event_type: app_log, message: up}`. */
  lemma UpProjection()
    ensures ProjectValues(map["event_type" := Str("app_log"), "message" := Str("up")], SqlDefinitions.AppLogColumns)
      == [Null, Str("app_log"), Null, Str("up"), Null]
  {
  }

  /** A record whose type has a handler gets that handler's row appended. */
  lemma HandledBy(data: Dict, written: seq<Insert>, postgres: bool, h: Handler)
    requires Dispatch(Get(data, "event_type")) == Ok(Some(h))
    ensures HandleAsync(data, written, postgres, false)
      == Ok(written + [Insert(Statement(h, postgres), ProjectValues(data, Columns(h)))])
  {
  }

  /** asyncpg's `Connection.execute(query, *args)` binds numbered
      parameters only: every placeholder must be `$1`, `$2`, and so on.
      A `%s` reaches the server as a syntax error. */
  predicate AsyncpgAccepts(statement: string) {
    forall i :: 0 <= i < |SqlDefinitions.InsertPlaceholders(statement)| ==>
      NumberedPlaceholder(SqlDefinitions.InsertPlaceholders(statement)[i])
  }

  predicate NumberedPlaceholder(p: string) {
    |p| >= 2 && p[0] == '$'
  }

  /** In either dialect, both inserts the sink issues bind at least one
      placeholder and every one is `Q`: `%s` for a URL starting with
      `postgresql`, `?` for any other. asyncpg accepts neither. */
  lemma InsertsRejectedByAsyncpg(h: Handler, postgres: bool)
    ensures !AsyncpgAccepts(Statement(h, postgres))
    ensures SqlDefinitions.InsertPlaceholders(Statement(h, postgres)) != []
    ensures forall p <- SqlDefinitions.InsertPlaceholders(Statement(h, postgres)) ::
      p == SqlDefinitions.Placeholder(postgres)
  {
    SqlDefinitions.DeclaredInserts(postgres);
    var ps := SqlDefinitions.InsertPlaceholders(Statement(h, postgres));
    assert |ps| == 5 && ps[0] == SqlDefinitions.Placeholder(postgres);
    assert !NumberedPlaceholder(ps[0]);
  }

  /** `_async_handle_event` with the handler called on the record alone and
      the insert executed by asyncpg: the insert fails exactly when asyncpg
      rejects the statement, and the handler's `except` swallows that. */
  function HandleThroughAsyncpg(data: Dict, written: seq<Insert>, postgres: bool): (r: Result<seq<Insert>>)
    ensures r.Err? <==> !Hashable(Get(data, "event_type"))
    ensures r.Ok? ==> r.value == written
  {
    var handler :- Dispatch(Get(data, "event_type"));
    match handler
    case None => HandleAsync(data, written, postgres, false)
    case Some(h) =>
      InsertsRejectedByAsyncpg(h, postgres);
      HandleAsync(data, written, postgres, !AsyncpgAccepts(Statement(h, postgres)))
  }

  /** The synchronous entry point always raises. */
  function HandleEvent(data: Dict): (r: Result<()>)
    ensures r == Err(NotImplementedError("This function is not implemented."))
  {
    Err(NotImplementedError("This function is not implemented."))
  }
}

=== FILE: src/cli.dfy ===
/** The command-line entry point (cli.py): argument parsing, the commands
    that start the services, the port check's reading of a command, and the
    Robot Framework command of a test run. Process control, socket probing
    and test counting are parameters or left out. */
module Cli {

  import opened Wrappers
  import opened Text
  import opened Values
  import Numerals

  const DefaultConfigPath: string := "realtimeresults_config.json"

  /** Python `list.index(x)`: the first position of `x`. */
  function IndexOf<T(==)>(xs: seq<T>, x: T): (i: nat)
    requires x in xs
    ensures i < |xs| && xs[i] == x && x !in xs[..i]
  {
    if xs[0] == x then 0 else IndexOf(xs[1..], x) + 1
  }

  /** `argv[1:]` with Python's slicing of a too-short list. */
  function Rest(argv: seq<string>): seq<string> {
    if argv == [] then [] else argv[1..]
  }

  datatype Args = Args(service: Option<string>, configPath: string, robotArgs: seq<string>)

  /** `parse_args`: the service follows the first `--runservice`, which
      stays among the robot arguments; the first `--config` and its value
      are taken out of them. A flag in last position has no value and
      raises `IndexError`. */
  function ParseArgs(argv: seq<string>): (r: Result<Args>)
    ensures r.Err? <==> (("--runservice" in argv && IndexOf(argv, "--runservice") + 1 == |argv|)
      || ("--config" in argv && IndexOf(argv, "--config") + 1 == |argv|))
    ensures r.Ok? ==> (r.value.service.Some? <==> "--runservice" in argv)
    ensures r.Ok? && r.value.service.Some? ==> r.value.service.value == argv[IndexOf(argv, "--runservice") + 1]
    ensures r.Ok? && "--config" !in argv ==> r.value.configPath == DefaultConfigPath && r.value.robotArgs == Rest(argv)
    ensures r.Ok? && "--config" in argv ==>
      var i := IndexOf(argv, "--config");
      && r.value.configPath == argv[i + 1]
      && r.value.robotArgs == (if i >= 1 then argv[1..i] else []) + argv[i + 2..]
  {
    var service :-
      if "--runservice" in argv then
        var i := IndexOf(argv, "--runservice");
        if i + 1 < |argv| then Ok(Some(argv[i + 1])) else Err(IndexError)
      else Ok(None);
    if "--config" in argv then
      var i := IndexOf(argv, "--config");
      if i + 1 < |argv| then
        Ok(Args(service, argv[i + 1], (if i >= 1 then argv[1..i] else []) + argv[i + 2..]))
      else Err(IndexError)
    else Ok(Args(service, DefaultConfigPath, Rest(argv)))
  }

  /** Removing the first `--config` pair leaves the other arguments in
      order, including a `--runservice` pair. */
  lemma ConfigPairRemoved(program: string, before: seq<string>, path: string, after: seq<string>)
    requires program != "--config" && "--config" !in before
    requires "--runservice" in before ==> IndexOf(before, "--runservice") + 1 < |before|
    requires path != "--runservice"
    requires "--runservice" !in before && "--runservice" in after ==> IndexOf(after, "--runservice") + 1 < |after|
    ensures var argv := [program] + before + ["--config", path] + after;
      && "--config" in argv
      && ParseArgs(argv).Ok?
      && ParseArgs(argv).value.configPath == path
      && ParseArgs(argv).value.robotArgs == before + after
  {
    var argv := [program] + before + ["--config", path] + after;
    var i := 1 + |before|;
    ConfigAt(program, before, path, after);
    RunserviceHasValue(program, before, path, after);
    ParsedWithConfig(argv);
    ConfigSlices(program, before, path, after);
  }

  /** Where the parts of an argument list with a `--config` pair sit. */
  lemma ConfigSlices(program: string, before: seq<string>, path: string, after: seq<string>)
    ensures var argv := [program] + before + ["--config", path] + after;
      && argv[|before| + 2] == path
      && argv[1..|before| + 1] == before
      && argv[|before| + 3..] == after
  {
    var argv := [program] + before + ["--config", path] + after;
    assert argv == [program] + (before + (["--config", path] + after));
  }

  lemma ParsedWithConfig(argv: seq<string>)
    requires "--config" in argv && 1 <= IndexOf(argv, "--config") && IndexOf(argv, "--config") + 1 < |argv|
    requires "--runservice" in argv ==> IndexOf(argv, "--runservice") + 1 < |argv|
    ensures ParseArgs(argv).Ok?
    ensures ParseArgs(argv).value.configPath == argv[IndexOf(argv, "--config") + 1]
    ensures ParseArgs(argv).value.robotArgs == argv[1..IndexOf(argv, "--config")] + argv[IndexOf(argv, "--config") + 2..]
  {
  }

  lemma ConfigAt(program: string, before: seq<string>, path: string, after: seq<string>)
    requires program != "--config" && "--config" !in before
    ensures var argv := [program] + before + ["--config", path] + after;
      "--config" in argv && IndexOf(argv, "--config") == 1 + |before|
  {
    var argv := [program] + before + ["--config", path] + after;
    var i := 1 + |before|;
    assert argv[i] == "--config";
    assert argv[..i] == [program] + before;
    IndexOfIs(argv, "--config", i);
  }

  /** A `--runservice` flag with a value keeps it once a `--config` pair
      is inserted. */
  lemma RunserviceHasValue(program: string, before: seq<string>, path: string, after: seq<string>)
    requires "--runservice" in before ==> IndexOf(before, "--runservice") + 1 < |before|
    requires path != "--runservice"
    requires "--runservice" !in before && "--runservice" in after ==> IndexOf(after, "--runservice") + 1 < |after|
    ensures var argv := [program] + before + ["--config", path] + after;
      "--runservice" in argv ==> IndexOf(argv, "--runservice") + 1 < |argv|
  {
    var argv := [program] + before + ["--config", path] + after;
    if program == "--runservice" {
      IndexOfIs(argv, "--runservice", 0);
    } else if "--runservice" in before {
      var j := IndexOf(before, "--runservice");
      assert argv[1 + j] == "--runservice";
      assert argv[..1 + j] == [program] + before[..j];
      IndexOfIs(argv, "--runservice", 1 + j);
    } else if "--runservice" in after {
      var j := IndexOf(after, "--runservice");
      var k := 3 + |before| + j;
      assert argv[k] == "--runservice";
      assert argv[..k] == [program] + before + ["--config", path] + after[..j];
      IndexOfIs(argv, "--runservice", k);
    } else {
      assert argv == [program] + before + ["--config", path] + after;
      assert "--runservice" !in argv;
    }
  }

  lemma IndexOfIs<T>(xs: seq<T>, x: T, i: nat)
    requires i < |xs| && xs[i] == x && x !in xs[..i]
    ensures x in xs && IndexOf(xs, x) == i
  {
  }

  /** A `--runservice` pair followed by a `--config` pair, as in the
      arguments of tests/shared/test_cli.py:31-46: the service is read, the
      configuration path is taken out and the rest stays. */
  lemma RunserviceThenConfig(program: string, service: string, path: string, after: seq<string>)
    requires program != "--config" && program != "--runservice"
    requires service != "--config" && path != "--runservice"
    ensures ParseArgs([program, "--runservice", service, "--config", path] + after)
      == Ok(Args(Some(service), path, ["--runservice", service] + after))
  {
    var before := ["--runservice", service];
    var argv := [program] + before + ["--config", path] + after;
    assert argv == [program, "--runservice", service, "--config", path] + after;
    assert "--config" !in before;
    assert IndexOf(before, "--runservice") == 0;
    ConfigPairRemoved(program, before, path, after);
    IndexOfIs(argv, "--runservice", 1);
  }

  // ---------------------------------------------------------------------------
  // Service commands
  // ---------------------------------------------------------------------------

  /** `get_command`: a script is run with the interpreter; an app is run
      under uvicorn with the host and port of the first of `ingest`,
      `viewer`, `combined` its name contains. The host is placed in the
      command as configured; the port as its `str()`. */
  function GetCommand(appname: string, config: Dict, python: string): (r: Result<seq<Value>>)
    ensures EndsWith(appname, ".py") ==> r == Ok([Str(python), Str(appname)])
    ensures r.Err? <==> (!EndsWith(appname, ".py") && !Contains(appname, "ingest")
      && !Contains(appname, "viewer") && !Contains(appname, "combined"))
    ensures r.Ok? && !EndsWith(appname, ".py") ==> (|r.value| == 9 && r.value[..4] == [Str(python), Str("-m"), Str("uvicorn"), Str(appname)])
    ensures r.Ok? && !EndsWith(appname, ".py") ==>
      r.value[4..] == [Str("--host"), HostPort(appname, config).0, Str("--port"), Str(Display(HostPort(appname, config).1)), Str("--reload")]
  {
    if EndsWith(appname, ".py") then Ok([Str(python), Str(appname)])
    else if !Contains(appname, "ingest") && !Contains(appname, "viewer") && !Contains(appname, "combined") then
      Err(ValueError("Unknown appname '" + appname + "'"))
    else
      var hp := HostPort(appname, config);
      Ok([Str(python), Str("-m"), Str("uvicorn"), Str(appname), Str("--host"), hp.0, Str("--port"), Str(Display(hp.1)), Str("--reload")])
  }

  /** The configured host and port of an app, by the first of `ingest`,
      `viewer`, `combined` its name contains. */
  function HostPort(appname: string, config: Dict): (r: (Value, Value))
    ensures Contains(appname, "ingest") ==>
      r == (GetOr(config, "ingest_backend_host", Str("127.0.0.1")), GetOr(config, "ingest_backend_port", Int(8001)))
    ensures !Contains(appname, "ingest") && Contains(appname, "viewer") ==>
      r == (GetOr(config, "viewer_backend_host", Str("127.0.0.1")), GetOr(config, "viewer_backend_port", Int(8000)))
    ensures !Contains(appname, "ingest") && !Contains(appname, "viewer") ==>
      r == (GetOr(config, "combined_backend_host", Str("127.0.0.1")), GetOr(config, "combined_backend_port", Int(8080)))
  {
    if Contains(appname, "ingest") then
      (GetOr(config, "ingest_backend_host", Str("127.0.0.1")), GetOr(config, "ingest_backend_port", Int(8001)))
    else if Contains(appname, "viewer") then
      (GetOr(config, "viewer_backend_host", Str("127.0.0.1")), GetOr(config, "viewer_backend_port", Int(8000)))
    else
      (GetOr(config, "combined_backend_host", Str("127.0.0.1")), GetOr(config, "combined_backend_port", Int(8080)))
  }

  const PortMessage: string := "Command must contain --host and --port with values"

  /** Python `int(v)` for the values a command can hold: a string is parsed,
      a bool counts as 0 or 1, and anything else raises `TypeError`. */
  function IntOf(v: Value): (r: Result<int>)
    ensures v.Int? ==> r == Ok(v.i)
    ensures v.Str? ==> (r.Ok? <==> Numerals.ParseInt(v.s).Some?)
    ensures r.Err? && !v.Str? ==> r.error.TypeError?
  {
    match v
    case Int(i) => Ok(i)
    case Bool(b) => Ok(if b then 1 else 0)
    case Str(s) =>
      var p := Numerals.ParseInt(s);
      if p.Some? then Ok(p.value) else Err(ValueError("invalid literal for int() with base 10"))
    case _ => Err(TypeError("int() argument must be a string or a number"))
  }

  /** What `is_port_used` reads from a command before probing: the value
      after `--host` and the integer after `--port`. A missing flag, a
      missing value or a non-numeric port string becomes one `ValueError`;
      a port of another type is not caught. */
  function PortArguments(command: seq<Value>): (r: Result<(Value, int)>)
    ensures Str("--host") !in command || Str("--port") !in command ==> r == Err(ValueError(PortMessage))
    ensures r.Ok? ==> (Str("--host") in command && Str("--port") in command
      && IndexOf(command, Str("--host")) + 1 < |command| && IndexOf(command, Str("--port")) + 1 < |command|
      && r.value.0 == command[IndexOf(command, Str("--host")) + 1]
      && IntOf(command[IndexOf(command, Str("--port")) + 1]) == Ok(r.value.1))
  {
    if Str("--host") !in command then Err(ValueError(PortMessage))
    else
      var h := IndexOf(command, Str("--host"));
      if h + 1 >= |command| then Err(ValueError(PortMessage))
      else if Str("--port") !in command then Err(ValueError(PortMessage))
      else
        var p := IndexOf(command, Str("--port"));
        if p + 1 >= |command| then Err(ValueError(PortMessage))
        else match IntOf(command[p + 1])
          case Ok(n) => Ok((command[h + 1], n))
          case Err(e) => if e.ValueError? then Err(ValueError(PortMessage)) else Err(e)
  }

  /** The port check reads back the host and port `get_command` put into a
      uvicorn command, for every integer port. */
  lemma PortArgumentsReadCommand(appname: string, config: Dict, python: string, port: int)
    requires !EndsWith(appname, ".py") && python != "--host" && python != "--port"
    requires Contains(appname, "ingest") || Contains(appname, "viewer") || Contains(appname, "combined")
    requires HostPort(appname, config).1 == Int(port) && HostPort(appname, config).0 != Str("--port")
    ensures GetCommand(appname, config, python).Ok?
    ensures PortArguments(GetCommand(appname, config, python).value) == Ok((HostPort(appname, config).0, port))
  {
    var portValue := HostPort(appname, config).1;
    IntOfRendered(portValue, port);
    ReadsUvicornCommand(appname, config, python, Display(portValue), port);
  }

  /** The port check reads back the host and port of a uvicorn command
      whose port text parses as an integer. */
  lemma ReadsUvicornCommand(appname: string, config: Dict, python: string, portText: string, port: int)
    requires !EndsWith(appname, ".py") && python != "--host" && python != "--port"
    requires Contains(appname, "ingest") || Contains(appname, "viewer") || Contains(appname, "combined")
    requires Display(HostPort(appname, config).1) == portText && HostPort(appname, config).0 != Str("--port")
    requires IntOf(Str(portText)) == Ok(port)
    ensures GetCommand(appname, config, python).Ok?
    ensures PortArguments(GetCommand(appname, config, python).value) == Ok((HostPort(appname, config).0, port))
  {
    NotAFlag(appname);
    var host := HostPort(appname, config).0;
    CommandShape(appname, config, python, host, portText);
    ReadCommandAt(GetCommand(appname, config, python).value, host, portText, port);
  }

  /** Where a uvicorn command puts its flags: `--host` first at 4 and
      `--port` first at 6, each followed by its value. */
  lemma CommandShape(appname: string, config: Dict, python: string, host: Value, portText: string)
    requires !EndsWith(appname, ".py") && python != "--host" && python != "--port"
    requires appname != "--host" && appname != "--port"
    requires Contains(appname, "ingest") || Contains(appname, "viewer") || Contains(appname, "combined")
    requires HostPort(appname, config).0 == host && host != Str("--port")
    requires Display(HostPort(appname, config).1) == portText
    ensures GetCommand(appname, config, python).Ok?
    ensures var cmd := GetCommand(appname, config, python).value;
      && |cmd| == 9 && cmd[4] == Str("--host") && cmd[5] == host && cmd[6] == Str("--port") && cmd[7] == Str(portText)
      && Str("--host") !in cmd[..4] && Str("--port") !in cmd[..6]
  {
    UvicornFlags(python, appname, host, portText);
    UvicornLayout(appname, config, python);
  }

  function Uvicorn(python: string, appname: string, host: Value, portText: string): seq<Value> {
    [Str(python), Str("-m"), Str("uvicorn"), Str(appname), Str("--host"), host, Str("--port"), Str(portText), Str("--reload")]
  }

  lemma UvicornLayout(appname: string, config: Dict, python: string)
    requires Contains(appname, "ingest") || Contains(appname, "viewer") || Contains(appname, "combined")
    requires !EndsWith(appname, ".py")
    ensures GetCommand(appname, config, python)
      == Ok(Uvicorn(python, appname, HostPort(appname, config).0, Display(HostPort(appname, config).1)))
  {
    var cmd := GetCommand(appname, config, python).value;
    assert cmd == cmd[..4] + cmd[4..];
  }

  /** The port check reads a command laid out as uvicorn's: `--host` at 4
      and `--port` at 6, each for the first time, with an integer literal
      after `--port`. */
  lemma ReadCommandAt(cmd: seq<Value>, host: Value, portText: string, port: int)
    requires |cmd| == 9 && cmd[4] == Str("--host") && cmd[5] == host && cmd[6] == Str("--port") && cmd[7] == Str(portText)
    requires Str("--host") !in cmd[..4] && Str("--port") !in cmd[..6]
    requires IntOf(Str(portText)) == Ok(port)
    ensures PortArguments(cmd) == Ok((host, port))
  {
    ReadAt(cmd, 4, 6);
  }

  /** `int(str(port))` gives an integer port back. */
  lemma IntOfRendered(portValue: Value, port: int)
    requires portValue == Int(port)
    ensures IntOf(Str(Display(portValue))) == Ok(port)
  {
    assert Display(portValue) == Numerals.IntToString(port);
    Numerals.IntToStringRoundTrip(port);
    IntOfParsed(Display(portValue), port);
  }

  /** `int()` of a string reads it as `ParseInt` does. */
  lemma IntOfParsed(t: string, n: int)
    requires Numerals.ParseInt(t) == Some(n)
    ensures IntOf(Str(t)) == Ok(n)
  {
  }

  /** No app name `get_command` accepts under uvicorn is one of the flags. */
  lemma NotAFlag(appname: string)
    requires Contains(appname, "ingest") || Contains(appname, "viewer") || Contains(appname, "combined")
    ensures appname != "--host" && appname != "--port"
  {
    NoWordIn("--host", "ingest");
    NoWordIn("--host", "viewer");
    NoWordIn("--host", "combined");
    NoWordIn("--port", "ingest");
    NoWordIn("--port", "viewer");
    NoWordIn("--port", "combined");
  }

  /** A word contains no longer or equally long different word. */
  lemma NoWordIn(s: string, word: string)
    requires |s| <= |word| && s != word
    ensures !Contains(s, word)
  {
    assert forall k :: OccursAt(s, word, k) ==> k == 0 && s[k..k + |word|] == s;
  }

  lemma UvicornFlags(python: string, appname: string, host: Value, port: string)
    requires python != "--host" && python != "--port" && appname != "--host" && appname != "--port" && host != Str("--port")
    ensures var cmd := Uvicorn(python, appname, host, port);
      Str("--host") !in cmd[..4] && Str("--port") !in cmd[..6]
  {
  }

  lemma ReadAt(cmd: seq<Value>, h: nat, p: nat)
    requires h + 1 < |cmd| && cmd[h] == Str("--host") && Str("--host") !in cmd[..h]
    requires p + 1 < |cmd| && cmd[p] == Str("--port") && Str("--port") !in cmd[..p]
    requires IntOf(cmd[p + 1]).Ok?
    ensures PortArguments(cmd) == Ok((cmd[h + 1], IntOf(cmd[p + 1]).value))
  {
    IndexOfIs(cmd, Str("--host"), h);
    IndexOfIs(cmd, Str("--port"), p);
  }

  /** `start_services`: the viewer and the ingest service, and the log
      tailer when log sources are configured. */
  function Services(config: Dict): (r: seq<string>)
    ensures |r| == 2 || |r| == 3
    ensures r[..2] == ["api.viewer.main:app", "api.ingest.main:app"]
    ensures |r| == 3 <==> Truthy(Get(config, "source_log_tails"))
    ensures |r| == 3 ==> r[2] == "producers/log_producer/log_tails.py"
  {
    ["api.viewer.main:app", "api.ingest.main:app"]
      + (if Truthy(Get(config, "source_log_tails")) then ["producers/log_producer/log_tails.py"] else [])
  }

  /** Every service to start has a command. */
  lemma ServicesHaveCommands(config: Dict, python: string)
    ensures forall s :: s in Services(config) ==> GetCommand(s, config, python).Ok?
  {
    assert OccursAt("api.viewer.main:app", "viewer", 4);
    assert Contains("api.viewer.main:app", "viewer");
    assert OccursAt("api.ingest.main:app", "ingest", 4);
    assert Contains("api.ingest.main:app", "ingest");
    assert EndsWith("producers/log_producer/log_tails.py", ".py");
  }

  // ---------------------------------------------------------------------------
  // The test run
  // ---------------------------------------------------------------------------

  /** The path whose tests are counted: the last robot argument, or
      `tests/`. */
  function TestPath(robotArgs: seq<string>): (r: string)
    ensures robotArgs == [] ==> r == "tests/"
    ensures robotArgs != [] ==> r == robotArgs[|robotArgs| - 1]
  {
    if robotArgs == [] then "tests/" else robotArgs[|robotArgs| - 1]
  }

  /** The robot command: the listener with the counted total, then the
      robot arguments unchanged. */
  function RobotCommand(total: int, robotArgs: seq<string>): (r: seq<string>)
    ensures |r| == 3 + |robotArgs| && r[3..] == robotArgs
    ensures r[..3] == ["robot", "--listener", "producers.listener.listener.RealTimeResults:totaltests=" + Numerals.IntToString(total)]
  {
    ["robot", "--listener", "producers.listener.listener.RealTimeResults:totaltests=" + Numerals.IntToString(total)] + robotArgs
  }

  /** What `main` runs once a configuration exists: the named service, or
      a test run. `countTests` stands for building the suite. */
  datatype Plan = RunService(serviceCommand: seq<Value>) | RunTests(testPath: string, robotCommand: seq<string>)

  function Main(argv: seq<string>, config: Dict, python: string, countTests: string -> int): (r: Result<Plan>)
    ensures ParseArgs(argv).Err? ==> r.Err?
    ensures ParseArgs(argv).Ok? && (ParseArgs(argv).value.service.None? || ParseArgs(argv).value.service.value == []) ==>
      var a := ParseArgs(argv).value;
      r == Ok(RunTests(TestPath(a.robotArgs), RobotCommand(countTests(TestPath(a.robotArgs)), a.robotArgs)))
    ensures ParseArgs(argv).Ok? && ParseArgs(argv).value.service.Some? && ParseArgs(argv).value.service.value != [] ==>
      var cmd := GetCommand(ParseArgs(argv).value.service.value, config, python);
      (r.Ok? <==> cmd.Ok?) && (r.Ok? ==> r.value == RunService(cmd.value))
  {
    var a :- ParseArgs(argv);
    if a.service.Some? && a.service.value != [] then
      var cmd :- GetCommand(a.service.value, config, python);
      Ok(RunService(cmd))
    else
      var path := TestPath(a.robotArgs);
      Ok(RunTests(path, RobotCommand(countTests(path), a.robotArgs)))
  }
}

/** The Robot Framework runs of tests/shared/test_cli.py, as concrete
    instances of `Cli.Main`. */
module CliExamples {

  import opened Wrappers
  import opened Values
  import opened Cli
  import Numerals

  /** The listener argument for three counted tests. */
  lemma ThreeTests(robotArgs: seq<string>)
    ensures RobotCommand(3, robotArgs)
      == ["robot", "--listener", "producers.listener.listener.RealTimeResults:totaltests=3"] + robotArgs
  {
    var prefix := "producers.listener.listener.RealTimeResults:totaltests=";
    assert Numerals.IntToString(3) == "3";
    assert |prefix + "3"| == |prefix| + 1;
    assert forall k :: 0 <= k < |prefix| + 1 ==> (prefix + "3")[k] == "producers.listener.listener.RealTimeResults:totaltests=3"[k];
    assert prefix + "3" == "producers.listener.listener.RealTimeResults:totaltests=3";
    assert prefix + Numerals.IntToString(3) == "producers.listener.listener.RealTimeResults:totaltests=3";
    assert RobotCommand(3, robotArgs) == ["robot", "--listener", prefix + Numerals.IntToString(3)] + robotArgs;
  }

  /** The run of tests/shared/test_cli.py:74-81 with three tests counted. */
  lemma RobotRunExample(config: Dict, python: string, countTests: string -> int)
    requires countTests("tests/") == 3
    ensures Main(["cli.py", "--outputdir", "results/", "tests/"], config, python, countTests)
      == Ok(RunTests("tests/", ["robot", "--listener", "producers.listener.listener.RealTimeResults:totaltests=3",
                                "--outputdir", "results/", "tests/"]))
  {
    var argv := ["cli.py", "--outputdir", "results/", "tests/"];
    assert "--runservice" !in argv && "--config" !in argv;
    assert ParseArgs(argv) == Ok(Args(None, DefaultConfigPath, argv[1..]));
    assert TestPath(argv[1..]) == "tests/";
    assert Main(argv, config, python, countTests) == Ok(RunTests("tests/", RobotCommand(3, argv[1..])));
    ThreeTests(argv[1..]);
    assert argv[1..] == ["--outputdir", "results/", "tests/"];
    assert ["robot", "--listener", "producers.listener.listener.RealTimeResults:totaltests=3"] + argv[1..]
      == ["robot", "--listener", "producers.listener.listener.RealTimeResults:totaltests=3", "--outputdir", "results/", "tests/"];
  }
}

/** api/run_service.py: starting one app under uvicorn through poetry. */
module RunService {

  import opened Wrappers
  import opened Text
  import opened Values
  import Cli

  /** `resolve_host_port`: `ingest` is checked before `viewer`; any other
      name has no defaults. */
  function ResolveHostPort(appname: string, config: Dict): (r: Result<(Value, Value)>)
    ensures r.Err? <==> !Contains(appname, "ingest") && !Contains(appname, "viewer")
    ensures Contains(appname, "ingest") ==>
      r == Ok((GetOr(config, "ingest_backend_host", Str("127.0.0.1")), GetOr(config, "ingest_backend_port", Int(8001))))
    ensures !Contains(appname, "ingest") && Contains(appname, "viewer") ==>
      r == Ok((GetOr(config, "viewer_backend_host", Str("127.0.0.1")), GetOr(config, "viewer_backend_port", Int(8000))))
  {
    if Contains(appname, "ingest") then
      Ok((GetOr(config, "ingest_backend_host", Str("127.0.0.1")), GetOr(config, "ingest_backend_port", Int(8001))))
    else if Contains(appname, "viewer") then
      Ok((GetOr(config, "viewer_backend_host", Str("127.0.0.1")), GetOr(config, "viewer_backend_port", Int(8000))))
    else Err(ValueError("Kan host/port niet afleiden uit appname: " + appname))
  }

  function Command(appname: string, config: Dict): (r: Result<seq<Value>>)
    ensures r.Ok? <==> ResolveHostPort(appname, config).Ok?
    ensures r.Ok? ==> |r.value| == 9 && r.value[..4] == [Str("poetry"), Str("run"), Str("uvicorn"), Str(appname)]
  {
    var hp :- ResolveHostPort(appname, config);
    Ok([Str("poetry"), Str("run"), Str("uvicorn"), Str(appname), Str("--host"), hp.0, Str("--port"), Str(Display(hp.1)), Str("--reload")])
  }

  /** For an ingest or viewer app that is not a script, this command and
      the command-line entry point's differ only in how uvicorn is
      launched. */
  lemma AgreesWithCli(appname: string, config: Dict, python: string)
    requires !EndsWith(appname, ".py") && (Contains(appname, "ingest") || Contains(appname, "viewer"))
    ensures Command(appname, config).Ok? && Cli.GetCommand(appname, config, python).Ok?
    ensures Command(appname, config).value[3..] == Cli.GetCommand(appname, config, python).value[3..]
  {
  }
}

=== FILE: src/event_hub.dfy ===
/** The viewer's per-tenant broadcast hub (api/viewer/event_manager.py):
    two maps from tenant to a set of subscriber queues, one for test events
    and one for application-log records, with drop-oldest backpressure on
    bounded queues. */
module EventHub {

  import opened Wrappers

  type Tenant = string

  /** A queue object's identity; queues live in the hub's `queues` heap. */
  type QueueId = nat

  /** One server-sent-events frame. */
  type Payload = string

  /** The frame written for one record: `data: <json>` and a blank line. */
  function Frame(json: string): (f: Payload)
    ensures |f| == |json| + 8
    ensures f[..6] == "data: " && f[|f| - 2..] == "\n\n"
    ensures f[6..|f| - 2] == json
  {
    "data: " + json + "\n\n"
  }

  /** An `asyncio.Queue`: `capacity` is its maxsize, 0 meaning unbounded. */
  datatype Queue = Queue(items: seq<Payload>, capacity: nat) {
    /** `Queue.full()`. */
    predicate Full() {
      capacity > 0 && |items| >= capacity
    }

    /** A queue that only ever grew through `put_nowait` holds at most its capacity. */
    predicate WellFormed() {
      capacity == 0 || |items| <= capacity
    }
  }

  /** `put_nowait`: `None` stands for the `QueueFull` exception. */
  function PutNowait(q: Queue, p: Payload): (r: Option<Queue>)
    ensures r.None? <==> q.Full()
    ensures r.Some? ==> r.value.items == q.items + [p] && r.value.capacity == q.capacity
  {
    if q.Full() then None else Some(q.(items := q.items + [p]))
  }

  /** `get_nowait`: `None` stands for the `QueueEmpty` exception. */
  function GetNowait(q: Queue): (r: Option<(Payload, Queue)>)
    ensures r.None? <==> q.items == []
    ensures r.Some? ==> [r.value.0] + r.value.1.items == q.items
    ensures r.Some? ==> r.value.1.capacity == q.capacity
  {
    if q.items == [] then None else Some((q.items[0], q.(items := q.items[1..])))
  }

  /** What one broadcast does to one subscriber queue: the queue afterwards,
      and whether the client was judged unhealthy and must be removed. */
  datatype Delivery = Delivery(queue: Queue, unhealthy: bool)

  /** Try to enqueue; if the queue is full, drop its oldest entry and retry
      once; if that retry fails too, the client is unhealthy. */
  function Deliver(q: Queue, p: Payload): Delivery
  {
    match PutNowait(q, p)
    case Some(q1) => Delivery(q1, false)
    case None =>
      match GetNowait(q)
      case None => Delivery(q, true)
      case Some((_, q2)) =>
        match PutNowait(q2, p)
        case Some(q3) => Delivery(q3, false)
        case None => Delivery(q2, true)
  }

  /** A queue with room gets the payload at its tail. */
  lemma DeliverNotFull(q: Queue, p: Payload)
    requires !q.Full()
    ensures Deliver(q, p) == Delivery(q.(items := q.items + [p]), false)
  {
  }

  /** A full, well-formed queue loses exactly its oldest entry and gains the
      payload at its tail; it stays at capacity and is never judged unhealthy. */
  lemma DeliverFull(q: Queue, p: Payload)
    requires q.Full() && q.WellFormed()
    ensures !Deliver(q, p).unhealthy
    ensures Deliver(q, p).queue.items == q.items[1..] + [p]
    ensures |Deliver(q, p).queue.items| == q.capacity
  {
  }

  /** The drop-then-retry path fails exactly for a queue holding more than its
      capacity, which no well-formed queue does. */
  lemma DeliverUnhealthyIff(q: Queue, p: Payload)
    ensures Deliver(q, p).unhealthy <==> (q.capacity > 0 && |q.items| > q.capacity)
  {
  }

  /** After any healthy delivery the newest payload sits at the tail, and a
      well-formed queue stays well-formed. */
  lemma DeliverKeepsNewest(q: Queue, p: Payload)
    requires q.WellFormed()
    ensures !Deliver(q, p).unhealthy
    ensures var r := Deliver(q, p).queue;
      r.capacity == q.capacity && r.WellFormed() && r.items != [] && r.items[|r.items| - 1] == p
  {
  }

  /** The two subscriber maps of the hub. */
  datatype Channel = Events | AppLogs

  datatype Hub = Hub(
    clients: map<Tenant, set<QueueId>>,
    appLogClients: map<Tenant, set<QueueId>>,
    queues: map<QueueId, Queue>,
    nextId: QueueId)

  function Subscribers(h: Hub, ch: Channel): map<Tenant, set<QueueId>> {
    match ch
    case Events => h.clients
    case AppLogs => h.appLogClients
  }

  function WithSubscribers(h: Hub, ch: Channel, m: map<Tenant, set<QueueId>>): (r: Hub)
    ensures Subscribers(r, ch) == m
    ensures r.queues == h.queues && r.nextId == h.nextId
    ensures forall other :: other != ch ==> Subscribers(r, other) == Subscribers(h, other)
  {
    match ch
    case Events => h.(clients := m)
    case AppLogs => h.(appLogClients := m)
  }

  /** Every registered queue exists, every existing id was handed out, and
      every queue is well-formed. */
  ghost predicate WellFormed(h: Hub) {
    && (forall id :: id in h.queues ==> id < h.nextId && h.queues[id].WellFormed())
    && (forall ch, t, id :: t in Subscribers(h, ch) && id in Subscribers(h, ch)[t] ==> id in h.queues)
  }

  /** A fresh hub, as the viewer application creates at start-up. */
  function Empty(): (h: Hub)
    ensures WellFormed(h)
    ensures forall ch :: Subscribers(h, ch) == map[]
  {
    Hub(map[], map[], map[], 0)
  }

  /** Create a new `asyncio.Queue(maxsize=capacity)`. */
  function NewQueue(h: Hub, capacity: nat): (r: (Hub, QueueId))
    ensures WellFormed(h) ==> r.1 !in h.queues
    ensures r.0.queues == h.queues[r.1 := Queue([], capacity)]
    ensures forall ch :: Subscribers(r.0, ch) == Subscribers(h, ch)
    ensures WellFormed(h) ==> WellFormed(r.0)
  {
    var id := h.nextId;
    var grown := h.(queues := h.queues[id := Queue([], capacity)], nextId := id + 1);
    assert forall ch :: Subscribers(grown, ch) == Subscribers(h, ch);
    (grown, id)
  }

  /** `add_client` / `add_app_log_client`: the tenant's set is created on
      first use, and the queue joins it. */
  function AddClient(h: Hub, ch: Channel, tenant: Tenant, q: QueueId): (r: Hub)
    ensures var before := Subscribers(h, ch); var after := Subscribers(r, ch);
      && after.Keys == before.Keys + {tenant}
      && after[tenant] == (if tenant in before then before[tenant] else {}) + {q}
      && (forall t :: t in before && t != tenant ==> after[t] == before[t])
    ensures forall other :: other != ch ==> Subscribers(r, other) == Subscribers(h, other)
    ensures r.queues == h.queues
    ensures WellFormed(h) && q in h.queues ==> WellFormed(r)
  {
    var subs := Subscribers(h, ch);
    var bucket := if tenant in subs then subs[tenant] else {};
    WithSubscribers(h, ch, subs[tenant := bucket + {q}])
  }

  /** `remove_client` / `remove_app_log_client`: discard the queue from the
      tenant's set. An unknown tenant is left absent and an emptied set stays
      in the map. */
  function RemoveClient(h: Hub, ch: Channel, tenant: Tenant, q: QueueId): (r: Hub)
    ensures var before := Subscribers(h, ch); var after := Subscribers(r, ch);
      && after.Keys == before.Keys
      && (tenant in before ==> after[tenant] == before[tenant] - {q})
      && (forall t :: t in before && t != tenant ==> after[t] == before[t])
    ensures forall other :: other != ch ==> Subscribers(r, other) == Subscribers(h, other)
    ensures r.queues == h.queues
    ensures WellFormed(h) ==> WellFormed(r)
  {
    var subs := Subscribers(h, ch);
    if tenant in subs then WithSubscribers(h, ch, subs[tenant := subs[tenant] - {q}])
    else h
  }

  /** Adding a queue that is already registered changes nothing. */
  lemma AddClientIdempotent(h: Hub, ch: Channel, tenant: Tenant, q: QueueId)
    ensures AddClient(AddClient(h, ch, tenant, q), ch, tenant, q) == AddClient(h, ch, tenant, q)
  {
    var once := AddClient(h, ch, tenant, q);
    assert Subscribers(once, ch)[tenant] + {q} == Subscribers(once, ch)[tenant];
    assert Subscribers(AddClient(once, ch, tenant, q), ch) == Subscribers(once, ch);
  }

  /** For a tenant that already has a subscriber set, removing a queue that
      was just added to it, and was absent before, restores the hub exactly. */
  lemma RemoveUndoesAdd(h: Hub, ch: Channel, tenant: Tenant, q: QueueId)
    requires tenant in Subscribers(h, ch) && q !in Subscribers(h, ch)[tenant]
    ensures RemoveClient(AddClient(h, ch, tenant, q), ch, tenant, q) == h
  {
    var subs := Subscribers(h, ch);
    assert subs[tenant] + {q} - {q} == subs[tenant];
    var r := RemoveClient(AddClient(h, ch, tenant, q), ch, tenant, q);
    assert Subscribers(r, ch) == subs;
    match ch {
      case Events =>
      case AppLogs =>
    }
  }

  /** The set of queues that one broadcast removes as unhealthy. */
  function Dropped(h: Hub, targets: set<QueueId>, p: Payload): set<QueueId> {
    set id | id in targets && id in h.queues && Deliver(h.queues[id], p).unhealthy
  }

  /** `broadcast_event` / `broadcast_app_log` with an already rendered frame:
      deliver to every queue of the tenant (a snapshot of the set), then
      discard the unhealthy ones. */
  function Broadcast(h: Hub, ch: Channel, tenant: Tenant, p: Payload): (r: Hub)
    ensures tenant !in Subscribers(h, ch) ==> r == h
    ensures r.queues.Keys == h.queues.Keys && r.nextId == h.nextId
    ensures forall other :: other != ch ==> Subscribers(r, other) == Subscribers(h, other)
    ensures Subscribers(r, ch).Keys == Subscribers(h, ch).Keys
    ensures forall t :: t in Subscribers(h, ch) && t != tenant ==>
      Subscribers(r, ch)[t] == Subscribers(h, ch)[t]
    ensures tenant in Subscribers(h, ch) ==>
      Subscribers(r, ch)[tenant] == Subscribers(h, ch)[tenant] - Dropped(h, Subscribers(h, ch)[tenant], p)
    ensures forall id :: id in h.queues ==>
      r.queues[id] == (if tenant in Subscribers(h, ch) && id in Subscribers(h, ch)[tenant]
                       then Deliver(h.queues[id], p).queue else h.queues[id])
  {
    var subs := Subscribers(h, ch);
    if tenant !in subs then h
    else
      var targets := subs[tenant];
      var queues := map id | id in h.queues ::
        if id in targets then Deliver(h.queues[id], p).queue else h.queues[id];
      WithSubscribers(h.(queues := queues), ch, subs[tenant := targets - Dropped(h, targets, p)])
  }

  /** In the sequential model no client is ever removed from a well-formed hub:
      the drop-then-retry path always succeeds. */
  lemma BroadcastRemovesNobody(h: Hub, ch: Channel, tenant: Tenant, p: Payload)
    requires WellFormed(h)
    ensures Subscribers(Broadcast(h, ch, tenant, p), ch) == Subscribers(h, ch)
  {
    var subs := Subscribers(h, ch);
    if tenant in subs {
      var targets := subs[tenant];
      forall id | id in targets && id in h.queues
        ensures !Deliver(h.queues[id], p).unhealthy
      {
        DeliverUnhealthyIff(h.queues[id], p);
      }
      assert Dropped(h, targets, p) == {};
      assert targets - {} == targets;
    }
  }

  /** After a broadcast to a well-formed hub, every queue of that tenant ends
      with the new payload and holds at most its capacity; the hub stays
      well-formed. */
  lemma BroadcastDelivers(h: Hub, ch: Channel, tenant: Tenant, p: Payload)
    requires WellFormed(h)
    ensures var r := Broadcast(h, ch, tenant, p);
      && WellFormed(r)
      && (tenant in Subscribers(h, ch) ==> forall id :: id in Subscribers(h, ch)[tenant] ==>
            var items := r.queues[id].items; items != [] && items[|items| - 1] == p)
  {
    var r := Broadcast(h, ch, tenant, p);
    BroadcastRemovesNobody(h, ch, tenant, p);
    forall id | id in h.queues
      ensures r.queues[id].WellFormed()
    {
      DeliverKeepsNewest(h.queues[id], p);
    }
    if tenant in Subscribers(h, ch) {
      forall id | id in Subscribers(h, ch)[tenant]
        ensures r.queues[id].items != [] && r.queues[id].items[|r.queues[id].items| - 1] == p
      {
        DeliverKeepsNewest(h.queues[id], p);
      }
    }
    assert forall c :: Subscribers(r, c) == Subscribers(h, c);
  }

  /** `get_client_count`. */
  datatype ClientCounts = ClientCounts(
    eventClients: nat, appLogClients: nat, eventTenants: nat, appLogTenants: nat)

  /** Every (tenant, queue) registration of one map. */
  function Registrations(m: map<Tenant, set<QueueId>>): set<(Tenant, QueueId)> {
    set t, id | t in m && id in m[t] :: (t, id)
  }

  /** The number of registrations: the sum over tenants of their set sizes. */
  function TotalClients(m: map<Tenant, set<QueueId>>): nat {
    |Registrations(m)|
  }

  function ClientCount(h: Hub): ClientCounts {
    ClientCounts(TotalClients(h.clients), TotalClients(h.appLogClients),
                 |h.clients.Keys|, |h.appLogClients.Keys|)
  }

  function CountOf(c: ClientCounts, ch: Channel): (nat, nat) {
    match ch
    case Events => (c.eventClients, c.eventTenants)
    case AppLogs => (c.appLogClients, c.appLogTenants)
  }

  /** Registering one more (tenant, queue) pair adds exactly that pair. */
  lemma RegistrationsInsert(m: map<Tenant, set<QueueId>>, tenant: Tenant, q: QueueId)
    ensures var bucket := if tenant in m then m[tenant] else {};
      Registrations(m[tenant := bucket + {q}]) == Registrations(m) + {(tenant, q)}
  {
    var bucket := if tenant in m then m[tenant] else {};
    var m2 := m[tenant := bucket + {q}];
    forall pair | pair in Registrations(m2)
      ensures pair in Registrations(m) + {(tenant, q)}
    {
      if pair != (tenant, q) {
        assert pair.0 in m && pair.1 in m[pair.0];
      }
    }
    forall pair | pair in Registrations(m)
      ensures pair in Registrations(m2)
    {
      assert pair.0 in m2 && pair.1 in m2[pair.0];
    }
  }

  /** A queue new to its tenant raises the registration count by one. */
  lemma RegistrationsAdd(m: map<Tenant, set<QueueId>>, tenant: Tenant, q: QueueId)
    requires tenant !in m || q !in m[tenant]
    ensures var bucket := if tenant in m then m[tenant] else {};
      TotalClients(m[tenant := bucket + {q}]) == TotalClients(m) + 1
  {
    RegistrationsInsert(m, tenant, q);
    assert (tenant, q) !in Registrations(m);
  }

  /** Adding a new queue raises that map's client count by one, and its tenant
      count by one exactly when the tenant was unknown. */
  lemma AddClientCount(h: Hub, ch: Channel, tenant: Tenant, q: QueueId)
    requires tenant !in Subscribers(h, ch) || q !in Subscribers(h, ch)[tenant]
    ensures var before := CountOf(ClientCount(h), ch);
      var after := CountOf(ClientCount(AddClient(h, ch, tenant, q)), ch);
      && after.0 == before.0 + 1
      && after.1 == before.1 + (if tenant in Subscribers(h, ch) then 0 else 1)
  {
    var before := Subscribers(h, ch);
    var after := Subscribers(AddClient(h, ch, tenant, q), ch);
    RegistrationsAdd(before, tenant, q);
    if tenant !in before {
      assert after.Keys == before.Keys + {tenant};
      assert |after.Keys| == |before.Keys| + 1;
    } else {
      assert after.Keys == before.Keys;
    }
    match ch {
      case Events =>
      case AppLogs =>
    }
  }

  /** Removing a registered queue lowers the client count by one and never
      changes the tenant count. */
  lemma RemoveClientCount(h: Hub, ch: Channel, tenant: Tenant, q: QueueId)
    requires tenant in Subscribers(h, ch) && q in Subscribers(h, ch)[tenant]
    ensures var before := CountOf(ClientCount(h), ch);
      var after := CountOf(ClientCount(RemoveClient(h, ch, tenant, q)), ch);
      && after.0 + 1 == before.0
      && after.1 == before.1
  {
    var before := Subscribers(h, ch);
    var after := Subscribers(RemoveClient(h, ch, tenant, q), ch);
    assert Registrations(after) == Registrations(before) - {(tenant, q)};
    assert (tenant, q) in Registrations(before);
    match ch {
      case Events =>
      case AppLogs =>
    }
  }
}

=== FILE: src/file_tail.dfy ===
/** Following a growing log file by polling its size, shared by the three
    tailers: producers/log_producer/log_tails.py,
    producers/log_producer/log_tail.py and backend/ingest/source/log_tail.py.
    A poll sees the file as absent or as its whole content; sizes and
    offsets are counted in characters. */
module FileTail {

  import opened Wrappers
  import opened Text

  datatype File = Missing | Present(content: string)

  /** The offset a tailer that skips existing content starts from. */
  function InitialOffset(f: File): (r: nat)
    ensures f.Present? ==> r == |f.content|
    ensures f.Missing? ==> r == 0
  {
    if f.Present? then |f.content| else 0
  }

  /** One poll of a present file: the offset afterwards and, when the file
      has grown past the offset, the text from the offset to the end. */
  datatype Step = Step(offset: nat, chunk: Option<string>)

  function ReadNew(offset: nat, content: string): (r: Step)
    ensures r.chunk.Some? <==> |content| > offset
    ensures r.chunk.Some? ==> r.offset == |content| && offset + |r.chunk.value| == |content|
    ensures r.chunk.Some? ==> content == content[..offset] + r.chunk.value
    ensures r.chunk.None? ==> r.offset == offset
  {
    if |content| > offset then Step(|content|, Some(content[offset..])) else Step(offset, None)
  }

  function ChunkText(s: Step): string {
    s.chunk.GetOr("")
  }

  /** Polling successive snapshots of the file: the final offset and all
      text read, in order. */
  function ReadAll(offset: nat, snapshots: seq<string>): (nat, string)
    decreases |snapshots|
  {
    if snapshots == [] then (offset, "")
    else
      var s := ReadNew(offset, snapshots[0]);
      var rest := ReadAll(s.offset, snapshots[1..]);
      (rest.0, ChunkText(s) + rest.1)
  }

  /** Each snapshot extends the one before: the file is only appended to. */
  predicate Appends(snapshots: seq<string>) {
    forall i, j :: 0 <= i <= j < |snapshots| ==> snapshots[i] <= snapshots[j]
  }

  /** On a file that is only appended to, successive polls read adjacent
      ranges: together they read everything after the starting offset, each
      character once. */
  lemma {:induction false} ReadAllContiguous(offset: nat, snapshots: seq<string>)
    requires |snapshots| > 0 && Appends(snapshots) && offset <= |snapshots[0]|
    ensures ReadAll(offset, snapshots).0 == |snapshots[|snapshots| - 1]|
    ensures ReadAll(offset, snapshots).1 == snapshots[|snapshots| - 1][offset..]
    decreases |snapshots|
  {
    var first := snapshots[0];
    var last := snapshots[|snapshots| - 1];
    var s := ReadNew(offset, first);
    assert s.offset == |first|;
    assert ChunkText(s) == first[offset..];
    if |snapshots| == 1 {
      assert ReadAll(s.offset, snapshots[1..]) == (s.offset, "");
    } else {
      var tail := snapshots[1..];
      assert first <= tail[0] by { assert tail[0] == snapshots[1]; }
      assert Appends(tail) by {
        forall i, j | 0 <= i <= j < |tail| ensures tail[i] <= tail[j] {
          assert tail[i] == snapshots[i + 1] && tail[j] == snapshots[j + 1];
        }
      }
      ReadAllContiguous(s.offset, tail);
      assert tail[|tail| - 1] == last;
      assert first <= last;
      assert first[offset..] + last[|first|..] == last[offset..];
    }
  }

  /** A tailer that starts at the file's size never reads what was there
      before it started. */
  lemma ExistingContentIsNeverRead(snapshots: seq<string>)
    requires |snapshots| > 0 && Appends(snapshots)
    ensures var last := snapshots[|snapshots| - 1];
      ReadAll(InitialOffset(Present(snapshots[0])), snapshots).1 == last[|snapshots[0]|..]
  {
    ReadAllContiguous(|snapshots[0]|, snapshots);
  }

  /** The stripped non-blank lines, in order. */
  function NonBlank(lines: seq<string>): (r: seq<string>)
    ensures |r| <= |lines|
    ensures forall i :: 0 <= i < |r| ==> r[i] != [] && Trimmed(r[i], Whitespace)
  {
    if lines == [] then []
    else
      var s := Strip(lines[0]);
      var rest := NonBlank(lines[1..]);
      if s == [] then rest else [s] + rest
  }

  /** Keeping the non-blank lines of two blocks keeps those of each. */
  lemma {:induction false} NonBlankAppend(a: seq<string>, b: seq<string>)
    ensures NonBlank(a + b) == NonBlank(a) + NonBlank(b)
    decreases |a|
  {
    if a != [] {
      var head := if Strip(a[0]) == [] then [] else [Strip(a[0])];
      assert (a + b)[0] == a[0] && (a + b)[1..] == a[1..] + b;
      assert NonBlank(a + b) == head + NonBlank(a[1..] + b);
      assert NonBlank(a) == head + NonBlank(a[1..]);
      NonBlankAppend(a[1..], b);
      assert head + (NonBlank(a[1..]) + NonBlank(b)) == (head + NonBlank(a[1..])) + NonBlank(b);
    } else {
      assert a + b == b;
    }
  }

  /** Lines that are already stripped and non-blank are kept as they are. */
  lemma {:induction false} NonBlankKeeps(lines: seq<string>)
    requires forall i :: 0 <= i < |lines| ==> lines[i] != [] && Trimmed(lines[i], Whitespace)
    ensures NonBlank(lines) == lines
    decreases |lines|
  {
    if lines != [] {
      TrimByTrimmed(lines[0], Whitespace);
      NonBlankKeeps(lines[1..]);
    }
  }

  /** The lines a tailer posts from newly read text: each line stripped,
      blank lines skipped. A line's terminator is whitespace that the strip
      removes, so splitting at `\n` gives the same stripped lines as
      `readlines`. */
  function PostedLines(chunk: string): (r: seq<string>)
    ensures forall i :: 0 <= i < |r| ==> r[i] != [] && Trimmed(r[i], Whitespace)
  {
    NonBlank(Split(chunk, '\n'))
  }

  /** Stripped, non-blank lines written one per line, the last one
      terminated or not, are posted exactly as written. */
  lemma PostedLinesRoundTrip(lines: seq<string>)
    requires forall i :: 0 <= i < |lines| ==> lines[i] != [] && Trimmed(lines[i], Whitespace) && '\n' !in lines[i]
    ensures PostedLines(Join(lines + [""], "\n")) == lines
    ensures |lines| > 0 ==> PostedLines(Join(lines, "\n")) == lines
  {
    SplitJoin(lines + [""], '\n');
    NonBlankAppend(lines, [""]);
    NonBlankKeeps(lines);
    if |lines| > 0 {
      SplitJoin(lines, '\n');
    }
  }

  /** A blank line between two blocks is skipped. */
  lemma BlankLinesSkipped(a: seq<string>, blank: string, b: seq<string>)
    requires AllSpace(blank)
    ensures NonBlank(a + [blank] + b) == NonBlank(a) + NonBlank(b)
  {
    StripAllSpace(blank);
    NonBlankAppend(a + [blank], b);
    NonBlankAppend(a, [blank]);
  }
}

/** producers/log_producer/log_tails.py: several configured sources, each
    line normalised by the log-line parser before it is posted. */
module LogTails {

  import opened Wrappers
  import opened Text
  import opened Values
  import opened FileTail
  import LogLineParser
  import SinkInserts
  import SqlDefinitions
  import Numerals

  /** A configured source as the tailer reads it; the poll interval is left
      out with the sleeping loop. */
  datatype Source = Source(path: string, sourceLabel: Value, eventType: Value)

  /** The start of `tail_log_file`: a source without `path` raises KeyError,
      and `Path` raises TypeError for a path that is not a string. */
  function ReadSource(source: Dict): (r: Result<Source>)
    ensures r.Err? <==> "path" !in source || !source["path"].Str?
    ensures "path" !in source ==> r == Err(KeyError("path"))
    ensures "path" in source && !source["path"].Str? ==> r.Err? && r.error.TypeError?
    ensures r.Ok? ==> (Str(r.value.path) == source["path"]
      && r.value.sourceLabel == GetOr(source, "label", Str("unknown"))
      && r.value.eventType == GetOr(source, "event_type", Str("unknown")))
  {
    if "path" !in source then Err(KeyError("path"))
    else
      var path :- PathOf(source["path"]);
      Ok(Source(path, GetOr(source, "label", Str("unknown")), GetOr(source, "event_type", Str("unknown"))))
  }

  /** A source that names only its path is labelled and typed `unknown`. */
  lemma SourceDefaults(path: string)
    ensures ReadSource(map["path" := Str(path)]) == Ok(Source(path, Str("unknown"), Str("unknown")))
  {
  }

  /** `{"path": 5}` and `{"path": null}` both stop the tailer before it
      watches anything. */
  lemma NonStringPathRefused()
    ensures ReadSource(map["path" := Int(5)]).Err? && ReadSource(map["path" := Null]).Err?
    ensures ReadSource(map["path" := Int(5)]).error.TypeError?
  {
  }

  /** One poll: a missing file leaves the offset alone; a grown file is
      read from the offset to its end and the offset moves to the end;
      otherwise nothing happens. */
  function Poll(offset: nat, f: File): (r: (nat, seq<string>))
    ensures f.Missing? ==> r == (offset, [])
    ensures f.Present? && |f.content| > offset ==> r == (|f.content|, PostedLines(f.content[offset..]))
    ensures f.Present? && |f.content| <= offset ==> r == (offset, [])
  {
    match f
    case Missing => (offset, [])
    case Present(c) =>
      var s := ReadNew(offset, c);
      (s.offset, if s.chunk.Some? then PostedLines(s.chunk.value) else [])
  }

  function FieldList(fields: seq<string>): (r: seq<Value>)
    ensures |r| == |fields| && forall i :: 0 <= i < |fields| ==> r[i] == Str(fields[i])
  {
    seq(|fields|, i requires 0 <= i < |fields| => Str(fields[i]))
  }

  /** The payload as written: the parser's (timestamp, level, fields) are
      bound to (message, timestamp, level). */
  function PayloadAsWritten(parsed: LogLineParser.ParsedLine, src: Source): Dict {
    map["timestamp" := Str(parsed.level), "event_type" := src.eventType, "message" := Str(parsed.timestamp),
        "source" := src.sourceLabel, "level" := List(FieldList(parsed.fields))]
  }

  /** The payload with the parser's result bound in the order it is
      returned; the fields travel as the message. */
  function Payload(parsed: LogLineParser.ParsedLine, src: Source): Dict {
    map["timestamp" := Str(parsed.timestamp), "event_type" := src.eventType, "message" := List(FieldList(parsed.fields)),
        "source" := src.sourceLabel, "level" := Str(parsed.level)]
  }

  /** As written, no posted line carries a level under `level`: that key
      holds the field list, and `timestamp` holds the level name. */
  lemma LevelKeyHoldsFieldsAsWritten(patterns: seq<LogLineParser.TimestampPattern>, now: string, line: string, src: Source)
    ensures var p := PayloadAsWritten(LogLineParser.ExtractTimestampAndCleanMessage(patterns, now, line), src);
      && p["level"].List? && |p["level"].items| >= 1
      && p["timestamp"].Str? && LogLineParser.IsLevel(p["timestamp"].s)
  {
    AsWrittenShape(LogLineParser.ExtractTimestampAndCleanMessage(patterns, now, line), src);
  }

  /** The keys of an as-written payload of any parsed line with a level
      and fields. */
  lemma AsWrittenShape(parsed: LogLineParser.ParsedLine, src: Source)
    requires LogLineParser.IsLevel(parsed.level) && |parsed.fields| >= 1
    ensures var p := PayloadAsWritten(parsed, src);
      && "level" in p && p["level"].List? && |p["level"].items| >= 1
      && "timestamp" in p && p["timestamp"].Str? && LogLineParser.IsLevel(p["timestamp"].s)
      && "message" in p && p["message"] == Str(parsed.timestamp)
      && "source" in p && p["source"] == src.sourceLabel
  {
    var p := PayloadAsWritten(parsed, src);
    assert p["level"] == List(FieldList(parsed.fields));
    assert p["timestamp"] == Str(parsed.level);
    assert p["message"] == Str(parsed.timestamp);
    assert p["source"] == src.sourceLabel;
  }

  /** Bound in order, `level` is the parsed level and `timestamp` the parsed
      time. */
  lemma PayloadCarriesLevelAndTime(patterns: seq<LogLineParser.TimestampPattern>, now: string, line: string, src: Source)
    ensures var p := Payload(LogLineParser.ExtractTimestampAndCleanMessage(patterns, now, line), src);
      && "level" in p && p["level"].Str? && LogLineParser.IsLevel(p["level"].s)
      && "timestamp" in p && p["timestamp"] == Str(LogLineParser.ParseTimestamp(patterns, line, now).0)
      && "source" in p && p["source"] == src.sourceLabel
  {
    var parsed := LogLineParser.ExtractTimestampAndCleanMessage(patterns, now, line);
    InOrderShape(parsed, src);
  }

  /** The keys of an in-order payload of any parsed line. */
  lemma InOrderShape(parsed: LogLineParser.ParsedLine, src: Source)
    ensures var p := Payload(parsed, src);
      && "level" in p && p["level"] == Str(parsed.level)
      && "timestamp" in p && p["timestamp"] == Str(parsed.timestamp)
      && "source" in p && p["source"] == src.sourceLabel
  {
  }

  /** Through the asynchronous sinks an app-log payload as written binds a
      list to the TEXT `level` column. */
  lemma AsWrittenLevelReachesSink(parsed: LogLineParser.ParsedLine, src: Source, postgres: bool)
    ensures var ins := SinkInserts.InsertFor(SinkInserts.AppLogHandler, PayloadAsWritten(parsed, src), postgres);
      |ins.values| == 5 && ins.values[4].List?
  {
    SinkInserts.InsertLinesUp(SinkInserts.AppLogHandler, PayloadAsWritten(parsed, src), postgres);
    assert SqlDefinitions.Names(SqlDefinitions.AppLogColumns)[4] == "level";
  }

  /** The payloads one poll posts, one per posted line, in file order, as
      `post_log` unpacks the parser's result: `level` holds the line's
      fields, `timestamp` its level name and `message` its time. */
  function PollPayloads(patterns: seq<LogLineParser.TimestampPattern>, now: string, src: Source, lines: seq<string>): (r: seq<Dict>)
    ensures |r| == |lines|
    ensures forall i :: 0 <= i < |lines| ==>
      && "level" in r[i] && r[i]["level"].List? && |r[i]["level"].items| >= 1
      && "timestamp" in r[i] && r[i]["timestamp"].Str? && LogLineParser.IsLevel(r[i]["timestamp"].s)
      && "message" in r[i] && r[i]["message"] == Str(LogLineParser.ParseTimestamp(patterns, lines[i], now).0)
      && "source" in r[i] && r[i]["source"] == src.sourceLabel
  {
    var r := seq(|lines|, i requires 0 <= i < |lines| =>
      PayloadAsWritten(LogLineParser.ExtractTimestampAndCleanMessage(patterns, now, lines[i]), src));
    PolledAsWritten(patterns, now, src, lines, r);
    r
  }

  lemma PolledAsWritten(patterns: seq<LogLineParser.TimestampPattern>, now: string, src: Source, lines: seq<string>, r: seq<Dict>)
    requires |r| == |lines|
    requires forall i :: 0 <= i < |lines| ==>
      r[i] == PayloadAsWritten(LogLineParser.ExtractTimestampAndCleanMessage(patterns, now, lines[i]), src)
    ensures forall i :: 0 <= i < |lines| ==>
      && "level" in r[i] && r[i]["level"].List? && |r[i]["level"].items| >= 1
      && "timestamp" in r[i] && r[i]["timestamp"].Str? && LogLineParser.IsLevel(r[i]["timestamp"].s)
      && "message" in r[i] && r[i]["message"] == Str(LogLineParser.ParseTimestamp(patterns, lines[i], now).0)
      && "source" in r[i] && r[i]["source"] == src.sourceLabel
  {
    forall i | 0 <= i < |lines|
      ensures && "level" in r[i] && r[i]["level"].List? && |r[i]["level"].items| >= 1
        && "timestamp" in r[i] && r[i]["timestamp"].Str? && LogLineParser.IsLevel(r[i]["timestamp"].s)
        && "message" in r[i] && r[i]["message"] == Str(LogLineParser.ParseTimestamp(patterns, lines[i], now).0)
        && "source" in r[i] && r[i]["source"] == src.sourceLabel
    {
      PostedAsWritten(patterns, now, src, lines[i]);
    }
  }

  lemma PostedAsWritten(patterns: seq<LogLineParser.TimestampPattern>, now: string, src: Source, line: string)
    ensures var p := PayloadAsWritten(LogLineParser.ExtractTimestampAndCleanMessage(patterns, now, line), src);
      && "level" in p && p["level"].List? && |p["level"].items| >= 1
      && "timestamp" in p && p["timestamp"].Str? && LogLineParser.IsLevel(p["timestamp"].s)
      && "message" in p && p["message"] == Str(LogLineParser.ParseTimestamp(patterns, line, now).0)
      && "source" in p && p["source"] == src.sourceLabel
  {
    var parsed := LogLineParser.ExtractTimestampAndCleanMessage(patterns, now, line);
    AsWrittenShape(parsed, src);
  }

  /** The payloads of one poll with the parser's result bound in the order
      it is returned: `level` holds the level and `timestamp` the time. */
  function CorrectedPollPayloads(patterns: seq<LogLineParser.TimestampPattern>, now: string, src: Source, lines: seq<string>): (r: seq<Dict>)
    ensures |r| == |lines|
    ensures forall i :: 0 <= i < |lines| ==>
      && "level" in r[i] && r[i]["level"].Str? && LogLineParser.IsLevel(r[i]["level"].s)
      && "timestamp" in r[i] && r[i]["timestamp"] == Str(LogLineParser.ParseTimestamp(patterns, lines[i], now).0)
      && "source" in r[i] && r[i]["source"] == src.sourceLabel
  {
    var r := seq(|lines|, i requires 0 <= i < |lines| =>
      Payload(LogLineParser.ExtractTimestampAndCleanMessage(patterns, now, lines[i]), src));
    PolledInOrder(patterns, now, src, lines, r);
    r
  }

  lemma PolledInOrder(patterns: seq<LogLineParser.TimestampPattern>, now: string, src: Source, lines: seq<string>, r: seq<Dict>)
    requires |r| == |lines|
    requires forall i :: 0 <= i < |lines| ==>
      r[i] == Payload(LogLineParser.ExtractTimestampAndCleanMessage(patterns, now, lines[i]), src)
    ensures forall i :: 0 <= i < |lines| ==>
      && "level" in r[i] && r[i]["level"].Str? && LogLineParser.IsLevel(r[i]["level"].s)
      && "timestamp" in r[i] && r[i]["timestamp"] == Str(LogLineParser.ParseTimestamp(patterns, lines[i], now).0)
      && "source" in r[i] && r[i]["source"] == src.sourceLabel
  {
    forall i | 0 <= i < |lines|
      ensures && "level" in r[i] && r[i]["level"].Str? && LogLineParser.IsLevel(r[i]["level"].s)
        && "timestamp" in r[i] && r[i]["timestamp"] == Str(LogLineParser.ParseTimestamp(patterns, lines[i], now).0)
        && "source" in r[i] && r[i]["source"] == src.sourceLabel
    {
      PayloadCarriesLevelAndTime(patterns, now, lines[i], src);
    }
  }

  /** What `main` does with the configuration: exit with status 1 when no
      source is configured, otherwise tail every source against the ingest
      endpoint. */
  datatype Launch = Exit(code: int) | Watch(endpoint: string, sources: Value)

  function Endpoint(host: Value, port: Value): string {
    "http://" + Display(host) + ":" + Display(port) + "/log"
  }

  function Main(config: Dict): (r: Launch)
    ensures r.Exit? <==> !Truthy(GetOr(config, "source_log_tails", List([])))
    ensures r.Exit? ==> r.code == 1
    ensures r.Watch? ==> r.sources == config["source_log_tails"]
    ensures r.Watch? ==> (r.endpoint ==
      Endpoint(GetOr(config, "ingest_backend_host", Str("127.0.0.1")), GetOr(config, "ingest_backend_port", Int(8001))))
  {
    var sources := GetOr(config, "source_log_tails", List([]));
    if !Truthy(sources) then Exit(1)
    else Watch(Endpoint(GetOr(config, "ingest_backend_host", Str("127.0.0.1")), GetOr(config, "ingest_backend_port", Int(8001))), sources)
  }

  /** Without host and port settings the endpoint is the local ingest
      service on port 8001. */
  lemma DefaultEndpoint(sources: Value)
    requires Truthy(sources)
    ensures Main(map["source_log_tails" := sources]) == Watch("http://127.0.0.1:8001/log", sources)
  {
    var config := map["source_log_tails" := sources];
    assert GetOr(config, "ingest_backend_host", Str("127.0.0.1")) == Str("127.0.0.1");
    assert GetOr(config, "ingest_backend_port", Int(8001)) == Int(8001);
    LocalEndpoint();
  }

  /** The endpoint of the local ingest service on its default port. */
  lemma LocalEndpoint()
    ensures Endpoint(Str("127.0.0.1"), Int(8001)) == "http://127.0.0.1:8001/log"
  {
    DefaultPortText();
    EndpointText(Int(8001));
  }

  /** The endpoint text around a port that displays as `8001`. */
  lemma EndpointText(port: Value)
    requires Display(port) == "8001"
    ensures Endpoint(Str("127.0.0.1"), port) == "http://127.0.0.1:8001/log"
  {
  }

  /** `str(8001)`, one digit at a time. */
  lemma DefaultPortText()
    ensures Display(Int(8001)) == "8001"
  {
    Numerals.AppendDigit(0, 8);
    Numerals.AppendDigit(8, 0);
    Numerals.AppendDigit(80, 0);
    Numerals.AppendDigit(800, 1);
  }
}

/** producers/log_producer/log_tail.py: one configured file, every line
    posted verbatim as an INFO app log. */
module LogTail {

  import opened Wrappers
  import opened Values
  import opened FileTail
  import SinkInserts
  import SqlDefinitions
  import SqliteAsyncSink

  /** The fixed payload of a posted line; `now` is the posting time. */
  function Payload(message: string, now: string, sourceLabel: Value): Dict {
    map["timestamp" := Str(now), "event_type" := Str("app_log"), "message" := Str(message),
        "source" := sourceLabel, "level" := Str("INFO")]
  }

  lemma PayloadProjection(message: string, now: string, sourceLabel: Value)
    ensures SinkInserts.ProjectValues(Payload(message, now, sourceLabel), SqlDefinitions.AppLogColumns)
      == [Str(now), Str("app_log"), sourceLabel, Str(message), Str("INFO")]
  {
    var values := SinkInserts.ProjectValues(Payload(message, now, sourceLabel), SqlDefinitions.AppLogColumns);
    assert values[0] == Str(now);
    assert values[1] == Str("app_log");
    assert values[2] == sourceLabel;
    assert values[3] == Str(message);
    assert values[4] == Str("INFO");
  }

  /** One poll. When the file is missing the error is only constructed, so
      the following size query fails and ends the tailer. */
  function Poll(path: string, offset: nat, f: File): (r: Result<(nat, seq<string>)>)
    ensures r.Err? <==> f.Missing?
    ensures r.Err? ==> r.error == FileNotFoundError(path)
    ensures f.Present? && |f.content| > offset ==> r == Ok((|f.content|, PostedLines(f.content[offset..])))
    ensures f.Present? && |f.content| <= offset ==> r == Ok((offset, []))
  {
    match f
    case Missing => Err(FileNotFoundError(path))
    case Present(c) =>
      var s := ReadNew(offset, c);
      Ok((s.offset, if s.chunk.Some? then PostedLines(s.chunk.value) else []))
  }

  /** Every posted line is stored by the SQLite sink as one app-log row
      carrying the line, the label and level INFO. */
  lemma PostedLineIsStoredAsAppLog(message: string, now: string, sourceLabel: Value, written: seq<SinkInserts.Insert>, postgres: bool)
    ensures var r := SqliteAsyncSink.HandleAsync(Payload(message, now, sourceLabel), written, postgres, false);
      && r.Ok? && |r.value| == |written| + 1
      && r.value[|written|].values == [Str(now), Str("app_log"), sourceLabel, Str(message), Str("INFO")]
  {
    var p := Payload(message, now, sourceLabel);
    assert Get(p, "event_type") == Str("app_log");
    SqliteAsyncSink.AppLogIsWritten(p, written, postgres);
    PayloadProjection(message, now, sourceLabel);
  }
}

/** backend/ingest/source/log_tail.py: the whole new text handed to a
    callback in one piece. */
module BackendLogTail {

  import opened Wrappers
  import opened Text
  import opened FileTail

  /** This tailer starts at offset 0, so its first poll hands over the file
      as it already is. */
  const StartOffset: nat := 0

  /** One poll: the callback's argument, if it is called, and the offset
      afterwards. */
  function Poll(offset: nat, f: File): (r: (nat, Option<string>))
    ensures r.1.Some? <==> f.Present? && |f.content| > offset
    ensures r.1.Some? ==> r.0 == |f.content| && r.1.value == Strip(f.content[offset..])
    ensures r.1.None? ==> r.0 == offset
  {
    match f
    case Missing => (offset, None)
    case Present(c) =>
      var s := ReadNew(offset, c);
      (s.offset, if s.chunk.Some? then Some(Strip(s.chunk.value)) else None)
  }

  /** The callback is called on growth even when the new text is only
      whitespace, with the empty string. */
  lemma WhitespaceGrowthDeliversEmpty(content: string, added: string)
    requires added != [] && AllSpace(added)
    ensures Poll(|content|, Present(content + added)) == (|content| + |added|, Some(""))
  {
    assert (content + added)[|content|..] == added;
    StripAllSpace(added);
  }
}

=== FILE: src/ingest_api.dfy ===
/** The ingest service (api/ingest/main.py): the start-up choice of sink and
    the decisions of `POST /log` and `POST /event`. The sink call is a
    parameter over an arbitrary sink state, so the routes can be composed
    with the modelled sinks. */
module IngestApi {

  import opened Wrappers
  import opened Text
  import opened Values
  import SinkInserts
  import SqliteAsyncSink

  /** A JSON response: status code and body. */
  datatype Reply = Reply(status: nat, body: Dict)

  const Received: Dict := map["received" := Bool(true)]
  const MissingEventType: Dict := map["error" := Str("event_type is missing")]
  const UnexpectedError: Dict := map["error" := Str("Unexpected error")]

  /** `POST /log`: only the presence of `event_type` is checked; the sink's
      failure is reported as 500 and leaves the sink state as it was. */
  function ReceiveLog<S>(event: Dict, state: S, handle: (Dict, S) -> Result<S>): (r: (Reply, S))
    ensures r.0.status == 400 <==> "event_type" !in event
    ensures r.0.status == 400 ==> r.0.body == MissingEventType
    ensures r.0.status == 500 <==> "event_type" in event && handle(event, state).Err?
    ensures r.0.status == 500 ==> r.0.body == UnexpectedError
    ensures r.0.status == 200 <==> "event_type" in event && handle(event, state).Ok?
    ensures r.0.status == 200 ==> r.0.body == Received && r.1 == handle(event, state).value
    ensures r.0.status != 200 ==> r.1 == state
  {
    if "event_type" !in event then (Reply(400, MissingEventType), state)
    else match handle(event, state)
      case Err(_) => (Reply(500, UnexpectedError), state)
      case Ok(next) => (Reply(200, Received), next)
  }

  /** `str(e)` for the exceptions whose text is their message argument. */
  function Describe(e: Error): string {
    match e
    case ValueError(m) => m
    case TypeError(m) => m
    case NotImplementedError(m) => m
    case DatabaseError(m) => m
    case OverflowError(m) => m
    case KeyError(k) => "'" + k + "'"
    case AttributeError(name) => name
    case FileNotFoundError(path) => path
    case IndexError => "list index out of range"
  }

  /** `POST /event`: a sink failure is returned as `{"error": str(e)}` with
      status 200; no key is checked first. */
  function ReceiveEvent<S>(event: Dict, state: S, handle: (Dict, S) -> Result<S>): (r: (Reply, S))
    ensures r.0.status == 200
    ensures handle(event, state).Err? ==> r == (Reply(200, map["error" := Str(Describe(handle(event, state).error))]), state)
    ensures handle(event, state).Ok? ==> r == (Reply(200, Received), handle(event, state).value)
  {
    match handle(event, state)
    case Err(e) => (Reply(200, map["error" := Str(Describe(e))]), state)
    case Ok(next) => (Reply(200, Received), next)
  }

  /** The SQLite sink as the `/log` handler, over the rows written so far.
      As written the sink cannot be instantiated (see `AbstractSinkError`),
      so this is the handler of the sink as intended. */
  function SqliteLogHandler(postgres: bool, insertFails: bool): (Dict, seq<SinkInserts.Insert>) -> Result<seq<SinkInserts.Insert>> {
    (d: Dict, w: seq<SinkInserts.Insert>) => SqliteAsyncSink.HandleAsync(d, w, postgres, insertFails)
  }

  /** Through the SQLite sink, `/log` answers 200 for every record with a
      hashable `event_type`, writes at most one row, and writes nothing for a
      record it rejects. */
  lemma LogThroughSqliteSink(event: Dict, written: seq<SinkInserts.Insert>, postgres: bool, insertFails: bool)
    ensures var r := ReceiveLog(event, written, SqliteLogHandler(postgres, insertFails));
      && (r.0.status == 200 <==> "event_type" in event && SinkInserts.Hashable(event["event_type"]))
      && (r.0.status != 200 ==> r.1 == written)
      && |written| <= |r.1| <= |written| + 1
      && r.1[..|written|] == written
  {
    var r := SqliteAsyncSink.HandleAsync(event, written, postgres, insertFails);
    if r.Ok? && r.value != written {
      var h :| r.value == written + [SinkInserts.InsertFor(h, event, postgres)];
      assert r.value[..|written|] == written;
    }
  }

  /** A record whose `event_type` is `null` passes validation and, having no
      handler, is acknowledged without writing anything. */
  lemma NullEventTypeAcknowledged(written: seq<SinkInserts.Insert>, postgres: bool)
    ensures ReceiveLog(map["event_type" := Null], written, SqliteLogHandler(postgres, false))
      == (Reply(200, Received), written)
  {
  }

  /** The SQLite sink as the `/event` handler: its synchronous entry point
      always raises. */
  function SqliteEventHandler(): (Dict, seq<SinkInserts.Insert>) -> Result<seq<SinkInserts.Insert>> {
    (d: Dict, w: seq<SinkInserts.Insert>) => match SqliteAsyncSink.HandleEvent(d)
      case Err(e) => Err(e)
      case Ok(_) => Ok(w)
  }

  /** With the SQLite sink every `/event` is answered with the
      not-implemented message and nothing is written. */
  lemma EventThroughSqliteSink(event: Dict, written: seq<SinkInserts.Insert>)
    ensures ReceiveEvent(event, written, SqliteEventHandler())
      == (Reply(200, map["error" := Str("This function is not implemented.")]), written)
  {
  }

  // ---------------------------------------------------------------------------
  // Start-up choice of sink
  // ---------------------------------------------------------------------------

  datatype IngestSink = MemorySqlite | AsyncSqlite(path: string)

  /** The configuration the choice reads, in the order the module reads it. */
  datatype Settings = Settings(ingestSinkType: string, sqlitePath: Value, strategy: string, listenerSinkType: string)

  function ReadSettings(config: Dict): (r: Result<Settings>)
    ensures r.Ok? <==> (GetLower(config, "ingest_sink_type", "asyncsqlite").Ok?
      && GetLower(config, "backend_strategy", "sqlite").Ok?
      && GetLower(config, "listener_sink_type", "sqlite").Ok?)
    ensures r.Ok? ==> r.value.sqlitePath == GetOr(config, "sqlite_path", Str("eventlog.db"))
  {
    var ingest :- GetLower(config, "ingest_sink_type", "asyncsqlite");
    var path := GetOr(config, "sqlite_path", Str("eventlog.db"));
    var strategy :- GetLower(config, "backend_strategy", "sqlite");
    var listener :- GetLower(config, "listener_sink_type", "sqlite");
    Ok(Settings(ingest, path, strategy, listener))
  }

  /** Instantiating `AsyncSqliteSink` fails before its constructor runs:
      the class never defines the `_handle_event` its base class declares
      abstract. A `database_path` keyword, which the constructor does not
      have either, would otherwise fail next. */
  const AbstractSinkError: Error :=
    TypeError("Can't instantiate abstract class AsyncSqliteSink with abstract method _handle_event")

  /** The choice as written: the asynchronous SQLite sink cannot be
      instantiated, so only the in-memory sink ever starts. */
  function ChooseSinkAsWritten(s: Settings): (r: Result<IngestSink>)
    ensures r.Ok? ==> r.value == MemorySqlite
    ensures s.strategy != "sqlite" ==> r.Err?
    ensures s.strategy == "sqlite" && s.listenerSinkType != "backend_http_inmemory" && s.ingestSinkType == "asyncsqlite"
      ==> r == Err(AbstractSinkError)
  {
    if s.strategy != "sqlite" then Err(ValueError("Unsupported strategy in config: " + s.strategy))
    else if s.listenerSinkType == "backend_http_inmemory" then Ok(MemorySqlite)
    else if s.ingestSinkType == "asyncsqlite" then Err(AbstractSinkError)
    else Err(ValueError("Unsupported listener_sink_type in config: " + s.ingestSinkType))
  }

  /** The choice as intended: the sink implements `_handle_event`, so it
      can be instantiated, and receives the configured path as its URL. */
  function ChooseSink(s: Settings): (r: Result<IngestSink>)
    ensures r.Ok? ==> s.strategy == "sqlite"
    ensures r == Ok(MemorySqlite) <==> s.strategy == "sqlite" && s.listenerSinkType == "backend_http_inmemory"
    ensures r.Ok? && r.value.AsyncSqlite? <==> (s.strategy == "sqlite" && s.listenerSinkType != "backend_http_inmemory"
      && s.ingestSinkType == "asyncsqlite" && s.sqlitePath.Str?)
    ensures r.Ok? && r.value.AsyncSqlite? ==> r.value.path == SqliteAsyncSink.DatabasePath(s.sqlitePath.s)
  {
    if s.strategy != "sqlite" then Err(ValueError("Unsupported strategy in config: " + s.strategy))
    else if s.listenerSinkType == "backend_http_inmemory" then Ok(MemorySqlite)
    else if s.ingestSinkType == "asyncsqlite" then
      match s.sqlitePath
      case Str(p) => Ok(AsyncSqlite(SqliteAsyncSink.DatabasePath(p)))
      case _ => Err(AttributeError("startswith"))
    else Err(ValueError("Unsupported listener_sink_type in config: " + s.ingestSinkType))
  }

  /** The database schema is ensured at start-up only for the asynchronous
      SQLite sink. */
  predicate EnsuresSchemaAtStartup(sink: IngestSink) {
    sink.AsyncSqlite?
  }

  /** An empty configuration, as written, fails at start-up because the
      asynchronous sink is abstract; as intended it writes to `eventlog.db`. */
  lemma DefaultConfiguration()
    ensures ReadSettings(map[]) == Ok(Settings("asyncsqlite", Str("eventlog.db"), "sqlite", "sqlite"))
    ensures ChooseSinkAsWritten(Settings("asyncsqlite", Str("eventlog.db"), "sqlite", "sqlite")) == Err(AbstractSinkError)
    ensures ChooseSink(Settings("asyncsqlite", Str("eventlog.db"), "sqlite", "sqlite")) == Ok(AsyncSqlite("eventlog.db"))
  {
    LowerOfLower("asyncsqlite");
    LowerOfLower("sqlite");
    assert !StartsWith("eventlog.db", SqliteAsyncSink.SqlitePrefix) by {
      assert "eventlog.db"[0] != SqliteAsyncSink.SqlitePrefix[0];
    }
  }

  /** Both choices agree whenever the written one succeeds. */
  lemma CorrectionKeepsMemorySink(s: Settings)
    ensures ChooseSinkAsWritten(s).Ok? ==> ChooseSink(s) == ChooseSinkAsWritten(s)
  {
  }
}

=== FILE: src/legacy.dfy ===
/** The legacy single-tenant `events` table (helpers/sql_definitions.py):
    its nine bound columns, and the meaning of the legacy SELECT, which reads
    the 100 rows with the earliest timestamps. */
module LegacySchema {

  import opened Wrappers
  import opened Text
  import opened Values
  import opened SqlDefinitions
  import Numerals

  /** The columns `INSERT_EVENT` binds, in order; `id` is assigned by the
      table. */
  const EventColumns: seq<Column> := [
    Column("testid", "TEXT"), Column("timestamp", "TEXT"), Column("event_type", "TEXT"),
    Column("name", "TEXT"), Column("suite", "TEXT"), Column("status", "TEXT"),
    Column("message", "TEXT"), Column("elapsed", "INTEGER"), Column("tags", "TEXT")]

  /** The columns `SELECT_ALL_EVENTS` reads, in order. */
  const SelectColumns: seq<string> :=
    ["timestamp", "event_type", "name", "suite", "status", "message", "elapsed", "tags"]

  const SelectLimit: nat := 100

  const InsertEvent: string := InsertInto("events", false, EventColumns)

  /** The legacy INSERT names the nine columns in order and binds nine `?`
      placeholders. */
  lemma InsertEventBindsNine()
    ensures InsertColumns(InsertEvent) == ["testid", "timestamp", "event_type", "name", "suite",
                                           "status", "message", "elapsed", "tags"]
    ensures InsertPlaceholders(InsertEvent) == Repeat("?", 9)
  {
    EventColumnsWellNamed();
    assert Identifier("events");
    InsertListsColumns("events", false, EventColumns);
    EventColumnNames();
    assert Placeholder(false) == "?";
  }

  lemma EventColumnNames()
    ensures Names(EventColumns) == ["testid", "timestamp", "event_type", "name", "suite",
                                    "status", "message", "elapsed", "tags"]
  {
  }

  lemma EventColumnsWellNamed()
    ensures WellNamed(EventColumns)
  {
    CommonNamesAreIdentifiers();
    TestNamesAreIdentifiers();
  }

  /** A row of the table: its bound columns by name. */
  type EventTable = seq<Dict>

  // ---------------------------------------------------------------------------
  // ORDER BY timestamp ASC
  // ---------------------------------------------------------------------------

  /** SQLite's storage classes in sort order: NULL, numbers (a bool is
      stored as 0 or 1), text; values no column can hold sort last. */
  function Rank(v: Value): nat {
    match v
    case Null => 0
    case Bool(_) => 1
    case Int(_) => 1
    case Str(_) => 2
    case _ => 3
  }

  function Numeric(v: Value): int
    requires v.Bool? || v.Int?
  {
    if v.Bool? then (if v.b then 1 else 0) else v.i
  }

  /** Text compared code point by code point (the BINARY collation). */
  predicate LexLe(a: string, b: string) {
    |a| == 0 || (|b| > 0 && (a[0] < b[0] || (a[0] == b[0] && LexLe(a[1..], b[1..]))))
  }

  predicate KeyLe(a: Value, b: Value) {
    if Rank(a) != Rank(b) then Rank(a) < Rank(b)
    else if Rank(a) == 1 then Numeric(a) <= Numeric(b)
    else if Rank(a) == 2 then LexLe(a.s, b.s)
    else true
  }

  lemma {:induction false} LexTotal(a: string, b: string)
    ensures LexLe(a, b) || LexLe(b, a)
  {
    if |a| > 0 && |b| > 0 && a[0] == b[0] {
      LexTotal(a[1..], b[1..]);
    }
  }

  lemma {:induction false} LexTransitive(a: string, b: string, c: string)
    requires LexLe(a, b) && LexLe(b, c)
    ensures LexLe(a, c)
  {
    if |a| > 0 && a[0] == b[0] && b[0] == c[0] {
      LexTransitive(a[1..], b[1..], c[1..]);
    }
  }

  /** The order is a total preorder, as ORDER BY needs. */
  lemma KeyTotal(a: Value, b: Value)
    ensures KeyLe(a, b) || KeyLe(b, a)
  {
    if a.Str? && b.Str? {
      LexTotal(a.s, b.s);
    }
  }

  lemma KeyTransitive(a: Value, b: Value, c: Value)
    requires KeyLe(a, b) && KeyLe(b, c)
    ensures KeyLe(a, c)
  {
    if a.Str? && b.Str? && c.Str? {
      LexTransitive(a.s, b.s, c.s);
    }
  }

  function Key(row: Dict): Value {
    Get(row, "timestamp")
  }

  predicate Sorted(rows: EventTable) {
    forall i, j :: 0 <= i < j < |rows| ==> KeyLe(Key(rows[i]), Key(rows[j]))
  }

  /** Places a row after every row whose timestamp is not later, so that
      rows with equal timestamps keep their insertion order. */
  function InsertSorted(rows: EventTable, row: Dict): (r: EventTable)
    requires Sorted(rows)
    ensures Sorted(r)
    ensures multiset(r) == multiset(rows) + multiset{row}
    ensures |r| == |rows| + 1
  {
    if rows == [] then [row]
    else
      var n := |rows| - 1;
      if KeyLe(Key(rows[n]), Key(row)) then
        AppendLater(rows, row);
        rows + [row]
      else
        var front := InsertSorted(rows[..n], row);
        KeyTotal(Key(rows[n]), Key(row));
        AppendLast(rows, row, front);
        front + [rows[n]]
  }

  lemma AppendLater(rows: EventTable, row: Dict)
    requires Sorted(rows) && |rows| > 0 && KeyLe(Key(rows[|rows| - 1]), Key(row))
    ensures Sorted(rows + [row])
  {
    var n := |rows| - 1;
    forall i | 0 <= i < n
      ensures KeyLe(Key(rows[i]), Key(row))
    {
      KeyTransitive(Key(rows[i]), Key(rows[n]), Key(row));
    }
  }

  /** The last row goes after the others once the new row is placed among
      them. */
  lemma AppendLast(rows: EventTable, row: Dict, front: EventTable)
    requires Sorted(rows) && |rows| > 0 && Sorted(front)
    requires multiset(front) == multiset(rows[..|rows| - 1]) + multiset{row}
    requires KeyLe(Key(row), Key(rows[|rows| - 1]))
    ensures Sorted(front + [rows[|rows| - 1]])
    ensures multiset(front + [rows[|rows| - 1]]) == multiset(rows) + multiset{row}
  {
    var n := |rows| - 1;
    assert rows == rows[..n] + [rows[n]];
    forall x | x in front
      ensures KeyLe(Key(x), Key(rows[n]))
    {
      assert x in multiset(front);
      if x != row {
        assert x in multiset(rows[..n]);
        var i :| 0 <= i < n && rows[..n][i] == x;
        assert KeyLe(Key(rows[i]), Key(rows[n]));
      }
    }
    var r := front + [rows[n]];
    forall i, j | 0 <= i < j < |r|
      ensures KeyLe(Key(r[i]), Key(r[j]))
    {
      if j < |front| {
        assert r[i] == front[i] && r[j] == front[j];
      } else {
        assert r[i] in front;
      }
    }
  }

  /** `ORDER BY timestamp ASC`, with rows of equal timestamps in insertion
      order. */
  function SortByTimestamp(rows: EventTable): (r: EventTable)
    ensures Sorted(r)
    ensures multiset(r) == multiset(rows)
    ensures |r| == |rows|
  {
    if rows == [] then []
    else
      var n := |rows| - 1;
      assert rows == rows[..n] + [rows[n]];
      InsertSorted(SortByTimestamp(rows[..n]), rows[n])
  }

  /** `ORDER BY timestamp ASC LIMIT 100`: the earliest rows, in order; no row
      left out is earlier than a row returned. */
  function Earliest(rows: EventTable, limit: nat): (r: EventTable)
    ensures |r| == if |rows| < limit then |rows| else limit
    ensures Sorted(r)
    ensures multiset(r) <= multiset(rows)
    ensures forall x :: x in multiset(rows) - multiset(r) ==> forall y :: y in r ==> KeyLe(Key(y), Key(x))
  {
    var sorted := SortByTimestamp(rows);
    var k := if |rows| < limit then |rows| else limit;
    SortedPrefix(sorted, k);
    sorted[..k]
  }

  /** A prefix of a sorted table is sorted, and no row after it is earlier
      than a row in it. */
  lemma SortedPrefix(sorted: EventTable, k: nat)
    requires Sorted(sorted) && k <= |sorted|
    ensures Sorted(sorted[..k])
    ensures multiset(sorted[..k]) <= multiset(sorted)
    ensures forall x :: x in multiset(sorted) - multiset(sorted[..k]) ==>
      forall y :: y in sorted[..k] ==> KeyLe(Key(y), Key(x))
  {
    var r := sorted[..k];
    PrefixRemainder(sorted, k);
    forall x, y | x in multiset(sorted[k..]) && y in r
      ensures KeyLe(Key(y), Key(x))
    {
      PrefixBeforeRest(sorted, k, x, y);
    }
  }

  /** A row of a sorted table's prefix is not later than a row after it. */
  lemma PrefixBeforeRest(sorted: EventTable, k: nat, x: Dict, y: Dict)
    requires Sorted(sorted) && k <= |sorted|
    requires x in sorted[k..] && y in sorted[..k]
    ensures KeyLe(Key(y), Key(x))
  {
    var j :| 0 <= j < |sorted[k..]| && sorted[k..][j] == x;
    var i :| 0 <= i < k && sorted[..k][i] == y;
    assert sorted[i] == y && sorted[k + j] == x;
  }

  /** What a prefix leaves of a sequence's multiset is the rest's. */
  lemma PrefixRemainder<T>(s: seq<T>, k: nat)
    requires k <= |s|
    ensures multiset(s[..k]) <= multiset(s)
    ensures multiset(s) - multiset(s[..k]) == multiset(s[k..])
  {
    assert s == s[..k] + s[k..];
  }

  /** `dict(zip(columns, row))` over the selected columns. */
  function Project(row: Dict, columns: seq<string>): (d: Dict)
    ensures d.Keys == set c | c in columns
    ensures forall c :: c in columns ==> d[c] == Get(row, c)
  {
    map c | c in columns :: Get(row, c)
  }

  /** One projected row per row given, in order. */
  function ProjectRows(rows: EventTable, columns: seq<string>): (r: seq<Dict>)
    ensures |r| == |rows|
    ensures forall i :: 0 <= i < |rows| ==> r[i] == Project(rows[i], columns)
  {
    seq(|rows|, i requires 0 <= i < |rows| => Project(rows[i], columns))
  }

  /** The projections of a table's rows. */
  function Projections(table: EventTable, columns: seq<string>): set<Dict> {
    set row | row in table :: Project(row, columns)
  }

  /** `r` is what `ORDER BY timestamp ASC LIMIT limit` reads from `table`
      projected onto `columns`: min(limit, size) rows, each the projection
      of a row of the table and no row read more often than the table holds
      it, in timestamp order, and every row of the table earlier than a row
      read is read too. */
  predicate EarliestRead(table: EventTable, columns: seq<string>, limit: nat, r: seq<Dict>) {
    && |r| == (if |table| < limit then |table| else limit)
    && (forall i :: 0 <= i < |r| ==> r[i] in Projections(table, columns))
    && multiset(r) <= multiset(ProjectRows(table, columns))
    && (forall i, j :: 0 <= i < j < |r| ==> KeyLe(Get(r[i], "timestamp"), Get(r[j], "timestamp")))
    && (forall x, i :: x in table && 0 <= i < |r| && !KeyLe(Get(r[i], "timestamp"), Key(x)) ==>
          Project(x, columns) in r)
  }

  /** Projecting the earliest rows reads the table as the SELECT does. */
  lemma EarliestProjected(table: EventTable, columns: seq<string>, limit: nat)
    requires "timestamp" in columns
    ensures EarliestRead(table, columns, limit, ProjectRows(Earliest(table, limit), columns))
  {
    var sel := Earliest(table, limit);
    ProjectRowsMonotone(sel, table, columns);
    ProjectedFromTable(table, sel, columns);
    ProjectedInOrder(sel, columns);
    ProjectedComplete(table, sel, columns);
  }

  /** Projecting keeps multiplicities: the projections of a sub-multiset
      of rows are a sub-multiset of the projections. */
  lemma {:induction false} ProjectRowsMonotone(a: EventTable, b: EventTable, columns: seq<string>)
    requires multiset(a) <= multiset(b)
    ensures multiset(ProjectRows(a, columns)) <= multiset(ProjectRows(b, columns))
    decreases |a|
  {
    if a != [] {
      var x := a[0];
      assert x in multiset(b);
      var k :| 0 <= k < |b| && b[k] == x;
      var rest := b[..k] + b[k + 1..];
      assert b == b[..k] + [x] + b[k + 1..];
      assert multiset(rest) == multiset(b) - multiset{x};
      assert a == [x] + a[1..];
      ProjectRowsMonotone(a[1..], rest, columns);
      ProjectRowsAppend([x], a[1..], columns);
      ProjectRowsAppend(b[..k], b[k + 1..], columns);
      ProjectRowsAppend(b[..k] + [x], b[k + 1..], columns);
      ProjectRowsAppend(b[..k], [x], columns);
    }
  }

  lemma ProjectRowsAppend(a: EventTable, b: EventTable, columns: seq<string>)
    ensures ProjectRows(a + b, columns) == ProjectRows(a, columns) + ProjectRows(b, columns)
  {
  }

  lemma ProjectedFromTable(table: EventTable, sel: EventTable, columns: seq<string>)
    requires multiset(sel) <= multiset(table)
    ensures var r := ProjectRows(sel, columns);
      forall i :: 0 <= i < |r| ==> r[i] in Projections(table, columns)
  {
    forall i | 0 <= i < |sel|
      ensures sel[i] in table
    {
      assert sel[i] in multiset(sel);
      assert sel[i] in multiset(table);
    }
  }

  /** Projection keeps each row's timestamp, so a sorted selection reads in
      timestamp order. */
  lemma ProjectedInOrder(sel: EventTable, columns: seq<string>)
    requires "timestamp" in columns && Sorted(sel)
    ensures var r := ProjectRows(sel, columns);
      forall i, j :: 0 <= i < j < |r| ==> KeyLe(Get(r[i], "timestamp"), Get(r[j], "timestamp"))
  {
    var r := ProjectRows(sel, columns);
    assert forall i :: 0 <= i < |r| ==> Get(r[i], "timestamp") == Key(sel[i]);
  }

  lemma ProjectedComplete(table: EventTable, sel: EventTable, columns: seq<string>)
    requires "timestamp" in columns && multiset(sel) <= multiset(table)
    requires forall x :: x in multiset(table) - multiset(sel) ==> forall y :: y in sel ==> KeyLe(Key(y), Key(x))
    ensures var r := ProjectRows(sel, columns);
      forall x, i :: x in table && 0 <= i < |r| && !KeyLe(Get(r[i], "timestamp"), Key(x)) ==>
        Project(x, columns) in r
  {
    var r := ProjectRows(sel, columns);
    forall x, i | x in table && 0 <= i < |r| && !KeyLe(Get(r[i], "timestamp"), Key(x))
      ensures Project(x, columns) in r
    {
      assert Get(r[i], "timestamp") == Key(sel[i]);
      assert sel[i] in sel;
      if x !in multiset(sel) {
        assert false;
      }
      var k :| 0 <= k < |sel| && sel[k] == x;
      assert r[k] == Project(x, columns);
    }
  }

  /** `SELECT_ALL_EVENTS`: the 100 earliest rows, projected onto the eight
      selected columns. */
  function SelectAllEvents(table: EventTable): (r: seq<Dict>)
    ensures EarliestRead(table, SelectColumns, SelectLimit, r)
    ensures forall i :: 0 <= i < |r| ==> r[i].Keys == set c | c in SelectColumns
  {
    assert SelectColumns[0] == "timestamp";
    EarliestProjected(table, SelectColumns, SelectLimit);
    ProjectRows(Earliest(table, SelectLimit), SelectColumns)
  }

  // ---------------------------------------------------------------------------
  // A table on disk: its declared columns and its rows
  // ---------------------------------------------------------------------------

  /** A database's `events` table: the columns its CREATE declared, and its
      rows, each keyed by the columns its INSERT named (a column an INSERT
      leaves out reads as NULL). */
  datatype StoredTable = StoredTable(columns: set<string>, rows: EventTable)

  /** The columns `CREATE_EVENTS_TABLE` declares. */
  const EventTableColumns: set<string> :=
    {"id", "testid", "timestamp", "event_type", "name", "suite", "status", "message", "elapsed", "tags"}

  /** A statement naming a column the table lacks fails when it is
      prepared, before any row is touched. */
  function NoSuchColumn(column: string): Error {
    DatabaseError("no such column: " + column)
  }

  /** The first of the named columns, from position `j` on, that the table
      lacks, or the count of names when it has them all. */
  function FirstMissing(columns: seq<string>, has: set<string>, j: nat): (k: nat)
    requires j <= |columns| && forall i :: 0 <= i < j ==> columns[i] in has
    ensures j <= k <= |columns|
    ensures forall i :: 0 <= i < k ==> columns[i] in has
    ensures k < |columns| ==> columns[k] !in has
    decreases |columns| - j
  {
    if j == |columns| || columns[j] !in has then j else FirstMissing(columns, has, j + 1)
  }

  /** The column SQLite reports when it resolves the named columns in
      order: the first one the table lacks. */
  function MissingColumn(columns: seq<string>, has: set<string>): (r: Option<string>)
    ensures r.None? <==> forall i :: 0 <= i < |columns| ==> columns[i] in has
    ensures r.Some? ==> exists k :: (0 <= k < |columns| && columns[k] == r.value && r.value !in has
      && forall i :: 0 <= i < k ==> columns[i] in has)
  {
    var k := FirstMissing(columns, has, 0);
    if k == |columns| then None else Some(columns[k])
  }

  /** `SELECT <columns> FROM events ORDER BY timestamp ASC LIMIT <limit>` on
      a stored table: "no such column" for the first selected column the
      table was not created with, else the earliest rows, projected. */
  function SelectFrom(t: StoredTable, columns: seq<string>, limit: nat): (r: Result<seq<Dict>>)
    requires "timestamp" in columns
    ensures r.Ok? <==> forall i :: 0 <= i < |columns| ==> columns[i] in t.columns
    ensures r.Err? ==> exists k :: (0 <= k < |columns| && columns[k] !in t.columns
      && r.error == NoSuchColumn(columns[k]) && forall i :: 0 <= i < k ==> columns[i] in t.columns)
    ensures r.Ok? ==> EarliestRead(t.rows, columns, limit, r.value)
    ensures r.Ok? ==> forall i :: 0 <= i < |r.value| ==> r.value[i].Keys == set c | c in columns
  {
    match MissingColumn(columns, t.columns)
    case Some(c) => Err(NoSuchColumn(c))
    case None =>
      EarliestProjected(t.rows, columns, limit);
      Ok(ProjectRows(Earliest(t.rows, limit), columns))
  }

  /** Every row of a small table is read, each once; a large table gives
      its 100 earliest. */
  lemma SelectReadsWholeSmallTable(table: EventTable)
    requires |table| <= SelectLimit
    ensures multiset(Earliest(table, SelectLimit)) == multiset(table)
  {
    var r := Earliest(table, SelectLimit);
    assert multiset(table) - multiset(r) == multiset{} by {
      assert |multiset(r)| == |multiset(table)|;
      MultisetSubsetEqualSize(multiset(r), multiset(table));
    }
  }

  lemma MultisetSubsetEqualSize<T>(a: multiset<T>, b: multiset<T>)
    requires a <= b && |a| == |b|
    ensures a == b
  {
    assert |b - a| == |b| - |a|;
    assert b == a + (b - a);
  }

  /** Every row of a table of at most 100 rows is read. */
  lemma SmallTableReadWhole(table: EventTable, columns: seq<string>, row: Dict)
    requires |table| <= SelectLimit && row in table
    ensures Project(row, columns) in ProjectRows(Earliest(table, SelectLimit), columns)
  {
    var sel := Earliest(table, SelectLimit);
    SelectReadsWholeSmallTable(table);
    assert row in multiset(table);
    assert row in sel;
    var k :| 0 <= k < |sel| && sel[k] == row;
    assert ProjectRows(sel, columns)[k] == Project(row, columns);
  }

  // ---------------------------------------------------------------------------
  // Binding parameters and column affinity
  // ---------------------------------------------------------------------------

  const MinInteger: int := -0x8000_0000_0000_0000
  const MaxInteger: int := 0x7FFF_FFFF_FFFF_FFFF

  /** `DELETE` or `SELECT` on a database without the `events` table. */
  const NoSuchTable: Error := DatabaseError("no such table: events")

  /** What sqlite3 binds to a `?`: None as NULL, a bool as 0 or 1, an
      integer that fits in 64 bits, text. */
  predicate Bindable(v: Value) {
    v.Null? || v.Bool? || v.Str? || (v.Int? && MinInteger <= v.i <= MaxInteger)
  }

  /** The exception binding raises: OverflowError for a wider integer, an
      unsupported-type error for a list or dict. */
  function BindError(v: Value): Error
    requires !Bindable(v)
  {
    if v.Int? then OverflowError("Python int too large to convert to SQLite INTEGER")
    else DatabaseError("Error binding parameter: type is not supported")
  }

  /** Binding the parameters in order: the first one that cannot be bound
      raises, and nothing is executed. */
  function BindFailure(values: seq<Value>): (r: Option<Error>)
    ensures r.None? <==> forall i :: 0 <= i < |values| ==> Bindable(values[i])
    ensures r.Some? ==> exists k :: (0 <= k < |values| && !Bindable(values[k]) && r.value == BindError(values[k])
      && forall i :: 0 <= i < k ==> Bindable(values[i]))
  {
    var k := FirstUnbindable(values, 0);
    if k == |values| then None else Some(BindError(values[k]))
  }

  /** The position of the first parameter from `j` on that cannot be bound,
      or the parameter count when there is none. */
  function FirstUnbindable(values: seq<Value>, j: nat): (k: nat)
    requires j <= |values| && forall i :: 0 <= i < j ==> Bindable(values[i])
    ensures j <= k <= |values|
    ensures forall i :: 0 <= i < k ==> Bindable(values[i])
    ensures k < |values| ==> !Bindable(values[k])
    decreases |values| - j
  {
    if j == |values| || !Bindable(values[j]) then j else FirstUnbindable(values, j + 1)
  }

  /** Text that SQLite's INTEGER affinity turns into an integer: an
      optional sign, then decimal digits, with the value within 64 bits. */
  function IntegerLiteral(s: string): (r: Option<int>)
    ensures r.Some? ==> MinInteger <= r.value <= MaxInteger
  {
    if s == [] then None
    else
      var body := if s[0] == '-' || s[0] == '+' then s[1..] else s;
      if body == [] || !Numerals.AllDigits(body) then None
      else
        var d: int := Numerals.DigitsValue(body);
        var v := if s[0] == '-' then -d else d;
        if MinInteger <= v <= MaxInteger then Some(v) else None
  }

  /** A bound value as its column keeps it, by SQLite's column affinity: a
      TEXT column stores a number (a bool as 0 or 1) as its decimal text; an
      INTEGER column stores a bool as 0 or 1 and text spelling an integer as
      that integer. NULL and any other value are kept as bound. */
  function Stored(sqlType: string, v: Value): (r: Value)
    ensures r.Null? <==> v.Null?
    ensures sqlType == "TEXT" && Bindable(v) ==> r.Null? || r.Str?
    ensures sqlType == "TEXT" && v.Str? ==> r == v
    ensures sqlType == "INTEGER" && v.Int? ==> r == v
  {
    if sqlType == "TEXT" then
      match v
      case Int(i) => Str(Numerals.IntToString(i))
      case Bool(b) => Str(if b then "1" else "0")
      case _ => v
    else if sqlType == "INTEGER" then
      match v
      case Bool(b) => Int(if b then 1 else 0)
      case Str(s) => if IntegerLiteral(s).Some? then Int(IntegerLiteral(s).value) else v
      case _ => v
    else v
  }

  /** An integer's decimal text in an INTEGER column is stored as that
      integer again. */
  lemma IntegerColumnReadsRendered(i: int)
    requires MinInteger <= i <= MaxInteger
    ensures Stored("INTEGER", Str(Numerals.IntToString(i))) == Int(i)
  {
    if i < 0 {
      NegativeLiteral(i);
    } else {
      NonNegativeLiteral(i);
    }
  }

  lemma NegativeLiteral(i: int)
    requires MinInteger <= i < 0
    ensures IntegerLiteral(Numerals.IntToString(i)) == Some(i)
  {
    var n: nat := -i;
    var digits := Numerals.NatToString(n);
    Numerals.NatToStringValue(n);
    assert Numerals.IntToString(i) == "-" + digits;
    assert ("-" + digits)[1..] == digits;
  }

  lemma NonNegativeLiteral(i: int)
    requires 0 <= i <= MaxInteger
    ensures IntegerLiteral(Numerals.IntToString(i)) == Some(i)
  {
    var digits := Numerals.NatToString(i);
    Numerals.NatToStringValue(i);
    assert Numerals.IsDigit(digits[0]);
  }

  /** Integer timestamps are stored as text and so ordered as text: 10
      sorts before 5. */
  lemma NumericTimestampsSortAsText()
    ensures Stored("TEXT", Int(10)) == Str("10") && Stored("TEXT", Int(5)) == Str("5")
    ensures KeyLe(Stored("TEXT", Int(10)), Stored("TEXT", Int(5)))
    ensures !KeyLe(Stored("TEXT", Int(5)), Stored("TEXT", Int(10)))
  {
    Numerals.AppendDigit(1, 0);
    assert Numerals.IntToString(10) == "10";
    assert Numerals.IntToString(5) == "5";
    assert LexLe("10", "5");
    assert !LexLe("5", "10");
  }
}

/** backend/sinks/memory_sqlite.py: `MemorySqliteSink`, an in-memory
    legacy events table. */
module MemorySqliteSink {

  import opened Wrappers
  import opened Text
  import opened Values
  import opened LegacySchema

  /** The sink's one `:memory:` connection, seen as its table, created
      empty. `get_connection` hands this connection itself to a reader,
      which then reads and clears the same table (see
      `LegacyEventReaders.Databases`). */
  datatype Sink = Sink(events: EventTable)

  const Initial: Sink := Sink([])

  predicate AllStr(items: seq<Value>) {
    forall i :: 0 <= i < |items| ==> items[i].Str?
  }

  function Strings(items: seq<Value>): (r: seq<string>)
    requires AllStr(items)
    ensures |r| == |items| && forall i :: 0 <= i < |items| ==> items[i] == Str(r[i])
  {
    seq(|items|, i requires 0 <= i < |items| => items[i].s)
  }

  /** The stored `tags`: a list is joined with commas (only strings can be
      joined); anything else, including a missing value, passes through. */
  function TagsValue(tags: Value): (r: Result<Value>)
    ensures !tags.List? ==> r == Ok(tags)
    ensures tags.List? ==> (r.Ok? <==> AllStr(tags.items))
    ensures tags.List? && r.Ok? ==> r.value.Str? && r.value.s == Join(Strings(tags.items), ",")
  {
    if !tags.List? then Ok(tags)
    else if AllStr(tags.items) then Ok(Str(Join(Strings(tags.items), ",")))
    else Err(TypeError("sequence item: expected str instance"))
  }

  /** A tag list without commas is read back from the stored text by
      splitting at the commas. */
  lemma TagsRoundTrip(tags: seq<string>)
    requires |tags| >= 1 && forall i :: 0 <= i < |tags| ==> ',' !in tags[i]
    ensures var stored := TagsValue(List(seq(|tags|, i requires 0 <= i < |tags| => Str(tags[i]))));
      stored.Ok? && Split(stored.value.s, ',') == tags
  {
    var items := seq(|tags|, i requires 0 <= i < |tags| => Str(tags[i]));
    assert Strings(items) == tags;
    SplitJoin(tags, ',');
  }

  /** The nine values handed to `execute`, in the INSERT's column order:
      name and suite through `str()`, so a missing one becomes "None", and
      a tag list joined. Only the join can fail here. */
  function EventValues(data: Dict): (r: Result<seq<Value>>)
    ensures r.Ok? <==> TagsValue(Get(data, "tags")).Ok?
    ensures r.Ok? ==> |r.value| == |EventColumns|
    ensures r.Ok? ==> r.value[..3] == [Get(data, "testid"), Get(data, "timestamp"), Get(data, "event_type")]
    ensures r.Ok? ==> r.value[3] == Str(Display(Get(data, "name"))) && r.value[4] == Str(Display(Get(data, "suite")))
    ensures r.Ok? ==> r.value[5..8] == [Get(data, "status"), Get(data, "message"), Get(data, "elapsed")]
    ensures r.Ok? ==> r.value[8] == TagsValue(Get(data, "tags")).value
  {
    var tagged :- TagsValue(Get(data, "tags"));
    var values := [Get(data, "testid"), Get(data, "timestamp"), Get(data, "event_type"),
        Str(Display(Get(data, "name"))), Str(Display(Get(data, "suite"))),
        Get(data, "status"), Get(data, "message"), Get(data, "elapsed"), tagged];
    assert values[..3] == [values[0], values[1], values[2]];
    assert values[5..8] == [values[5], values[6], values[7]];
    Ok(values)
  }

  /** A row over the nine columns: each bound value as its column's
      affinity stores it. */
  function RowOf(values: seq<Value>): (row: Dict)
    requires |values| == |EventColumns|
    ensures forall i :: 0 <= i < |EventColumns| ==>
      EventColumns[i].name in row && row[EventColumns[i].name] == Stored(EventColumns[i].sqlType, values[i])
  {
    map["testid" := Stored("TEXT", values[0]), "timestamp" := Stored("TEXT", values[1]),
        "event_type" := Stored("TEXT", values[2]), "name" := Stored("TEXT", values[3]),
        "suite" := Stored("TEXT", values[4]), "status" := Stored("TEXT", values[5]),
        "message" := Stored("TEXT", values[6]), "elapsed" := Stored("INTEGER", values[7]),
        "tags" := Stored("TEXT", values[8])]
  }

  /** `handle_event`: exactly one row is inserted and committed; an event
      whose tags cannot be joined or whose values cannot be bound inserts
      nothing, and the first value that cannot be bound names the error. */
  function HandleEvent(sink: Sink, data: Dict): (r: Result<Sink>)
    ensures r.Ok? <==> EventValues(data).Ok? && BindFailure(EventValues(data).value).None?
    ensures EventValues(data).Ok? && BindFailure(EventValues(data).value).Some? ==>
      r == Err(BindFailure(EventValues(data).value).value)
    ensures r.Ok? ==> r.value.events == sink.events + [RowOf(EventValues(data).value)]
  {
    var values :- EventValues(data);
    var failure := BindFailure(values);
    if failure.Some? then Err(failure.value)
    else Ok(Sink(sink.events + [RowOf(values)]))
  }

  /** The stored row holds the event's fields as their columns keep them:
      a text or missing timestamp is kept, an integer one is stored as its
      decimal text; the name as its `str()`; integer text in `elapsed` as
      an integer. */
  lemma StoredRow(sink: Sink, data: Dict)
    requires HandleEvent(sink, data).Ok?
    ensures var t := HandleEvent(sink, data).value.events; var row := t[|t| - 1];
      && Get(row, "timestamp") == Stored("TEXT", Get(data, "timestamp"))
      && (Get(data, "timestamp").Str? || Get(data, "timestamp").Null? ==> Get(row, "timestamp") == Get(data, "timestamp"))
      && (Get(data, "timestamp").Int? ==> Get(row, "timestamp") == Str(Numerals.IntToString(Get(data, "timestamp").i)))
      && Get(row, "event_type") == Stored("TEXT", Get(data, "event_type"))
      && Get(row, "name") == Str(Display(Get(data, "name")))
      && Get(row, "status") == Stored("TEXT", Get(data, "status"))
      && Get(row, "elapsed") == Stored("INTEGER", Get(data, "elapsed"))
      && Get(row, "tags") == Stored("TEXT", TagsValue(Get(data, "tags")).value)
  {
    var values := EventValues(data).value;
    assert values[1] == Get(data, "timestamp") && values[2] == Get(data, "event_type");
    assert values[7] == Get(data, "elapsed");
  }

  /** An event without a name or suite is stored under the name "None". */
  lemma MissingNameIsNone(sink: Sink, data: Dict)
    requires "name" !in data && HandleEvent(sink, data).Ok?
    ensures var t := HandleEvent(sink, data).value.events; Get(t[|t| - 1], "name") == Str("None")
  {
    StoredRow(sink, data);
  }
}

/** The legacy readers of the events table: backend/readers/sqlite_reader.py
    and backend/ingest/readers/sqlite_event_reader.py. */
module LegacyEventReaders {

  import opened Wrappers
  import opened Values
  import opened LegacySchema
  import MemorySqliteSink

  /** The database files on disk that hold an `events` table, by path,
      each with the columns it was created with. A path not here has no
      such table: `sqlite3.connect` opens (or creates) a database without
      it, and the first statement on `events` raises. */
  type Files = map<string, StoredTable>

  function TableOf(files: Files, path: string): (r: Result<StoredTable>)
    ensures r.Ok? <==> path in files
    ensures r.Ok? ==> r.value == files[path]
    ensures r.Err? ==> r.error == NoSuchTable
  {
    if path in files then Ok(files[path]) else Err(NoSuchTable)
  }

  /** `DELETE FROM events` names no column, so it empties any table, and
      the table keeps its columns. */
  function Emptied(t: StoredTable): (r: StoredTable)
    ensures r.columns == t.columns && r.rows == []
  {
    StoredTable(t.columns, [])
  }

  // ---------------------------------------------------------------------------
  // backend/readers/sqlite_reader.py
  // ---------------------------------------------------------------------------

  const BackendColumns: seq<string> := ["timestamp", "event_type", "name", "suite", "status", "message"]

  /** The reader keeps its constructor's path (default `eventlog.db`). */
  datatype BackendReader = BackendReader(databasePath: string)

  const DefaultBackendReader: BackendReader := BackendReader("eventlog.db")

  /** `get_events`: the 100 earliest rows of the reader's own file,
      projected onto six columns; a file without the table, or whose table
      lacks one of the six columns, raises. */
  function BackendGetEvents(reader: BackendReader, files: Files): (r: Result<seq<Dict>>)
    ensures r.Ok? <==> (reader.databasePath in files
      && forall i :: 0 <= i < |BackendColumns| ==> BackendColumns[i] in files[reader.databasePath].columns)
    ensures reader.databasePath !in files ==> r == Err(NoSuchTable)
    ensures reader.databasePath in files && r.Err? ==>
      exists k :: (0 <= k < |BackendColumns| && BackendColumns[k] !in files[reader.databasePath].columns
        && r.error == NoSuchColumn(BackendColumns[k]))
    ensures r.Ok? ==> EarliestRead(files[reader.databasePath].rows, BackendColumns, SelectLimit, r.value)
    ensures r.Ok? ==> forall i :: 0 <= i < |r.value| ==> r.value[i].Keys == set c | c in BackendColumns
  {
    var table :- TableOf(files, reader.databasePath);
    assert BackendColumns[0] == "timestamp";
    SelectFrom(table, BackendColumns, SelectLimit)
  }

  /** `clear_events`: empties the table of the CONFIGURED `sqlite_path`
      (default `eventlog.db`), whatever path the reader was built with; a
      file without the table raises. */
  function BackendClearEvents(reader: BackendReader, config: Dict, files: Files): (r: Result<Files>)
    ensures r.Ok? <==> (GetOr(config, "sqlite_path", Str("eventlog.db")).Str?
      && GetOr(config, "sqlite_path", Str("eventlog.db")).s in files)
    ensures (GetOr(config, "sqlite_path", Str("eventlog.db")).Str?
      && GetOr(config, "sqlite_path", Str("eventlog.db")).s !in files) ==> r == Err(NoSuchTable)
    ensures r.Ok? ==> var p := GetOr(config, "sqlite_path", Str("eventlog.db")).s;
      && r.value.Keys == files.Keys
      && r.value[p].rows == [] && r.value[p].columns == files[p].columns
      && forall q :: q in files && q != p ==> r.value[q] == files[q]
  {
    var path :- PathOf(GetOr(config, "sqlite_path", Str("eventlog.db")));
    var table :- TableOf(files, path);
    Ok(files[path := Emptied(table)])
  }

  /** When the configured path is not the reader's own, clearing leaves
      what the reader reads as it was. */
  lemma ClearTargetsConfiguredPath(reader: BackendReader, config: Dict, files: Files)
    requires GetOr(config, "sqlite_path", Str("eventlog.db")) != Str(reader.databasePath)
    requires BackendClearEvents(reader, config, files).Ok?
    ensures BackendGetEvents(reader, BackendClearEvents(reader, config, files).value)
      == BackendGetEvents(reader, files)
  {
    var after := BackendClearEvents(reader, config, files).value;
    assert TableOf(after, reader.databasePath) == TableOf(files, reader.databasePath);
  }

  /** With the default configuration the reader clears the file it reads,
      provided that file holds the table. Clearing keeps the table's
      columns: a table the reader could read reads back empty, and one
      lacking a selected column fails as it did before. */
  lemma DefaultReaderClearsItsFile(files: Files)
    ensures BackendClearEvents(DefaultBackendReader, map[], files).Ok? <==> "eventlog.db" in files
    ensures "eventlog.db" !in files ==> BackendGetEvents(DefaultBackendReader, files) == Err(NoSuchTable)
    ensures BackendClearEvents(DefaultBackendReader, map[], files).Ok? ==>
      var after := BackendClearEvents(DefaultBackendReader, map[], files).value;
      && (BackendGetEvents(DefaultBackendReader, after).Ok? <==> BackendGetEvents(DefaultBackendReader, files).Ok?)
      && (BackendGetEvents(DefaultBackendReader, files).Ok? ==> BackendGetEvents(DefaultBackendReader, after) == Ok([]))
      && (BackendGetEvents(DefaultBackendReader, files).Err? ==>
            BackendGetEvents(DefaultBackendReader, after) == BackendGetEvents(DefaultBackendReader, files))
  {
    if "eventlog.db" in files {
      var after := BackendClearEvents(DefaultBackendReader, map[], files).value;
      assert after["eventlog.db"] == Emptied(files["eventlog.db"]);
    }
  }

  // ---------------------------------------------------------------------------
  // backend/ingest/readers/sqlite_event_reader.py
  // ---------------------------------------------------------------------------

  /** What a reader can reach: the memory sink, whose single connection it
      may share, and the files on disk. */
  datatype Databases = Databases(memory: MemorySqliteSink.Sink, files: Files)

  /** A reader either shares the memory sink's connection (the one
      `get_connection` returns) or opens the path it holds. */
  datatype IngestReader = IngestReader(databasePath: Value, sharesSinkConnection: bool)

  /** The constructor: an explicit path if truthy, else the configured
      `sqlite_path`, else `eventlog.db`; the connection passed is kept. */
  function NewIngestReader(databasePath: Value, sinkConnection: bool, config: Dict): (r: IngestReader)
    ensures r.sharesSinkConnection == sinkConnection
    ensures Truthy(databasePath) ==> r.databasePath == databasePath
    ensures !Truthy(databasePath) && "sqlite_path" in config ==> r.databasePath == config["sqlite_path"]
    ensures !Truthy(databasePath) && "sqlite_path" !in config ==> r.databasePath == Str("eventlog.db")
  {
    IngestReader(if Truthy(databasePath) then databasePath else GetOr(config, "sqlite_path", Str("eventlog.db")), sinkConnection)
  }

  /** The database a connection reaches. */
  datatype Target = SinkMemory | FileAt(path: string)

  /** `_get_connection`: the shared connection, not to be closed, or a
      fresh connection to the path, to be closed after use. */
  datatype Connection = Connection(target: Target, shouldClose: bool)

  function GetConnection(reader: IngestReader): (r: Result<Connection>)
    ensures reader.sharesSinkConnection ==> r == Ok(Connection(SinkMemory, false))
    ensures !reader.sharesSinkConnection ==> (r.Ok? <==> reader.databasePath.Str?)
    ensures !reader.sharesSinkConnection && r.Ok? ==> r.value == Connection(FileAt(reader.databasePath.s), true)
  {
    if reader.sharesSinkConnection then Ok(Connection(SinkMemory, false))
    else
      var path :- PathOf(reader.databasePath);
      Ok(Connection(FileAt(path), true))
  }

  /** The `events` table a connection sees at the moment of a call; the
      sink's table always exists, with the columns `CREATE_EVENTS_TABLE`
      declares. */
  function TableIn(dbs: Databases, target: Target): (r: Result<StoredTable>)
    ensures target == SinkMemory ==> r == Ok(StoredTable(EventTableColumns, dbs.memory.events))
    ensures target.FileAt? ==> r == TableOf(dbs.files, target.path)
  {
    match target
    case SinkMemory => Ok(StoredTable(EventTableColumns, dbs.memory.events))
    case FileAt(p) => TableOf(dbs.files, p)
  }

  /** Whether the reader reaches an `events` table. */
  predicate Reaches(reader: IngestReader, dbs: Databases) {
    GetConnection(reader).Ok? && TableIn(dbs, GetConnection(reader).value.target).Ok?
  }

  /** The table the reader reaches. */
  function Reached(reader: IngestReader, dbs: Databases): StoredTable
    requires Reaches(reader, dbs)
  {
    TableIn(dbs, GetConnection(reader).value.target).value
  }

  /** The memory sink's table has every column the SELECT names. */
  lemma SinkTableHasSelectColumns()
    ensures forall i :: 0 <= i < |SelectColumns| ==> SelectColumns[i] in EventTableColumns
  {
  }

  /** `_get_events`: `SELECT_ALL_EVENTS` on the connection's table as it is
      now, each row a dict keyed by the selected column names. A file
      without the table, or whose table lacks a selected column, raises. */
  function GetEvents(reader: IngestReader, dbs: Databases): (r: Result<seq<Dict>>)
    ensures r.Ok? <==> (Reaches(reader, dbs)
      && forall i :: 0 <= i < |SelectColumns| ==> SelectColumns[i] in Reached(reader, dbs).columns)
    ensures r.Ok? ==> EarliestRead(Reached(reader, dbs).rows, SelectColumns, SelectLimit, r.value)
    ensures reader.sharesSinkConnection ==> r.Ok? && EarliestRead(dbs.memory.events, SelectColumns, SelectLimit, r.value)
    ensures !reader.sharesSinkConnection && reader.databasePath.Str? && reader.databasePath.s !in dbs.files ==>
      r == Err(NoSuchTable)
    ensures Reaches(reader, dbs) && r.Err? ==>
      exists k :: (0 <= k < |SelectColumns| && SelectColumns[k] !in Reached(reader, dbs).columns
        && r.error == NoSuchColumn(SelectColumns[k]))
  {
    var c :- GetConnection(reader);
    var table :- TableIn(dbs, c.target);
    SinkTableHasSelectColumns();
    assert SelectColumns[0] == "timestamp";
    SelectFrom(table, SelectColumns, SelectLimit)
  }

  /** `_clear_events`: every row of the connection's table is deleted and
      committed. Through the shared connection that is the memory sink's own
      table; otherwise the file's, which keeps its columns. */
  function ClearEvents(reader: IngestReader, dbs: Databases): (r: Result<Databases>)
    ensures r.Ok? <==> Reaches(reader, dbs)
    ensures r.Ok? && reader.sharesSinkConnection ==> r.value == Databases(MemorySqliteSink.Initial, dbs.files)
    ensures r.Ok? && !reader.sharesSinkConnection ==> var p := reader.databasePath.s;
      && r.value.memory == dbs.memory && r.value.files.Keys == dbs.files.Keys
      && r.value.files[p].rows == [] && r.value.files[p].columns == dbs.files[p].columns
      && forall q :: q in dbs.files && q != p ==> r.value.files[q] == dbs.files[q]
  {
    var c :- GetConnection(reader);
    var table :- TableIn(dbs, c.target);
    match c.target
    case SinkMemory => Ok(Databases(MemorySqliteSink.Initial, dbs.files))
    case FileAt(p) => Ok(Databases(dbs.memory, dbs.files[p := Emptied(table)]))
  }

  /** After clearing, a reader that could read its table reads nothing, and
      one whose table lacks a selected column fails as before. */
  lemma ClearThenRead(reader: IngestReader, dbs: Databases)
    requires ClearEvents(reader, dbs).Ok?
    ensures var after := ClearEvents(reader, dbs).value;
      && (GetEvents(reader, after).Ok? <==> GetEvents(reader, dbs).Ok?)
      && (GetEvents(reader, dbs).Ok? ==> GetEvents(reader, after) == Ok([]))
      && (GetEvents(reader, dbs).Err? ==> GetEvents(reader, after) == GetEvents(reader, dbs))
  {
    var after := ClearEvents(reader, dbs).value;
    assert Reached(reader, after).columns == Reached(reader, dbs).columns;
  }

  /** A reader built on the memory sink's connection before anything was
      stored reads the event the sink stores afterwards, with its timestamp
      as the TEXT column keeps it and its stringified name. */
  lemma ReadsMemorySinkEvents(data: Dict, config: Dict, files: Files)
    requires MemorySqliteSink.HandleEvent(MemorySqliteSink.Initial, data).Ok?
    ensures var reader := NewIngestReader(Null, true, config);
      var dbs := Databases(MemorySqliteSink.HandleEvent(MemorySqliteSink.Initial, data).value, files);
      && GetEvents(reader, dbs).Ok?
      && |GetEvents(reader, dbs).value| == 1
      && Get(GetEvents(reader, dbs).value[0], "timestamp") == Stored("TEXT", Get(data, "timestamp"))
      && Get(GetEvents(reader, dbs).value[0], "name") == Str(Display(Get(data, "name")))
  {
    var sink := MemorySqliteSink.HandleEvent(MemorySqliteSink.Initial, data).value;
    var row := MemorySqliteSink.RowOf(MemorySqliteSink.EventValues(data).value);
    assert sink.events == [row];
    MemorySqliteSink.StoredRow(MemorySqliteSink.Initial, data);
    OneRowEarliest(row);
    SharedReadProjects(NewIngestReader(Null, true, config), Databases(sink, files));
    assert ProjectRows([row], SelectColumns)[0] == Project(row, SelectColumns);
  }

  /** The shared connection aliases the sink's table: what the sink stores
      after the reader was built is read, up to the 100-row limit. */
  lemma SinkWritesAreRead(reader: IngestReader, dbs: Databases, data: Dict)
    requires reader.sharesSinkConnection
    requires |dbs.memory.events| < SelectLimit
    requires MemorySqliteSink.HandleEvent(dbs.memory, data).Ok?
    ensures var after := Databases(MemorySqliteSink.HandleEvent(dbs.memory, data).value, dbs.files);
      && GetEvents(reader, after).Ok?
      && |GetEvents(reader, after).value| == |dbs.memory.events| + 1
      && Project(MemorySqliteSink.RowOf(MemorySqliteSink.EventValues(data).value), SelectColumns)
           in GetEvents(reader, after).value
  {
    var row := MemorySqliteSink.RowOf(MemorySqliteSink.EventValues(data).value);
    var table := dbs.memory.events + [row];
    var after := Databases(MemorySqliteSink.Sink(table), dbs.files);
    SharedReadProjects(reader, after);
    assert row in table;
    SmallTableReadWhole(table, SelectColumns, row);
  }

  /** Through the shared connection the reader reads the sink's rows, the
      earliest first, projected onto the selected columns. */
  lemma SharedReadProjects(reader: IngestReader, dbs: Databases)
    requires reader.sharesSinkConnection
    ensures GetEvents(reader, dbs) == Ok(ProjectRows(Earliest(dbs.memory.events, SelectLimit), SelectColumns))
  {
    SinkTableHasSelectColumns();
  }

  /** Clearing through the shared connection empties the sink itself: its
      next event is the only row. */
  lemma ClearEmptiesTheSink(reader: IngestReader, dbs: Databases, data: Dict)
    requires reader.sharesSinkConnection
    requires MemorySqliteSink.HandleEvent(MemorySqliteSink.Initial, data).Ok?
    ensures ClearEvents(reader, dbs).Ok?
    ensures var cleared := ClearEvents(reader, dbs).value.memory;
      && MemorySqliteSink.HandleEvent(cleared, data).Ok?
      && |MemorySqliteSink.HandleEvent(cleared, data).value.events| == 1
  {
  }

  lemma OneRowEarliest(row: Dict)
    ensures Earliest([row], SelectLimit) == [row]
  {
    var r := Earliest([row], SelectLimit);
    assert |r| == 1;
    assert r[0] in multiset([row]);
  }
}

/** The legacy logger's sinks: realtimelogger/sinks/sqlite.py and
    realtimelogger/sinks/memory.py. */
module LoggerSinks {

  import opened Wrappers
  import opened Values
  import LegacySchema
  import LegacyEventReaders

  /** The columns the logger's INSERT names, in order. */
  const SqliteColumns: seq<string> := ["timestamp", "event_type", "name", "status", "message"]

  /** The columns the logger's own CREATE declares: no testid, suite,
      elapsed or tags. */
  const LoggerTableColumns: set<string> := {"id", "timestamp", "event_type", "name", "status", "message"}

  /** `SqliteSink`: a database file whose table is created if missing. */
  datatype SqliteSink = SqliteSink(databasePath: string)

  /** CREATE TABLE IF NOT EXISTS with the given columns: a missing table
      appears empty with them; an existing one is kept as it is, whatever
      its columns. */
  function CreateTable(databasePath: string, files: LegacyEventReaders.Files, columns: set<string>)
    : (r: LegacyEventReaders.Files)
    ensures databasePath in r && r.Keys == files.Keys + {databasePath}
    ensures databasePath !in files ==> r[databasePath] == LegacySchema.StoredTable(columns, [])
    ensures forall p :: p in files ==> r[p] == files[p]
  {
    if databasePath in files then files else files[databasePath := LegacySchema.StoredTable(columns, [])]
  }

  /** The constructor: the logger's own CREATE, with six columns. */
  function CreateSqliteSink(databasePath: string, files: LegacyEventReaders.Files): (r: (SqliteSink, LegacyEventReaders.Files))
    ensures r.0.databasePath == databasePath
    ensures databasePath in r.1 && r.1.Keys == files.Keys + {databasePath}
    ensures databasePath !in files ==> r.1[databasePath] == LegacySchema.StoredTable(LoggerTableColumns, [])
    ensures forall p :: p in files ==> r.1[p] == files[p]
  {
    (SqliteSink(databasePath), CreateTable(databasePath, files, LoggerTableColumns))
  }

  /** The constructor as the legacy readers need it: the shared
      `CREATE_EVENTS_TABLE`, whose columns include every one they select. */
  function CreateSqliteSinkCorrected(databasePath: string, files: LegacyEventReaders.Files)
    : (r: (SqliteSink, LegacyEventReaders.Files))
    ensures r.0.databasePath == databasePath
    ensures databasePath in r.1 && r.1.Keys == files.Keys + {databasePath}
    ensures databasePath !in files ==> r.1[databasePath] == LegacySchema.StoredTable(LegacySchema.EventTableColumns, [])
    ensures forall p :: p in files ==> r.1[p] == files[p]
  {
    (SqliteSink(databasePath), CreateTable(databasePath, files, LegacySchema.EventTableColumns))
  }

  /** The five values bound, in the INSERT's column order. */
  function LoggedValues(data: Dict): seq<Value> {
    [Get(data, "timestamp"), Get(data, "event_type"), Str(Display(Get(data, "name"))),
     Get(data, "status"), Get(data, "message")]
  }

  /** The row the logger's INSERT adds: the five named columns, every one
      TEXT; the table's other columns are left NULL. */
  function LoggedRow(data: Dict): (row: Dict)
    ensures row.Keys == set c | c in SqliteColumns
    ensures forall i :: 0 <= i < |SqliteColumns| ==>
      row[SqliteColumns[i]] == LegacySchema.Stored("TEXT", LoggedValues(data)[i])
  {
    var values := LoggedValues(data);
    map["timestamp" := LegacySchema.Stored("TEXT", values[0]), "event_type" := LegacySchema.Stored("TEXT", values[1]),
        "name" := LegacySchema.Stored("TEXT", values[2]), "status" := LegacySchema.Stored("TEXT", values[3]),
        "message" := LegacySchema.Stored("TEXT", values[4])]
  }

  /** An INSERT naming a column the table lacks fails when prepared. */
  function NoColumnNamed(column: string): Error {
    DatabaseError("table events has no column named " + column)
  }

  /** `handle_event(event_type, data)`: one row whose event_type comes from
      the DATA; the name through `str()`; other missing keys as NULL; every
      column is TEXT. A file whose table has gone, or lacks a named column,
      raises before anything is bound. */
  function SqliteHandleEvent(sink: SqliteSink, eventType: string, data: Dict, files: LegacyEventReaders.Files)
    : (r: Result<LegacyEventReaders.Files>)
    ensures r.Ok? <==> (sink.databasePath in files
      && (forall i :: 0 <= i < |SqliteColumns| ==> SqliteColumns[i] in files[sink.databasePath].columns)
      && LegacySchema.BindFailure(LoggedValues(data)).None?)
    ensures sink.databasePath !in files ==> r == Err(LegacySchema.NoSuchTable)
    ensures r.Ok? ==>
      && r.value.Keys == files.Keys
      && r.value[sink.databasePath].columns == files[sink.databasePath].columns
      && r.value[sink.databasePath].rows == files[sink.databasePath].rows + [map[
        "timestamp" := LegacySchema.Stored("TEXT", Get(data, "timestamp")),
        "event_type" := LegacySchema.Stored("TEXT", Get(data, "event_type")),
        "name" := Str(Display(Get(data, "name"))),
        "status" := LegacySchema.Stored("TEXT", Get(data, "status")),
        "message" := LegacySchema.Stored("TEXT", Get(data, "message"))]]
    ensures r.Ok? ==> forall p :: p in files && p != sink.databasePath ==> r.value[p] == files[p]
  {
    var table :- LegacyEventReaders.TableOf(files, sink.databasePath);
    match LegacySchema.MissingColumn(SqliteColumns, table.columns)
    case Some(c) => Err(NoColumnNamed(c))
    case None =>
      var failure := LegacySchema.BindFailure(LoggedValues(data));
      if failure.Some? then Err(failure.value)
      else Ok(files[sink.databasePath := LegacySchema.StoredTable(table.columns, table.rows + [LoggedRow(data)])])
  }

  /** The shared legacy table has every column the logger's INSERT names. */
  lemma SharedTableHasLoggerColumns()
    ensures forall i :: 0 <= i < |SqliteColumns| ==> SqliteColumns[i] in LegacySchema.EventTableColumns
  {
  }

  /** The event type argument does not reach the table. */
  lemma EventTypeArgumentIgnored(sink: SqliteSink, a: string, b: string, data: Dict, files: LegacyEventReaders.Files)
    ensures SqliteHandleEvent(sink, a, data, files) == SqliteHandleEvent(sink, b, data, files)
  {
  }

  /** An event without an event_type stores NULL there, whatever type the
      caller named. */
  lemma MissingEventTypeStoredAsNull(sink: SqliteSink, eventType: string, data: Dict, files: LegacyEventReaders.Files)
    requires "event_type" !in data && SqliteHandleEvent(sink, eventType, data, files).Ok?
    ensures var t := SqliteHandleEvent(sink, eventType, data, files).value[sink.databasePath].rows;
      t[|t| - 1]["event_type"] == Null
  {
  }

  // ---------------------------------------------------------------------------
  // realtimelogger/sinks/memory.py
  // ---------------------------------------------------------------------------

  datatype Entry = Entry(eventType: string, data: Dict)

  datatype MemorySink = MemorySink(events: seq<Entry>)

  const EmptyMemorySink: MemorySink := MemorySink([])

  /** `handle_event`: appends one entry at the end. */
  function MemoryHandleEvent(sink: MemorySink, eventType: string, data: Dict): (r: MemorySink)
    ensures |r.events| == |sink.events| + 1
    ensures r.events[..|sink.events|] == sink.events
    ensures r.events[|sink.events|] == Entry(eventType, data)
  {
    MemorySink(sink.events + [Entry(eventType, data)])
  }

  /** A run of calls, in order. */
  function MemoryHandleAll(sink: MemorySink, calls: seq<Entry>): MemorySink
    decreases |calls|
  {
    if calls == [] then sink
    else MemoryHandleAll(MemoryHandleEvent(sink, calls[0].eventType, calls[0].data), calls[1..])
  }

  /** The sink holds exactly the calls made, in call order, after what it
      held before. */
  lemma {:induction false} CallOrderPreserved(sink: MemorySink, calls: seq<Entry>)
    ensures MemoryHandleAll(sink, calls).events == sink.events + calls
    decreases |calls|
  {
    if calls != [] {
      var next := MemoryHandleEvent(sink, calls[0].eventType, calls[0].data);
      CallOrderPreserved(next, calls[1..]);
      assert next.events == sink.events + [calls[0]];
      assert calls == [calls[0]] + calls[1..];
    }
  }
}

/** The legacy backend's start-up wiring (backend/main.py): the event
    provider and sink it builds from the configuration, which for SQLite
    share one database file. */
module LegacyBackend {

  import opened Wrappers
  import opened Values
  import opened LegacySchema
  import opened LegacyEventReaders
  import Text
  import LoggerSinks

  /** The provider and sink pair. The memory pair's reader,
      backend/readers/memory_reader.py, is not part of this model. */
  datatype Backend =
    | SqliteBackend(reader: BackendReader, sink: LoggerSinks.SqliteSink)
    | MemoryBackend

  /** The start-up as written: the lowered `sink_type` (default `sqlite`)
      picks the pair; for SQLite the reader and the sink both get the
      configured `sqlite_path` (default `eventlog.db`), the sink's `Path`
      refuses a non-string, and its constructor creates the logger's
      table if the file has none. Any other type raises ValueError. */
  function Start(config: Dict, files: Files): (r: Result<(Backend, Files)>)
    ensures r.Ok? <==> (GetLower(config, "sink_type", "sqlite").Ok?
      && (GetLower(config, "sink_type", "sqlite").value == "memory"
          || (GetLower(config, "sink_type", "sqlite").value == "sqlite"
              && GetOr(config, "sqlite_path", Str("eventlog.db")).Str?)))
    ensures GetLower(config, "sink_type", "sqlite").Ok? ==> var t := GetLower(config, "sink_type", "sqlite").value;
      && (t == "memory" ==> r == Ok((MemoryBackend, files)))
      && (t != "memory" && t != "sqlite" ==> r == Err(ValueError("Unsupported sink_type in config: " + t)))
    ensures r.Ok? && r.value.0.SqliteBackend? ==> var b := r.value.0;
      && GetOr(config, "sqlite_path", Str("eventlog.db")) == Str(b.reader.databasePath)
      && b.sink.databasePath == b.reader.databasePath
      && r.value.1 == LoggerSinks.CreateSqliteSink(b.reader.databasePath, files).1
  {
    var sinkType :- GetLower(config, "sink_type", "sqlite");
    if sinkType == "memory" then Ok((MemoryBackend, files))
    else if sinkType == "sqlite" then
      var path :- PathOf(GetOr(config, "sqlite_path", Str("eventlog.db")));
      var (sink, created) := LoggerSinks.CreateSqliteSink(path, files);
      Ok((SqliteBackend(BackendReader(path), sink), created))
    else Err(ValueError("Unsupported sink_type in config: " + sinkType))
  }

  /** A table with only the logger's columns cannot be read by the backend
      reader: `suite`, the first selected column it lacks, is reported. */
  lemma LoggerTableUnreadable(reader: BackendReader, files: Files)
    requires reader.databasePath in files && files[reader.databasePath].columns == LoggerSinks.LoggerTableColumns
    ensures BackendGetEvents(reader, files) == Err(NoSuchColumn("suite"))
  {
    assert MissingColumn(BackendColumns, LoggerSinks.LoggerTableColumns) == Some("suite") by {
      assert BackendColumns[3] == "suite" && "suite" !in LoggerSinks.LoggerTableColumns;
      assert forall i :: 0 <= i < 3 ==> BackendColumns[i] in LoggerSinks.LoggerTableColumns;
    }
  }

  /** The ingest reader's `SELECT_ALL_EVENTS` fails on the logger's table
      in the same way: `suite` is the first selected column it lacks. */
  lemma LoggerTableUnreadableByIngestReader(reader: IngestReader, dbs: Databases)
    requires !reader.sharesSinkConnection && reader.databasePath.Str? && reader.databasePath.s in dbs.files
    requires dbs.files[reader.databasePath.s].columns == LoggerSinks.LoggerTableColumns
    ensures GetEvents(reader, dbs) == Err(NoSuchColumn("suite"))
  {
    assert MissingColumn(SelectColumns, LoggerSinks.LoggerTableColumns) == Some("suite") by {
      assert SelectColumns[3] == "suite" && "suite" !in LoggerSinks.LoggerTableColumns;
      assert forall i :: 0 <= i < 3 ==> SelectColumns[i] in LoggerSinks.LoggerTableColumns;
    }
  }

  /** With the default configuration and no `eventlog.db` yet, GET /events
      fails from the start, and goes on failing whatever the sink logs. */
  lemma DefaultBackendCannotRead(files: Files, data: Dict)
    requires "eventlog.db" !in files
    ensures Start(map[], files).Ok? && Start(map[], files).value.0.SqliteBackend?
    ensures var (b, created) := Start(map[], files).value;
      && BackendGetEvents(b.reader, created) == Err(NoSuchColumn("suite"))
      && (LoggerSinks.SqliteHandleEvent(b.sink, "start_test", data, created).Ok? ==>
            BackendGetEvents(b.reader, LoggerSinks.SqliteHandleEvent(b.sink, "start_test", data, created).value)
              == Err(NoSuchColumn("suite")))
  {
    DefaultStart(files);
    var (b, created) := Start(map[], files).value;
    LoggerTableUnreadable(b.reader, created);
    var logged := LoggerSinks.SqliteHandleEvent(b.sink, "start_test", data, created);
    if logged.Ok? {
      LoggerTableUnreadable(b.reader, logged.value);
    }
  }

  /** The start-up with the sink creating the shared legacy table: the same
      choice of pair and path. */
  function StartCorrected(config: Dict, files: Files): (r: Result<(Backend, Files)>)
    ensures r.Ok? <==> Start(config, files).Ok?
    ensures r.Ok? ==> r.value.0 == Start(config, files).value.0
    ensures r.Ok? && r.value.0.SqliteBackend? ==>
      r.value.1 == LoggerSinks.CreateSqliteSinkCorrected(r.value.0.reader.databasePath, files).1
  {
    var sinkType :- GetLower(config, "sink_type", "sqlite");
    if sinkType == "memory" then Ok((MemoryBackend, files))
    else if sinkType == "sqlite" then
      var path :- PathOf(GetOr(config, "sqlite_path", Str("eventlog.db")));
      var (sink, created) := LoggerSinks.CreateSqliteSinkCorrected(path, files);
      Ok((SqliteBackend(BackendReader(path), sink), created))
    else Err(ValueError("Unsupported sink_type in config: " + sinkType))
  }

  /** Once the sink creates the shared table, the default backend reads
      nothing before anything is logged, and reads back a logged event with
      its five stored columns and `suite` NULL. */
  lemma CorrectedBackendReadsLoggedEvents(files: Files, data: Dict)
    requires "eventlog.db" !in files
    requires BindFailure(LoggerSinks.LoggedValues(data)).None?
    ensures StartCorrected(map[], files).Ok? && StartCorrected(map[], files).value.0.SqliteBackend?
    ensures var b := StartCorrected(map[], files).value.0; var created := StartCorrected(map[], files).value.1;
      && BackendGetEvents(b.reader, created) == Ok([])
      && LoggerSinks.SqliteHandleEvent(b.sink, "start_test", data, created).Ok?
      && var read := BackendGetEvents(b.reader, LoggerSinks.SqliteHandleEvent(b.sink, "start_test", data, created).value);
         && read.Ok? && |read.value| == 1
         && read.value[0] == Project(LoggerSinks.LoggedRow(data), BackendColumns)
         && Get(read.value[0], "suite") == Null
         && Get(read.value[0], "timestamp") == Stored("TEXT", Get(data, "timestamp"))
  {
    DefaultStart(files);
    var b := SqliteBackend(DefaultBackendReader, LoggerSinks.SqliteSink("eventlog.db"));
    var created := files["eventlog.db" := StoredTable(EventTableColumns, [])];
    var row := LoggerSinks.LoggedRow(data);
    var after := created["eventlog.db" := StoredTable(EventTableColumns, [row])];
    ReadEmpty(b.reader, created);
    LoggedIntoEmpty(b.sink, data, created);
    ReadOneRow(b.reader, after, row);
    LoggedRowColumns(data);
  }

  /** The logged row has no `suite`, and keeps the timestamp as TEXT. */
  lemma LoggedRowColumns(data: Dict)
    ensures Get(Project(LoggerSinks.LoggedRow(data), BackendColumns), "suite") == Null
    ensures Get(Project(LoggerSinks.LoggedRow(data), BackendColumns), "timestamp") == Stored("TEXT", Get(data, "timestamp"))
  {
    var row := LoggerSinks.LoggedRow(data);
    assert "suite" in BackendColumns && "timestamp" in BackendColumns;
    assert "suite" !in LoggerSinks.SqliteColumns;
    assert LoggerSinks.SqliteColumns[0] == "timestamp";
  }

  /** An empty shared table reads back as nothing. */
  lemma ReadEmpty(reader: BackendReader, files: Files)
    requires reader.databasePath in files && files[reader.databasePath] == StoredTable(EventTableColumns, [])
    ensures BackendGetEvents(reader, files) == Ok([])
  {
    SharedTableHasBackendColumns();
  }

  /** With no settings the backend starts on `eventlog.db`; the sink
      creates the logger's table there, or the shared one once corrected. */
  lemma DefaultStart(files: Files)
    requires "eventlog.db" !in files
    ensures Start(map[], files) == Ok((SqliteBackend(DefaultBackendReader, LoggerSinks.SqliteSink("eventlog.db")),
      files["eventlog.db" := StoredTable(LoggerSinks.LoggerTableColumns, [])]))
    ensures StartCorrected(map[], files) == Ok((SqliteBackend(DefaultBackendReader, LoggerSinks.SqliteSink("eventlog.db")),
      files["eventlog.db" := StoredTable(EventTableColumns, [])]))
  {
    Text.LowerOfLower("sqlite");
  }

  /** Logging into the empty shared table leaves the one logged row. */
  lemma LoggedIntoEmpty(sink: LoggerSinks.SqliteSink, data: Dict, files: Files)
    requires sink.databasePath in files && files[sink.databasePath] == StoredTable(EventTableColumns, [])
    requires BindFailure(LoggerSinks.LoggedValues(data)).None?
    ensures LoggerSinks.SqliteHandleEvent(sink, "start_test", data, files)
      == Ok(files[sink.databasePath := StoredTable(EventTableColumns, [LoggerSinks.LoggedRow(data)])])
  {
    LoggerSinks.SharedTableHasLoggerColumns();
    assert MissingColumn(LoggerSinks.SqliteColumns, EventTableColumns).None?;
    assert [] + [LoggerSinks.LoggedRow(data)] == [LoggerSinks.LoggedRow(data)];
  }

  /** A one-row shared table reads back as that row, projected. */
  lemma ReadOneRow(reader: BackendReader, files: Files, row: Dict)
    requires reader.databasePath in files && files[reader.databasePath] == StoredTable(EventTableColumns, [row])
    ensures BackendGetEvents(reader, files) == Ok([Project(row, BackendColumns)])
  {
    SharedTableHasBackendColumns();
    OneRowEarliest(row);
    assert ProjectRows([row], BackendColumns) == [Project(row, BackendColumns)];
  }

  /** The shared legacy table has every column the backend reader selects. */
  lemma SharedTableHasBackendColumns()
    ensures forall i :: 0 <= i < |BackendColumns| ==> BackendColumns[i] in EventTableColumns
  {
  }
}

=== FILE: src/listener_common.dfy ===
/** What the three Robot Framework listeners (producers/listener/listener.py,
    realtimeresults/listener.py, realtimelogger/listener.py) share: the
    `key=value;key=value` argument string, its merge over the file
    configuration, the event a hook sends, and the suite names derived from
    a test's dotted long name. */
module ListenerCommon {

  import opened Wrappers
  import opened Text
  import opened Values

  // ---------------------------------------------------------------------------
  // The listener argument string
  // ---------------------------------------------------------------------------

  /** The entry a `;`-separated part sets: the text around its first `=`,
      both stripped. A part without `=` sets nothing. */
  function Entry(part: string): (r: Option<(string, string)>)
    ensures r.Some? <==> '=' in part
    ensures r.Some? ==> Trimmed(r.value.0, Whitespace) && Trimmed(r.value.1, Whitespace)
  {
    if '=' in part then
      var kv := SplitFirst(part, '=');
      StripTrims(kv.0);
      StripTrims(kv.1);
      Some((Strip(kv.0), Strip(kv.1)))
    else None
  }

  lemma StripTrims(s: string)
    ensures Trimmed(Strip(s), Whitespace)
  {
  }

  /** The entries of a list of parts, position by position. */
  function Entries(parts: seq<string>): (r: seq<Option<(string, string)>>)
    ensures |r| == |parts| && forall i :: 0 <= i < |parts| ==> r[i] == Entry(parts[i])
  {
    seq(|parts|, i requires 0 <= i < |parts| => Entry(parts[i]))
  }

  predicate SetsKey(e: Option<(string, string)>, key: string) {
    e.Some? && e.value.0 == key
  }

  /** Entry `i` is the last of `es` that sets `key`. */
  predicate LastSetter(es: seq<Option<(string, string)>>, key: string, i: int) {
    0 <= i < |es| && SetsKey(es[i], key) && forall j :: i < j < |es| ==> !SetsKey(es[j], key)
  }

  /** The entries applied in order to an empty dict. */
  function Apply(es: seq<Option<(string, string)>>): map<string, string>
    decreases |es|
  {
    if es == [] then map[]
    else
      var acc := Apply(es[..|es| - 1]);
      match es[|es| - 1]
      case None => acc
      case Some(e) => acc[e.0 := e.1]
  }

  /** A key is configured exactly when some entry sets it, and its value is
      the one the last such entry gives. */
  lemma {:induction false} ApplyLastWins(es: seq<Option<(string, string)>>, key: string)
    ensures key in Apply(es) <==> exists i :: 0 <= i < |es| && SetsKey(es[i], key)
    ensures key in Apply(es) ==> exists i :: LastSetter(es, key, i) && Apply(es)[key] == es[i].value.1
    decreases |es|
  {
    if es != [] {
      var init := es[..|es| - 1];
      var last := es[|es| - 1];
      ApplyLastWins(init, key);
      if SetsKey(last, key) {
        assert LastSetter(es, key, |es| - 1);
      } else {
        assert key in Apply(es) <==> key in Apply(init);
        if key in Apply(init) {
          var i :| LastSetter(init, key, i) && Apply(init)[key] == init[i].value.1;
          forall j | i < j < |es| ensures !SetsKey(es[j], key) {
            if j < |es| - 1 {
              assert es[j] == init[j];
            }
          }
          assert es[i] == init[i];
          assert LastSetter(es, key, i);
        }
        if exists i :: 0 <= i < |es| && SetsKey(es[i], key) {
          var i :| 0 <= i < |es| && SetsKey(es[i], key);
          assert i < |es| - 1 && init[i] == es[i];
        }
      }
    }
  }

  /** `_parse_config`: an absent or empty string configures nothing;
      otherwise every `;`-separated part holding `=` sets its stripped key to
      its stripped value, later parts overriding earlier ones. */
  function ParseConfig(configStr: Option<string>): (r: map<string, string>)
    ensures configStr.None? || configStr.value == [] ==> r == map[]
    ensures configStr.Some? && configStr.value != [] ==> r == Apply(Entries(Split(configStr.value, ';')))
    ensures forall k :: k in r ==> Trimmed(k, Whitespace) && Trimmed(r[k], Whitespace)
  {
    match configStr
    case None => map[]
    case Some(s) =>
      if s == [] then map[]
      else
        var es := Entries(Split(s, ';'));
        assert forall k | k in Apply(es) :: Trimmed(k, Whitespace) && Trimmed(Apply(es)[k], Whitespace) by {
          forall k | k in Apply(es) ensures Trimmed(k, Whitespace) && Trimmed(Apply(es)[k], Whitespace) {
            ApplyLastWins(es, k);
          }
        }
        Apply(es)
  }

  /** An entry that survives being written into the argument string. */
  predicate Renderable(e: (string, string)) {
    && Trimmed(e.0, Whitespace) && Trimmed(e.1, Whitespace)
    && '=' !in e.0 && ';' !in e.0 && ';' !in e.1
  }

  function Pieces(entries: seq<(string, string)>): (r: seq<string>)
    ensures |r| == |entries| && forall i :: 0 <= i < |entries| ==> r[i] == entries[i].0 + "=" + entries[i].1
  {
    seq(|entries|, i requires 0 <= i < |entries| => entries[i].0 + "=" + entries[i].1)
  }

  /** Entries written as `k=v;k=v`. */
  function Render(entries: seq<(string, string)>): string {
    Join(Pieces(entries), ";")
  }

  /** The map the entries denote when later entries win. */
  function MapOf(entries: seq<(string, string)>): map<string, string>
    decreases |entries|
  {
    if entries == [] then map[]
    else MapOf(entries[..|entries| - 1])[entries[|entries| - 1].0 := entries[|entries| - 1].1]
  }

  lemma EntryOfPiece(e: (string, string))
    requires Renderable(e)
    ensures Entry(e.0 + "=" + e.1) == Some(e)
  {
    var piece := e.0 + "=" + e.1;
    assert piece == e.0 + ['='] + e.1;
    SplitFirstAt(e.0, '=', e.1);
    assert SplitFirst(piece, '=') == (e.0, e.1);
    TrimByTrimmed(e.0, Whitespace);
    TrimByTrimmed(e.1, Whitespace);
    assert Strip(e.0) == e.0 && Strip(e.1) == e.1;
  }

  /** Applying entries that all set a key gives the map they denote. */
  lemma {:induction false} ApplyIsMapOf(es: seq<Option<(string, string)>>, entries: seq<(string, string)>)
    requires |es| == |entries| && forall i :: 0 <= i < |es| ==> es[i] == Some(entries[i])
    ensures Apply(es) == MapOf(entries)
    decreases |es|
  {
    if es != [] {
      var n := |es|;
      ApplyIsMapOf(es[..n - 1], entries[..n - 1]);
    }
  }

  lemma EntriesOfPieces(entries: seq<(string, string)>)
    requires forall i :: 0 <= i < |entries| ==> Renderable(entries[i])
    ensures forall i :: 0 <= i < |entries| ==> Entries(Pieces(entries))[i] == Some(entries[i])
  {
    forall i | 0 <= i < |entries| ensures Entries(Pieces(entries))[i] == Some(entries[i]) {
      EntryOfPiece(entries[i]);
    }
  }

  /** Writing entries into an argument string and parsing it gives back the
      entries, later ones overriding earlier ones. */
  lemma ConfigRoundTrip(entries: seq<(string, string)>)
    requires forall i :: 0 <= i < |entries| ==> Renderable(entries[i])
    ensures ParseConfig(Some(Render(entries))) == MapOf(entries)
  {
    if entries != [] {
      var pieces := Pieces(entries);
      RenderSplits(entries);
      EntriesOfPieces(entries);
      ApplyIsMapOf(Entries(pieces), entries);
    }
  }

  lemma RenderSplits(entries: seq<(string, string)>)
    requires entries != [] && forall i :: 0 <= i < |entries| ==> Renderable(entries[i])
    ensures Render(entries) != [] && Split(Render(entries), ';') == Pieces(entries)
  {
    var pieces := Pieces(entries);
    assert forall i :: 0 <= i < |pieces| ==> ';' !in pieces[i];
    SplitJoin(pieces, ';');
    assert pieces[0][|entries[0].0|] == '=';
  }

  /** `{**file_config, **cli_config}`: the argument string's entries are
      strings and override the file's. */
  function Merge(file: Dict, cli: map<string, string>): (r: Dict)
    ensures r.Keys == file.Keys + cli.Keys
    ensures forall k :: k in cli ==> r[k] == Str(cli[k])
    ensures forall k :: k in file && k !in cli ==> r[k] == file[k]
  {
    file + map k | k in cli :: Str(cli[k])
  }

  /** The last entry of the argument string decides its key, whatever the
      file configuration says. */
  lemma LastArgumentWins(file: Dict, entries: seq<(string, string)>)
    requires |entries| > 0 && forall i :: 0 <= i < |entries| ==> Renderable(entries[i])
    ensures var last := entries[|entries| - 1];
      var merged := Merge(file, ParseConfig(Some(Render(entries))));
      last.0 in merged && merged[last.0] == Str(last.1)
  {
    ConfigRoundTrip(entries);
    var last := entries[|entries| - 1];
    var cli := ParseConfig(Some(Render(entries)));
    assert cli == MapOf(entries);
    assert last.0 in cli && cli[last.0] == last.1;
  }

  // ---------------------------------------------------------------------------
  // Events and names
  // ---------------------------------------------------------------------------

  /** `{"event_type": event_type, **kwargs}`. */
  function MakeEvent(eventType: string, fields: Dict): (r: Dict)
    ensures r.Keys == fields.Keys + {"event_type"}
    ensures r["event_type"] == Str(eventType)
    ensures forall k :: k in fields && k != "event_type" ==> r[k] == fields[k]
  {
    fields["event_type" := Str(eventType)]
  }

  /** Where an event goes. */
  datatype Delivery<S> = Post(url: string, event: Dict) | ToSink(sink: S, event: Dict) | Ignored

  const BackendEventUrl: string := "http://localhost:8000/event"

  /** The suite a starting test reports: the first dotted segment. */
  function StartSuiteName(longname: string): (r: string)
    ensures '.' !in r
  {
    Split(longname, '.')[0]
  }

  /** The suite an ending test reports: all segments but the last. */
  function EndSuiteName(longname: string): string {
    var parts := Split(longname, '.');
    Join(parts[..|parts| - 1], ".")
  }

  /** For a long name made of segments, the start suite is the first
      segment and the end suite the name without its last segment. */
  lemma SuiteNames(segments: seq<string>)
    requires |segments| >= 1 && forall i :: 0 <= i < |segments| ==> '.' !in segments[i]
    ensures StartSuiteName(Join(segments, ".")) == segments[0]
    ensures EndSuiteName(Join(segments, ".")) == Join(segments[..|segments| - 1], ".")
    ensures |segments| >= 2 ==> Join(segments, ".") == EndSuiteName(Join(segments, ".")) + "." + segments[|segments| - 1]
  {
    DotSplitJoin(segments);
    NamesOfSplit(Join(segments, "."), segments);
    if |segments| >= 2 {
      JoinLast(segments, ".");
    }
  }

  /** The suite names of a long name, read off its dotted segments. */
  lemma NamesOfSplit(name: string, segments: seq<string>)
    requires |segments| >= 1 && Split(name, '.') == segments
    ensures StartSuiteName(name) == segments[0]
    ensures EndSuiteName(name) == Join(segments[..|segments| - 1], ".")
  {
  }

  /** Splitting joined dot-free segments at `.` gives them back. */
  lemma DotSplitJoin(segments: seq<string>)
    requires |segments| >= 1 && forall i :: 0 <= i < |segments| ==> '.' !in segments[i]
    ensures Split(Join(segments, "."), '.') == segments
  {
    assert "." == ['.'];
    SplitJoin(segments, '.');
  }

  /** A long name without dots is its own start suite and has an empty end
      suite. */
  lemma UndottedSuiteNames(longname: string)
    requires '.' !in longname
    ensures StartSuiteName(longname) == longname
    ensures EndSuiteName(longname) == ""
  {
    assert Join([longname], ".") == longname;
    SuiteNames([longname]);
  }

  /** `[str(tag) for tag in tags]`. */
  function TagStrings(tags: seq<Value>): (r: seq<Value>)
    ensures |r| == |tags| && forall i :: 0 <= i < |tags| ==> r[i] == Str(Display(tags[i]))
  {
    seq(|tags|, i requires 0 <= i < |tags| => Str(Display(tags[i])))
  }
}

=== FILE: src/listeners.dfy ===
/** producers/listener/listener.py: the listener that feeds the ingest
    service, with a state that remembers the running test. */
module ProducerListener {

  import opened Wrappers
  import opened Text
  import opened Values
  import Numerals
  import opened ListenerCommon

  datatype Sink = HttpSink(endpoint: Value) | LokiSink(endpoint: Value) | SqliteSink(path: Value)

  /** The listener after construction: its merged configuration, lowered
      sink type, test count, sink, and the id of the running test. */
  datatype Listener = Listener(config: Dict, sinkType: string, totalTests: int, sink: Option<Sink>, currentTestId: Option<string>)

  /** The sink a lowered sink type selects. An unknown type, `none`, or a
      sink whose construction fails (`initFails`) leaves the listener
      without a sink. */
  function SelectSink(sinkType: string, config: Dict, initFails: bool): (r: Option<Sink>)
    ensures r.Some? <==> !initFails && sinkType in {"backend_http_inmemory", "loki", "sqlite"}
    ensures r.Some? && sinkType == "backend_http_inmemory" ==>
      r.value == HttpSink(GetOr(config, "backend_endpoint", Str("http://localhost:8000")))
    ensures r.Some? && sinkType == "loki" ==> r.value == LokiSink(GetOr(config, "loki_endpoint", Str("http://localhost:3100")))
    ensures r.Some? && sinkType == "sqlite" ==> r.value == SqliteSink(GetOr(config, "database_path", Str("eventlog.db")))
  {
    if initFails then None
    else if sinkType == "backend_http_inmemory" then Some(HttpSink(GetOr(config, "backend_endpoint", Str("http://localhost:8000"))))
    else if sinkType == "loki" then Some(LokiSink(GetOr(config, "loki_endpoint", Str("http://localhost:3100"))))
    else if sinkType == "sqlite" then Some(SqliteSink(GetOr(config, "database_path", Str("eventlog.db"))))
    else None
  }

  /** `int(cli_config.get("totaltests", 0))`: only the argument string is
      consulted. */
  function TotalTests(cli: map<string, string>): (r: Option<int>)
    ensures "totaltests" !in cli ==> r == Some(0)
    ensures "totaltests" in cli ==> r == Numerals.ParseInt(cli["totaltests"])
  {
    if "totaltests" in cli then Numerals.ParseInt(cli["totaltests"]) else Some(0)
  }

  /** Construction. A sink type that is not a string, or a test count that
      is not an integer, fails the construction itself; a failing sink only
      leaves the listener without one. */
  function Init(fileConfig: Dict, configStr: Option<string>, initFails: bool): (r: Result<Listener>)
    ensures var config := Merge(fileConfig, ParseConfig(configStr));
      r.Err? <==> GetLower(config, "listener_sink_type", "none").Err? || TotalTests(ParseConfig(configStr)).None?
    ensures r.Ok? ==> r.value.currentTestId.None?
    ensures r.Ok? ==> r.value.config == Merge(fileConfig, ParseConfig(configStr))
    ensures r.Ok? ==> r.value.sink == SelectSink(r.value.sinkType, r.value.config, initFails)
    ensures r.Ok? ==> Some(r.value.totalTests) == TotalTests(ParseConfig(configStr))
  {
    var cli := ParseConfig(configStr);
    var config := Merge(fileConfig, cli);
    var sinkType :- GetLower(config, "listener_sink_type", "none");
    match TotalTests(cli)
    case None => Err(ValueError("invalid literal for int() with base 10"))
    case Some(n) => Ok(Listener(config, sinkType, n, SelectSink(sinkType, config, initFails), None))
  }

  /** A test count in the file configuration is never read. */
  lemma FileTestCountIgnored(fileConfig: Dict, configStr: Option<string>, initFails: bool)
    requires "totaltests" !in ParseConfig(configStr)
    requires Init(fileConfig, configStr, initFails).Ok?
    ensures Init(fileConfig, configStr, initFails).value.totalTests == 0
  {
  }

  /** `_send_event`: the in-memory backend is reached over HTTP whether or
      not its sink was constructed; otherwise the sink, if any, gets the
      event. */
  function Route(l: Listener, event: Dict): (r: Delivery<Sink>)
    ensures r.Post? <==> l.sinkType == "backend_http_inmemory"
    ensures r.Post? ==> r == Post(BackendEventUrl, event)
    ensures r.ToSink? <==> l.sinkType != "backend_http_inmemory" && l.sink.Some?
    ensures r.ToSink? ==> r == ToSink(l.sink.value, event)
  {
    if l.sinkType == "backend_http_inmemory" then Post(BackendEventUrl, event)
    else if l.sink.Some? then ToSink(l.sink.value, event)
    else Ignored
  }

  /** A listener configured for the in-memory backend posts every event,
      even when its sink could not be built. */
  lemma InMemoryBackendAlwaysPosts(fileConfig: Dict, configStr: Option<string>, event: Dict)
    requires Init(fileConfig, configStr, true).Ok?
    requires Init(fileConfig, configStr, true).value.sinkType == "backend_http_inmemory"
    ensures Init(fileConfig, configStr, true).value.sink.None?
    ensures Route(Init(fileConfig, configStr, true).value, event) == Post(BackendEventUrl, event)
  {
  }

  /** `generate_test_id`: the long name and the start time in ISO form. */
  function TestId(longname: string, startIso: string): (r: string)
    ensures |r| == |longname| + 2 + |startIso|
    ensures r[..|longname|] == longname && r[|r| - |startIso|..] == startIso
  {
    longname + "::" + startIso
  }

  /** `start_test`: the new test id becomes the running one and is sent
      with the test's start suite. `fields` are the attributes sent as they
      are. */
  function StartTest(l: Listener, longname: string, startIso: string, fields: Dict): (r: (Listener, Dict))
    ensures r.0 == l.(currentTestId := Some(TestId(longname, startIso)))
    ensures Get(r.1, "event_type") == Str("start_test") && Get(r.1, "testid") == Str(TestId(longname, startIso))
    ensures Get(r.1, "suite") == Str(StartSuiteName(longname)) && Get(r.1, "longname") == Str(longname)
  {
    var id := TestId(longname, startIso);
    (l.(currentTestId := Some(id)),
     MakeEvent("start_test", fields["testid" := Str(id)]["longname" := Str(longname)]["suite" := Str(StartSuiteName(longname))]))
  }

  /** The running test id as it is sent: `None` outside a test. */
  function TestIdValue(id: Option<string>): (r: Value)
    ensures id.None? <==> r == Null
    ensures id.Some? ==> r == Str(id.value)
  {
    if id.Some? then Str(id.value) else Null
  }

  /** `log_message`: the message carries the running test id. */
  function LogMessage(l: Listener, fields: Dict): (r: (Listener, Dict))
    ensures r.0 == l
    ensures Get(r.1, "event_type") == Str("log_message") && Get(r.1, "testid") == TestIdValue(l.currentTestId)
  {
    (l, MakeEvent("log_message", fields["testid" := TestIdValue(l.currentTestId)]))
  }

  /** `end_test`: the event carries the running test id and the end suite,
      and afterwards no test is running. */
  function EndTest(l: Listener, longname: string, fields: Dict): (r: (Listener, Dict))
    ensures r.0 == l.(currentTestId := None)
    ensures Get(r.1, "event_type") == Str("end_test") && Get(r.1, "testid") == TestIdValue(l.currentTestId)
    ensures Get(r.1, "suite") == Str(EndSuiteName(longname))
  {
    (l.(currentTestId := None),
     MakeEvent("end_test", fields["testid" := TestIdValue(l.currentTestId)]["suite" := Str(EndSuiteName(longname))]))
  }

  /** Log messages inside a test carry the id its start sent and its end
      repeats; a message after the end carries none. */
  lemma TestIdLifecycle(l: Listener, longname: string, startIso: string, startFields: Dict,
                        insideFields: Dict, endFields: Dict, afterFields: Dict)
    ensures var started := StartTest(l, longname, startIso, startFields);
      var inside := LogMessage(started.0, insideFields);
      var ended := EndTest(inside.0, longname, endFields);
      var after := LogMessage(ended.0, afterFields);
      && Get(inside.1, "testid") == Get(started.1, "testid")
      && Get(ended.1, "testid") == Get(started.1, "testid")
      && Get(after.1, "testid") == Null
      && ended.0 == l.(currentTestId := None)
  {
  }
}

/** realtimeresults/listener.py: the earlier listener, with a strategy and
    sink type selection table and no running-test state. */
module ResultsListener {

  import opened Wrappers
  import opened Text
  import opened Values
  import opened ListenerCommon

  datatype Sink = LokiSink(endpoint: Value) | HttpSink(endpoint: Value) | SqliteSink(path: Value)

  datatype Listener = Listener(sinkType: string, sink: Option<Sink>)

  /** The selection table: `http` with `loki` or `sqlite`, `local` with
      `sqlite` or `none`; the strategy is compared as given, without case
      folding. Every other pair, and a failing construction, leaves no
      sink. */
  function SelectSink(strategy: Value, sinkType: string, config: Dict, initFails: bool): (r: Option<Sink>)
    ensures r.Some? <==> (!initFails && (
      (strategy == Str("http") && sinkType in {"loki", "sqlite"}) || (strategy == Str("local") && sinkType == "sqlite")))
    ensures r.Some? && strategy == Str("http") && sinkType == "loki" ==>
      r.value == LokiSink(GetOr(config, "endpoint", Str("http://localhost:3100")))
    ensures r.Some? && strategy == Str("http") && sinkType == "sqlite" ==>
      r.value == HttpSink(GetOr(config, "endpoint", Str("http://localhost:8000/event")))
    ensures r.Some? && strategy == Str("local") ==> r.value == SqliteSink(GetOr(config, "database_path", Str("eventlog.db")))
  {
    if initFails then None
    else if strategy == Str("http") then
      if sinkType == "loki" then Some(LokiSink(GetOr(config, "endpoint", Str("http://localhost:3100"))))
      else if sinkType == "sqlite" then Some(HttpSink(GetOr(config, "endpoint", Str("http://localhost:8000/event"))))
      else None
    else if strategy == Str("local") then
      if sinkType == "sqlite" then Some(SqliteSink(GetOr(config, "database_path", Str("eventlog.db")))) else None
    else None
  }

  function Init(fileConfig: Dict, configStr: Option<string>, initFails: bool): (r: Result<Listener>)
    ensures var config := Merge(fileConfig, ParseConfig(configStr));
      && (r.Err? <==> GetLower(config, "sink_type", "none").Err?)
      && (r.Ok? ==> r.value.sinkType == GetLower(config, "sink_type", "none").value)
      && (r.Ok? ==> r.value.sink == SelectSink(GetOr(config, "sink_strategy", Str("local")), r.value.sinkType, config, initFails))
  {
    var config := Merge(fileConfig, ParseConfig(configStr));
    var sinkType :- GetLower(config, "sink_type", "none");
    Ok(Listener(sinkType, SelectSink(GetOr(config, "sink_strategy", Str("local")), sinkType, config, initFails)))
  }

  /** `_send_event`: sink type `memory` always posts to the backend. */
  function Route(l: Listener, event: Dict): (r: Delivery<Sink>)
    ensures r.Post? <==> l.sinkType == "memory"
    ensures r.Post? ==> r == Post(BackendEventUrl, event)
    ensures r.ToSink? <==> l.sinkType != "memory" && l.sink.Some?
    ensures r.ToSink? ==> r == ToSink(l.sink.value, event)
  {
    if l.sinkType == "memory" then Post(BackendEventUrl, event)
    else if l.sink.Some? then ToSink(l.sink.value, event)
    else Ignored
  }

  /** Sink type `memory` is in no row of the table, so such a listener has
      no sink, yet all its events are posted. */
  lemma MemoryPostsWithoutSink(fileConfig: Dict, configStr: Option<string>, initFails: bool, event: Dict)
    requires Init(fileConfig, configStr, initFails).Ok?
    requires Init(fileConfig, configStr, initFails).value.sinkType == "memory"
    ensures Init(fileConfig, configStr, initFails).value.sink.None?
    ensures Route(Init(fileConfig, configStr, initFails).value, event) == Post(BackendEventUrl, event)
  {
  }

  /** A strategy spelled in capitals selects no sink. */
  lemma StrategyIsCaseSensitive(sinkType: string, config: Dict)
    ensures SelectSink(Str("HTTP"), sinkType, config, false).None?
    ensures SelectSink(Str("Local"), sinkType, config, false).None?
  {
  }

  /** The test id, built from the raw start time at both start and end. */
  function TestId(longname: string, starttime: string): string {
    longname + "::" + starttime
  }

  function StartTestEvent(longname: string, starttime: string, fields: Dict): (r: Dict)
    ensures Get(r, "event_type") == Str("start_test") && Get(r, "testid") == Str(TestId(longname, starttime))
    ensures Get(r, "suite") == Str(StartSuiteName(longname)) && Get(r, "timestamp") == Str(starttime)
  {
    MakeEvent("start_test", fields["testid" := Str(TestId(longname, starttime))]["longname" := Str(longname)]
      ["suite" := Str(StartSuiteName(longname))]["timestamp" := Str(starttime)])
  }

  function EndTestEvent(longname: string, starttime: string, fields: Dict): (r: Dict)
    ensures Get(r, "event_type") == Str("end_test") && Get(r, "testid") == Str(TestId(longname, starttime))
    ensures Get(r, "suite") == Str(EndSuiteName(longname))
  {
    MakeEvent("end_test", fields["testid" := Str(TestId(longname, starttime))]["suite" := Str(EndSuiteName(longname))])
  }

  /** Without a running-test state, a test's start and end events agree on
      its id exactly because both are computed from the same attributes. */
  lemma StartAndEndAgree(longname: string, starttime: string, startFields: Dict, endFields: Dict)
    ensures Get(StartTestEvent(longname, starttime, startFields), "testid") == Get(EndTestEvent(longname, starttime, endFields), "testid")
  {
  }
}

/** realtimelogger/listener.py: the first listener, which posts every event
    and also hands it to a sink, falling back to the memory sink. */
module LoggerListener {

  import opened Wrappers
  import opened Text
  import opened Values
  import opened ListenerCommon

  datatype Sink = LokiSink(endpoint: Value) | MemorySink | SqliteSink

  /** The sink type is taken as given, without case folding. An unknown
      type, or a sink whose construction fails, selects the memory sink;
      only `none` selects no sink. */
  function SelectSink(sinkType: string, config: map<string, string>, initFails: bool): (r: Option<Sink>)
    ensures r.None? <==> !initFails && sinkType == "none"
    ensures initFails ==> r == Some(MemorySink)
    ensures !initFails && sinkType !in {"loki", "memory", "sqlite", "none"} ==> r == Some(MemorySink)
    ensures !initFails && sinkType == "loki" ==>
      r == Some(LokiSink(if "endpoint" in config then Str(config["endpoint"]) else Str("http://localhost:3100")))
    ensures !initFails && sinkType == "sqlite" ==> r == Some(SqliteSink)
  {
    if initFails then Some(MemorySink)
    else if sinkType == "loki" then
      Some(LokiSink(if "endpoint" in config then Str(config["endpoint"]) else Str("http://localhost:3100")))
    else if sinkType == "memory" then Some(MemorySink)
    else if sinkType == "sqlite" then Some(SqliteSink)
    else if sinkType == "none" then None
    else Some(MemorySink)
  }

  /** Construction reads only the argument string. */
  function Init(configStr: Option<string>, initFails: bool): (r: Option<Sink>)
    ensures var config := ParseConfig(configStr);
      r == SelectSink(if "sink_type" in config then config["sink_type"] else "none", config, initFails)
  {
    var config := ParseConfig(configStr);
    SelectSink(if "sink_type" in config then config["sink_type"] else "none", config, initFails)
  }

  /** Without an argument string the listener has no sink. */
  lemma NoArgumentsNoSink()
    ensures Init(None, false) == None
  {
  }

  /** A sink type spelled in capitals is not recognised and falls back to
      the memory sink. */
  lemma CapitalisedTypeFallsBack()
    ensures Init(Some(Render([("sink_type", "SQLite")])), false) == Some(MemorySink)
  {
    var e := ("sink_type", "SQLite");
    assert Renderable(e);
    ConfigRoundTrip([e]);
    assert MapOf([e]) == map["sink_type" := "SQLite"];
  }

  /** What `_send_event` does, in order. */
  datatype Action = PostEvent(url: string, event: Dict) | HandEvent(sink: Sink, eventType: string, event: Dict)

  /** Every event is posted first; then the sink, if any, receives the
      event type and the event. */
  function SendEvent(sink: Option<Sink>, eventType: string, fields: Dict): (r: seq<Action>)
    ensures |r| == if sink.Some? then 2 else 1
    ensures r[0] == PostEvent(BackendEventUrl, MakeEvent(eventType, fields))
    ensures sink.Some? ==> r[1] == HandEvent(sink.value, eventType, MakeEvent(eventType, fields))
  {
    var event := MakeEvent(eventType, fields);
    [PostEvent(BackendEventUrl, event)] + (if sink.Some? then [HandEvent(sink.value, eventType, event)] else [])
  }

  /** `start_test`: the long name and every tag are sent as strings. */
  function StartTestEvent(longname: Value, tags: seq<Value>, fields: Dict): (r: Dict)
    ensures Get(r, "event_type") == Str("start_test") && Get(r, "longname") == Str(Display(longname))
    ensures Get(r, "tags").List? && |Get(r, "tags").items| == |tags|
    ensures forall i :: 0 <= i < |tags| ==> Get(r, "tags").items[i].Str?
  {
    MakeEvent("start_test", fields["longname" := Str(Display(longname))]["tags" := List(TagStrings(tags))])
  }
}

=== FILE: src/log_line_parser.dfy ===
/** The log-line normaliser (shared/helpers/log_line_parser.py): find a
    timestamp with the first pattern of a table that both matches and parses,
    cut out a level token, and split what is left into fields on runs of two
    or more whitespace characters. */
module LogLineParser {

  import opened Wrappers
  import opened Text
  import Numerals

  // ---------------------------------------------------------------------------
  // Timestamps
  // ---------------------------------------------------------------------------

  /** One entry of the timestamp pattern table. The table itself lives in a
      module that is not part of this model, so a pattern is abstract: `search`
      is its regular expression's search (the whole matched text, if any), and
      `parse` stands for choosing the format, `strptime`, the default time zone
      and `isoformat` (`None` when any of these raises). */
  datatype TimestampPattern = TimestampPattern(
    search: string -> Option<string>,
    stripBrackets: bool,
    parse: string -> Option<string>)

  /** The matched text as handed to the parser: brackets stripped at both ends
      for `strip_brackets` patterns, then every comma turned into a dot. */
  function CleanRaw(raw: string, stripBrackets: bool): (c: string)
    ensures ',' !in c
    ensures |c| <= |raw|
    ensures !stripBrackets ==> |c| == |raw| && forall i :: 0 <= i < |raw| ==>
      c[i] == (if raw[i] == ',' then '.' else raw[i])
    ensures stripBrackets ==> c == [] || (c[0] !in "[]" && c[|c| - 1] !in "[]")
  {
    if stripBrackets then
      var unbracketed := TrimBy(raw, Chars({'[', ']'}));
      CleanBracketed(raw);
      NoCommaLeft(unbracketed);
      ReplaceChar(unbracketed, ',', '.')
    else
      NoCommaLeft(raw);
      ReplaceChar(raw, ',', '.')
  }

  /** Turning every comma into a dot leaves no comma. */
  lemma NoCommaLeft(s: string)
    ensures ',' !in ReplaceChar(s, ',', '.')
  {
    var r := ReplaceChar(s, ',', '.');
    forall i | 0 <= i < |r|
      ensures r[i] != ','
    {
    }
  }

  /** Once the brackets are stripped and the commas replaced, the text
      neither starts nor ends with a bracket. */
  lemma CleanBracketed(raw: string)
    ensures var c := ReplaceChar(TrimBy(raw, Chars({'[', ']'})), ',', '.');
      c == [] || (c[0] !in "[]" && c[|c| - 1] !in "[]")
  {
    var u := TrimBy(raw, Chars({'[', ']'}));
    TrimBySlice(raw, Chars({'[', ']'}));
    var c := ReplaceChar(u, ',', '.');
    if c != [] {
      assert !InClass(u[0], Chars({'[', ']'})) && !InClass(u[|u| - 1], Chars({'[', ']'}));
      assert c[0] == '.' || c[0] == u[0];
      assert c[|c| - 1] == '.' || c[|c| - 1] == u[|u| - 1];
    }
  }

  /** The pattern matches the line and its matched text parses. */
  predicate Succeeds(p: TimestampPattern, text: string) {
    p.search(text).Some? && p.parse(CleanRaw(p.search(text).value, p.stripBrackets)).Some?
  }

  /** What a successful pattern yields: the ISO timestamp, and the line with
      every occurrence of the matched text removed and then trimmed. */
  function Outcome(p: TimestampPattern, text: string): (string, string)
    requires Succeeds(p, text)
  {
    var raw := p.search(text).value;
    (p.parse(CleanRaw(raw, p.stripBrackets)).value, Strip(RemoveAll(text, raw)))
  }

  /** Pattern `i` of the table tried on `text`: its outcome when it
      succeeds. */
  function TryPattern(patterns: seq<TimestampPattern>, text: string): nat -> Option<(string, string)> {
    (i: nat) => if i < |patterns| && Succeeds(patterns[i], text) then Some(Outcome(patterns[i], text)) else None
  }

  /** `parse_known_datetime_formats`, with the current time passed in:
      patterns are tried in order and the first that succeeds decides. */
  function ParseTimestamp(patterns: seq<TimestampPattern>, text: string, now: string): (string, string)
  {
    match FirstHit(TryPattern(patterns, text), 0, |patterns|)
    case None => (now, text)
    case Some(i) => TryPattern(patterns, text)(i).value
  }

  /** The first pattern that succeeds decides; when none does, the current
      time and the unchanged text are returned. */
  lemma FirstSuccessDecides(patterns: seq<TimestampPattern>, text: string, now: string)
    ensures (forall i :: 0 <= i < |patterns| ==> !Succeeds(patterns[i], text)) ==>
      ParseTimestamp(patterns, text, now) == (now, text)
    ensures forall i :: (0 <= i < |patterns| && Succeeds(patterns[i], text)
      && (forall j :: 0 <= j < i ==> !Succeeds(patterns[j], text))) ==>
      ParseTimestamp(patterns, text, now) == Outcome(patterns[i], text)
  {
    var f := TryPattern(patterns, text);
    var hit := FirstHit(f, 0, |patterns|);
    if hit.Some? {
      var k := hit.value;
      assert k < |patterns| && Succeeds(patterns[k], text);
      forall i | 0 <= i < k
        ensures !Succeeds(patterns[i], text)
      {
        assert f(i).None?;
      }
      forall i | 0 <= i < |patterns| && Succeeds(patterns[i], text)
          && (forall j :: 0 <= j < i ==> !Succeeds(patterns[j], text))
        ensures i == k
      {
      }
    } else {
      forall i | 0 <= i < |patterns|
        ensures !Succeeds(patterns[i], text)
      {
        assert f(i).None?;
      }
    }
  }

  // ---------------------------------------------------------------------------
  // Level token
  // ---------------------------------------------------------------------------

  /** The level vocabulary, in the order the regular expression tries it. */
  const Levels: seq<string> := ["TRACE", "DEBUG", "VERBOSE", "INFO", "NOTICE", "WARNING",
                                "WARN", "ERROR", "FATAL", "CRITICAL", "ALERT", "EMERGENCY"]

  /** `w` is one of the level words. */
  predicate IsLevel(w: string) {
    w in Levels
  }

  /** End of the maximal whitespace run starting at `i` (a greedy `\s*`). */
  function SpaceRunEnd(s: string, i: nat): (j: nat)
    requires i <= |s|
    ensures i <= j <= |s|
    ensures forall k :: i <= k < j ==> IsSpace(s[k])
    ensures j == |s| || !IsSpace(s[j])
    decreases |s| - i
  {
    if i < |s| && IsSpace(s[i]) then SpaceRunEnd(s, i + 1) else i
  }

  /** `w` occurs at position `k` of `s`, ignoring case. */
  predicate WordAt(s: string, k: nat, w: string) {
    k + |w| <= |s| && EqualsIgnoreCase(s[k..k + |w|], w)
  }

  /** The first vocabulary word, from index `from` on, that occurs at `k`. */
  function FirstWordFrom(s: string, k: nat, from: nat): (r: Option<nat>)
    requires from <= |Levels|
    ensures r.Some? ==> from <= r.value < |Levels| && WordAt(s, k, Levels[r.value])
    ensures r.Some? ==> forall n :: from <= n < r.value ==> !WordAt(s, k, Levels[n])
    ensures r.None? ==> forall n :: from <= n < |Levels| ==> !WordAt(s, k, Levels[n])
    decreases |Levels| - from
  {
    if from == |Levels| then None
    else if WordAt(s, k, Levels[from]) then Some(from)
    else FirstWordFrom(s, k, from + 1)
  }

  /** One match of the level pattern: the span `s[start..end]`, where the
      level word itself starts, and the word upper-cased. */
  datatype LevelMatch = LevelMatch(start: nat, wordStart: nat, end: nat, level: string)

  /** `s[i..e]` has the shape `\[?\s*W\s*\]?` with the word `W` matching `w`
      (ignoring case) at position `k`. */
  ghost predicate LevelSpan(s: string, i: nat, k: nat, w: string, e: nat) {
    && i <= k && k + |w| <= e <= |s|
    && WordAt(s, k, w)
    && (i < k ==> s[i] == '[' || IsSpace(s[i]))
    && (forall t :: i < t < k ==> IsSpace(s[t]))
    && (forall t :: k + |w| <= t < e - 1 ==> IsSpace(s[t]))
    && (k + |w| < e ==> s[e - 1] == ']' || IsSpace(s[e - 1]))
  }

  /** Upper-casing text that equals an upper-case ASCII word up to case gives the word. */
  lemma UpperOfFolded(t: string, w: string)
    requires EqualsIgnoreCase(t, w)
    requires forall i :: 0 <= i < |w| ==> 'A' <= w[i] <= 'Z'
    ensures Upper(t) == w
  {
    assert |t| == |Lower(t)| == |Lower(w)| == |w|;
    forall i | 0 <= i < |w|
      ensures Upper(t)[i] == w[i]
    {
      assert Lower(t)[i] == Lower(w)[i];
    }
  }

  /** Every vocabulary word is written in upper-case ASCII letters. */
  lemma LevelsUpper(n: nat)
    requires n < |Levels|
    ensures forall i :: 0 <= i < |Levels[n]| ==> 'A' <= Levels[n][i] <= 'Z'
    ensures |Levels[n]| > 0
  {
  }

  /** Try the level pattern at position `i`: an optional `[`, a greedy run of
      whitespace, the first vocabulary word that fits, a greedy run of
      whitespace and an optional `]`. */
  function MatchAt(s: string, i: nat): (r: Option<LevelMatch>)
    ensures r.Some? ==> r.value.start == i && IsLevel(r.value.level)
    ensures r.Some? ==> r.value.start <= r.value.end <= |s|
    ensures r.Some? ==> LevelSpan(s, i, r.value.wordStart, r.value.level, r.value.end)
  {
    if i > |s| then None else
    var j := if i < |s| && s[i] == '[' then i + 1 else i;
    var k := SpaceRunEnd(s, j);
    match FirstWordFrom(s, k, 0)
    case None => None
    case Some(n) => Some(MatchWord(s, i, j, k, n))
  }

  /** The rest of the match once the word `Levels[n]` is found at `k`. */
  function MatchWord(s: string, i: nat, j: nat, k: nat, n: nat): (m: LevelMatch)
    requires i <= j <= |s| && (j == i || (j == i + 1 && s[i] == '['))
    requires j <= k <= |s| && (forall t :: j <= t < k ==> IsSpace(s[t]))
    requires n < |Levels| && WordAt(s, k, Levels[n])
    ensures m.start == i && IsLevel(m.level)
    ensures LevelSpan(s, i, m.wordStart, m.level, m.end)
  {
    var w := Levels[n];
    var e := SpaceRunEnd(s, k + |w|);
    var end := if e < |s| && s[e] == ']' then e + 1 else e;
    MatchedWordIsLevel(s, k, n);
    SpanOfMatch(s, i, j, k, w, e, end);
    LevelMatch(i, k, end, Upper(s[k..k + |w|]))
  }

  /** The text matched by a vocabulary word, upper-cased, is that word. */
  lemma MatchedWordIsLevel(s: string, k: nat, n: nat)
    requires n < |Levels| && WordAt(s, k, Levels[n])
    ensures Upper(s[k..k + |Levels[n]|]) == Levels[n] && IsLevel(Levels[n])
  {
    LevelsUpper(n);
    UpperOfFolded(s[k..k + |Levels[n]|], Levels[n]);
  }

  /** The positions `MatchAt` computes delimit a level span. */
  lemma SpanOfMatch(s: string, i: nat, j: nat, k: nat, w: string, e: nat, end: nat)
    requires i <= j <= |s| && (j == i || (j == i + 1 && s[i] == '['))
    requires j <= k <= |s| && (forall t :: j <= t < k ==> IsSpace(s[t]))
    requires WordAt(s, k, w)
    requires k + |w| <= e <= |s| && (forall t :: k + |w| <= t < e ==> IsSpace(s[t]))
    requires end == (if e < |s| && s[e] == ']' then e + 1 else e)
    ensures LevelSpan(s, i, k, w, end)
  {
  }

  /** The first index in `from..last` where `f` yields a value. */
  function FirstHit<T>(f: nat -> Option<T>, from: nat, last: nat): (r: Option<nat>)
    ensures r.Some? ==> from <= r.value <= last && f(r.value).Some?
    ensures r.Some? ==> forall j :: from <= j < r.value ==> f(j).None?
    ensures r.None? ==> forall j :: from <= j <= last ==> f(j).None?
    decreases last - from
  {
    if from > last then None
    else if f(from).Some? then Some(from)
    else FirstHit(f, from + 1, last)
  }

  /** The level pattern tried at each position of `s`. */
  function LevelMatcher(s: string): nat -> Option<LevelMatch> {
    (i: nat) => MatchAt(s, i)
  }

  /** `LEVEL_PATTERN.search(s)`: the match at the first position from `from`
      on where the pattern matches. */
  function SearchLevel(s: string, from: nat): (r: Option<LevelMatch>)
    requires from <= |s|
    ensures r.Some? ==> from <= r.value.start <= r.value.end <= |s| && MatchAt(s, r.value.start) == r
  {
    match FirstHit(LevelMatcher(s), from, |s|)
    case None => None
    case Some(i) => MatchAt(s, i)
  }

  /** The search returns the leftmost match, and finds nothing only when no
      position matches. */
  lemma SearchLevelLeftmost(s: string, from: nat)
    requires from <= |s|
    ensures SearchLevel(s, from).Some? ==>
      forall i :: from <= i < SearchLevel(s, from).value.start ==> MatchAt(s, i).None?
    ensures SearchLevel(s, from).None? ==> forall i :: from <= i <= |s| ==> MatchAt(s, i).None?
  {
    var hit := FirstHit(LevelMatcher(s), from, |s|);
    forall i | from <= i <= |s| && (hit.None? || i < hit.value)
      ensures MatchAt(s, i).None?
    {
      assert LevelMatcher(s)(i) == MatchAt(s, i);
    }
  }

  /** A vocabulary word anywhere in the line is always found: the leftmost
      match starts no later than it. */
  lemma WordIsFound(s: string, k: nat, n: nat)
    requires n < |Levels| && WordAt(s, k, Levels[n])
    ensures SearchLevel(s, 0).Some? && SearchLevel(s, 0).value.start <= k
  {
    LevelsUpper(n);
    var w := Levels[n];
    assert Lower(s[k..k + |w|])[0] == Lower(w)[0];
    assert s[k..k + |w|][0] == s[k];
    assert s[k] != '[' && !IsSpace(s[k]);
    assert SpaceRunEnd(s, k) == k;
    assert FirstWordFrom(s, k, 0).Some?;
    assert MatchAt(s, k).Some?;
    SearchLevelLeftmost(s, 0);
  }

  /** A level is found exactly when some vocabulary word occurs in the line,
      ignoring case and with no word boundary required. */
  lemma LevelFoundIff(s: string)
    ensures SearchLevel(s, 0).Some? <==>
      exists k: nat, n :: 0 <= n < |Levels| && WordAt(s, k, Levels[n])
  {
    if SearchLevel(s, 0).Some? {
      var m := SearchLevel(s, 0).value;
      var n :| 0 <= n < |Levels| && Levels[n] == m.level;
      assert WordAt(s, m.wordStart, Levels[n]);
    }
    if exists k: nat, n :: 0 <= n < |Levels| && WordAt(s, k, Levels[n]) {
      var k: nat, n :| 0 <= n < |Levels| && WordAt(s, k, Levels[n]);
      WordIsFound(s, k, n);
    }
  }

  /** End of the digit run starting at `i` (ASCII digits only). */
  function DigitRunEnd(s: string, i: nat): (j: nat)
    requires i <= |s|
    ensures i <= j <= |s|
    ensures forall k :: i <= k < j ==> Numerals.IsDigit(s[k])
    ensures j == |s| || !Numerals.IsDigit(s[j])
    decreases |s| - i
  {
    if i < |s| && Numerals.IsDigit(s[i]) then DigitRunEnd(s, i + 1) else i
  }

  /** `re.sub(r"^\[\s*[,\.]?\d*\]", "", s)`: drop a leading fragment such as
      `[,234]` left over from a timestamp. */
  function RemoveLeftover(s: string): (r: string)
    ensures |r| <= |s| && r == s[|s| - |r|..]
    ensures (s == [] || s[0] != '[') ==> r == s
    ensures |r| < |s| ==> s[0] == '[' && s[|s| - |r| - 1] == ']'
    ensures |r| < |s| ==> forall t :: 0 < t < |s| - |r| - 1 ==>
      IsSpace(s[t]) || s[t] == ',' || s[t] == '.' || Numerals.IsDigit(s[t])
  {
    if s == [] || s[0] != '[' then s
    else
      var a := SpaceRunEnd(s, 1);
      var b := if a < |s| && (s[a] == ',' || s[a] == '.') then a + 1 else a;
      var c := DigitRunEnd(s, b);
      if c < |s| && s[c] == ']' then s[c + 1..] else s
  }

  /** `_extract_log_level`: the upper-cased level, if any, and the line with
      the level span cut out, the leftover fragment removed, and trimmed. */
  function ExtractLevel(line: string): (r: (Option<string>, string))
    ensures r.0.Some? <==> SearchLevel(line, 0).Some?
    ensures r.0.Some? ==> IsLevel(r.0.value)
    ensures r.0.None? ==> r.1 == Strip(line)
    ensures SearchLevel(line, 0).Some? ==> var m := SearchLevel(line, 0).value;
      && r.0 == Some(m.level)
      && r.1 == Strip(RemoveLeftover(line[..m.start] + line[m.end..]))
    ensures Trimmed(r.1, Whitespace)
    ensures |r.1| <= |line|
  {
    match SearchLevel(line, 0)
    case None => (None, Strip(line))
    case Some(m) =>
      var cut := line[..m.start] + line[m.end..];
      TrimBySlice(RemoveLeftover(cut), Whitespace);
      (Some(m.level), Strip(RemoveLeftover(cut)))
  }

  // ---------------------------------------------------------------------------
  // Fields
  // ---------------------------------------------------------------------------

  /** A run of at least two whitespace characters starts at `i`. */
  predicate RunAt(s: string, i: nat) {
    i + 1 < |s| && IsSpace(s[i]) && IsSpace(s[i + 1])
  }

  /** No two adjacent whitespace characters. */
  predicate NoRun(s: string) {
    forall i :: 0 <= i < |s| - 1 ==> !(IsSpace(s[i]) && IsSpace(s[i + 1]))
  }

  /** A field as the splitter produces it: non-empty, trimmed, no run inside. */
  predicate Field(f: string) {
    f != [] && Trimmed(f, Whitespace) && NoRun(f)
  }

  /** The first position from `from` on where a run starts, or `|s|`. */
  function RunStart(s: string, from: nat): (i: nat)
    requires from <= |s|
    ensures from <= i <= |s|
    ensures i < |s| ==> RunAt(s, i)
    ensures forall k :: from <= k < i ==> !RunAt(s, k)
    decreases |s| - from
  {
    if from == |s| || RunAt(s, from) then from else RunStart(s, from + 1)
  }

  /** `re.search(r"\s{2,}", s)` succeeds. */
  predicate HasRun(s: string) {
    RunStart(s, 0) < |s|
  }

  /** `re.split(r"\s{2,}", s)`: the pieces between maximal runs of two or more
      whitespace characters. */
  function SplitRuns(s: string): (r: seq<string>)
    ensures |r| >= 1
    ensures forall p :: p in r ==> NoRun(p)
    decreases |s|
  {
    var i := RunStart(s, 0);
    if i == |s| then
      assert NoRun(s) by {
        forall k | 0 <= k < |s| - 1 ensures !(IsSpace(s[k]) && IsSpace(s[k + 1])) {
          assert !RunAt(s, k);
        }
      }
      [s]
    else
      var head := s[..i];
      assert NoRun(head) by {
        forall k | 0 <= k < |head| - 1 ensures !(IsSpace(head[k]) && IsSpace(head[k + 1])) {
          assert !RunAt(s, k);
        }
      }
      [head] + SplitRuns(s[SpaceRunEnd(s, i)..])
  }

  /** The fields of `extract_timestamp_and_clean_message`: split on runs when
      there is one, otherwise the trimmed line as the only field. */
  function Fields(cleaned: string): (r: seq<string>)
    ensures |r| >= 1
  {
    if HasRun(cleaned) then SplitRuns(Strip(cleaned)) else [Strip(cleaned)]
  }

  /** The pieces of a trimmed non-empty string are fields. */
  lemma {:induction false} SplitRunsFields(s: string)
    requires s != [] && Trimmed(s, Whitespace)
    ensures forall p :: p in SplitRuns(s) ==> Field(p)
    decreases |s|
  {
    var i := RunStart(s, 0);
    if i < |s| {
      var j := SpaceRunEnd(s, i);
      assert i > 0;
      assert !RunAt(s, i - 1);
      assert !IsSpace(s[i - 1]);
      var head := s[..i];
      assert head[|head| - 1] == s[i - 1] && head[0] == s[0];
      assert NoRun(head) by {
        forall k | 0 <= k < |head| - 1 ensures !(IsSpace(head[k]) && IsSpace(head[k + 1])) {
          assert !RunAt(s, k);
        }
      }
      assert j < |s|;
      var rest := s[j..];
      assert rest[0] == s[j] && rest[|rest| - 1] == s[|s| - 1];
      SplitRunsFields(rest);
      assert SplitRuns(s) == [head] + SplitRuns(rest);
    } else {
      assert SplitRuns(s) == [s];
    }
  }

  /** Fields joined by two spaces split back into the same fields. */
  lemma {:induction false} SplitRunsJoin(fields: seq<string>)
    requires |fields| >= 1
    requires forall i :: 0 <= i < |fields| ==> Field(fields[i])
    ensures SplitRuns(Join(fields, "  ")) == fields
    decreases |fields|
  {
    if |fields| == 1 {
      SplitRunsSingle(fields[0]);
    } else {
      var tail := Join(fields[1..], "  ");
      JoinStartsWithFirst(fields[1..], "  ");
      SplitRunsStep(fields[0], tail);
      assert Join(fields, "  ") == fields[0] + "  " + tail;
      SplitRunsJoin(fields[1..]);
      assert [fields[0]] + fields[1..] == fields;
    }
  }

  /** A single field is its own only piece. */
  lemma SplitRunsSingle(f: string)
    requires NoRun(f)
    ensures SplitRuns(f) == [f]
  {
    assert forall k :: 0 <= k < |f| ==> !RunAt(f, k);
  }

  /** A join of non-empty parts starts with the first part's first character. */
  lemma JoinStartsWithFirst(parts: seq<string>, sep: string)
    requires |parts| >= 1 && parts[0] != []
    ensures Join(parts, sep) != [] && Join(parts, sep)[0] == parts[0][0]
  {
  }

  /** A field, two spaces and a text that starts with a non-space character
      splits into the field followed by the pieces of that text. */
  lemma SplitRunsStep(f: string, tail: string)
    requires Field(f)
    requires tail != [] && !IsSpace(tail[0])
    ensures SplitRuns(f + "  " + tail) == [f] + SplitRuns(tail)
  {
    var s := f + "  " + tail;
    assert RunAt(s, |f|);
    forall k | 0 <= k < |f|
      ensures !RunAt(s, k)
    {
      if k < |f| - 1 {
        assert s[k] == f[k] && s[k + 1] == f[k + 1];
      } else {
        assert s[k] == f[|f| - 1];
      }
    }
    assert RunStart(s, 0) == |f|;
    assert s[|f| + 2] == tail[0];
    assert SpaceRunEnd(s, |f| + 1) == |f| + 2;
    assert SpaceRunEnd(s, |f|) == |f| + 2;
    assert s[..|f|] == f;
    assert s[|f| + 2..] == tail;
  }

  /** The result of `extract_timestamp_and_clean_message`. */
  datatype ParsedLine = ParsedLine(timestamp: string, level: string, fields: seq<string>)

  /** `extract_timestamp_and_clean_message`: timestamp, level (`INFO` when
      none is found) and fields. Every field is non-empty, trimmed and free of
      whitespace runs, except the single empty field of an empty message. */
  function ExtractTimestampAndCleanMessage(patterns: seq<TimestampPattern>, now: string, line: string): (r: ParsedLine)
    ensures IsLevel(r.level)
    ensures r.timestamp == ParseTimestamp(patterns, line, now).0
    ensures var rest := ParseTimestamp(patterns, line, now).1;
      && (SearchLevel(rest, 0).None? ==> r.level == "INFO")
      && (SearchLevel(rest, 0).Some? ==> r.level == SearchLevel(rest, 0).value.level)
      && r.fields == Fields(ExtractLevel(rest).1)
    ensures |r.fields| >= 1
    ensures r.fields == [""] || forall i :: 0 <= i < |r.fields| ==> Field(r.fields[i])
  {
    var (timestamp, rest) := ParseTimestamp(patterns, line, now);
    var (level, cleaned) := ExtractLevel(rest);
    FieldsOfTrimmed(cleaned);
    ParsedLine(timestamp, level.GetOr("INFO"), Fields(cleaned))
  }

  /** The fields of a trimmed message. */
  lemma FieldsOfTrimmed(cleaned: string)
    requires Trimmed(cleaned, Whitespace)
    ensures Fields(cleaned) == [""] || forall i :: 0 <= i < |Fields(cleaned)| ==> Field(Fields(cleaned)[i])
  {
    TrimByTrimmed(cleaned, Whitespace);
    if cleaned != [] {
      if HasRun(cleaned) {
        SplitRunsFields(cleaned);
      } else {
        NoRunWithoutRunStart(cleaned);
      }
    }
  }

  /** A level is taken from a line exactly when some vocabulary word occurs
      in it, and it is the level of the leftmost match. */
  lemma ExtractLevelFindsAnyWord(line: string)
    ensures ExtractLevel(line).0.Some? <==>
      exists k: nat, n :: 0 <= n < |Levels| && WordAt(line, k, Levels[n])
    ensures ExtractLevel(line).0.Some? ==> var m := SearchLevel(line, 0).value;
      ExtractLevel(line).0.value == m.level && forall i :: 0 <= i < m.start ==> MatchAt(line, i).None?
  {
    LevelFoundIff(line);
    SearchLevelLeftmost(line, 0);
  }

  /** A line whose text after the timestamp holds no vocabulary word is
      given the level `INFO`. */
  lemma DefaultLevelIsInfo(patterns: seq<TimestampPattern>, now: string, line: string)
    requires var rest := ParseTimestamp(patterns, line, now).1;
      forall k: nat, n :: 0 <= n < |Levels| ==> !WordAt(rest, k, Levels[n])
    ensures ExtractTimestampAndCleanMessage(patterns, now, line).level == "INFO"
  {
    LevelFoundIff(ParseTimestamp(patterns, line, now).1);
  }

  /** A string in which no run starts has no two adjacent whitespace characters. */
  lemma NoRunWithoutRunStart(s: string)
    requires !HasRun(s)
    ensures NoRun(s)
  {
    forall k | 0 <= k < |s| - 1
      ensures !(IsSpace(s[k]) && IsSpace(s[k + 1]))
    {
      assert !RunAt(s, k);
    }
  }
}

module LogLineParserExamples {
  import opened Wrappers
  import opened Text
  import opened LogLineParser

  /** A sample line: a level, two spaces, a job name, four spaces and a
      message. */
  const Line: string := "WARN  job    ran late"

  /** The sample line once its level span is cut out. */
  const Rest: string := "job    ran late"

  lemma LineChars()
    ensures |Line| == 21 && Line[0] == 'W' && Line[4] == ' ' && Line[5] == ' ' && Line[6] == 'j'
    ensures Line[0..4] == "WARN" && Line[..0] + Line[6..] == Rest
  {
  }

  /** A word whose folded form differs from `w`'s at some position is not `w`. */
  lemma NotWordAt(s: string, k: nat, w: string, d: nat)
    requires k + |w| <= |s| && d < |w|
    requires LowerChar(s[k + d]) != LowerChar(w[d])
    ensures !WordAt(s, k, w)
  {
    assert Lower(s[k..k + |w|])[d] != Lower(w)[d];
  }

  /** The vocabulary words before `WARNING` start with another letter. */
  lemma EarlierWordsDiffer()
    ensures forall m :: 0 <= m < 5 ==> !WordAt(Line, 0, Levels[m])
  {
    LineChars();
    NotWordAt(Line, 0, "TRACE", 0);
    NotWordAt(Line, 0, "DEBUG", 0);
    NotWordAt(Line, 0, "VERBOSE", 0);
    NotWordAt(Line, 0, "INFO", 0);
    NotWordAt(Line, 0, "NOTICE", 0);
  }

  /** `WARNING` is ruled out by the space after `WARN`, which fits. */
  lemma WarnFits()
    ensures !WordAt(Line, 0, Levels[5]) && WordAt(Line, 0, Levels[6])
  {
    LineChars();
    NotWordAt(Line, 0, "WARNING", 4);
    assert Line[0..|Levels[6]|] == Levels[6];
  }

  /** In the sample line `WARN` is the first vocabulary word that fits at
      position 0. */
  lemma WarnIsFirstWord()
    ensures FirstWordFrom(Line, 0, 0) == Some(6)
  {
    EarlierWordsDiffer();
    WarnFits();
    var r := FirstWordFrom(Line, 0, 0);
    assert r.Some?;
    assert r.value <= 6;
  }

  lemma WarnSpaces()
    ensures SpaceRunEnd(Line, 0) == 0
    ensures SpaceRunEnd(Line, 4) == 6
  {
    LineChars();
    assert SpaceRunEnd(Line, 6) == 6;
    assert SpaceRunEnd(Line, 5) == 6;
  }

  /** The level pattern matches `WARN` and the two spaces after it. */
  lemma WarnMatch()
    ensures MatchAt(Line, 0) == Some(LevelMatch(0, 0, 6, "WARN"))
  {
    LineChars();
    WarnSpaces();
    WarnIsFirstWord();
    MatchedWordIsLevel(Line, 0, 6);
    assert Levels[6] == "WARN";
    assert MatchWord(Line, 0, 0, 0, 6) == LevelMatch(0, 0, 6, "WARN");
  }

  lemma WarnSearch()
    ensures SearchLevel(Line, 0) == Some(LevelMatch(0, 0, 6, "WARN"))
  {
    WarnMatch();
    assert LevelMatcher(Line)(0) == MatchAt(Line, 0);
  }

  lemma WarnRest()
    ensures Strip(RemoveLeftover(Rest)) == Rest
  {
    assert Rest[0] == 'j' && Rest[|Rest| - 1] == 'e';
    assert RemoveLeftover(Rest) == Rest;
    TrimByTrimmed(Rest, Whitespace);
  }

  /** `WARN` followed by two spaces: `WARNING` is tried first and fails, and
      `WARN` matches together with the spaces after it. */
  lemma WarnExample()
    ensures ExtractLevel(Line) == (Some("WARN"), Rest)
  {
    WarnSearch();
    WarnRest();
    LineChars();
  }

  /** Where the run of four spaces in the sample rest starts and ends. */
  lemma RestRun()
    ensures HasRun(Rest) && RunStart(Rest, 0) == 3 && SpaceRunEnd(Rest, 3) == 7
    ensures Rest[..3] == "job" && Rest[7..] == "ran late"
  {
    assert Rest == "job" + "    " + "ran late";
    assert RunAt(Rest, 3);
    assert RunStart(Rest, 2) == 3;
    assert RunStart(Rest, 1) == 3;
    assert SpaceRunEnd(Rest, 7) == 7;
    assert SpaceRunEnd(Rest, 5) == 7;
  }

  /** The rest of the sample line splits into the job name and the message
      at the run of four spaces; the single space inside the message stays. */
  lemma FieldsExample()
    ensures Fields(Rest) == ["job", "ran late"]
  {
    RestRun();
    RestTrimmed();
    RestSplits();
    MessageHasNoRun();
  }

  lemma RestTrimmed()
    ensures Strip(Rest) == Rest
  {
    assert Rest[0] == 'j' && Rest[|Rest| - 1] == 'e';
    TrimByTrimmed(Rest, Whitespace);
  }

  /** The first piece is the text before the run; the rest starts after it. */
  lemma RestSplits()
    ensures SplitRuns(Rest) == ["job"] + SplitRuns("ran late")
  {
    RestRun();
  }

  lemma MessageHasNoRun()
    ensures SplitRuns("ran late") == ["ran late"]
  {
    var message := "ran late";
    assert forall k :: 0 <= k < |message| - 1 ==> !(IsSpace(message[k]) && IsSpace(message[k + 1]));
    SplitRunsSingle(message);
  }

  /** With no timestamp pattern the time falls back to `now`; the level and
      fields come from the whole line. */
  lemma PipelineExample(now: string)
    ensures ExtractTimestampAndCleanMessage([], now, Line) == ParsedLine(now, "WARN", ["job", "ran late"])
  {
    FirstSuccessDecides([], Line, now);
    WarnExample();
    FieldsExample();
  }
}

=== FILE: src/numerals.dfy ===
/** Decimal rendering and parsing of integers: Python `str(n)` for an `int`
    and `int(s)` for a string holding a base-10 literal. */
module Numerals {

  import opened Wrappers
  import Text

  predicate IsDigit(c: char) {
    '0' <= c <= '9'
  }

  predicate AllDigits(s: string) {
    forall i :: 0 <= i < |s| ==> IsDigit(s[i])
  }

  function DigitChar(d: nat): (c: char)
    requires d < 10
    ensures IsDigit(c)
  {
    ('0' as int + d) as char
  }

  function DigitValue(c: char): (d: nat)
    requires IsDigit(c)
    ensures d < 10
  {
    c as int - '0' as int
  }

  /** The number a string of decimal digits denotes (leading zeros allowed). */
  function DigitsValue(s: string): nat
    requires AllDigits(s)
  {
    if s == [] then 0
    else 10 * DigitsValue(s[..|s| - 1]) + DigitValue(s[|s| - 1])
  }

  /** Python `str(n)` for a non-negative integer. */
  function NatToString(n: nat): (r: string)
    ensures r != [] && AllDigits(r)
    ensures |r| > 1 ==> r[0] != '0'
  {
    if n < 10 then [DigitChar(n)]
    else NatToString(n / 10) + [DigitChar(n % 10)]
  }

  /** Rendering `10 * n + d` writes the digit `d` after the digits of `n`. */
  lemma AppendDigit(n: nat, d: nat)
    requires d < 10
    ensures NatToString(10 * n + d) == (if n == 0 then [] else NatToString(n)) + [DigitChar(d)]
  {
    if n > 0 {
      assert (10 * n + d) / 10 == n && (10 * n + d) % 10 == d;
    }
  }

  /** Python `str(i)` for any integer. */
  function IntToString(i: int): string
  {
    if i < 0 then "-" + NatToString(-i) else NatToString(i)
  }

  /** Rendering then reading the digits gives back the number. */
  lemma {:induction false} NatToStringValue(n: nat)
    ensures DigitsValue(NatToString(n)) == n
  {
    var r := NatToString(n);
    if n >= 10 {
      NatToStringValue(n / 10);
      assert r[..|r| - 1] == NatToString(n / 10);
    }
  }

  /** Python accepts `_` between digits of an integer literal. */
  predicate UnderscoredDigits(s: string) {
    && s != []
    && IsDigit(s[0]) && IsDigit(s[|s| - 1])
    && (forall i :: 0 <= i < |s| ==> IsDigit(s[i]) || s[i] == '_')
    && (forall i :: 0 <= i < |s| - 1 ==> !(s[i] == '_' && s[i + 1] == '_'))
  }

  function RemoveUnderscores(s: string): (r: string)
    requires forall i :: 0 <= i < |s| ==> IsDigit(s[i]) || s[i] == '_'
    ensures AllDigits(r)
    ensures AllDigits(s) ==> r == s
  {
    if s == [] then []
    else if s[0] == '_' then RemoveUnderscores(s[1..])
    else [s[0]] + RemoveUnderscores(s[1..])
  }

  /** Python `int(s)` for a string: surrounding whitespace is ignored, one
      optional sign, then base-10 digits with single underscores between
      them. Anything else is a ValueError, modelled as `None`. */
  function ParseInt(s: string): Option<int>
  {
    ParseSigned(Text.Strip(s))
  }

  /** The part of `ParseInt` after surrounding whitespace is gone. */
  function ParseSigned(t: string): Option<int>
  {
    if t == [] then None
    else
      var negative := t[0] == '-';
      var body := if t[0] == '-' || t[0] == '+' then t[1..] else t;
      if !UnderscoredDigits(body) then None
      else
        var v: int := DigitsValue(RemoveUnderscores(body));
        Some(if negative then -v else v)
  }

  /** `int(str(i)) == i` for every integer. */
  lemma IntToStringRoundTrip(i: int)
    ensures ParseInt(IntToString(i)) == Some(i)
  {
    StripRendered(i);
    SignedRoundTrip(i);
  }

  /** The signed digits of `str(i)` read back as `i`. */
  lemma SignedRoundTrip(i: int)
    ensures ParseSigned(IntToString(i)) == Some(i)
  {
    if i < 0 {
      NegativeRendered(i);
    } else {
      NonNegativeRendered(i);
    }
  }

  /** `str(i)` of a negative integer reads back as `i`. */
  lemma NegativeRendered(i: int)
    requires i < 0
    ensures ParseSigned(IntToString(i)) == Some(i)
  {
    var n: nat := -i;
    assert IntToString(i) == "-" + NatToString(n);
    NegativeRoundTrip(n);
  }

  /** `str(i)` of a non-negative integer reads back as `i`. */
  lemma NonNegativeRendered(i: int)
    requires i >= 0
    ensures ParseSigned(IntToString(i)) == Some(i)
  {
    NatRoundTrip(i);
  }

  /** Stripping leaves a rendered integer alone. */
  lemma StripRendered(i: int)
    ensures Text.Strip(IntToString(i)) == IntToString(i)
  {
    RenderedIsTrimmed(i);
    Text.TrimByTrimmed(IntToString(i), Text.Whitespace);
  }

  /** A rendered integer starts with a sign or digit and ends with a digit. */
  lemma RenderedIsTrimmed(i: int)
    ensures Text.Trimmed(IntToString(i), Text.Whitespace)
  {
    var s := IntToString(i);
    var digits := NatToString(if i < 0 then -i else i);
    assert IsDigit(digits[|digits| - 1]);
    assert s[|s| - 1] == digits[|digits| - 1];
    assert s[0] == '-' || IsDigit(s[0]);
    assert !Text.IsSpace(s[0]) && !Text.IsSpace(s[|s| - 1]);
  }

  lemma NatRoundTrip(n: nat)
    ensures ParseSigned(NatToString(n)) == Some(n)
  {
    var digits := NatToString(n);
    NatToStringValue(n);
    DigitsAreUnderscored(digits);
    assert IsDigit(digits[0]);
  }

  lemma NegativeRoundTrip(n: nat)
    requires n > 0
    ensures ParseSigned("-" + NatToString(n)) == Some(-(n as int))
  {
    var digits := NatToString(n);
    NatToStringValue(n);
    DigitsAreUnderscored(digits);
    assert ("-" + digits)[1..] == digits;
  }

  lemma DigitsAreUnderscored(digits: string)
    requires digits != [] && AllDigits(digits)
    ensures UnderscoredDigits(digits)
    ensures RemoveUnderscores(digits) == digits
  {
  }
}

=== FILE: src/sql_definitions.dfy ===
/** The SQL the services share (shared/helpers/sql_definitions.py): the
    dialect switch, the declared column lists, and the CREATE, INSERT,
    SELECT and DELETE statements generated from them. Statement properties
    are stated through small readers (`Parenthesized`, `CommaList`, line
    splitting) that look at the rendered text independently of how it was
    built. */
module SqlDefinitions {

  import opened Wrappers
  import opened Text
  import opened Values
  import ViewerReaders

  // ---------------------------------------------------------------------------
  // Dialect
  // ---------------------------------------------------------------------------

  /** The URL `is_postgres` inspects: a non-empty `DATABASE_URL` environment
      value, else the config's `database_url` (default empty). A config value
      that is not a string has no `startswith`. */
  function DatabaseUrl(env: Option<string>, config: Dict): (r: Result<string>)
    ensures env.Some? && env.value != [] ==> r == Ok(env.value)
    ensures (env.None? || env.value == []) && "database_url" !in config ==> r == Ok("")
    ensures r.Err? <==> ((env.None? || env.value == [])
      && "database_url" in config && !config["database_url"].Str?)
  {
    if env.Some? && env.value != [] then Ok(env.value)
    else
      match GetOr(config, "database_url", Str(""))
      case Str(s) => Ok(s)
      case _ => Err(AttributeError("startswith"))
  }

  /** The URL test as written: any URL starting with `postgresql`. */
  predicate IsPostgresUrlAsWritten(url: string) {
    StartsWith(url, "postgresql")
  }

  /** The URL test the rest of the system applies: the two URL schemes the
      viewer accepts for PostgreSQL. */
  predicate IsPostgresUrl(url: string) {
    StartsWith(url, "postgresql://") || StartsWith(url, "postgres://")
  }

  /** `is_postgres()`, with the corrected URL test. */
  function IsPostgres(env: Option<string>, config: Dict): (r: Result<bool>)
    ensures r.Ok? <==> DatabaseUrl(env, config).Ok?
    ensures r.Ok? ==> (r.value <==> (ViewerReaders.SelectReader(DatabaseUrl(env, config).value).Ok?
      && ViewerReaders.SelectReader(DatabaseUrl(env, config).value).value.PostgresReader?))
  {
    var url :- DatabaseUrl(env, config);
    PostgresUrlAgreesWithReader(url);
    Ok(IsPostgresUrl(url))
  }

  /** The corrected URL test says PostgreSQL exactly when the viewer would
      open a PostgreSQL reader for the same URL. */
  lemma PostgresUrlAgreesWithReader(url: string)
    ensures IsPostgresUrl(url) <==> (ViewerReaders.SelectReader(url).Ok?
      && ViewerReaders.SelectReader(url).value.PostgresReader?)
  {
    ViewerReaders.PostgresReaderChosen(url);
    if StartsWith(url, "sqlite:///") {
      SchemesExclusive(url);
    }
  }

  /** No URL starts with both the SQLite and a PostgreSQL prefix. */
  lemma SchemesExclusive(url: string)
    requires StartsWith(url, "sqlite:///")
    ensures !IsPostgresUrl(url)
  {
    assert url[0] == 's';
  }

  /** As written, a `postgres://` URL, which the viewer opens as PostgreSQL,
      gets SQLite placeholders and id column. */
  lemma ShortSchemeMissedAsWritten()
    ensures ViewerReaders.SelectReader("postgres://db").Ok?
    ensures ViewerReaders.SelectReader("postgres://db").value.PostgresReader?
    ensures !IsPostgresUrlAsWritten("postgres://db")
    ensures IsPostgresUrl("postgres://db")
  {
    var url := "postgres://db";
    assert StartsWith(url, "postgres://") by { assert url[..11] == "postgres://"; }
    assert !StartsWith(url, "postgresql") by { assert url[8] != "postgresql"[8]; }
    PostgresUrlAgreesWithReader(url);
  }

  /** The two tests disagree on exactly two families of URLs: the short
      `postgres://` scheme, which only the corrected test accepts, and a
      `postgresql` prefix not followed by `://` (a driver suffix such as
      `postgresql+asyncpg://`), which only the test as written accepts. */
  lemma TestsDifferExactly(url: string)
    ensures IsPostgresUrl(url) && !IsPostgresUrlAsWritten(url) <==> StartsWith(url, "postgres://")
    ensures IsPostgresUrlAsWritten(url) && !IsPostgresUrl(url) <==>
      StartsWith(url, "postgresql") && !StartsWith(url, "postgresql://")
    ensures IsPostgresUrl(url) != IsPostgresUrlAsWritten(url) <==>
      StartsWith(url, "postgres://") || (StartsWith(url, "postgresql") && !StartsWith(url, "postgresql://"))
  {
    if StartsWith(url, "postgresql://") {
      LongerPrefix(url, "postgresql", "postgresql://");
    }
    if StartsWith(url, "postgres://") {
      assert url[..11] == "postgres://" && "postgres://"[8] == ':';
      assert url[8] == ':' by { assert url[..11][8] == url[8]; }
    }
  }

  /** A string that starts with a prefix starts with every shorter prefix
      of it. */
  lemma LongerPrefix(s: string, short: string, long: string)
    requires StartsWith(s, long) && StartsWith(long, short)
    ensures StartsWith(s, short)
  {
    assert s[..|short|] == long[..|short|];
  }

  /** A driver-qualified URL is PostgreSQL as written but not once
      corrected; the viewer opens no reader for it either. */
  lemma DriverSchemeDroppedByCorrection()
    ensures IsPostgresUrlAsWritten("postgresql+asyncpg://h")
    ensures !IsPostgresUrl("postgresql+asyncpg://h")
    ensures ViewerReaders.SelectReader("postgresql+asyncpg://h").Err?
  {
    var url := "postgresql+asyncpg://h";
    assert url[..10] == "postgresql";
    assert !StartsWith(url, "postgresql://") by { assert url[10] != "postgresql://"[10]; }
    assert !StartsWith(url, "postgres://") by { assert url[8] != "postgres://"[8]; }
    assert !StartsWith(url, "sqlite:///") by { assert url[0] != 's'; }
  }

  /** `Q`: the parameter placeholder of the dialect. */
  function Placeholder(postgres: bool): string {
    if postgres then "%s" else "?"
  }

  /** `ID_FIELD`: the auto-numbered primary key of the dialect. */
  function IdField(postgres: bool): string {
    if postgres then "id SERIAL PRIMARY KEY" else "id INTEGER PRIMARY KEY AUTOINCREMENT"
  }

  // ---------------------------------------------------------------------------
  // Column lists
  // ---------------------------------------------------------------------------

  datatype Column = Column(name: string, sqlType: string)

  const EventColumns: seq<Column> := [
    Column("event_type", "TEXT"), Column("testid", "TEXT"), Column("timestamp", "TEXT"),
    Column("name", "TEXT"), Column("longname", "TEXT"), Column("suite", "TEXT"),
    Column("status", "TEXT"), Column("message", "TEXT"), Column("elapsed", "INTEGER"),
    Column("statistics", "TEXT"), Column("tags", "TEXT")]

  /** `rf_log_columns`; the module assigns it twice with the same list. */
  const RfLogColumns: seq<Column> := [
    Column("event_type", "TEXT"), Column("testid", "TEXT"), Column("timestamp", "TEXT"),
    Column("level", "TEXT"), Column("message", "TEXT"), Column("html", "TEXT")]

  const AppLogColumns: seq<Column> := [
    Column("timestamp", "TEXT"), Column("event_type", "TEXT"), Column("source", "TEXT"),
    Column("message", "TEXT"), Column("level", "TEXT")]

  const MetricColumns: seq<Column> := [
    Column("timestamp", "TEXT"), Column("metric_name", "TEXT"), Column("value", "REAL"),
    Column("unit", "TEXT"), Column("source", "TEXT")]

  predicate IdentChar(c: char) {
    ('a' <= c <= 'z') || ('A' <= c <= 'Z') || ('0' <= c <= '9') || c == '_'
  }

  predicate Identifier(s: string) {
    |s| > 0 && forall i :: 0 <= i < |s| ==> IdentChar(s[i])
  }

  predicate WellNamed(cols: seq<Column>) {
    |cols| > 0 && forall i :: 0 <= i < |cols| ==> Identifier(cols[i].name) && Identifier(cols[i].sqlType)
  }

  function Names(cols: seq<Column>): (r: seq<string>)
    ensures |r| == |cols| && forall i :: 0 <= i < |cols| ==> r[i] == cols[i].name
  {
    seq(|cols|, i requires 0 <= i < |cols| => cols[i].name)
  }

  /** The `name TYPE` column definitions of a CREATE statement. */
  function Definitions(cols: seq<Column>): (r: seq<string>)
    ensures |r| == |cols| && forall i :: 0 <= i < |cols| ==> r[i] == cols[i].name + " " + cols[i].sqlType
  {
    seq(|cols|, i requires 0 <= i < |cols| => cols[i].name + " " + cols[i].sqlType)
  }

  /** No declared column list has a tenant column: rows written through
      these statements carry no tenant. */
  lemma NoTenantColumn()
    ensures forall cols :: cols in [EventColumns, RfLogColumns, AppLogColumns, MetricColumns] ==>
      "tenant_id" !in Names(cols)
  {
  }

  lemma DeclaredColumnsWellNamed()
    ensures WellNamed(EventColumns) && WellNamed(RfLogColumns)
    ensures WellNamed(AppLogColumns) && WellNamed(MetricColumns)
  {
    EventColumnsWellNamed();
    RfLogColumnsWellNamed();
    AppLogColumnsWellNamed();
    MetricColumnsWellNamed();
  }

  lemma EventColumnsWellNamed()
    ensures WellNamed(EventColumns)
  {
    EventNamesAreIdentifiers();
  }

  lemma EventNamesAreIdentifiers()
    ensures forall i :: 0 <= i < |EventColumns| ==> Identifier(EventColumns[i].name)
  {
    CommonNamesAreIdentifiers();
    TestNamesAreIdentifiers();
    assert Identifier("longname");
    assert Identifier("statistics");
  }

  /** Column names several tables share. */
  lemma CommonNamesAreIdentifiers()
    ensures Identifier("event_type") && Identifier("timestamp") && Identifier("name") && Identifier("message")
    ensures Identifier("TEXT")
  {
  }

  /** The columns of a test event, and the integer type of its elapsed time. */
  lemma TestNamesAreIdentifiers()
    ensures Identifier("testid") && Identifier("suite") && Identifier("status") && Identifier("elapsed")
    ensures Identifier("tags") && Identifier("INTEGER")
  {
  }

  lemma RfLogColumnsWellNamed()
    ensures WellNamed(RfLogColumns)
  {
    assert Identifier("event_type");
    assert Identifier("testid");
    assert Identifier("timestamp");
    assert Identifier("level");
    assert Identifier("message");
    assert Identifier("html");
    assert Identifier("TEXT");
  }

  lemma AppLogColumnsWellNamed()
    ensures WellNamed(AppLogColumns)
  {
    assert Identifier("timestamp");
    assert Identifier("event_type");
    assert Identifier("source");
    assert Identifier("message");
    assert Identifier("level");
    assert Identifier("TEXT");
  }

  lemma MetricColumnsWellNamed()
    ensures WellNamed(MetricColumns)
  {
    assert Identifier("timestamp");
    assert Identifier("metric_name");
    assert Identifier("value");
    assert Identifier("unit");
    assert Identifier("source");
    assert Identifier("TEXT");
    assert Identifier("REAL");
  }

  // ---------------------------------------------------------------------------
  // Statements. Each is the module's triple-quoted f-string, which starts and
  // ends with a line break, written as its lines joined with line breaks.
  // ---------------------------------------------------------------------------

  function Repeat(s: string, n: nat): (r: seq<string>)
    ensures |r| == n && forall i :: 0 <= i < n ==> r[i] == s
  {
    seq(n, i => s)
  }

  function CreateTable(table: string, postgres: bool, cols: seq<Column>): string {
    Join(["", "CREATE TABLE IF NOT EXISTS " + table + " (", "    " + IdField(postgres) + ",",
          "    " + Join(Definitions(cols), ", "), ")", ""], "\n")
  }

  function InsertInto(table: string, postgres: bool, cols: seq<Column>): string {
    Join(["", "INSERT INTO " + table + " (" + Join(Names(cols), ", ") + ")",
          "VALUES (" + Join(Repeat(Placeholder(postgres), |cols|), ", ") + ")", ""], "\n")
  }

  function SelectAll(table: string, cols: seq<Column>): string {
    Join(["", "SELECT " + Join(Names(cols), ", "), "FROM " + table, "ORDER BY timestamp ASC", ""], "\n")
  }

  function DeleteAll(table: string): string {
    "DELETE FROM " + table
  }

  function InsertEvent(postgres: bool): string { InsertInto("events", postgres, EventColumns) }
  function InsertRfLogMessage(postgres: bool): string { InsertInto("rf_log_messages", postgres, RfLogColumns) }
  function InsertAppLog(postgres: bool): string { InsertInto("app_logs", postgres, AppLogColumns) }
  function InsertMetric(postgres: bool): string { InsertInto("metrics", postgres, MetricColumns) }

  // ---------------------------------------------------------------------------
  // Readers of rendered statements
  // ---------------------------------------------------------------------------

  /** The text between the first `(` and the `)` after it. */
  function Parenthesized(s: string): (r: Option<string>)
    ensures r.Some? ==> ')' !in r.value
  {
    if '(' !in s then None
    else
      var after := SplitFirst(s, '(').1;
      if ')' !in after then None else Some(SplitFirst(after, ')').0)
  }

  /** A comma-separated list, each item stripped. */
  function CommaList(s: string): (r: seq<string>)
    ensures |r| == |Split(s, ',')|
    ensures forall i :: 0 <= i < |r| ==> r[i] == Strip(Split(s, ',')[i])
  {
    var pieces := Split(s, ',');
    seq(|pieces|, i requires 0 <= i < |pieces| => Strip(pieces[i]))
  }

  /** A list item that reads back unchanged after `strip()`. */
  predicate Cell(s: string) {
    s != [] && Trimmed(s, Whitespace) && ',' !in s
  }

  // ---------------------------------------------------------------------------
  // What the rendered statements say
  // ---------------------------------------------------------------------------

  /** The columns an INSERT statement names, read from its first line. */
  function InsertColumns(statement: string): seq<string> {
    var lines := Split(statement, '\n');
    if |lines| < 2 then []
    else match Parenthesized(lines[1])
      case None => []
      case Some(inner) => CommaList(inner)
  }

  /** The placeholders an INSERT statement binds, read from its VALUES line. */
  function InsertPlaceholders(statement: string): seq<string> {
    var lines := Split(statement, '\n');
    if |lines| < 3 then []
    else match Parenthesized(lines[2])
      case None => []
      case Some(inner) => CommaList(inner)
  }

  /** The INSERT names the declared columns in order and binds one
      placeholder of the dialect per column. */
  lemma InsertListsColumns(table: string, postgres: bool, cols: seq<Column>)
    requires Identifier(table) && WellNamed(cols)
    ensures InsertColumns(InsertInto(table, postgres, cols)) == Names(cols)
    ensures InsertPlaceholders(InsertInto(table, postgres, cols)) == Repeat(Placeholder(postgres), |cols|)
  {
    InsertNamesColumns(table, postgres, cols);
    InsertBindsPlaceholders(table, postgres, cols);
  }

  lemma InsertNamesColumns(table: string, postgres: bool, cols: seq<Column>)
    requires Identifier(table) && WellNamed(cols)
    ensures InsertColumns(InsertInto(table, postgres, cols)) == Names(cols)
  {
    var lines := Split(InsertInto(table, postgres, cols), '\n');
    InsertLines(table, postgres, cols);
    assert lines[1] == "INSERT INTO " + table + " (" + Join(Names(cols), ", ") + ")";
    HeaderColumns(table, cols);
  }

  lemma InsertBindsPlaceholders(table: string, postgres: bool, cols: seq<Column>)
    requires Identifier(table) && WellNamed(cols)
    ensures InsertPlaceholders(InsertInto(table, postgres, cols)) == Repeat(Placeholder(postgres), |cols|)
  {
    var lines := Split(InsertInto(table, postgres, cols), '\n');
    InsertLines(table, postgres, cols);
    assert lines[2] == "VALUES (" + Join(Repeat(Placeholder(postgres), |cols|), ", ") + ")";
    ValuesPlaceholders(postgres, |cols|);
  }

  lemma HeaderColumns(table: string, cols: seq<Column>)
    requires Identifier(table) && WellNamed(cols)
    ensures var line := "INSERT INTO " + table + " (" + Join(Names(cols), ", ") + ")";
      Parenthesized(line).Some? && CommaList(Parenthesized(line).value) == Names(cols)
  {
    var j := Join(Names(cols), ", ");
    NamesAreCells(cols);
    JoinAvoids(Names(cols), ", ", ')');
    IdentifierAvoids(table, '(');
    assert "INSERT INTO " + table + " (" + j + ")" == "INSERT INTO " + table + " " + "(" + j + ")";
    ParenthesizedAt("INSERT INTO " + table + " ", j);
    CommaListJoin(Names(cols));
  }

  lemma InsertLines(table: string, postgres: bool, cols: seq<Column>)
    requires Identifier(table) && WellNamed(cols)
    ensures Split(InsertInto(table, postgres, cols), '\n') ==
      ["", "INSERT INTO " + table + " (" + Join(Names(cols), ", ") + ")",
       "VALUES (" + Join(Repeat(Placeholder(postgres), |cols|), ", ") + ")", ""]
  {
    var names := Join(Names(cols), ", ");
    var ph := Join(Repeat(Placeholder(postgres), |cols|), ", ");
    NamesAreCells(cols);
    PlaceholdersAreCells(postgres, |cols|);
    JoinAvoids(Names(cols), ", ", '\n');
    JoinAvoids(Repeat(Placeholder(postgres), |cols|), ", ", '\n');
    IdentifierAvoids(table, '\n');
    InsertParts(table, names, ph);
    SplitLines(["", "INSERT INTO " + table + " (" + names + ")", "VALUES (" + ph + ")", ""]);
  }

  /** No line of an INSERT statement breaks when its pieces have no newline. */
  lemma InsertParts(table: string, names: string, ph: string)
    requires '\n' !in table && '\n' !in names && '\n' !in ph
    ensures var parts := ["", "INSERT INTO " + table + " (" + names + ")", "VALUES (" + ph + ")", ""];
      forall i :: 0 <= i < |parts| ==> '\n' !in parts[i]
  {
  }

  lemma ValuesPlaceholders(postgres: bool, n: nat)
    requires n >= 1
    ensures var line := "VALUES (" + Join(Repeat(Placeholder(postgres), n), ", ") + ")";
      Parenthesized(line).Some? && CommaList(Parenthesized(line).value) == Repeat(Placeholder(postgres), n)
  {
    var ph := Join(Repeat(Placeholder(postgres), n), ", ");
    PlaceholdersAreCells(postgres, n);
    JoinAvoids(Repeat(Placeholder(postgres), n), ", ", ')');
    assert "VALUES (" + ph + ")" == "VALUES " + "(" + ph + ")";
    ParenthesizedAt("VALUES ", ph);
    CommaListJoin(Repeat(Placeholder(postgres), n));
  }

  /** The CREATE statement, line by line: the table is created only if it
      does not exist, the id field comes first on a line of its own, and the
      next line defines the declared columns in order. */
  lemma CreateDefinesColumns(table: string, postgres: bool, cols: seq<Column>)
    requires Identifier(table) && WellNamed(cols)
    ensures var lines := Split(CreateTable(table, postgres, cols), '\n');
      && |lines| == 6
      && lines[1] == "CREATE TABLE IF NOT EXISTS " + table + " ("
      && lines[2] == "    " + IdField(postgres) + ","
      && CommaList(lines[3]) == Definitions(cols)
      && lines[4] == ")"
  {
    var lines := Split(CreateTable(table, postgres, cols), '\n');
    CreateLines(table, postgres, cols);
    assert lines[3] == "    " + Join(Definitions(cols), ", ");
    DefinitionsAreCells(cols);
    CommaListIndented(Definitions(cols));
  }

  lemma CreateLines(table: string, postgres: bool, cols: seq<Column>)
    requires Identifier(table) && WellNamed(cols)
    ensures Split(CreateTable(table, postgres, cols), '\n') ==
      ["", "CREATE TABLE IF NOT EXISTS " + table + " (", "    " + IdField(postgres) + ",",
       "    " + Join(Definitions(cols), ", "), ")", ""]
  {
    var defs := Join(Definitions(cols), ", ");
    DefinitionsAreCells(cols);
    JoinAvoids(Definitions(cols), ", ", '\n');
    IdentifierAvoids(table, '\n');
    IdFieldOneLine(postgres);
    CreateParts(table, IdField(postgres), defs);
    SplitLines(["", "CREATE TABLE IF NOT EXISTS " + table + " (", "    " + IdField(postgres) + ",", "    " + defs, ")", ""]);
  }

  lemma IdFieldOneLine(postgres: bool)
    ensures '\n' !in IdField(postgres)
  {
    if postgres {
      assert forall k :: 0 <= k < |IdField(true)| ==> IdField(true)[k] != '\n';
    } else {
      assert forall k :: 0 <= k < |IdField(false)| ==> IdField(false)[k] != '\n';
    }
  }

  /** No line of a CREATE statement breaks when its pieces have no newline. */
  lemma CreateParts(table: string, id: string, defs: string)
    requires '\n' !in table && '\n' !in id && '\n' !in defs
    ensures var parts := ["", "CREATE TABLE IF NOT EXISTS " + table + " (", "    " + id + ",", "    " + defs, ")", ""];
      forall i :: 0 <= i < |parts| ==> '\n' !in parts[i]
  {
  }

  /** Lines without a newline, joined by newlines, split back apart. */
  lemma SplitLines(parts: seq<string>)
    requires |parts| >= 1 && forall i :: 0 <= i < |parts| ==> '\n' !in parts[i]
    ensures Split(Join(parts, "\n"), '\n') == parts
  {
    assert "\n" == ['\n'];
    SplitJoin(parts, '\n');
  }

  /** The columns a SELECT statement reads, from its `SELECT` line. */
  function SelectedColumns(statement: string): seq<string> {
    var lines := Split(statement, '\n');
    if |lines| < 2 || !StartsWith(lines[1], "SELECT ") then [] else CommaList(lines[1][7..])
  }

  /** The SELECT reads the declared columns in order from the table, and its
      last clause orders by ascending timestamp: there is no limit. */
  lemma SelectAllColumnsOrdered(table: string, cols: seq<Column>)
    requires Identifier(table) && WellNamed(cols)
    ensures SelectedColumns(SelectAll(table, cols)) == Names(cols)
    ensures var lines := Split(SelectAll(table, cols), '\n');
      |lines| == 5 && lines[2..] == ["FROM " + table, "ORDER BY timestamp ASC", ""]
  {
    SelectLines(table, cols);
    SelectReadsColumns(table, cols);
  }

  lemma SelectReadsColumns(table: string, cols: seq<Column>)
    requires Identifier(table) && WellNamed(cols)
    ensures SelectedColumns(SelectAll(table, cols)) == Names(cols)
  {
    SelectLines(table, cols);
    SelectedFromLine(SelectAll(table, cols), Join(Names(cols), ", "));
    NamesAreCells(cols);
    CommaListJoin(Names(cols));
  }

  /** A statement whose second line is `SELECT` and a list reads that list. */
  lemma SelectedFromLine(statement: string, list: string)
    requires |Split(statement, '\n')| >= 2 && Split(statement, '\n')[1] == "SELECT " + list
    ensures SelectedColumns(statement) == CommaList(list)
  {
    var line := "SELECT " + list;
    assert line[..7] == "SELECT " && line[7..] == list;
  }

  lemma SelectLines(table: string, cols: seq<Column>)
    requires Identifier(table) && WellNamed(cols)
    ensures Split(SelectAll(table, cols), '\n') ==
      ["", "SELECT " + Join(Names(cols), ", "), "FROM " + table, "ORDER BY timestamp ASC", ""]
  {
    var names := Join(Names(cols), ", ");
    NamesAreCells(cols);
    JoinAvoids(Names(cols), ", ", '\n');
    IdentifierAvoids(table, '\n');
    SelectParts(table, names);
    SplitLines(["", "SELECT " + names, "FROM " + table, "ORDER BY timestamp ASC", ""]);
  }

  /** No line of a SELECT statement breaks when its pieces have no newline. */
  lemma SelectParts(table: string, names: string)
    requires '\n' !in table && '\n' !in names
    ensures var parts := ["", "SELECT " + names, "FROM " + table, "ORDER BY timestamp ASC", ""];
      forall i :: 0 <= i < |parts| ==> '\n' !in parts[i]
  {
  }

  /** The DELETE is three words: it has no WHERE clause and empties the
      whole table. */
  lemma DeleteIsUnconditional(table: string)
    requires Identifier(table)
    ensures Split(DeleteAll(table), ' ') == ["DELETE", "FROM", table]
  {
    IdentifierAvoids(table, ' ');
    var words := ["DELETE", "FROM", table];
    assert Join(words[2..], " ") == table;
    assert Join(words[1..], " ") == "FROM " + table;
    assert DeleteAll(table) == Join(words, " ");
    SplitJoin(words, ' ');
  }

  /** The INSERT statements the sinks use, on either dialect: one
      placeholder per declared column. */
  lemma DeclaredInserts(postgres: bool)
    ensures InsertPlaceholders(InsertEvent(postgres)) == Repeat(Placeholder(postgres), |EventColumns|)
    ensures InsertPlaceholders(InsertRfLogMessage(postgres)) == Repeat(Placeholder(postgres), |RfLogColumns|)
    ensures InsertPlaceholders(InsertAppLog(postgres)) == Repeat(Placeholder(postgres), |AppLogColumns|)
    ensures InsertPlaceholders(InsertMetric(postgres)) == Repeat(Placeholder(postgres), |MetricColumns|)
    ensures InsertColumns(InsertAppLog(postgres)) == Names(AppLogColumns)
    ensures InsertColumns(InsertMetric(postgres)) == Names(MetricColumns)
  {
    DeclaredColumnsWellNamed();
    assert Identifier("events") && Identifier("rf_log_messages") && Identifier("app_logs") && Identifier("metrics");
    InsertListsColumns("events", postgres, EventColumns);
    InsertListsColumns("rf_log_messages", postgres, RfLogColumns);
    InsertListsColumns("app_logs", postgres, AppLogColumns);
    InsertListsColumns("metrics", postgres, MetricColumns);
  }


  // ---------------------------------------------------------------------------
  // Helper facts about joining and splitting
  // ---------------------------------------------------------------------------

  lemma IdentifierAvoids(s: string, c: char)
    requires Identifier(s) && !IdentChar(c)
    ensures c !in s
  {
  }

  lemma IdentifierIsCell(s: string)
    requires Identifier(s)
    ensures Cell(s)
  {
    assert !IsSpace(s[0]) && !IsSpace(s[|s| - 1]);
    IdentifierAvoids(s, ',');
  }

  lemma NamesAreCells(cols: seq<Column>)
    requires WellNamed(cols)
    ensures forall i :: 0 <= i < |cols| ==> Cell(Names(cols)[i])
    ensures forall i :: 0 <= i < |cols| ==> ')' !in Names(cols)[i] && '\n' !in Names(cols)[i]
  {
    forall i | 0 <= i < |cols|
      ensures Cell(Names(cols)[i]) && ')' !in Names(cols)[i] && '\n' !in Names(cols)[i]
    {
      IdentifierIsCell(cols[i].name);
      IdentifierAvoids(cols[i].name, ')');
      IdentifierAvoids(cols[i].name, '\n');
    }
  }

  lemma DefinitionsAreCells(cols: seq<Column>)
    requires WellNamed(cols)
    ensures forall i :: 0 <= i < |cols| ==> Cell(Definitions(cols)[i]) && '\n' !in Definitions(cols)[i]
  {
    forall i | 0 <= i < |cols| ensures Cell(Definitions(cols)[i]) && '\n' !in Definitions(cols)[i] {
      var c := cols[i];
      var d := c.name + " " + c.sqlType;
      assert d[0] == c.name[0];
      assert d[|d| - 1] == c.sqlType[|c.sqlType| - 1];
      IdentifierIsCell(c.name);
      IdentifierIsCell(c.sqlType);
      IdentifierAvoids(c.name, '\n');
      IdentifierAvoids(c.sqlType, '\n');
      IdentifierAvoids(c.name, ',');
      IdentifierAvoids(c.sqlType, ',');
    }
  }

  lemma PlaceholdersAreCells(postgres: bool, n: nat)
    ensures forall i :: 0 <= i < n ==> Cell(Repeat(Placeholder(postgres), n)[i])
    ensures forall i :: 0 <= i < n ==> ')' !in Repeat(Placeholder(postgres), n)[i]
    ensures forall i :: 0 <= i < n ==> '\n' !in Repeat(Placeholder(postgres), n)[i]
  {
    assert Cell(Placeholder(postgres));
  }

  lemma {:induction false} JoinAvoids(parts: seq<string>, sep: string, c: char)
    requires c !in sep
    requires forall i :: 0 <= i < |parts| ==> c !in parts[i]
    ensures c !in Join(parts, sep)
    decreases |parts|
  {
    if |parts| > 1 {
      JoinAvoids(parts[1..], sep, c);
    }
  }

  /** The parenthesized part of `head(inner)` when `head` has no `(` and
      `inner` no `)`. */
  lemma ParenthesizedAt(head: string, inner: string)
    requires '(' !in head && ')' !in inner
    ensures Parenthesized(head + "(" + inner + ")") == Some(inner)
  {
    var s := head + "(" + inner + ")";
    assert s == head + ['('] + (inner + ")");
    SplitFirstAt(head, '(', inner + ")");
    assert inner + ")" == inner + [')'] + "";
    SplitFirstAt(inner, ')', "");
  }

  /** The items after the first carry the pad in front. */
  function PadTail(parts: seq<string>, pad: string): (r: seq<string>)
    ensures |r| == |parts|
    ensures |parts| > 0 ==> r[0] == parts[0]
    ensures forall i :: 0 < i < |parts| ==> r[i] == pad + parts[i]
  {
    seq(|parts|, i requires 0 <= i < |parts| => if i == 0 then parts[i] else pad + parts[i])
  }

  lemma JoinPrepend(pad: string, qs: seq<string>, sep: string)
    requires |qs| >= 1
    ensures pad + Join(qs, sep) == Join([pad + qs[0]] + qs[1..], sep)
  {
    var r := [pad + qs[0]] + qs[1..];
    assert r[1..] == qs[1..];
  }

  /** Joining with `c` followed by a pad is joining, with `c`, items that
      after the first carry the pad. */
  lemma {:induction false} JoinWidenedSeparator(parts: seq<string>, c: char, pad: string)
    requires |parts| >= 1
    ensures Join(parts, [c] + pad) == Join(PadTail(parts, pad), [c])
    decreases |parts|
  {
    if |parts| > 1 {
      var tail := parts[1..];
      JoinWidenedSeparator(tail, c, pad);
      var pt := PadTail(tail, pad);
      JoinPrepend(pad, pt, [c]);
      var q := [pad + tail[0]] + pt[1..];
      assert PadTail(parts, pad) == [parts[0]] + q;
      assert ([parts[0]] + q)[1..] == q;
      assert Join(parts, [c] + pad) == parts[0] + [c] + (pad + Join(pt, [c]));
    }
  }

  /** Stripping removes a blank pad in front of a trimmed item. */
  lemma StripPadded(lead: string, x: string)
    requires AllSpace(lead) && x != [] && Trimmed(x, Whitespace)
    ensures Strip(lead + x) == x
  {
    TrimStartPad(lead, x);
    TrimByTrimmed(x, Whitespace);
    assert TrimStartBy(x, Whitespace) == x;
  }

  lemma {:induction false} TrimStartPad(pad: string, s: string)
    requires AllSpace(pad) && s != [] && !IsSpace(s[0])
    ensures TrimStartBy(pad + s, Whitespace) == s
    decreases |pad|
  {
    if pad == [] {
      assert pad + s == s;
    } else {
      assert (pad + s)[0] == pad[0];
      assert (pad + s)[1..] == pad[1..] + s;
      TrimStartPad(pad[1..], s);
    }
  }

  /** The comma-separated pieces of a blank-led `", "` join. */
  function Pieces(lead: string, items: seq<string>): (r: seq<string>)
    requires |items| >= 1
    ensures |r| == |items|
  {
    [lead + items[0]] + PadTail(items, " ")[1..]
  }

  /** Splitting at commas a blank-led `", "` join of cells gives its pieces. */
  lemma SplitPadded(lead: string, items: seq<string>)
    requires AllSpace(lead) && |items| >= 1
    requires forall i :: 0 <= i < |items| ==> Cell(items[i])
    ensures Split(lead + Join(items, ", "), ',') == Pieces(lead, items)
  {
    var pt := PadTail(items, " ");
    JoinWidenedSeparator(items, ',', " ");
    assert [','] + " " == ", ";
    JoinPrepend(lead, pt, [',']);
    PiecesAvoidComma(lead, items);
    SplitJoin(Pieces(lead, items), ',');
  }

  lemma PiecesAvoidComma(lead: string, items: seq<string>)
    requires AllSpace(lead) && |items| >= 1
    requires forall i :: 0 <= i < |items| ==> Cell(items[i])
    ensures forall i :: 0 <= i < |items| ==> ',' !in Pieces(lead, items)[i]
  {
    var pieces := Pieces(lead, items);
    assert ',' !in lead;
    forall i | 0 <= i < |items| ensures ',' !in pieces[i] {
      var pad := if i == 0 then lead else " ";
      assert pieces[i] == pad + items[i];
    }
  }

  /** A blank-led `", "`-separated list of cells reads back as the cells. */
  lemma CommaListPadded(lead: string, items: seq<string>)
    requires AllSpace(lead) && |items| >= 1
    requires forall i :: 0 <= i < |items| ==> Cell(items[i])
    ensures CommaList(lead + Join(items, ", ")) == items
  {
    SplitPadded(lead, items);
    StripPieces(lead, items);
  }

  lemma CommaListJoin(items: seq<string>)
    requires |items| >= 1
    requires forall i :: 0 <= i < |items| ==> Cell(items[i])
    ensures CommaList(Join(items, ", ")) == items
  {
    CommaListPadded("", items);
    assert "" + Join(items, ", ") == Join(items, ", ");
  }

  lemma CommaListIndented(items: seq<string>)
    requires |items| >= 1
    requires forall i :: 0 <= i < |items| ==> Cell(items[i])
    ensures CommaList("    " + Join(items, ", ")) == items
  {
    CommaListPadded("    ", items);
  }

  /** Stripping each piece of a padded list gives back the items. */
  lemma StripPieces(lead: string, items: seq<string>)
    requires AllSpace(lead) && |items| >= 1
    requires forall i :: 0 <= i < |items| ==> Cell(items[i])
    ensures forall i :: 0 <= i < |items| ==> Strip(Pieces(lead, items)[i]) == items[i]
  {
    var pieces := Pieces(lead, items);
    forall i | 0 <= i < |items| ensures Strip(pieces[i]) == items[i] {
      var pad := if i == 0 then lead else " ";
      assert pieces[i] == pad + items[i];
      StripPadded(pad, items[i]);
    }
  }
}

=== FILE: src/store.dfy ===
/** The database as the viewer readers see it: the `events` and `app_logs`
    tables as sequences of rows in insertion order, with the auto-increment
    `id` growing along each table, and the queries the readers issue stated
    by their WHERE, ORDER BY and LIMIT clauses. */
module Store {

  import opened Wrappers
  import opened Values

  type Tenant = string

  /** One row: its `id`, its `tenant_id`, and its other columns (an absent
      column is SQL `NULL`). */
  datatype Row = Row(id: int, tenant: Tenant, data: Dict)

  type Table = seq<Row>

  /** Ids grow strictly along the table. */
  predicate Ascending(t: Table) {
    forall i, j :: 0 <= i < j < |t| ==> t[i].id < t[j].id
  }

  /** Ids strictly decrease along the sequence. */
  predicate Descending(t: Table) {
    forall i, j :: 0 <= i < j < |t| ==> t[i].id > t[j].id
  }

  /** An auto-increment table: ids are positive and grow with insertion. */
  predicate WellFormed(t: Table) {
    Ascending(t) && forall i :: 0 <= i < |t| ==> t[i].id > 0
  }

  datatype Db = Db(events: Table, appLogs: Table)

  predicate DbWellFormed(db: Db) {
    WellFormed(db.events) && WellFormed(db.appLogs)
  }

  /** `MAX(id)` over the tenant's rows, `None` when it has none. */
  function MaxOf(t: Table, tenant: Tenant): (r: Option<int>)
    ensures r.None? <==> forall row :: row in t ==> row.tenant != tenant
    ensures r.Some? ==> exists row :: row in t && row.tenant == tenant && row.id == r.value
    ensures r.Some? ==> forall row :: row in t && row.tenant == tenant ==> row.id <= r.value
  {
    if |t| == 0 then None
    else
      var rest := MaxOf(t[1..], tenant);
      assert forall row :: row in t <==> row == t[0] || row in t[1..];
      if t[0].tenant != tenant then rest
      else match rest
        case None => Some(t[0].id)
        case Some(m) => if t[0].id > m then Some(t[0].id) else Some(m)
  }

  /** `SELECT COALESCE(MAX(id), 0) ... WHERE tenant_id = ?`. */
  function MaxId(t: Table, tenant: Tenant): (r: int)
    ensures forall row :: row in t && row.tenant == tenant ==> row.id <= r
    ensures (forall row :: row in t ==> row.tenant != tenant) ==> r == 0
    ensures (exists row :: row in t && row.tenant == tenant) ==>
      exists row :: row in t && row.tenant == tenant && row.id == r
    ensures WellFormed(t) ==> r >= 0
  {
    match MaxOf(t, tenant)
    case None => 0
    case Some(m) => m
  }

  /** `SELECT ... WHERE id > ? AND tenant_id = ? ORDER BY id ASC`, over a
      table whose ids ascend with insertion. */
  function Since(t: Table, lastId: int, tenant: Tenant): (r: Table)
    ensures forall row :: row in r <==> row in t && row.id > lastId && row.tenant == tenant
    ensures Ascending(t) ==> Ascending(r)
    ensures |r| <= |t|
  {
    if |t| == 0 then []
    else
      var rest := Since(t[1..], lastId, tenant);
      assert forall row :: row in t <==> row == t[0] || row in t[1..];
      if t[0].id > lastId && t[0].tenant == tenant then
        assert Ascending(t) ==> forall row :: row in rest ==> t[0].id < row.id;
        [t[0]] + rest
      else rest
  }

  /** `SELECT ... WHERE tenant_id = ?` in insertion order. */
  function OfTenant(t: Table, tenant: Tenant): (r: Table)
    ensures forall row :: row in r <==> row in t && row.tenant == tenant
    ensures Ascending(t) ==> Ascending(r)
    ensures |r| <= |t|
  {
    if |t| == 0 then []
    else
      var rest := OfTenant(t[1..], tenant);
      assert forall row :: row in t <==> row == t[0] || row in t[1..];
      if t[0].tenant == tenant then
        assert Ascending(t) ==> forall row :: row in rest ==> t[0].id < row.id;
        [t[0]] + rest
      else rest
  }

  /** `DELETE ... WHERE tenant_id = ?`: the rows of every other tenant, in
      their order. */
  function DeleteTenant(t: Table, tenant: Tenant): (r: Table)
    ensures forall row :: row in r <==> row in t && row.tenant != tenant
    ensures Ascending(t) ==> Ascending(r)
  {
    if |t| == 0 then []
    else
      var rest := DeleteTenant(t[1..], tenant);
      assert forall row :: row in t <==> row == t[0] || row in t[1..];
      if t[0].tenant != tenant then
        assert Ascending(t) ==> forall row :: row in rest ==> t[0].id < row.id;
        [t[0]] + rest
      else rest
  }

  /** The sequence in reverse order. */
  function Reverse(t: Table): (r: Table)
    ensures |r| == |t|
    ensures forall i :: 0 <= i < |t| ==> r[i] == t[|t| - 1 - i]
  {
    if |t| == 0 then [] else Reverse(t[1..]) + [t[0]]
  }

  /** Reversing an ascending sequence gives a descending one. */
  lemma ReverseDescending(t: Table)
    ensures Ascending(t) ==> Descending(Reverse(t))
  {
  }

  /** `SELECT ... WHERE tenant_id = ? ORDER BY id DESC`. */
  function NewestFirst(t: Table, tenant: Tenant): (r: Table)
    ensures forall row :: row in r <==> row in t && row.tenant == tenant
    ensures Ascending(t) ==> Descending(r)
  {
    var rows := OfTenant(t, tenant);
    ReverseDescending(rows);
    var r := Reverse(rows);
    assert forall row :: row in r <==> row in rows by {
      forall row ensures row in r <==> row in rows {
        if row in rows {
          var i :| 0 <= i < |rows| && rows[i] == row;
          assert r[|rows| - 1 - i] == row;
        }
      }
    }
    r
  }

  /** `LIMIT n` for a non-negative `n`. */
  function Take(t: Table, n: nat): (r: Table)
    ensures |r| == if n < |t| then n else |t|
    ensures r == t[..|r|]
  {
    if n < |t| then t[..n] else t
  }

  /** The row as the reader returns it: a dict over the selected columns, with
      `id` and `tenant_id` from the row itself and `NULL` for a missing column. */
  function Project(row: Row, columns: seq<string>): (d: Dict)
    ensures d.Keys == set c | c in columns
    ensures "id" in columns ==> d["id"] == Int(row.id)
    ensures "tenant_id" in columns ==> d["tenant_id"] == Str(row.tenant)
    ensures forall c :: c in columns && c != "id" && c != "tenant_id" ==> d[c] == Get(row.data, c)
  {
    map c | c in columns :: if c == "id" then Int(row.id)
                             else if c == "tenant_id" then Str(row.tenant)
                             else Get(row.data, c)
  }

  function ProjectAll(rows: Table, columns: seq<string>): (r: seq<Dict>)
    ensures |r| == |rows|
    ensures forall i :: 0 <= i < |rows| ==> r[i] == Project(rows[i], columns)
  {
    seq(|rows|, i requires 0 <= i < |rows| => Project(rows[i], columns))
  }

  // ---------------------------------------------------------------------------
  // Properties relating the queries
  // ---------------------------------------------------------------------------

  /** Nothing of the tenant lies above its maximum id. */
  lemma SinceLatestIsEmpty(t: Table, tenant: Tenant)
    ensures Since(t, MaxId(t, tenant), tenant) == []
  {
    SinceAboveAll(t, MaxId(t, tenant), tenant);
  }

  /** A cursor at 0 over an auto-increment table selects every row of the tenant. */
  lemma SinceZeroIsAll(t: Table, tenant: Tenant)
    requires WellFormed(t)
    ensures Since(t, 0, tenant) == OfTenant(t, tenant)
  {
    if |t| > 0 {
      assert WellFormed(t[1..]);
      SinceZeroIsAll(t[1..], tenant);
    }
  }

  /** The query distributes over a table that grows by appending. */
  lemma {:induction false} SinceAppend(a: Table, b: Table, lastId: int, tenant: Tenant)
    ensures Since(a + b, lastId, tenant) == Since(a, lastId, tenant) + Since(b, lastId, tenant)
    decreases |a|
  {
    if |a| == 0 {
      assert a + b == b;
    } else {
      assert (a + b)[1..] == a[1..] + b;
      SinceAppend(a[1..], b, lastId, tenant);
    }
  }

  /** A cursor at or above every id of the tenant selects nothing. */
  lemma {:induction false} SinceAboveAll(t: Table, lastId: int, tenant: Tenant)
    requires forall row :: row in t && row.tenant == tenant ==> row.id <= lastId
    ensures Since(t, lastId, tenant) == []
    decreases |t|
  {
    if |t| > 0 {
      assert forall row :: row in t[1..] ==> row in t;
      SinceAboveAll(t[1..], lastId, tenant);
    }
  }

  /** Moving the cursor within a range below every id of the tenant changes nothing. */
  lemma {:induction false} SinceBelowAll(t: Table, low: int, high: int, tenant: Tenant)
    requires low <= high
    requires forall row :: row in t && row.tenant == tenant ==> row.id > high
    ensures Since(t, low, tenant) == Since(t, high, tenant)
    decreases |t|
  {
    if |t| > 0 {
      assert forall row :: row in t[1..] ==> row in t;
      SinceBelowAll(t[1..], low, high, tenant);
    }
  }

  /** Clearing a tenant keeps an auto-increment table well-formed. */
  lemma {:induction false} DeleteTenantWellFormed(t: Table, tenant: Tenant)
    requires WellFormed(t)
    ensures WellFormed(DeleteTenant(t, tenant))
    decreases |t|
  {
    if |t| > 0 {
      assert WellFormed(t[1..]);
      DeleteTenantWellFormed(t[1..], tenant);
    }
  }

  /** Clearing one tenant's events leaves no event of that tenant, and every
      other tenant's events exactly as they were. */
  lemma DeleteTenantEffect(t: Table, tenant: Tenant, other: Tenant)
    requires other != tenant
    ensures OfTenant(DeleteTenant(t, tenant), tenant) == []
    ensures OfTenant(DeleteTenant(t, tenant), other) == OfTenant(t, other)
  {
    if |t| > 0 {
      DeleteTenantEffect(t[1..], tenant, other);
    }
  }

  /** The cursor after reading `rows` from `cursor`: the last row's id, or
      the cursor itself when nothing was read. */
  function Advance(rows: Table, cursor: int): int {
    if rows == [] then cursor else rows[|rows| - 1].id
  }

  /** Every row of an ascending sequence lies at or below its last id. */
  lemma AscendingLast(rows: Table, row: Row)
    requires Ascending(rows) && row in rows
    ensures row.id <= rows[|rows| - 1].id
  {
  }

  /** Two polls with the cursor carried over, while the table grows by
      appending, read exactly what one poll of the grown table reads from the
      first cursor: no row twice and none skipped. */
  lemma SincePollsCompose(t1: Table, ext: Table, c0: int, tenant: Tenant)
    requires Ascending(t1 + ext)
    ensures var rows1 := Since(t1, c0, tenant);
      rows1 + Since(t1 + ext, Advance(rows1, c0), tenant) == Since(t1 + ext, c0, tenant)
  {
    var rows1 := Since(t1, c0, tenant);
    var c1 := Advance(rows1, c0);
    PrefixAscending(t1, ext);
    SinceAppend(t1, ext, c0, tenant);
    SinceAppend(t1, ext, c1, tenant);
    AdvanceSkipsNothingNew(t1, ext, c0, tenant);
    NothingLeftBehind(t1, c0, tenant);
    assert Since(t1 + ext, c1, tenant) == Since(ext, c0, tenant);
  }

  /** The appended rows the advanced cursor selects are those the first
      cursor selects. */
  lemma AdvanceSkipsNothingNew(t1: Table, ext: Table, c0: int, tenant: Tenant)
    requires Ascending(t1 + ext)
    ensures Since(ext, Advance(Since(t1, c0, tenant), c0), tenant) == Since(ext, c0, tenant)
  {
    var rows1 := Since(t1, c0, tenant);
    if rows1 != [] {
      var c1 := Advance(rows1, c0);
      assert rows1[|rows1| - 1] in rows1;
      ExtensionAbove(t1, ext, rows1[|rows1| - 1]);
      SinceBelowAll(ext, c0, c1, tenant);
    }
  }

  lemma PrefixAscending(t1: Table, ext: Table)
    requires Ascending(t1 + ext)
    ensures Ascending(t1)
  {
    assert forall i :: 0 <= i < |t1| ==> (t1 + ext)[i] == t1[i];
  }

  /** After reading from an ascending table, the advanced cursor leaves
      nothing of the tenant unread in it. */
  lemma NothingLeftBehind(t: Table, c0: int, tenant: Tenant)
    requires Ascending(t)
    ensures Since(t, Advance(Since(t, c0, tenant), c0), tenant) == []
  {
    var rows := Since(t, c0, tenant);
    var c1 := Advance(rows, c0);
    if rows != [] {
      assert rows[|rows| - 1] in rows;
      forall row | row in t && row.tenant == tenant
        ensures row.id <= c1
      {
        if row.id > c0 {
          AscendingLast(rows, row);
        }
      }
    }
    SinceAboveAll(t, c1, tenant);
  }

  /** In an ascending table, every appended row has a larger id than every
      earlier row. */
  lemma ExtensionAbove(t1: Table, ext: Table, earlier: Row)
    requires Ascending(t1 + ext) && earlier in t1
    ensures forall row :: row in ext ==> row.id > earlier.id
  {
    var t2 := t1 + ext;
    var i :| 0 <= i < |t1| && t1[i] == earlier;
    forall row | row in ext
      ensures row.id > earlier.id
    {
      var j :| 0 <= j < |ext| && ext[j] == row;
      assert t2[i] == earlier && t2[|t1| + j] == row;
    }
  }
}

=== FILE: src/tenant_middleware.dfy ===
/** Tenant identification (shared/middleware/tenant_middleware.py): the
    bearer token is taken from the `Authorization` header, decoded into
    claims, and the claims' `tenant_id` becomes the request's tenant, with
    `"default"` whenever any step yields nothing. JSON decoding is a
    parameter that answers `None` where `json.loads` raises. */
module TenantMiddleware {

  import opened Wrappers
  import opened Text
  import opened Values

  const DefaultTenant: string := "default"

  /** The token of a `Bearer <token>` header; the scheme is matched without
      regard to case and the header must have exactly two words. */
  function ParseBearerToken(header: Option<string>): (r: Option<string>)
    ensures header.None? || header.value == [] ==> r.None?
    ensures r.Some? <==> (header.Some? && |SplitWhitespace(header.value)| == 2
      && Lower(SplitWhitespace(header.value)[0]) == "bearer")
    ensures r.Some? ==> r.value == SplitWhitespace(header.value)[1] && IsWord(r.value)
  {
    match header
    case None => None
    case Some(h) =>
      if h == [] then None
      else
        var parts := SplitWhitespace(h);
        if |parts| == 2 && Lower(parts[0]) == "bearer" then Some(parts[1]) else None
  }

  /** A header written as a scheme, one space and a token yields the token
      whenever the scheme spells `bearer` in any case. */
  lemma BearerHeaderRoundTrip(scheme: string, token: string)
    requires IsWord(scheme) && IsWord(token) && Lower(scheme) == "bearer"
    ensures ParseBearerToken(Some(scheme + " " + token)) == Some(token)
  {
    assert Join([token], " ") == token;
    assert Join([scheme, token], " ") == scheme + " " + token;
    SplitWhitespaceJoin([scheme, token]);
  }

  /** A header with a third word, or with another scheme, yields no token. */
  lemma OtherHeadersHaveNoToken(words: seq<string>)
    requires AllWords(words)
    requires |words| != 2 || Lower(words[0]) != "bearer"
    ensures ParseBearerToken(Some(Join(words, " "))) == None
  {
    SplitWhitespaceJoin(words);
  }

  /** The claims of a token: the decoded JSON, or a default-tenant claim set
      when decoding fails. */
  function DecodeClaims(token: string, decode: string -> Option<Value>): (r: Value)
    ensures decode(token).None? ==> r == Obj([("tenant_id", Str(DefaultTenant))])
    ensures decode(token).Some? ==> r == decode(token).value
  {
    match decode(token)
    case Some(v) => v
    case None => Obj([("tenant_id", Str(DefaultTenant))])
  }

  /** The tenant attached to a request. Claims that are not a JSON object
      have no `get`, so the request fails. */
  function ResolveTenant(header: Option<string>, decode: string -> Option<Value>): (r: Result<Value>)
    ensures ParseBearerToken(header).None? ==> r == Ok(Str(DefaultTenant))
    ensures r.Err? <==> (ParseBearerToken(header).Some?
      && !DecodeClaims(ParseBearerToken(header).value, decode).Obj?)
    ensures r.Ok? && ParseBearerToken(header).Some? ==>
      var claims := DecodeClaims(ParseBearerToken(header).value, decode);
      r.value == ObjGet(claims.pairs, "tenant_id").GetOr(Str(DefaultTenant))
  {
    match ParseBearerToken(header)
    case None => Ok(Str(DefaultTenant))
    case Some(token) =>
      match DecodeClaims(token, decode)
      case Obj(pairs) => Ok(ObjGet(pairs, "tenant_id").GetOr(Str(DefaultTenant)))
      case _ => Err(AttributeError("get"))
  }

  /** An undecodable token never fails the request: it lands in the default
      tenant. */
  lemma UndecodableTokenIsDefault(header: Option<string>, decode: string -> Option<Value>)
    requires ParseBearerToken(header).Some? && decode(ParseBearerToken(header).value).None?
    ensures ResolveTenant(header, decode) == Ok(Str(DefaultTenant))
  {
    var pairs := [("tenant_id", Str(DefaultTenant))];
    assert ObjGet(pairs[1..], "tenant_id") == None;
  }

  /** Claims carrying `tenant_id` name the tenant; claims without it fall
      back to the default. */
  lemma ClaimedTenantIsUsed(header: Option<string>, decode: string -> Option<Value>, pairs: seq<(string, Value)>)
    requires ParseBearerToken(header).Some? && decode(ParseBearerToken(header).value) == Some(Obj(pairs))
    ensures (exists i :: 0 <= i < |pairs| && pairs[i].0 == "tenant_id") ==>
      (exists i :: 0 <= i < |pairs| && Ok(pairs[i].1) == ResolveTenant(header, decode) && pairs[i].0 == "tenant_id")
    ensures (forall i :: 0 <= i < |pairs| ==> pairs[i].0 != "tenant_id") ==>
      ResolveTenant(header, decode) == Ok(Str(DefaultTenant))
  {
    ObjGetFinds(pairs, "tenant_id");
  }
}

=== FILE: src/text.dfy ===
/** String operations with the semantics of the Python `str` methods the
    modelled code calls: `strip`, `lstrip`, `split`, `join`, `replace`,
    `lower`, `upper`, `startswith`, `endswith` and `in`. */
module Text {

  import opened Wrappers

  /** Python `str.isspace()` for a single character. */
  predicate IsSpace(c: char) {
    var n := c as int;
    (9 <= n <= 13) || (28 <= n <= 32) || n == 0x85 || n == 0xA0 || n == 0x1680
    || (0x2000 <= n <= 0x200A) || n == 0x2028 || n == 0x2029 || n == 0x202F
    || n == 0x205F || n == 0x3000
  }

  predicate HasNoSpace(s: string) {
    forall i :: 0 <= i < |s| ==> !IsSpace(s[i])
  }

  predicate AllSpace(s: string) {
    forall i :: 0 <= i < |s| ==> IsSpace(s[i])
  }

  /** The character classes the modelled code strips: whitespace (`strip()`)
      or an explicit set of characters (`strip("[]")`, `lstrip("/")`). */
  datatype CharClass = Whitespace | Chars(members: set<char>)

  predicate InClass(c: char, cls: CharClass) {
    match cls
    case Whitespace => IsSpace(c)
    case Chars(m) => c in m
  }

  /** True when `s` neither starts nor ends with a character of class `p`. */
  predicate Trimmed(s: string, p: CharClass) {
    s == [] || (!InClass(s[0], p) && !InClass(s[|s| - 1], p))
  }

  /** Drop the longest prefix of characters satisfying `p` (Python `lstrip(chars)`). */
  function TrimStartBy(s: string, p: CharClass): (r: string)
    ensures |r| <= |s| && r == s[|s| - |r|..]
    ensures r == [] || !InClass(r[0], p)
    ensures forall i :: 0 <= i < |s| - |r| ==> InClass(s[i], p)
  {
    if |s| > 0 && InClass(s[0], p) then TrimStartBy(s[1..], p) else s
  }

  /** Drop the longest suffix of characters satisfying `p` (Python `rstrip(chars)`). */
  function TrimEndBy(s: string, p: CharClass): (r: string)
    ensures |r| <= |s| && r == s[..|r|]
    ensures r == [] || !InClass(r[|r| - 1], p)
    ensures forall i :: |r| <= i < |s| ==> InClass(s[i], p)
  {
    if |s| > 0 && InClass(s[|s| - 1], p) then TrimEndBy(s[..|s| - 1], p) else s
  }

  /** Python `strip(chars)`: remove matching characters at both ends. */
  function TrimBy(s: string, p: CharClass): (r: string)
  {
    TrimEndBy(TrimStartBy(s, p), p)
  }

  /** Python `str.strip()` with no argument. */
  function Strip(s: string): (r: string)
  {
    TrimBy(s, Whitespace)
  }

  /** The slice bounds of `TrimBy`: what goes at either end is a run of
      `p`-characters. */
  lemma TrimByBounds(s: string, p: CharClass) returns (i: nat, j: nat)
    ensures i <= j <= |s| && TrimBy(s, p) == s[i..j]
    ensures forall k :: 0 <= k < i ==> InClass(s[k], p)
    ensures forall k :: j <= k < |s| ==> InClass(s[k], p)
  {
    var a := TrimStartBy(s, p);
    i := |s| - |a|;
    var b := TrimEndBy(a, p);
    j := i + |b|;
    assert b == s[i..][..|b|];
    forall k | j <= k < |s|
      ensures InClass(s[k], p)
    {
      assert s[k] == a[k - i];
    }
  }

  /** What `TrimBy` removes is exactly a run of `p`-characters at either end,
      and what is left is a contiguous slice of the input that starts and ends
      with a character outside `p`. */
  lemma TrimBySlice(s: string, p: CharClass)
    ensures exists i, j :: (0 <= i <= j <= |s| && TrimBy(s, p) == s[i..j]
                             && (forall k :: 0 <= k < i ==> InClass(s[k], p))
                             && (forall k :: j <= k < |s| ==> InClass(s[k], p)))
    ensures Trimmed(TrimBy(s, p), p)
  {
    var i, j := TrimByBounds(s, p);
    var a := TrimStartBy(s, p);
    var b := TrimEndBy(a, p);
    if b != [] {
      assert a[0] == b[0];
    }
  }

  /** Stripping twice is stripping once. */
  lemma StripIdempotent(s: string)
    ensures Strip(Strip(s)) == Strip(s)
  {
    TrimBySlice(s, Whitespace);
    var r := Strip(s);
    if r != [] {
      assert TrimStartBy(r, Whitespace) == r;
      assert TrimEndBy(r, Whitespace) == r;
    }
  }

  /** A string that is trimmed already is left alone by `TrimBy`. */
  lemma TrimByTrimmed(s: string, p: CharClass)
    requires Trimmed(s, p)
    ensures TrimBy(s, p) == s
  {
    if s != [] {
      assert TrimStartBy(s, p) == s;
    }
  }

  /** Stripping a trimmed string after one leading blank gives the string
      back: how `", ".join(...)` pieces read after `split(",")` and `strip()`. */
  lemma StripLeadingBlank(s: string)
    requires Trimmed(s, Whitespace)
    ensures Strip(" " + s) == s
  {
    var t := " " + s;
    assert InClass(t[0], Whitespace) by { assert t[0] == ' '; }
    assert t[1..] == s;
    assert TrimStartBy(t, Whitespace) == TrimStartBy(s, Whitespace);
    TrimByTrimmed(s, Whitespace);
    assert TrimStartBy(s, Whitespace) == s by {
      if s != [] { assert !InClass(s[0], Whitespace); }
    }
  }

  /** Stripping a string made only of whitespace gives the empty string. */
  lemma StripAllSpace(s: string)
    requires AllSpace(s)
    ensures Strip(s) == []
  {
    assert TrimStartBy(s, Whitespace) == [];
  }

  function LowerChar(c: char): char {
    if 'A' <= c <= 'Z' then (c as int + 32) as char else c
  }

  function UpperChar(c: char): char {
    if 'a' <= c <= 'z' then (c as int - 32) as char else c
  }

  /** Python `str.lower()`, restricted to ASCII letters. */
  function Lower(s: string): (r: string)
    ensures |r| == |s|
    ensures forall i :: 0 <= i < |s| ==> r[i] == LowerChar(s[i])
  {
    seq(|s|, i requires 0 <= i < |s| => LowerChar(s[i]))
  }

  /** A word of lower-case letters is its own lower case. */
  lemma LowerOfLower(s: string)
    requires forall i :: 0 <= i < |s| ==> 'a' <= s[i] <= 'z'
    ensures Lower(s) == s
  {
  }

  /** Python `str.upper()`, restricted to ASCII letters. */
  function Upper(s: string): (r: string)
    ensures |r| == |s|
    ensures forall i :: 0 <= i < |s| ==> r[i] == UpperChar(s[i])
  {
    seq(|s|, i requires 0 <= i < |s| => UpperChar(s[i]))
  }

  /** Case-insensitive equality of two strings (ASCII folding). */
  predicate EqualsIgnoreCase(a: string, b: string) {
    Lower(a) == Lower(b)
  }

  predicate StartsWith(s: string, prefix: string) {
    |prefix| <= |s| && s[..|prefix|] == prefix
  }

  predicate EndsWith(s: string, suffix: string) {
    |suffix| <= |s| && s[|s| - |suffix|..] == suffix
  }

  /** `sub` occurs in `s` at position `i`. */
  predicate OccursAt(s: string, sub: string, i: int) {
    0 <= i && i + |sub| <= |s| && s[i..i + |sub|] == sub
  }

  /** Python `s.find(sub)`, as an Option: the least position where `sub` occurs. */
  function Find(s: string, sub: string): (r: Option<nat>)
    ensures r.Some? ==> OccursAt(s, sub, r.value)
    ensures r.Some? ==> forall k :: 0 <= k < r.value ==> !OccursAt(s, sub, k)
    ensures r.None? ==> forall k :: !OccursAt(s, sub, k)
  {
    FindFrom(s, sub, 0)
  }

  function FindFrom(s: string, sub: string, from: nat): (r: Option<nat>)
    requires from <= |s| + 1
    requires forall k :: 0 <= k < from ==> !OccursAt(s, sub, k)
    ensures r.Some? ==> from <= r.value && OccursAt(s, sub, r.value)
    ensures r.Some? ==> forall k :: 0 <= k < r.value ==> !OccursAt(s, sub, k)
    ensures r.None? ==> forall k :: !OccursAt(s, sub, k)
    decreases |s| + 1 - from
  {
    if from + |sub| > |s| then
      assert forall k :: from <= k ==> !OccursAt(s, sub, k);
      None
    else if s[from..from + |sub|] == sub then Some(from)
    else FindFrom(s, sub, from + 1)
  }

  /** Python `sub in s`. */
  predicate Contains(s: string, sub: string) {
    Find(s, sub).Some?
  }

  /** `Contains` agrees with the existence of an occurrence. */
  lemma ContainsIff(s: string, sub: string)
    ensures Contains(s, sub) <==> exists k :: OccursAt(s, sub, k)
  {
  }

  /** Python `s.replace(pattern, "")`: every non-overlapping occurrence of a
      non-empty `pattern`, scanning left to right, is removed. An empty pattern
      leaves the string unchanged (Python inserts the empty string between
      characters). */
  function RemoveAll(s: string, pattern: string): (r: string)
    ensures |r| <= |s|
    decreases |s|
  {
    if pattern == [] || |s| == 0 then s
    else if StartsWith(s, pattern) then RemoveAll(s[|pattern|..], pattern)
    else [s[0]] + RemoveAll(s[1..], pattern)
  }

  /** Removing a pattern that does not occur changes nothing. */
  lemma {:induction false} RemoveAllAbsent(s: string, pattern: string)
    requires forall k :: !OccursAt(s, pattern, k)
    ensures RemoveAll(s, pattern) == s
    decreases |s|
  {
    if pattern == [] || |s| == 0 {
    } else {
      assert !OccursAt(s, pattern, 0);
      assert !StartsWith(s, pattern);
      forall k ensures !OccursAt(s[1..], pattern, k) {
        assert !OccursAt(s, pattern, k + 1);
        if 0 <= k && k + |pattern| <= |s| - 1 {
          assert s[1..][k..k + |pattern|] == s[k + 1..k + 1 + |pattern|];
        }
      }
      RemoveAllAbsent(s[1..], pattern);
    }
  }

  /** Removing a pattern that occurs makes the string strictly shorter. */
  lemma {:induction false} RemoveAllShrinks(s: string, pattern: string, k: int)
    requires pattern != [] && OccursAt(s, pattern, k)
    ensures |RemoveAll(s, pattern)| < |s|
    decreases |s|
  {
    if StartsWith(s, pattern) {
    } else {
      assert k > 0;
      assert s[1..][k - 1..k - 1 + |pattern|] == s[k..k + |pattern|];
      RemoveAllShrinks(s[1..], pattern, k - 1);
    }
  }

  /** Python `s.replace(a, b)` for single characters. */
  function ReplaceChar(s: string, a: char, b: char): (r: string)
    ensures |r| == |s|
    ensures forall i :: 0 <= i < |s| ==> r[i] == (if s[i] == a then b else s[i])
  {
    seq(|s|, i requires 0 <= i < |s| => if s[i] == a then b else s[i])
  }

  /** Python `sep.join(parts)`. */
  function Join(parts: seq<string>, sep: string): string
  {
    if |parts| == 0 then []
    else if |parts| == 1 then parts[0]
    else parts[0] + sep + Join(parts[1..], sep)
  }

  /** Joining with a separator puts it before the last part. */
  lemma {:induction false} JoinLast(parts: seq<string>, sep: string)
    requires |parts| >= 2
    ensures Join(parts, sep) == Join(parts[..|parts| - 1], sep) + sep + parts[|parts| - 1]
    decreases |parts|
  {
    if |parts| > 2 {
      JoinLast(parts[1..], sep);
      assert parts[1..][..|parts| - 2] == parts[1..|parts| - 1];
      assert parts[..|parts| - 1][1..] == parts[1..|parts| - 1];
    }
  }

  /** Python `s.split(c)` for a single-character separator: the pieces between
      occurrences of `c`, always at least one (possibly empty) piece. */
  function Split(s: string, c: char): (r: seq<string>)
    ensures |r| >= 1
    ensures forall i :: 0 <= i < |r| ==> c !in r[i]
    decreases |s|
  {
    if c in s then
      var i := IndexOfChar(s, c);
      [s[..i]] + Split(s[i + 1..], c)
    else [s]
  }

  /** Position of the first occurrence of `c` in `s`. */
  function IndexOfChar(s: string, c: char): (i: nat)
    requires c in s
    ensures i < |s| && s[i] == c && c !in s[..i]
  {
    if s[0] == c then 0 else IndexOfChar(s[1..], c) + 1
  }

  /** Joining the pieces of a split with the separator gives back the string. */
  lemma {:induction false} JoinSplit(s: string, c: char)
    ensures Join(Split(s, c), [c]) == s
    decreases |s|
  {
    if c in s {
      var i := IndexOfChar(s, c);
      var rest := Split(s[i + 1..], c);
      JoinSplit(s[i + 1..], c);
      assert Split(s, c) == [s[..i]] + rest;
      assert s == s[..i] + [c] + s[i + 1..];
    }
  }

  /** Splitting a join gives back the parts, when no part holds the separator. */
  lemma {:induction false} SplitJoin(parts: seq<string>, c: char)
    requires |parts| >= 1
    requires forall i :: 0 <= i < |parts| ==> c !in parts[i]
    ensures Split(Join(parts, [c]), c) == parts
    decreases |parts|
  {
    if |parts| == 1 {
    } else {
      var tail := Join(parts[1..], [c]);
      var s := parts[0] + [c] + tail;
      assert s == Join(parts, [c]);
      assert c in s by { assert s[|parts[0]|] == c; }
      var i := IndexOfChar(s, c);
      assert forall j :: 0 <= j < |parts[0]| ==> s[j] == parts[0][j] && s[j] != c;
      assert s[|parts[0]|] == c;
      assert i == |parts[0]|;
      assert s[..i] == parts[0];
      assert s[i + 1..] == tail;
      SplitJoin(parts[1..], c);
    }
  }

  /** Python `s.split(c, 1)` for a string that holds `c`: the text before and
      after its first occurrence. */
  function SplitFirst(s: string, c: char): (r: (string, string))
    requires c in s
    ensures r.0 + [c] + r.1 == s
    ensures c !in r.0
  {
    var i := IndexOfChar(s, c);
    assert s == s[..i] + [c] + s[i + 1..];
    (s[..i], s[i + 1..])
  }

  /** Splitting `x + c + y` at the first `c` when `x` has none. */
  lemma SplitFirstAt(x: string, c: char, y: string)
    requires c !in x
    ensures SplitFirst(x + [c] + y, c) == (x, y)
  {
    var s := x + [c] + y;
    assert s[|x|] == c;
    var i := IndexOfChar(s, c);
    assert forall j :: 0 <= j < |x| ==> s[j] == x[j];
    assert i >= |x| by {
      assert forall j :: 0 <= j < |x| ==> s[j] != c;
    }
    assert i <= |x| by {
      assert forall j :: 0 <= j < i ==> s[..i][j] == s[j] && s[j] != c;
    }
    assert s[..i] == x;
    assert s[i + 1..] == y;
  }

  /** Position of the first whitespace character, or `|s|` when there is none. */
  function SpaceIndex(s: string): (i: nat)
    ensures i <= |s| && HasNoSpace(s[..i])
    ensures i < |s| ==> IsSpace(s[i])
  {
    if |s| == 0 || IsSpace(s[0]) then 0 else SpaceIndex(s[1..]) + 1
  }

  /** A non-empty string without whitespace. */
  predicate IsWord(w: string) {
    w != [] && HasNoSpace(w)
  }

  predicate AllWords(ws: seq<string>) {
    forall i :: 0 <= i < |ws| ==> IsWord(ws[i])
  }

  /** Python `s.split()` with no argument: the maximal runs of non-whitespace. */
  function SplitWhitespace(s: string): (r: seq<string>)
    ensures AllWords(r)
    decreases |s|
  {
    if s == [] then []
    else if IsSpace(s[0]) then SplitWhitespace(s[1..])
    else
      var i := SpaceIndex(s);
      var w := s[..i];
      var rest := SplitWhitespace(s[i..]);
      assert IsWord(w);
      assert forall k :: 1 <= k < |rest| + 1 ==> ([w] + rest)[k] == rest[k - 1];
      [w] + rest
  }

  /** Splitting words joined by single spaces gives back the words. */
  lemma {:induction false} SplitWhitespaceJoin(words: seq<string>)
    requires AllWords(words)
    ensures SplitWhitespace(Join(words, " ")) == words
    decreases |words|
  {
    if |words| <= 1 {
      SplitWhitespaceJoinBase(words);
    } else {
      AllWordsTail(words);
      SplitWhitespaceJoinStep(words);
      SplitWhitespaceJoin(words[1..]);
      assert [words[0]] + words[1..] == words;
    }
  }

  lemma SplitWhitespaceJoinBase(words: seq<string>)
    requires |words| <= 1 && AllWords(words)
    ensures SplitWhitespace(Join(words, " ")) == words
  {
    if |words| == 1 {
      SplitWhitespaceWord(words[0], []);
      assert words[0] + [] == words[0];
    }
  }

  lemma SplitWhitespaceJoinStep(words: seq<string>)
    requires |words| > 1 && IsWord(words[0])
    ensures SplitWhitespace(Join(words, " ")) == [words[0]] + SplitWhitespace(Join(words[1..], " "))
  {
    var w := words[0];
    var tail := Join(words[1..], " ");
    var rest := " " + tail;
    assert Join(words, " ") == w + rest;
    SplitWhitespaceWord(w, rest);
    assert rest[1..] == tail;
  }

  lemma AllWordsTail(words: seq<string>)
    requires |words| > 0 && AllWords(words)
    ensures IsWord(words[0]) && AllWords(words[1..])
  {
  }

  /** A word followed by nothing or by whitespace splits off as the first piece. */
  lemma SplitWhitespaceWord(w: string, rest: string)
    requires IsWord(w)
    requires rest == [] || IsSpace(rest[0])
    ensures SplitWhitespace(w + rest) == [w] + SplitWhitespace(rest)
  {
    var s := w + rest;
    assert s[0] == w[0];
    SpaceIndexOfWord(w, rest);
    assert s[..|w|] == w;
    assert s[|w|..] == rest;
  }

  lemma SpaceIndexOfWord(w: string, rest: string)
    requires HasNoSpace(w)
    requires rest == [] || IsSpace(rest[0])
    ensures SpaceIndex(w + rest) == |w|
    decreases |w|
  {
    if |w| > 0 {
      assert (w + rest)[1..] == w[1..] + rest;
      SpaceIndexOfWord(w[1..], rest);
    } else {
      assert w + rest == rest;
    }
  }
}

=== FILE: src/values.dfy ===
/** JSON-like Python values as they travel through the system: request
    bodies, config entries, listener event payloads and claim sets. */
module Values {

  import opened Wrappers
  import Text
  import Numerals

  /** A Python value built from JSON. Objects keep their key order as a list
      of pairs, because `str()` of a dict shows insertion order. Floats are
      not modelled. */
  datatype Value =
    | Null
    | Bool(b: bool)
    | Int(i: int)
    | Str(s: string)
    | List(items: seq<Value>)
    | Obj(pairs: seq<(string, Value)>)

  /** A Python dict with string keys, where order does not matter. */
  type Dict = map<string, Value>

  /** Python `d.get(key)`: the missing key reads as `None`. */
  function Get(d: Dict, key: string): Value {
    if key in d then d[key] else Null
  }

  /** Python `d.get(key, default)`. */
  function GetOr(d: Dict, key: string, default: Value): Value {
    if key in d then d[key] else default
  }

  /** A value used as a file path (`Path(v)`, `sqlite3.connect(v)`): only a
      string names a file; anything else raises TypeError. */
  function PathOf(v: Value): (r: Result<string>)
    ensures r.Ok? <==> v.Str?
    ensures r.Ok? ==> r.value == v.s
    ensures r.Err? ==> r.error.TypeError?
  {
    if v.Str? then Ok(v.s) else Err(TypeError("expected str, bytes or os.PathLike object"))
  }

  /** `config.get(key, default).lower()`: only a string has `lower`. */
  function GetLower(config: Dict, key: string, default: string): (r: Result<string>)
    ensures key !in config ==> r == Ok(Text.Lower(default))
    ensures r.Err? <==> key in config && !config[key].Str?
    ensures r.Ok? && key in config ==> r.value == Text.Lower(config[key].s)
  {
    match GetOr(config, key, Str(default))
    case Str(s) => Ok(Text.Lower(s))
    case _ => Err(AttributeError("lower"))
  }

  /** Python `bool(v)`. */
  predicate Truthy(v: Value) {
    match v
    case Null => false
    case Bool(b) => b
    case Int(i) => i != 0
    case Str(s) => s != []
    case List(items) => items != []
    case Obj(pairs) => pairs != []
  }

  /** Python `str(v)` for the scalar values; lists and dicts use a
      simplified `repr` in which strings are single-quoted without escaping. */
  function Display(v: Value): string
    decreases v
  {
    match v
    case Str(s) => s
    case _ => Repr(v)
  }

  function Repr(v: Value): string
    decreases v
  {
    match v
    case Null => "None"
    case Bool(b) => if b then "True" else "False"
    case Int(i) => Numerals.IntToString(i)
    case Str(s) => "'" + s + "'"
    case List(items) => "[" + Text.Join(ReprItems(items), ", ") + "]"
    case Obj(pairs) => "{" + Text.Join(ReprPairs(pairs), ", ") + "}"
  }

  function ReprItems(items: seq<Value>): (r: seq<string>)
    ensures |r| == |items|
    decreases items
  {
    if items == [] then [] else [Repr(items[0])] + ReprItems(items[1..])
  }

  function ReprPairs(pairs: seq<(string, Value)>): (r: seq<string>)
    ensures |r| == |pairs|
    decreases pairs
  {
    if pairs == [] then []
    else
      var p := pairs[0];
      assert p in pairs && p.1 < p;
      ["'" + p.0 + "': " + Repr(p.1)] + ReprPairs(pairs[1..])
  }

  /** Key lookup in a JSON object: the last binding of a key wins, as in
      `json.loads`. */
  function ObjGet(pairs: seq<(string, Value)>, key: string): Option<Value>
  {
    if pairs == [] then None
    else
      var later := ObjGet(pairs[1..], key);
      if later.Some? then later
      else if pairs[0].0 == key then Some(pairs[0].1)
      else None
  }

  /** `ObjGet` finds a value exactly when some pair carries the key. */
  lemma {:induction false} ObjGetFinds(pairs: seq<(string, Value)>, key: string)
    ensures ObjGet(pairs, key).Some? <==> exists i :: 0 <= i < |pairs| && pairs[i].0 == key
    ensures ObjGet(pairs, key).Some? ==>
      exists i :: 0 <= i < |pairs| && pairs[i] == (key, ObjGet(pairs, key).value)
  {
    if pairs != [] {
      ObjGetFinds(pairs[1..], key);
      if ObjGet(pairs[1..], key).Some? {
        var i :| 0 <= i < |pairs| - 1 && pairs[1..][i] == (key, ObjGet(pairs[1..], key).value);
        assert pairs[i + 1] == pairs[1..][i];
      }
      forall i | 0 <= i < |pairs| - 1 && pairs[1..][i].0 == key
        ensures ObjGet(pairs[1..], key).Some?
      {
      }
      if exists i :: 0 <= i < |pairs| && pairs[i].0 == key {
        var i :| 0 <= i < |pairs| && pairs[i].0 == key;
        if i > 0 {
          assert pairs[1..][i - 1].0 == key;
        }
      }
    }
  }
}

=== FILE: src/viewer_readers.dfy ===
/** The viewer's two database readers (api/viewer/readers/sqlite_reader.py
    and api/viewer/readers/postgres_reader.py) and the start-up choice between
    them (api/viewer/main.py). Both answer the same queries over the `Store`
    tables; they differ in the columns they select, in whether the tenant
    may be omitted, and in how a `limit` of 0 or below is treated. */
module ViewerReaders {

  import opened Wrappers
  import opened Text
  import opened Values
  import opened Store

  const DefaultTenant: string := "default"

  const SqliteEventColumns: seq<string> :=
    ["id", "event_type", "status", "starttime", "endtime", "suite", "name", "message", "tenant_id"]
  const PostgresEventColumns: seq<string> :=
    ["id", "event_type", "status", "endtime", "suite", "name", "message", "tenant_id"]
  const SqliteAppLogColumns: seq<string> :=
    ["id", "timestamp", "level", "message", "event_type", "tenant_id"]
  const PostgresAppLogColumns: seq<string> :=
    ["id", "timestamp", "level", "message", "event_type"]

  // ---------------------------------------------------------------------------
  // URL handling
  // ---------------------------------------------------------------------------

  /** A character allowed in a URL scheme. */
  predicate IsSchemeChar(c: char) {
    ('a' <= c <= 'z') || ('A' <= c <= 'Z') || ('0' <= c <= '9') || c == '+' || c == '-' || c == '.'
  }

  /** The parts of `urllib.parse.urlparse` the reader uses. */
  datatype ParsedUrl = ParsedUrl(scheme: string, netloc: string, path: string)

  /** Position of the first character of `s` that is in `stops`, or `|s|`. */
  function IndexOfAny(s: string, stops: set<char>): (i: nat)
    ensures i <= |s|
    ensures forall k :: 0 <= k < i ==> s[k] !in stops
    ensures i < |s| ==> s[i] in stops
  {
    if |s| == 0 || s[0] in stops then 0 else IndexOfAny(s[1..], stops) + 1
  }

  /** The scheme is the text before the first `:` when that text is non-empty,
      starts with an ASCII letter and holds only scheme characters; it is
      lower-cased. */
  function SplitScheme(url: string): (r: (string, string))
    ensures r.0 == [] ==> r.1 == url
    ensures r.0 != [] ==>
      (|r.0| < |url| && url[|r.0|] == ':' && r.1 == url[|r.0| + 1..] && r.0 == Lower(url[..|r.0|]))
  {
    if ':' !in url then ([], url)
    else
      var i := IndexOfChar(url, ':');
      if i > 0 && (('a' <= url[0] <= 'z') || ('A' <= url[0] <= 'Z'))
         && forall k :: 0 <= k < i ==> IsSchemeChar(url[k])
      then (Lower(url[..i]), url[i + 1..])
      else ([], url)
  }

  /** `urlparse`: scheme, then `//netloc` up to the next `/`, `?` or `#`, then
      the path up to the query or fragment. */
  function UrlParse(url: string): (p: ParsedUrl)
    ensures '?' !in p.path && '#' !in p.path
  {
    var (scheme, rest) := SplitScheme(url);
    var (netloc, afterNetloc) :=
      if StartsWith(rest, "//") then
        var tail := rest[2..];
        var d := IndexOfAny(tail, {'/', '?', '#'});
        (tail[..d], tail[d..])
      else ([], rest);
    var noFragment := afterNetloc[..IndexOfAny(afterNetloc, {'#'})];
    var path := noFragment[..IndexOfAny(noFragment, {'?'})];
    assert forall k :: 0 <= k < |path| ==> path[k] != '?' && path[k] != '#';
    ParsedUrl(scheme, netloc, path)
  }

  /** The `SqliteReader` constructor: the database path from a `sqlite` URL,
      leading slashes removed, `:memory:` when the URL has no path; any other
      scheme is a `ValueError`. */
  function SqliteReaderPath(url: string): (r: Result<string>)
    ensures r.Ok? <==> UrlParse(url).scheme == "sqlite"
    ensures r.Ok? && UrlParse(url).path == [] ==> r.value == ":memory:"
    ensures r.Ok? && UrlParse(url).path != [] ==> r.value == [] || r.value[0] != '/'
  {
    var parsed := UrlParse(url);
    if parsed.scheme != "sqlite" then Err(ValueError("Invalid sqlite URL"))
    else if parsed.path != [] then Ok(TrimStartBy(parsed.path, Chars({'/'})))
    else Ok(":memory:")
  }

  /** A URL that starts with `sqlite:` has the scheme `sqlite`. */
  lemma SqliteScheme(rest: string)
    ensures SplitScheme("sqlite:" + rest) == ("sqlite", rest)
  {
    var url := "sqlite:" + rest;
    assert url[..6] == "sqlite" && url[6] == ':';
    assert ':' !in url[..6];
    assert IndexOfChar(url, ':') == 6;
    assert Lower(url[..6]) == "sqlite";
    assert url[7..] == rest;
  }

  /** After an empty netloc, a path free of `?` and `#` is the whole remainder. */
  lemma PathAfterEmptyNetloc(path: string)
    requires '?' !in path && '#' !in path
    ensures UrlParse("sqlite:" + "//" + "/" + path) == ParsedUrl("sqlite", [], "/" + path)
  {
    UrlPieces(path);
    SqliteScheme("//" + "/" + path);
    ParseAfterScheme("sqlite:" + "//" + "/" + path, "//" + "/" + path, "/" + path);
  }

  /** A `sqlite` URL whose remainder is `//` and then a path that starts with
      `/` and holds no `?` or `#` parses with an empty netloc. */
  lemma ParseAfterScheme(url: string, rest: string, tail: string)
    requires SplitScheme(url) == ("sqlite", rest)
    requires StartsWith(rest, "//") && rest[2..] == tail
    requires tail != [] && tail[0] == '/' && '?' !in tail && '#' !in tail
    ensures UrlParse(url) == ParsedUrl("sqlite", [], tail)
  {
    assert IndexOfAny(tail, {'/', '?', '#'}) == 0;
    NoStopsIndex(tail, {'#'});
    NoStopsIndex(tail, {'?'});
  }

  /** How `sqlite:///` and a path split into scheme, slashes and path. */
  lemma UrlPieces(path: string)
    ensures "sqlite:///" + path == "sqlite:" + "//" + "/" + path
    ensures "sqlite:" + "//" + "/" + path == "sqlite:" + ("//" + "/" + path)
    ensures ("//" + "/" + path)[2..] == "/" + path
    ensures StartsWith("//" + "/" + path, "//")
  {
  }

  /** The reader's path for a parsed `sqlite` URL with a non-empty path. */
  lemma ReaderPathOfParsed(url: string, path: string)
    requires UrlParse(url) == ParsedUrl("sqlite", [], path) && path != []
    ensures SqliteReaderPath(url) == Ok(TrimStartBy(path, Chars({'/'})))
  {
  }

  /** A file path written after `sqlite:///` is the path the reader opens. */
  lemma SqliteUrlRoundTrip(path: string)
    requires '?' !in path && '#' !in path
    requires path == [] || path[0] != '/'
    ensures SqliteReaderPath("sqlite:///" + path) == Ok(path)
  {
    var url := "sqlite:///" + path;
    UrlPieces(path);
    PathAfterEmptyNetloc(path);
    ReaderPathOfParsed(url, "/" + path);
    TrimOneSlash(path);
  }

  /** Any path after `sqlite:///` reaches the reader with all its leading
      slashes removed, so an absolute path becomes a relative one. */
  lemma SqliteUrlStripsSlashes(path: string)
    requires '?' !in path && '#' !in path
    ensures SqliteReaderPath("sqlite:///" + path) == Ok(TrimStartBy("/" + path, Chars({'/'})))
  {
    var url := "sqlite:///" + path;
    UrlPieces(path);
    PathAfterEmptyNetloc(path);
    ReaderPathOfParsed(url, "/" + path);
  }

  /** `sqlite:////abs` names the relative path `abs`. */
  lemma SqliteUrlAbsolutePath(path: string)
    requires path != [] && path[0] != '/' && '?' !in path && '#' !in path
    ensures SqliteReaderPath("sqlite:////" + path) == Ok(path)
  {
    var u := "/" + path;
    SlashPrefix(path);
    SqliteUrlStripsSlashes(u);
    TrimTwoSlashes(path);
  }

  lemma SlashPrefix(path: string)
    ensures "sqlite:////" + path == "sqlite:///" + ("/" + path)
    ensures "/" + ("/" + path) == "//" + path
  {
  }

  lemma TrimTwoSlashes(p: string)
    requires p != [] && p[0] != '/'
    ensures TrimStartBy("//" + p, Chars({'/'})) == p
  {
    var t := "//" + p;
    assert t[1..] == "/" + p && t[1..][1..] == p;
    assert TrimStartBy(p, Chars({'/'})) == p;
  }

  lemma TrimOneSlash(path: string)
    requires path == [] || path[0] != '/'
    ensures TrimStartBy("/" + path, Chars({'/'})) == path
  {
    var tail := "/" + path;
    assert tail[1..] == path;
    assert TrimStartBy(path, Chars({'/'})) == path;
  }

  /** Without any stop character the whole string is scanned. */
  lemma NoStopsIndex(s: string, stops: set<char>)
    requires forall k :: 0 <= k < |s| ==> s[k] !in stops
    ensures IndexOfAny(s, stops) == |s|
  {
  }

  /** A URL written without a path opens an in-memory database. */
  lemma SqliteUrlWithoutPath()
    ensures SqliteReaderPath("sqlite:") == Ok(":memory:")
  {
    SqliteScheme("");
    assert "sqlite:" + "" == "sqlite:";
    assert UrlParse("sqlite:").path == [];
  }

  /** Any other scheme is rejected. */
  lemma PostgresUrlIsNotSqlite(rest: string)
    ensures SqliteReaderPath("postgresql:" + rest).Err?
  {
    var url := "postgresql:" + rest;
    assert url[..10] == "postgresql" && url[10] == ':';
    assert IndexOfChar(url, ':') == 10;
    assert Lower(url[..10]) != "sqlite";
  }

  // ---------------------------------------------------------------------------
  // Readers
  // ---------------------------------------------------------------------------

  datatype Reader = SqliteReader(path: string) | PostgresReader(dsn: string)

  /** The start-up choice of reader: `sqlite:///` first, then `postgresql://`
      or `postgres://`; any other URL is a `ValueError`. */
  function SelectReader(databaseUrl: string): (r: Result<Reader>)
    ensures StartsWith(databaseUrl, "sqlite:///") ==> r.Ok? && r.value.SqliteReader?
    ensures !StartsWith(databaseUrl, "sqlite:///")
      && (StartsWith(databaseUrl, "postgresql://") || StartsWith(databaseUrl, "postgres://"))
      ==> r == Ok(PostgresReader(databaseUrl))
    ensures r.Err? <==> (!StartsWith(databaseUrl, "sqlite:///")
      && !StartsWith(databaseUrl, "postgresql://") && !StartsWith(databaseUrl, "postgres://"))
  {
    if StartsWith(databaseUrl, "sqlite:///") then
      SqlitePrefixAccepted(databaseUrl);
      Ok(SqliteReader(SqliteReaderPath(databaseUrl).value))
    else if StartsWith(databaseUrl, "postgresql://") || StartsWith(databaseUrl, "postgres://") then
      Ok(PostgresReader(databaseUrl))
    else Err(ValueError("Unsupported databasetype"))
  }

  /** The reader chosen for a URL is a PostgreSQL one exactly when the URL
      lacks the SQLite prefix and has a PostgreSQL one. */
  lemma PostgresReaderChosen(url: string)
    ensures SelectReader(url).Ok? && SelectReader(url).value.PostgresReader?
      <==> !StartsWith(url, "sqlite:///") && (StartsWith(url, "postgresql://") || StartsWith(url, "postgres://"))
  {
  }

  /** Every URL starting with `sqlite:///` passes the reader's scheme check. */
  lemma SqlitePrefixAccepted(url: string)
    requires StartsWith(url, "sqlite:///")
    ensures SqliteReaderPath(url).Ok?
  {
    assert url == "sqlite:" + url[7..];
    SqliteScheme(url[7..]);
  }

  /** The database URL when the configuration names none. */
  const DefaultDatabaseUrl: string := "sqlite:///eventlog.db"

  /** With no configured URL the viewer reads `eventlog.db` through sqlite. */
  lemma DefaultReader()
    ensures SelectReader(DefaultDatabaseUrl) == Ok(SqliteReader("eventlog.db"))
  {
    assert DefaultDatabaseUrl == "sqlite:///" + "eventlog.db";
    SqliteUrlRoundTrip("eventlog.db");
  }

  /** The tenant a call uses: sqlite defaults an omitted tenant to `default`,
      postgres requires it (`TypeError` for the missing argument). */
  function TenantArg(reader: Reader, tenant: Option<Tenant>): (r: Result<Tenant>)
    ensures tenant.Some? ==> r == Ok(tenant.value)
    ensures tenant.None? && reader.SqliteReader? ==> r == Ok(DefaultTenant)
    ensures tenant.None? && reader.PostgresReader? ==> r.Err?
  {
    match tenant
    case Some(t) => Ok(t)
    case None =>
      if reader.SqliteReader? then Ok(DefaultTenant)
      else Err(TypeError("missing 1 required positional argument: 'tenant_id'"))
  }

  function EventColumns(reader: Reader): seq<string> {
    if reader.SqliteReader? then SqliteEventColumns else PostgresEventColumns
  }

  /** `get_latest_event_id`: `COALESCE(MAX(id), 0)` over the tenant's
      events: the largest id among them, or 0 when there is none. */
  function GetLatestEventId(reader: Reader, db: Db, tenant: Option<Tenant>): (r: Result<int>)
    ensures r.Ok? ==> (TenantArg(reader, tenant).Ok? &&
      forall row :: row in db.events && row.tenant == TenantArg(reader, tenant).value ==> row.id <= r.value)
    ensures r.Ok? ==> var t := TenantArg(reader, tenant).value;
      && ((forall row :: row in db.events ==> row.tenant != t) ==> r.value == 0)
      && ((exists row :: row in db.events && row.tenant == t) ==>
            exists row :: row in db.events && row.tenant == t && row.id == r.value)
    ensures r.Ok? && DbWellFormed(db) ==> r.value >= 0
    ensures r.Err? <==> TenantArg(reader, tenant).Err?
  {
    var t :- TenantArg(reader, tenant);
    Ok(MaxId(db.events, t))
  }

  /** A stream that starts at the latest id reads none of the events already
      stored. */
  lemma LatestCursorReadsNothing(reader: Reader, db: Db, tenant: Option<Tenant>)
    requires GetLatestEventId(reader, db, tenant).Ok?
    ensures GetEventsSince(reader, db, GetLatestEventId(reader, db, tenant).value, tenant) == Ok([])
  {
    SinceLatestIsEmpty(db.events, TenantArg(reader, tenant).value);
  }

  /** `get_events_since`: the tenant's events above the cursor, oldest first,
      projected onto the reader's columns. */
  function GetEventsSince(reader: Reader, db: Db, lastId: int, tenant: Option<Tenant>): (r: Result<seq<Dict>>)
    ensures r.Err? <==> TenantArg(reader, tenant).Err?
    ensures r.Ok? ==> r.value == ProjectAll(Since(db.events, lastId, TenantArg(reader, tenant).value), EventColumns(reader))
  {
    var t :- TenantArg(reader, tenant);
    Ok(ProjectAll(Since(db.events, lastId, t), EventColumns(reader)))
  }

  /** `get_events`: neither reader defines it, so every call raises. */
  function GetEvents(reader: Reader, db: Db): (r: Result<seq<Dict>>)
    ensures r.Err?
  {
    Err(AttributeError("get_events"))
  }

  /** `clear_events`: only the sqlite reader has it, and it deletes the
      tenant's events and nothing else. */
  function ClearEvents(reader: Reader, db: Db, tenant: Option<Tenant>): (r: Result<Db>)
    ensures reader.PostgresReader? ==> r == Err(AttributeError("clear_events"))
    ensures r.Ok? ==> r.value.appLogs == db.appLogs
    ensures r.Ok? ==> forall row :: row in r.value.events <==>
      row in db.events && row.tenant != TenantArg(reader, tenant).value
  {
    if reader.PostgresReader? then Err(AttributeError("clear_events"))
    else
      var t :- TenantArg(reader, tenant);
      Ok(db.(events := DeleteTenant(db.events, t)))
  }

  /** The sqlite `get_app_logs` limit: a truthy limit is applied, and SQLite
      reads a negative `LIMIT` as no limit at all. */
  function SqliteLimit(limit: Option<int>): (r: Option<nat>)
    ensures r.Some? <==> limit.Some? && limit.value > 0
    ensures r.Some? ==> r.value == limit.value
  {
    match limit
    case Some(n) => if n > 0 then Some(n) else None
    case None => None
  }

  /** The postgres `get_app_logs` limit: applied whenever given, so 0 selects
      nothing, and a negative `LIMIT` is rejected by the database. */
  function PostgresLimit(limit: Option<int>): (r: Result<Option<nat>>)
    ensures r.Err? <==> limit.Some? && limit.value < 0
    ensures r.Ok? ==> (r.value.Some? <==> limit.Some?)
    ensures r.Ok? && r.value.Some? ==> r.value.value == limit.value
  {
    match limit
    case None => Ok(None)
    case Some(n) => if n >= 0 then Ok(Some(n)) else Err(DatabaseError("LIMIT must not be negative"))
  }

  /** `get_app_logs`: the tenant's logs newest first, cut to the limit. */
  function GetAppLogs(reader: Reader, db: Db, tenant: Option<Tenant>, limit: Option<int>): (r: Result<seq<Dict>>)
    ensures r.Ok? ==> (TenantArg(reader, tenant).Ok? &&
      var rows := NewestFirst(db.appLogs, TenantArg(reader, tenant).value);
      |r.value| <= |rows| && r.value == ProjectAll(rows, AppLogColumns(reader))[..|r.value|])
    ensures reader.SqliteReader? && (limit.None? || limit == Some(0)) ==>
      r.Ok? && |r.value| == |NewestFirst(db.appLogs, TenantArg(reader, tenant).value)|
    ensures reader.PostgresReader? && tenant.Some? && limit == Some(0) ==> r == Ok([])
    ensures r.Ok? && limit.Some? && limit.value > 0 ==> |r.value| <= limit.value
  {
    var t :- TenantArg(reader, tenant);
    var rows := ProjectAll(NewestFirst(db.appLogs, t), AppLogColumns(reader));
    var cut :- if reader.SqliteReader? then Ok(SqliteLimit(limit)) else PostgresLimit(limit);
    match cut
    case None => Ok(rows)
    case Some(n) => Ok(if n < |rows| then rows[..n] else rows)
  }

  function AppLogColumns(reader: Reader): seq<string> {
    if reader.SqliteReader? then SqliteAppLogColumns else PostgresAppLogColumns
  }

  /** The two readers agree except on the limit: for the same tenant and a
      positive limit (or none) they return the same rows, newest first. */
  lemma ReadersAgreeOnPositiveLimit(db: Db, path: string, dsn: string, tenant: Tenant, limit: Option<int>)
    requires limit.None? || limit.value > 0
    ensures var a := GetAppLogs(SqliteReader(path), db, Some(tenant), limit);
      var b := GetAppLogs(PostgresReader(dsn), db, Some(tenant), limit);
      a.Ok? && b.Ok? && |a.value| == |b.value|
      && forall i :: 0 <= i < |a.value| ==>
           "id" in a.value[i] && "id" in b.value[i] && a.value[i]["id"] == b.value[i]["id"]
  {
    var rows := NewestFirst(db.appLogs, tenant);
    var a := GetAppLogs(SqliteReader(path), db, Some(tenant), limit);
    var b := GetAppLogs(PostgresReader(dsn), db, Some(tenant), limit);
    PositiveLimitCut(SqliteReader(path), db, tenant, limit);
    PositiveLimitCut(PostgresReader(dsn), db, tenant, limit);
    assert "id" in SqliteAppLogColumns && "id" in PostgresAppLogColumns;
    forall i | 0 <= i < |a.value|
      ensures "id" in a.value[i] && "id" in b.value[i] && a.value[i]["id"] == b.value[i]["id"]
    {
      assert a.value[i] == Project(rows[i], SqliteAppLogColumns);
      assert b.value[i] == Project(rows[i], PostgresAppLogColumns);
    }
  }

  /** With no limit or a positive one, either reader returns the tenant's
      newest logs, projected, up to the limit. */
  lemma PositiveLimitCut(reader: Reader, db: Db, tenant: Tenant, limit: Option<int>)
    requires limit.None? || limit.value > 0
    ensures var rows := NewestFirst(db.appLogs, tenant);
      var r := GetAppLogs(reader, db, Some(tenant), limit);
      && r.Ok?
      && |r.value| == (if limit.Some? && limit.value < |rows| then limit.value else |rows|)
      && forall i :: 0 <= i < |r.value| ==> r.value[i] == Project(rows[i], AppLogColumns(reader))
  {
  }
}

=== FILE: src/viewer_routes.dfy ===
/** The viewer's HTTP routes (api/viewer/routes.py) as decision functions:
    one pass of the event-stream loop, `/elapsed`, `/events/clear` and
    `/applog`. JSON encoding and clock arithmetic are parameters. */
module ViewerRoutes {

  import opened Wrappers
  import opened Text
  import opened Values
  import opened Store
  import opened ViewerReaders
  import EventHub

  /** What one pass of the stream loop produced: the frames written, the
      cursor afterwards, and the exception that ended the pass, if any. */
  datatype Poll = Poll(frames: seq<string>, cursor: Value, failure: Option<Error>)

  /** The loop body over the events one `get_events_since` call returned:
      each event is written as a frame, then its `id` becomes the cursor; an
      event without `id` raises `KeyError` after its frame was written. */
  function Emit(events: seq<Dict>, cursor: Value, encode: Dict -> string): (r: Poll)
    ensures r.failure.None? <==> forall i :: 0 <= i < |events| ==> "id" in events[i]
    ensures |r.frames| <= |events|
    ensures r.failure.None? ==> |r.frames| == |events|
    ensures r.failure.None? ==> r.cursor == if events == [] then cursor else events[|events| - 1]["id"]
    ensures r.failure.Some? ==> r.frames != [] && "id" !in events[|r.frames| - 1]
    decreases |events|
  {
    if events == [] then Poll([], cursor, None)
    else
      var frame := EventHub.Frame(encode(events[0]));
      if "id" !in events[0] then Poll([frame], cursor, Some(KeyError("id")))
      else
        var tail := events[1..];
        var rest := Emit(tail, events[0]["id"], encode);
        var frames := [frame] + rest.frames;
        Poll(frames, rest.cursor, rest.failure)
  }

  /** The frames of a pass are the encoded events, in order, up to and
      including the one that ended it. */
  lemma {:induction false} EmitWritesFrames(events: seq<Dict>, cursor: Value, encode: Dict -> string)
    ensures var r := Emit(events, cursor, encode);
      forall i :: 0 <= i < |r.frames| ==> r.frames[i] == EventHub.Frame(encode(events[i]))
    decreases |events|
  {
    if events != [] && "id" in events[0] {
      var r := Emit(events, cursor, encode);
      var rest := Emit(events[1..], events[0]["id"], encode);
      EmitWritesFrames(events[1..], events[0]["id"], encode);
      assert r.frames == [EventHub.Frame(encode(events[0]))] + rest.frames;
      forall i | 1 <= i < |r.frames|
        ensures r.frames[i] == EventHub.Frame(encode(events[i]))
      {
        assert r.frames[i] == rest.frames[i - 1];
        assert events[1..][i - 1] == events[i];
      }
    }
  }

  /** One pass of `stream_events`: the reader is asked without a tenant. */
  function StreamPoll(reader: Reader, db: Db, cursor: int, encode: Dict -> string): (r: Result<Poll>)
    ensures reader.PostgresReader? ==> r.Err?
    ensures reader.SqliteReader? ==> r.Ok?
  {
    var events :- GetEventsSince(reader, db, cursor, None);
    Ok(Emit(events, Int(cursor), encode))
  }

  /** The frames of the `Project`ed rows of the sqlite events table. */
  function RowFrames(rows: Table, encode: Dict -> string): (r: seq<string>)
    ensures |r| == |rows|
    ensures forall i :: 0 <= i < |rows| ==> r[i] == EventHub.Frame(encode(Project(rows[i], SqliteEventColumns)))
  {
    seq(|rows|, i requires 0 <= i < |rows| => EventHub.Frame(encode(Project(rows[i], SqliteEventColumns))))
  }

  lemma FramesAppend(a: Table, b: Table, encode: Dict -> string)
    ensures RowFrames(a, encode) + RowFrames(b, encode) == RowFrames(a + b, encode)
  {
    assert forall i :: 0 <= i < |a + b| ==> (a + b)[i] == if i < |a| then a[i] else b[i - |a|];
  }

  /** Every projected sqlite event carries its row id. */
  lemma ProjectedIds(rows: Table)
    ensures var events := ProjectAll(rows, SqliteEventColumns);
      forall i :: 0 <= i < |events| ==> "id" in events[i] && events[i]["id"] == Int(rows[i].id)
  {
    assert "id" in SqliteEventColumns by { assert SqliteEventColumns[0] == "id"; }
  }

  /** With the sqlite reader a pass writes one frame per event of the default
      tenant above the cursor, oldest first, and moves the cursor to the last
      one's id. */
  lemma SqlitePoll(path: string, db: Db, cursor: int, encode: Dict -> string)
    ensures var rows := Since(db.events, cursor, DefaultTenant);
      var r := StreamPoll(SqliteReader(path), db, cursor, encode);
      && r.Ok? && r.value.failure.None?
      && r.value.frames == RowFrames(rows, encode)
      && r.value.cursor == Int(Advance(rows, cursor))
  {
    var rows := Since(db.events, cursor, DefaultTenant);
    var events := ProjectAll(rows, SqliteEventColumns);
    ProjectedIds(rows);
    var p := Emit(events, Int(cursor), encode);
    EmitWritesFrames(events, Int(cursor), encode);
    assert p.frames == RowFrames(rows, encode);
  }

  /** The first pass starts at cursor 0 and so writes every event of the
      default tenant. */
  lemma FirstPollReadsAll(path: string, db: Db, encode: Dict -> string)
    requires DbWellFormed(db)
    ensures |StreamPoll(SqliteReader(path), db, 0, encode).value.frames| == |OfTenant(db.events, DefaultTenant)|
  {
    SqlitePoll(path, db, 0, encode);
    SinceZeroIsAll(db.events, DefaultTenant);
  }

  /** Two passes over an events table that grew by appending between them
      write, together, exactly the frames one pass over the grown table
      writes from the first cursor: no event twice and none skipped. */
  lemma PollsNeitherRepeatNorSkip(path: string, db1: Db, newEvents: Table, cursor: int, encode: Dict -> string)
    requires Ascending(db1.events + newEvents)
    ensures var reader := SqliteReader(path);
      var db2 := db1.(events := db1.events + newEvents);
      var p1 := StreamPoll(reader, db1, cursor, encode).value;
      p1.cursor.Int? &&
      var p2 := StreamPoll(reader, db2, p1.cursor.i, encode).value;
      p1.frames + p2.frames == StreamPoll(reader, db2, cursor, encode).value.frames
  {
    var reader := SqliteReader(path);
    var db2 := db1.(events := db1.events + newEvents);
    var rows1 := Since(db1.events, cursor, DefaultTenant);
    var c1 := Advance(rows1, cursor);
    SqlitePoll(path, db1, cursor, encode);
    SqlitePoll(path, db2, c1, encode);
    SqlitePoll(path, db2, cursor, encode);
    SincePollsCompose(db1.events, newEvents, cursor, DefaultTenant);
    var rows2 := Since(db2.events, c1, DefaultTenant);
    var all := Since(db2.events, cursor, DefaultTenant);
    assert rows1 + rows2 == all;
    FramesAppend(rows1, rows2, encode);
  }

  /** The elapsed-time text when no `start_suite` event exists. */
  const NoElapsed: string := "00:00:00"

  /** The generator in `get_elapsed_time`: the first event whose `event_type`
      is `start_suite`; indexing an event without `event_type` raises. */
  function FirstStartSuite(events: seq<Dict>): (r: Result<Option<Dict>>)
    ensures r == Ok(None) <==> forall i :: 0 <= i < |events| ==>
      "event_type" in events[i] && events[i]["event_type"] != Str("start_suite")
    ensures r.Ok? && r.value.Some? ==> exists i :: (0 <= i < |events| && events[i] == r.value.value
      && forall j :: 0 <= j < i ==> "event_type" in events[j] && events[j]["event_type"] != Str("start_suite"))
    ensures r.Ok? && r.value.Some? ==> "event_type" in r.value.value && r.value.value["event_type"] == Str("start_suite")
    decreases |events|
  {
    if events == [] then Ok(None)
    else if "event_type" !in events[0] then Err(KeyError("event_type"))
    else if events[0]["event_type"] == Str("start_suite") then Ok(Some(events[0]))
    else
      var r := FirstStartSuite(events[1..]);
      if r.Ok? && r.value.Some? then
        var i :| 0 <= i < |events[1..]| && events[1..][i] == r.value.value
          && (forall j :: 0 <= j < i ==> "event_type" in events[1..][j] && events[1..][j]["event_type"] != Str("start_suite"));
        assert events[i + 1] == r.value.value;
        r
      else r
  }

  /** What `/elapsed` computes from a list of events: `00:00:00` without a
      `start_suite` event; otherwise the time since its `starttime`, as
      `str(timedelta)` up to the first `.`. `sinceStart` stands for parsing
      the start time and subtracting it from the current time. The route
      itself never gets this far (see `ElapsedRoute`). */
  function Elapsed(events: seq<Dict>, sinceStart: Value -> Result<string>): (r: Result<Dict>)
    ensures FirstStartSuite(events) == Ok(None) ==> r == Ok(map["elapsed" := Str(NoElapsed)])
    ensures r.Ok? ==> r.value.Keys == {"elapsed"} && r.value["elapsed"].Str? && '.' !in r.value["elapsed"].s
  {
    var start :- FirstStartSuite(events);
    match start
    case None => Ok(map["elapsed" := Str(NoElapsed)])
    case Some(e) =>
      if "starttime" !in e then Err(KeyError("starttime"))
      else
        var text :- sinceStart(e["starttime"]);
        Ok(map["elapsed" := Str(Split(text, '.')[0])])
  }

  /** `GET /events`: `reader.get_events()`, which neither reader defines,
      so every request fails with AttributeError. */
  function EventsRoute(reader: Reader, db: Db): (r: Result<seq<Dict>>)
    ensures r == Err(AttributeError("get_events"))
  {
    GetEvents(reader, db)
  }

  /** `GET /elapsed`: its events come from `reader.get_events()`, so every
      request fails with AttributeError before any event is examined. */
  function ElapsedRoute(reader: Reader, db: Db, sinceStart: Value -> Result<string>): (r: Result<Dict>)
    ensures r == Err(AttributeError("get_events"))
  {
    match GetEvents(reader, db)
    case Err(e) => Err(e)
    case Ok(events) => Elapsed(events, sinceStart)
  }

  /** A route's outcome. */
  datatype Response = Json(status: nat, body: Dict) | Redirect(status: nat, location: string)

  /** `/events/clear`: the reader's failure propagates; success redirects to
      `/events` with status 303. */
  function ClearRoute(reader: Reader, db: Db): (r: Result<(Response, Db)>)
    ensures r.Ok? <==> ClearEvents(reader, db, None).Ok?
    ensures r.Ok? ==> r.value.0 == Redirect(303, "/events")
    ensures r.Err? ==> r.error == ClearEvents(reader, db, None).error
  {
    var cleared :- ClearEvents(reader, db, None);
    Ok((Redirect(303, "/events"), cleared))
  }

  /** A successful clear redirects the client to `/events`, which then
      fails on the cleared database as on any other. */
  lemma ClearRedirectsToFailingRoute(reader: Reader, db: Db)
    requires ClearRoute(reader, db).Ok?
    ensures ClearRoute(reader, db).value.0.location == "/events"
    ensures EventsRoute(reader, ClearRoute(reader, db).value.1).Err?
  {
  }

  /** After a successful clear through the sqlite reader the next stream pass
      from cursor 0 writes nothing, and app logs are untouched. */
  lemma ClearThenEmpty(path: string, db: Db, encode: Dict -> string)
    ensures var r := ClearRoute(SqliteReader(path), db);
      && r.Ok? && r.value.1.appLogs == db.appLogs
      && StreamPoll(SqliteReader(path), r.value.1, 0, encode).value.frames == []
  {
    var cleared := db.(events := DeleteTenant(db.events, DefaultTenant));
    SqlitePoll(path, cleared, 0, encode);
    SinceAboveAll(cleared.events, 0, DefaultTenant);
  }

  /** `/applog`: the reader's app logs with its default arguments. */
  function AppLogRoute(reader: Reader, db: Db): (r: Result<seq<Dict>>)
    ensures reader.PostgresReader? ==> r.Err?
    ensures reader.SqliteReader? ==> r.Ok? && |r.value| == |NewestFirst(db.appLogs, DefaultTenant)|
  {
    GetAppLogs(reader, db, None, None)
  }
}

=== FILE: src/wrappers.dfy ===
/** Failure-carrying datatypes shared by every module of the model.
    Python exceptions are values of `Error`; an operation that may raise
    returns a `Result`. */
module Wrappers {

  datatype Option<+T> = None | Some(value: T) {
    function GetOr(default: T): T {
      match this
      case Some(v) => v
      case None => default
    }
  }

  /** The exception kinds the modelled code raises or lets escape. */
  datatype Error =
    | ValueError(message: string)
    | TypeError(message: string)
    | IndexError
    | AttributeError(name: string)
    | NotImplementedError(message: string)
    | FileNotFoundError(path: string)
    | KeyError(key: string)
    | DatabaseError(message: string)
    | OverflowError(message: string)

  datatype Result<+T> = Ok(value: T) | Err(error: Error) {
    predicate IsFailure() {
      Err?
    }

    function PropagateFailure<U>(): Result<U>
      requires Err?
    {
      Err(error)
    }

    function Extract(): T
      requires Ok?
    {
      value
    }
  }
}
